=== FILE: README.md ===
# Classical cryptographic primitives, modelled in Dafny

This project models the core of a small C++ library of classical
cryptographic primitives and proves properties of the model. The core covers:

- **DES in CBC mode**, with the library's own bit convention (every byte bit-reversed into a
  64-bit word), its optimised initial permutation and expansion, the merged S-box/P table,
  the key schedule and the 16-round Feistel network;
- the **AES-128 forward cipher** (key expansion, SubBytes, ShiftRows, MixColumns,
  AddRoundKey, `mul2`/`mul3`), applied block by block as `aes128_cbc` does;
- the **RC4** key scheduling and keystream generator;
- the hash functions **MD4**, **SHA-256**, **SM3** and **SHA-3** (SHA3-224/256/384/512):
  padding, word packing, compression, chaining and digest output;
- **Berlekamp–Massey** over GF(2), as the `bm` routine computes it;
- the **MD4 single-step modification** of Wang et al.'s collision attack: the logged
  compression, the bit conditions and the inversion of a round-1 step;
- **hex decoding** (`parse_hex`, `parse_hex_new`).

Everything is a pure function over `bv8`, `bv32`, `bv64` and sequences. Some of the
source's loops appear as methods whose postconditions tie them to those functions. They
include:

- the hash block, schedule and round loops of SHA-256 and SM3;
- the SHA-3 rho, round, absorb and squeeze loops;
- the RC4 loops;
- the Berlekamp–Massey loops;
- the md4-crack logging and constraint loops;
- the AES key expansion and block loop;
- the DES key schedule and `apply_permutation`.

The other loops are modelled directly as recursive or comprehension functions, with no
method:

- the `des_cbc` block, round and S-box loops (des.cpp:266-331), as `DesCipher.DesCbcWith`,
  `DesCipher.Rounds` and `Des.SboxPFrom`;
- the AES round and MixColumns loops (aes128.cpp:166-193), as `Aes128.Rounds` and
  `Aes128.MixColumns`;
- the SHA-3 theta, pi and chi loops (sha3.cpp:70-115), as `Sha3.Theta`, `Sha3.Pi` and
  `Sha3.Chi`;
- MD4's 48 steps, as `Md4.Steps`.

Constant tables are literal sequences, copied as the source writes them.

One module per source file:

| module | file | models |
|---|---|---|
| `Util` | util.dfy | util.cpp |
| `Bits` | bits.dfy | rotations and byte-order packing shared by the hashes |
| `MdPadding` | md_padding.dfy | the MD-style padding of md4.cpp, sha2.cpp and md4-crack.cpp |
| `Chain` | chain.dfy | the block-chaining loop shared by MD4, SHA-256 and SM3 |
| `Words8` | words8.dfy | the eight-word state and big-endian digest of SHA-256 and SM3 |
| `Md4`, `Sha256`, `Sm3`, `Sha3` | md4.dfy, sha2.dfy, sm3.dfy, sha3.dfy | the hash functions |
| `DesPermutation`, `DesTables`, `Des`, `DesCipher` | des_*.dfy, des.dfy | des.cpp |
| `Cbc` | cbc.dfy | the CBC equations of section 6.2 of NIST SP 800-38A, for any block function |
| `Ecb` | ecb.dfy | the block-by-block loop of aes128.cpp |
| `Aes128`, `Rc4`, `Bm`, `Md4Crack` | aes128.dfy, rc4.dfy, bm.dfy, md4_crack.dfy | the remaining files |

Where the code departs from the standard it follows, the model follows the code:

- `aes128_cbc` reads the IV only in its size check and never reads `encrypt`. The model is
  the forward cipher of FIPS 197 applied to each block on its own: there is no chaining of
  section 6.2 of NIST SP 800-38A, and no inverse cipher of section 5.3 of FIPS 197 (so no
  GF(2^8) products by 9, 11, 13 or 14).
- FIPS 46-3 rotates each key half left. In the code's bit-reversed convention the same
  rotation is a right rotation (`rotate`, des.cpp:123). The model keeps the code's
  direction, and `DesCipher.HalfRotations` states the cumulative amounts.
- PC-1 of FIPS 46-3 selects 56 distinct key bits. The table as written selects bit 25
  twice and bit 35 never (see Findings).
- On a wrong key, IV or input length the source asserts (des.cpp:207-211,
  aes128.cpp:119-123) rather than returning an error, so the model states those length
  requirements as preconditions.
- sm4.cpp is not part of this model.

## Model

| member | source | states |
|---|---|---|
| Util.DigitValue | util.cpp:7 | a hex digit of either case, as stoi reads it in base 16, has a value below 16 |
| Util.DigitChar | util.cpp:7 | the lower-case digit written for a value below 16 is a hex digit that reads back as that value |
| Util.ParseHexNew | util.cpp:11-19 | parse_hex_new on an even-length string succeeds exactly when every character is a hex digit, and then yields half as many bytes as there are characters |
| Util.ParseHexNewAt | util.cpp:15-17 | byte i of the result is 16 times the value of character 2i plus the value of character 2i+1 |
| Util.ParseHexNewBytes | util.cpp:14-17 | any byte string meeting that per-position law is the result, so the result is fixed by the positions |
| Util.ParseHex | util.cpp:3-9 | parse_hex fills its buffer with exactly the bytes parse_hex_new returns |
| Util.ParseToHex | util.cpp:11-19 | decoding the hex encoding of any byte string gives the byte string back |
| Util.ToHexParse | util.cpp:11-19 | encoding the decoded bytes again gives the input with letters lower-cased: both letter cases decode alike |
| Bits.RotrRotl | md4.cpp:39 | for each of MD4's rotation amounts, rotating right undoes LEFTROTATE and LEFTROTATE undoes rotating right |
| Bits.RotlZero | sm3.cpp:73 | the rotate-left expression with amount 0 returns the word unchanged |
| Bits.Le32Bytes32 | md4.cpp:134-140 | the four little-endian bytes written for a word read back as that word |
| Bits.Le32Of | md4.cpp:45-50 | the word loaded little-endian from four bytes writes back as the same four bytes |
| Bits.Be32Bytes32 | sha2.cpp:101-106 | the four big-endian bytes written for a word read back as that word |
| Bits.Be32Of | sha2.cpp:45-50 | the word loaded big-endian from four bytes writes back as the same four bytes |
| Bits.WordRoundTrip | sm3.cpp:32-37 | in either byte order, loading and writing a word are inverse in both directions |
| Bits.WordsAt | md4.cpp:45-50 | word i of a block is loaded from bytes 4i to 4i+3 |
| Bits.WordsAppend | sha2.cpp:41-50 | the words of two block-aligned pieces are the words of the first followed by those of the second |
| Bits.WordsOfBytes | sm3.cpp:114-119 | loading the bytes written for a word list gives the word list back |
| Bits.BytesOfWords | sm3.cpp:32-37 | writing back the words loaded from a byte string gives the byte string |
| MdPadding.PaddedLengthLeast | md4.cpp:15 | (n + 9 + 63) & ~63 is a multiple of 64, at least n + 9, and the least such multiple |
| MdPadding.Le64Bytes64 | md4.cpp:20-22 | the eight length bytes written least significant first read back as the 64-bit length |
| MdPadding.Be64Bytes64 | sha2.cpp:37-39 | the eight length bytes written most significant first read back as the 64-bit length |
| MdPadding.Pad | sha2.cpp:32-39 | the padded message is a multiple of 64 bytes long |
| MdPadding.PadParts | md4.cpp:16-22 | the padded message starts with the input, then 0x80, then zeros up to the last eight bytes, which hold 8·length mod 2^64 in the chosen byte order |
| MdPadding.LoopByteIsField | md4.cpp:20-22 | the byte the length loop stores at index len-i-1 is byte 7-i of the length field |
| MdPadding.Preprocess | sha2.cpp:32-39 | resize, store 0x80, store the length bytes backwards: the result is the padded message |
| MdPadding.StoreBackwards | md4.cpp:20-22 | the backwards store loop changes only the last eight elements, which become the field |
| Chain.FoldAppend | md4.cpp:29-132 | hashing two block-aligned pieces one after the other is hashing their concatenation |
| Chain.FoldSnoc | sha2.cpp:41-99 | one more 64-byte block is one more application of the compression function to the chaining value |
| Chain.FoldLoop | sm3.cpp:26-112 | the block loop over offset 0, 64, 128, ... computes the chained fold of the compression function |
| Words8.LoadWords | sha2.cpp:45-50 | word i of a 64-byte block is bytes 4i..4i+3 read most significant first |
| Words8.DigestRoundTrip | sm3.cpp:114-119 | the 32-byte digest determines the eight chaining words and the other way round |
| Words8.DigestBytes | sha2.cpp:101-106 | digest byte 4i+j is word i shifted right by 8·(3-j) |
| Md4.FSelects | md4.cpp:33 | F is a bitwise selector: an all-ones first argument gives the second, zero gives the third |
| Md4.GMajority | md4.cpp:35 | G is the bitwise majority: two equal arguments decide it |
| Md4.OrdersAsDescribed | md4.cpp:88-126 | round 2 reads the words column by column and round 3 in bit-reversed order, as section 3.4 of RFC 1320 lists them |
| Md4.OrdersPermute | md4.cpp:88-126 | rounds 2 and 3 each read every one of the 16 words exactly once |
| Md4.StepWritesTarget | md4.cpp:61-63 | a step changes only the register it targets |
| Md4.StepsAgree | md4.cpp:65-126 | the first n steps depend only on the message words those steps read |
| Md4.FoldIsChainWords | md4.cpp:45-50 | chaining over the padded bytes is chaining over their little-endian words, 16 per block |
| Md4.DigestRoundTrip | md4.cpp:134-140 | the 16-byte digest (A, B, C, D little-endian) determines the registers and the other way round |
| Md4.Md4Chains | md4.cpp:29-132 | when the padded message splits into two block-aligned parts, hashing the second continues from the registers the first left |
| Md4.Md4Hash | md4.cpp:7-141 | md4's preprocessing, block loop and output give the digest of the padded message chained from the initial buffer of section 3.3 of RFC 1320 |
| Sha256.ChSelects | sha2.cpp:74 | ch selects bitwise: an all-ones e gives f, zero gives g |
| Sha256.MajMajority | sha2.cpp:78 | maj is the bitwise majority and symmetric in its arguments |
| Sha256.ExpandIsRecurrence | sha2.cpp:53-59 | the expansion obeys the schedule recurrence, and it is the only 64-word sequence starting with the block's words that does |
| Sha256.ScheduleIsRecurrence | sha2.cpp:53-59 | w[i] = w[i-16] + σ0(w[i-15]) + w[i-7] + σ1(w[i-2]) for 16 <= i < 64, and this fixes the schedule |
| Sha256.ExtendLoop | sha2.cpp:53-59 | the extension loop writes exactly the schedule |
| Sha256.RoundShifts | sha2.cpp:71-89 | a round moves a, b, c, e, f, g one place down, sets e to d + temp1 and a to temp1 + temp2 |
| Sha256.UnRoundRound | sha2.cpp:71-89 | the inverse round recovers the registers a round started from |
| Sha256.RoundUnRound | sha2.cpp:71-89 | the round after the inverse round gives back its input, so each round is a bijection |
| Sha256.RoundsInvert | sha2.cpp:71-89 | for every schedule, undoing the 64 rounds gives back the starting registers |
| Sha256.RoundLoop | sha2.cpp:71-89 | the round loop computes the 64 rounds, and undoing them recovers the chaining value |
| Sha256.CompressBlock | sha2.cpp:45-98 | load, extend, 64 rounds, then H[k] += register k: one block's update |
| Sha256.Sha256Chains | sha2.cpp:41-99 | hashing the second block-aligned part of the padded message continues from the chaining value the first left |
| Sha256.Sha256Hash | sha2.cpp:21-107 | sha256's preprocessing, block loop and big-endian output give the digest of the padded message chained from the initial hash value of section 5.3.3 of FIPS 180-4 |
| Sm3.P0Permutes | sm3.cpp:8-10 | P0 is a permutation of 32-bit words, with an explicit inverse |
| Sm3.P0FourTimes | sm3.cpp:8-10 | P0 applied four times is the identity |
| Sm3.ExpansionIsRecurrence | sm3.cpp:41-47 | W[16..67] obeys the P1-based recurrence of section 5.3.2 of draft-oscca-cfrg-sm3-02, and it is the only 68-word sequence starting with the block's words that does |
| Sm3.PrimedDetermines | sm3.cpp:49-52 | W[j+4] = W'[j] xor W[j], every index inside 0..67 |
| Sm3.ExpandLoop | sm3.cpp:41-47 | the expansion loop writes exactly the expansion |
| Sm3.PrimeLoop | sm3.cpp:49-52 | the W' loop writes W[j] xor W[j+4] for every j < 64 |
| Sm3.TRotatedZero | sm3.cpp:70-73 | at rounds 0 and 32 the constant is rotated by nothing, so the shift by 32 is read as the identity |
| Sm3.BooleanFunctionsSwitch | sm3.cpp:79-91 | FF and GG are the parity up to round 15, and majority and selection from round 16 |
| Sm3.UnRoundRound | sm3.cpp:68-102 | the inverse round recovers the registers a round started from |
| Sm3.RoundUnRound | sm3.cpp:68-102 | the round after the inverse round gives back its input, so each round is a bijection |
| Sm3.RoundsInvert | sm3.cpp:68-102 | for every expansion, undoing the 64 rounds gives back the starting registers |
| Sm3.RoundLoop | sm3.cpp:68-102 | the round loop computes the 64 rounds, and undoing them recovers the chaining value |
| Sm3.XorTwice | sm3.cpp:104-111 | XOR-ing the registers onto the chaining value twice gives it back, and the XOR is symmetric |
| Sm3.CompressBlock | sm3.cpp:32-111 | load, expand, 64 rounds, then V[k] ^= register k: one block's update |
| Sm3.Sm3Chains | sm3.cpp:26-112 | hashing the second block-aligned part continues from the chaining value the first left |
| Sm3.Sm3Hash | sm3.cpp:15-120 | the block loop and big-endian output give the digest of the padded message chained from the standard initial value IV |
| DesPermutation.BitAt | des.cpp:117 | the tested bit is 0 or 1 |
| DesPermutation.TestBit | des.cpp:117 | masking with 1 << (p - 1) and comparing with zero reads bit p - 1, counted from 1 as the tables count |
| DesPermutation.ApplyPermutation | des.cpp:113-120 | the loop from N - 1 down to 0 computes the table permutation Permute(input, perm) |
| DesPermutation.PermuteBit | des.cpp:113-120 | output bit j of the permutation is input bit perm[j] - 1 |
| DesPermutation.PermuteHigh | des.cpp:113-120 | no output bit at or above N is set |
| DesPermutation.ReverseBits | des.cpp:88-93 | reverse moves bit k of a byte to bit 7 - k |
| DesPermutation.ReverseInvolution | des.cpp:88-93 | reversing a byte twice gives it back |
| DesTables.SShape | des.cpp:35-67 | eight S-boxes of 64 entries each |
| Des.InitialPermutationIsTable | des.cpp:128-156 | the optimised initial permutation equals the table permutation by ip |
| Des.IpUndoesIp1 | des.cpp:128-156 | the initial permutation undoes the final permutation by ip1 |
| Des.Ip1UndoesIp | des.cpp:313-314 | the final permutation by ip1 undoes the initial permutation |
| Des.ExpansionIsTable | des.cpp:179-201 | the optimised expansion equals the table expansion by e for every word |
| Des.SboxIndex | des.cpp:162-168 | the S-box index takes its row from window bits 0 and 5 and its column from bits 1 to 4, window bit k standing for input bit k+1 of the S-box in FIPS 46-3 |
| Des.Reverse4 | des.cpp:170-172 | the S-box output bits are reversed within the nibble |
| Des.SboxPIsP | des.cpp:158-177 | XOR-ing the eight merged S-box/P entries is P applied to the eight S-box outputs side by side |
| Des.SboxPFromIsP | des.cpp:297-303 | the box loop's partial XOR from box b on is P of the outputs of boxes b to 7 |
| Des.PWordXor | des.cpp:174 | P distributes over XOR, which is what lets the source merge S-boxes and P per box |
| DesCipher.RotR28 | des.cpp:123 | a rotation of a 28-bit half stays within 28 bits |
| DesCipher.HalfRotations | des.cpp:236-246 | after round k each half is rotated right by the cumulative shift count of FIPS 46-3: 1, 2, 4, 6, 8, 10, 12, 14, 15, 17, 19, 21, 23, 25, 27, 28 |
| DesCipher.HalvesReturn | des.cpp:236-246 | after round 16 both halves are back where PC-1 left them |
| DesCipher.Pc1High | des.cpp:228 | the PC-1 output has no bit at or above 56 |
| DesCipher.RoundKeyStep | des.cpp:236-249 | rotating the halves after round i and applying PC-2 gives round i's subkey |
| DesCipher.KeySchedule | des.cpp:226-256 | the loop stores round i's subkey at index i when encrypting and at 15 - i when decrypting |
| DesCipher.SubkeysFromRounds | des.cpp:250-255 | sixteen subkeys stored as the loop stores them are the schedule in round order, or reversed |
| DesCipher.DecryptKeysReversed | des.cpp:250-255 | the decryption subkeys are the encryption subkeys in reverse order |
| DesCipher.ReversedTwice | des.cpp:250-255 | reversing the subkey order twice gives it back |
| DesCipher.RoundUndone | des.cpp:305-308 | a Feistel round on the exchanged output of the same round with the same subkey undoes it |
| DesCipher.RoundsUndone | des.cpp:288-309 | the rounds with the subkeys reversed, run on the exchanged output, give back the exchanged input, whatever the round function |
| DesCipher.RoundsBounded | des.cpp:288-309 | with a round function below 2^32 both halves stay below 2^32 |
| DesCipher.FBounded | des.cpp:290-303 | the round function never sets a bit above 31 |
| DesCipher.SplitJoin | des.cpp:284-312 | joining the halves after the rounds and splitting again exchanges them |
| DesCipher.JoinSwapSplit | des.cpp:284-312 | splitting the block after IP, exchanging and joining gives the word back |
| DesCipher.BlockInverse | des.cpp:278-314 | the block function with the subkeys reversed inverts the block function |
| DesCipher.LoadStore | des.cpp:320-324 | writing a word out bit-reversed byte by byte and loading it back gives the word |
| DesCipher.StoreLoad | des.cpp:219-224 | loading eight bytes bit-reversed and writing the word out gives the bytes |
| DesCipher.LoadWordBytes | des.cpp:269-272 | bits 8i to 8i + 7 of a loaded word are byte i bit-reversed |
| DesCipher.WordsOfBytes | des.cpp:266-324 | writing blocks out and loading them back gives the blocks |
| DesCipher.BytesOfWords | des.cpp:266-324 | loading whole blocks and writing them out gives the bytes |
| DesCipher.DecryptKeys | des.cpp:250-255 | each subkey order is the reversal of the other |
| DesCipher.BlocksUndo | des.cpp:278-314 | the block function under one subkey order undoes it under the other |
| DesCipher.DesCbcRoundTrip | des.cpp:203-333 | for any 56-entry PC-1 table, decryption undoes encryption under the same key and IV |
| DesCipher.DesCbcWith | des.cpp:203-212 | des_cbc returns exactly as many bytes as it was given, for either direction and any PC-1 table |
| DesCipher.DesCbcRoundTripBack | des.cpp:203-333 | for any 56-entry PC-1 table, encryption undoes decryption under the same key and IV |
| DesCipher.DesCbcDecryptsEncrypt | des.cpp:203-333 | with the standard PC-1, DES-CBC decryption and encryption undo each other |
| DesCipher.DesCbcAsWrittenDecryptsEncrypt | des.cpp:74-79 | with the PC-1 table as written, decryption and encryption still undo each other |
| DesCipher.PC1WordIgnoresBit34 | des.cpp:74-79 | no output bit of the table as written comes from key bit 34 |
| DesCipher.Pc1IgnoresBit34 | des.cpp:74-79 | as written, PC-1 gives the same output for words that differ only in bit 34 (entry 35 is missing, 25 appears twice) |
| DesCipher.Pc1FipsUsesBit34 | des.cpp:74-79 | the PC-1 of FIPS 46-3 takes an output bit from key bit 34 |
| DesCipher.LoadWordFlip | des.cpp:219-224 | flipping bit 5 of key byte 4 flips bit 34 of the loaded key |
| DesCipher.DesCbcAsWrittenIgnoresKeyBit | des.cpp:74-79 | des_cbc as written gives the same output for keys that differ only in bit 5 of byte 4 |
| DesCipher.DesCbcUsesKeyBit | des.cpp:74-79 | with the standard PC-1 that key bit changes the PC-1 output |
| Cbc.EncryptAt | des.cpp:273-276 | ciphertext block i is the cipher of plaintext block i XOR the previous ciphertext block, the IV first |
| Cbc.DecryptAt | des.cpp:316-331 | plaintext block i is the inverse cipher of ciphertext block i XOR the previous ciphertext block, the IV first |
| Cbc.DecryptEncrypt | des.cpp:266-332 | given an inverse block function and a self-cancelling XOR, decryption undoes encryption |
| Cbc.EncryptDecrypt | des.cpp:266-332 | given an inverse block function and a self-cancelling XOR, encryption undoes decryption |
| Cbc.EncryptPrefix | des.cpp:266-332 | the first n ciphertext blocks depend only on the first n plaintext blocks |
| Cbc.DecryptPrefix | des.cpp:266-332 | the first n plaintext blocks depend only on the first n ciphertext blocks |
| Ecb.EncryptAt | aes128.cpp:148-211 | output block k is the block function of input block k alone |
| Ecb.EncryptLoop | aes128.cpp:148-211 | the block loop from offset 0 in steps of 16 appends each block's output, giving the blockwise encryption |
| Ecb.EncryptStep | aes128.cpp:148-211 | the output from offset on is the first block's output followed by the rest's |
| Aes128.TableSizes | aes128.cpp:12-39 | the S-box has 256 entries and there are ten round constants |
| Aes128.Mul2IsXTime | aes128.cpp:71-79 | mul2 is xtime of section 4.2.1 of FIPS 197 |
| Aes128.GfMulTwo | aes128.cpp:71-79 | mul2 is the GF(2^8) product by {02} modulo x^8 + x^4 + x^3 + x + 1 |
| Aes128.GfMulThree | aes128.cpp:81-85 | mul3 is the GF(2^8) product by {03} |
| Aes128.Mul2Cases | aes128.cpp:71-79 | mul2 shifts left, and XORs 0x1B when the top bit was set |
| Aes128.Mul2Linear | aes128.cpp:71-79 | mul2 distributes over XOR |
| Aes128.Mul3Linear | aes128.cpp:81-85 | mul3 distributes over XOR |
| Aes128.RotWordBytes | aes128.cpp:142 | the rotation turns [a0, a1, a2, a3] into [a1, a2, a3, a0] |
| Aes128.SubIsSBox | aes128.cpp:111 | the byte substitution is the S-box lookup |
| Aes128.SubWordBytes | aes128.cpp:41-49 | subword applies the S-box to each byte of the word |
| Aes128.KeyWordsStable | aes128.cpp:138-146 | computing more key words leaves the earlier ones alone |
| Aes128.ExpandKeyAt | aes128.cpp:131-146 | words 0 to 3 are the key read big-endian, and every later word is W[i-4] XOR temp, temp being SubWord(RotWord(W[i-1])) XOR Rcon when 4 divides i, as in section 5.2 of FIPS 197 |
| Aes128.KeyExpansion | aes128.cpp:131-146 | the two loops compute the 44-word key schedule |
| Aes128.AddRoundKeyTwice | aes128.cpp:51-56 | adding the same round key twice restores the state |
| Aes128.ShiftRowsAt | aes128.cpp:87-107 | row r of the result is row r of the input rotated left by r, so row 0 is untouched |
| Aes128.ShiftRowsPermutes | aes128.cpp:87-107 | rotating each row back restores the state: shift_rows only moves bytes |
| Aes128.SubBytesShiftRowsCommute | aes128.cpp:109-113 | SubBytes and ShiftRows can be applied in either order |
| Aes128.MixColumnsAt | aes128.cpp:175-192 | each output column is its own input column mixed |
| Aes128.MixColumnConstant | aes128.cpp:175-192 | a column of four equal bytes is unchanged, since each matrix row sums to {01} |
| Aes128.BlockCipher | aes128.cpp:155-210 | the cipher under a schedule maps 16-byte blocks to 16-byte blocks |
| Aes128.EncryptBlocksAt | aes128.cpp:148-211 | output block k is the cipher of input block k alone, so equal plaintext blocks give equal ciphertext blocks |
| Aes128.Aes128Cbc | aes128.cpp:115-212 | aes128_cbc is the key expansion followed by each block through the cipher, whatever the encrypt flag and IV |
| Rc4.IdentityIsPermutation | rc4.cpp:11-13 | the initial table holds every byte value |
| Rc4.SwapPermutes | rc4.cpp:17-19 | a swap keeps the values of the table |
| Rc4.KsaFromPermutes | rc4.cpp:15-20 | key scheduling keeps the values of the table |
| Rc4.KeyScheduleIsPermutation | rc4.cpp:10-20 | after key scheduling the table is a permutation of 0..255 |
| Rc4.KsaFromStep | rc4.cpp:16-19 | one key scheduling step: j += s[i] + key[i mod |key|] mod 256, then swap s[i] and s[j] |
| Rc4.StepPermutes | rc4.cpp:26-30 | a generation step keeps the values of the table |
| Rc4.RunPermutes | rc4.cpp:25-33 | generation steps keep the values of the table |
| Rc4.StateIsPermutation | rc4.cpp:25-33 | after any number of steps the table is a permutation of 0..255 and both indices stay below 256 |
| Rc4.KeystreamAt | rc4.cpp:31 | keystream byte k is the output of step k + 1 |
| Rc4.CipherAt | rc4.cpp:32 | output byte k is input byte k XOR a keystream byte that depends only on the key and k |
| Rc4.CipherInvolution | rc4.cpp:4-34 | rc4 applied twice with the same key returns the input |
| Rc4.KeystreamPrefix | rc4.cpp:25-33 | the first m keystream bytes do not depend on how many follow |
| Rc4.CipherPrefix | rc4.cpp:25-33 | encrypting a prefix gives the matching prefix of the output |
| Rc4.Rc4 | rc4.cpp:4-34 | the two loops compute the input XORed with the keystream of the key |
| Md4Crack.Padding | md4-crack.cpp:32-46 | padding is md4's preprocessing, and chaining its little-endian words from the initial buffer gives the MD4 digest |
| Md4Crack.BlockLogAt | md4-crack.cpp:83-168 | log entry k of a block is the register state after k steps |
| Md4Crack.LogAllLength | md4-crack.cpp:58-174 | the log holds 49 states per block |
| Md4Crack.Logging | md4-crack.cpp:48-182 | md4_crack_logging returns the per-block logs in order and MD4's chaining value as hash |
| Md4Crack.BlockLogging | md4-crack.cpp:93-168 | one block's 48 steps, logged before the first and after each step |
| Md4Crack.ApplyHolds | md4-crack.cpp:352-363 | applying a set, clear or match condition makes it hold |
| Md4Crack.ApplyKeepsOthers | md4-crack.cpp:352-363 | applying a condition leaves every bit but its own alone |
| Md4Crack.ApplyAllHolds | md4-crack.cpp:352-363 | after a list of conditions on distinct bits is applied, all of them hold |
| Md4Crack.ApplyAllKeeps | md4-crack.cpp:352-363 | conditions on other bits leave a given set of bits alone |
| Md4Crack.ApplyConstraints | md4-crack.cpp:352-363 | the condition loop computes the list's application, after which each condition on a distinct bit holds |
| Md4Crack.HoldsMeans | md4-crack.cpp:286-288 | a condition that holds means the bit is set, clear, or equal to the referenced register's bit |
| Md4Crack.OpInverts | md4-crack.cpp:369-378 | the round-1 operation fed RIGHTROTATE(target, s) - a - F(b, c, d) writes the target |
| Md4Crack.InvertStep | md4-crack.cpp:365-379 | step i of round 1 fed the word the source computes writes the target value into the register step i updates |
| Md4Crack.UpdateKeepsSteps | md4-crack.cpp:365-380 | changing word j leaves the states after the first j steps alone |
| Md4Crack.ModificationWrites | md4-crack.cpp:349-380 | after the word is replaced, the log entry the target was read from holds the target |
| Md4Crack.ModificationKeeps | md4-crack.cpp:365-380 | changing word i leaves alone every logged register that steps before i wrote last |
| Md4Crack.ModifyMeets | md4-crack.cpp:342-381 | one pass of the loop keeps lists 0 to i - 1 met and meets list i |
| Md4Crack.ConstraintLoop | md4-crack.cpp:342-381 | after the loop over a well-formed table every list holds on the final log, and only the first |table| words changed |
| Md4Crack.TableWellFormed | md4-crack.cpp:311-340 | with list 13 corrected (see Findings), every list of the table constrains distinct valid bits and matches only registers that are final by its step |
| Md4Crack.ListsMeanChecks | md4-crack.cpp:493-553 | lists 0 to 8 met on the log imply every assert on a1 to a3 |
| Md4Crack.SingleStepModification | md4-crack.cpp:277-553 | single_step_modification, with list 13 corrected (see Findings), meets all sixteen lists, changes only the first block, and its asserts pass |
| Md4Crack.List13AsWrittenKeepsBit32 | md4-crack.cpp:335-336 | as written, list 13 keeps bit 32 of d4 clear when it was clear, whatever stale offset the failed parse leaves below 32 |
| Md4Crack.List13SetsBit32 | md4-crack.cpp:335-336 | the intended list 13 sets bit 32 of d4 |
| Sha3.SizesFit | sha3.cpp:25-31 | for d = 224, 256, 384, 512 the rate and capacity sum to 1600, the block is a whole number of lanes within the state, and the digest fits in one block |
| Sha3.PaddedLengthLeast | sha3.cpp:36-37 | the padded length is the least multiple of the block size that leaves room for the message and one byte |
| Sha3.PadParts | sha3.cpp:33-40 | the padded message is the input, then 0x06 (0x86 when it is also the last byte), then zeros, with 0x80 set in the last byte, as the pad10*1 rule of Appendix B.2 of FIPS 202 lays out |
| Sha3.XorBlockTouchesRate | sha3.cpp:50-60 | absorbing a block leaves the lanes beyond the rate alone, and absorbing it twice restores the state |
| Sha3.XorBlockLoop | sha3.cpp:50-60 | the loop XORs each little-endian lane of the block into the state |
| Sha3.ThetaLane | sha3.cpp:67-85 | lane k of theta is lane k XOR D[k mod 5] |
| Sha3.ThetaByColumn | sha3.cpp:73-85 | theta adds the same value to all five lanes of a column |
| Sha3.ThetaKernel | sha3.cpp:67-85 | a state whose columns all have even parity is a fixed point of theta |
| Sha3.RhoWalkVisitsEachLaneOnce | sha3.cpp:88-97 | the walk from (1, 0) visits each of the 24 lanes other than (0, 0) exactly once and rotates each by 1 to 63 bits, the offset of Table 2 of FIPS 202 |
| Sha3.WalkMove | sha3.cpp:93-96 | the source's update of (x, y) moves to the walk's next lane |
| Sha3.RhoLoop | sha3.cpp:87-97 | the walk computes the tabulated rho |
| Sha3.PiSourceInverse | sha3.cpp:99-106 | the lane pi reads from and the walk's move are inverse maps of the 25 lane indices |
| Sha3.PiPermutes | sha3.cpp:99-106 | pi only moves lanes: the inverse map undoes it both ways |
| Sha3.ChiRowLocal | sha3.cpp:108-116 | chi works row by row: states agreeing on a row give results agreeing on that row |
| Sha3.IotaTouchesLaneZero | sha3.cpp:118-119 | iota changes lane (0, 0) only and applying it twice restores the state |
| Sha3.Permute | sha3.cpp:62-120 | the round loop computes 24 rounds |
| Sha3.SqueezeLanes | sha3.cpp:123-126 | the output is the state's lanes written little-endian, and each whole lane reads back |
| Sha3.SqueezeLoop | sha3.cpp:124-126 | the output loop writes byte i mod 8 of lane i / 8 |
| Sha3.PaddedFits | sha3.cpp:47-48 | the padded message splits into whole blocks |
| Sha3.SpongeLoop | sha3.cpp:47-121 | the block loop absorbs and permutes each block at offsets 0, bs, 2bs, ... |
| Sha3.Sha3 | sha3.cpp:20-127 | sha3<d> pads, absorbs block by block with 24 rounds each, and reads out d / 8 bytes |
| Sha3.Sha3Digest224 | sha3.cpp:129-131 | sha3_224 gives 28 bytes |
| Sha3.Sha3Digest256 | sha3.cpp:133-135 | sha3_256 gives 32 bytes |
| Sha3.Sha3Digest384 | sha3.cpp:137-139 | sha3_384 gives 48 bytes |
| Sha3.Sha3Digest512 | sha3.cpp:141-143 | sha3_512 gives 64 bytes |
| Bm.Bits | bm.cpp:8-15 | one bit per input character |
| Bm.ToBits | bm.cpp:8-15 | the conversion loop turns each '0' / '1' into the bit it spells |
| Bm.DiscIsPrediction | bm.cpp:24-27 | with f[0] = 1, the discrepancy is 0 exactly when the register's feedback predicts a_i |
| Bm.DiscLinear | bm.cpp:57-63 | the discrepancy of f + x^s h is that of f plus the shifted sum of h |
| Bm.Discrepancy | bm.cpp:24-27 | the loop XORs f_n[j]·a[n - j] for j = 0..l_n, the discrepancy d_n |
| Bm.ScanAllZero | bm.cpp:34-40 | the flag loop is true exactly when l_0 .. l_n are all 0 |
| Bm.LastRise | bm.cpp:53-55 | the found m is the largest m < n with l_m < l_{m+1}, and none is found only when no such m exists |
| Bm.RiseExists | bm.cpp:42-55 | when l_0 = 0 but some l_j is not, the search finds an m |
| Bm.FindRise | bm.cpp:53-55 | the search from n - 1 downwards finds the last rise |
| Bm.OnePlusX | bm.cpp:44-48 | 1 + x^{n+1} has n + 2 coefficients, set exactly at 0 and n + 1 |
| Bm.CombineCoef | bm.cpp:57-63 | f_n + x^{n-m} f_m has every coefficient the GF(2) sum and is cut off nowhere |
| Bm.CombineLoop | bm.cpp:57-63 | the combine loop, sized to hold both terms, computes f_n + x^{n-m} f_m |
| Bm.Next | bm.cpp:23-72 | the new length lies between l_n and n + 1 |
| Bm.Step | bm.cpp:23-72 | a step appends f_{n+1}, l_{n+1}, keeps the earlier entries, and the lengths stay monotone with l_k <= k |
| Bm.CombineGenerates | bm.cpp:57-66 | the third case's register reproduces a_0 .. a_n: the two discrepancies cancel at n |
| Bm.CombineShape | bm.cpp:57-66 | the third case's polynomial has constant term 1 and no coefficient above max(l_n, n + 1 - l_n) |
| Bm.StepKeeps | bm.cpp:23-72 | each of the three cases keeps the invariant: every f_k, l_k is a register generating a_0 .. a_{k-1}, and every rise of l is a jump to k + 1 - l_k at a non-zero discrepancy |
| Bm.RunKeeps | bm.cpp:19-72 | the invariant holds after every number of steps |
| Bm.RegisterGeneratesInput | bm.cpp:4-72 | f_N has constant term 1, no coefficient above l_N <= N, and its feedback predicts every a_i from i = l_N on |
| Bm.StripZeros | bm.cpp:90-93 | the stripping loop removes exactly the trailing '0's |
| Bm.OutputSpells | bm.cpp:86-93 | the output starts and ends with '1' and reads back as the same polynomial |
| Bm.OutputLoop | bm.cpp:86-93 | the output loops write f_N's coefficients as digits and strip trailing '0's |
| Bm.BmOutputGenerates | bm.cpp:4-93 | bm's output is an LFSR connection polynomial for the input: it starts and ends with '1', has degree at most l_N, and every input bit from l_N on is the feedback of the l_N bits before it |
| Bm.StepLoop | bm.cpp:24-71 | one pass of the main loop computes the step |
| Bm.RunLoop | bm.cpp:17-72 | the main loop computes the history after all input bits |
| Bm.BmLoop | bm.cpp:4-93 | bm's loops compute BmOutput, the output Bm.BmOutputGenerates is about |
| Bm.CombineAsWritten | bm.cpp:58-63 | with the resize to n + m, a write falls past the end exactly when |f_m| > 2m |
| Bm.AsWrittenOverrunsOnTen | bm.cpp:58-63 | on "10" the step at n = 1 takes the third case with m = 0 and the resize to n + m overruns, while the corrected step gives f_2 = 1, l_2 = 1 and output "1" |

## Left out

- main.cpp and bench.cpp: command-line parsing, file and console I/O, PKCS#7 padding and timing. These are I/O and foreign calls around the core.
- `random_fill`, `rand` and the test drivers: randomness becomes the input of each modelled function.
- `print_state` (aes128.cpp:58), the `printf` dump at bm.cpp:74-84 and the printing and `exit` in `md4_dump_words` (md4-crack.cpp): output only. The one check in that dump loop, `assert(f[i][0] == 1)` at bm.cpp:75, is not left out: every f_i has constant term 1 by the `Fits` part of the invariant that `Bm.StepKeeps` and `Bm.RunKeeps` prove.
- md4-crack.cpp's `main`, the random search loop around `single_step_modification`, and the commented-out round-2 block at md4-crack.cpp:384-491.
- `parse_constraint` (md4-crack.cpp) and its `sscanf` parsing: the 16 condition lists are literal data (`Md4Crack.ConditionList`), the result of parsing each list.
- Functions declared in the headers but defined in files outside this model: `sm4_cbc`, `sha224`, `sha384`, `sha512`, `pkcs7_pad`, `pkcs7_unpad`, `unpack_uint32_le`, `get_time_us` and `hash_pad`. sm4.cpp is not part of this model.
- Sm3.Sm3: takes the already padded message (`requires |padded| % 64 == 0`), because `hash_pad` is not part of this model.
- The `preprocessed` flag and table cache of des.cpp (des.cpp:70-71, 214-217): the tables are constants of the model, so DES is a pure function.
- Aes128.Aes128Cbc: no inverse cipher and no chaining, because the source has neither. InvMixColumns and the GF(2^8) products by 9, 11, 13 and 14 do not exist in aes128.cpp.
- Aes128.MixColumns: linearity over XOR and the four GF(2^8) row products are not proved. Only `mul2`/`mul3` as GF products, their linearity, and four literal columns are stated.
- Sm3.P1: its inverse is not proved. P0's is (`Sm3.P0FourTimes`).
- Bm.BmOutputGenerates: proves that the output register generates the whole input. The minimality of the register length is not proved.
- Sha3.KeccakF: no inverse is stated for theta or chi. The round constants are literal data, not derived from the LFSR of section 3.2.5 of FIPS 202.
- Known-answer test vectors of all the ciphers and hashes are not evaluated.
- Util.ParseHexNew: a pair that is not two hex digits gives `None`, where `stoi` would accept a partial parse or throw.
- Util.ParseHex: requires an even number of characters, as the source asserts.
- Rc4.Cipher: requires a key of 1 to 256 bytes, because an empty key makes the source divide by zero in `i % key.size()`.
- Md4Crack.TableWellFormed: is proved for the table with list 13 as intended (`d4,30=0;d4,32=1`); the string md4-crack.cpp:336 holds parses to a list whose last condition reuses a stale offset (see Findings), and that list is not claimed well-formed.
- Md4Crack.SingleStepModification: meets all sixteen lists with list 13 corrected; for the list as written the model only shows that d4,32 = 1 is not enforced (`Md4Crack.List13AsWrittenKeepsBit32`), and does not claim the as-written run meets lists 0-12, 14 and 15.
- Md4Crack.ConstraintLoop: requires at least 16 input words, because the source indexes the words and the log up to 16 without checking.
- Sm3.TRotatedZero: at i = 0 and i = 32 the source computes `tj >> 32` on a 32-bit word (sm3.cpp:72-73), which C++ leaves undefined. The model reads the term as a rotation by 0, the rotation SM3 specifies, so the rounds agree with the standard whatever the shift yields.
- Widths of `int` and `size_t` counters: lengths and indices are unbounded integers. Message lengths are taken mod 2^64 where the padding stores them.

## Findings

| source | as written | input that shows it | evidently intended | confidence | as-written member | corrected member |
|---|---|---|---|---|---|---|
| des.cpp:74-79 | the PC-1 table lists key bit 25 twice and never lists bit 35 | any two keys that differ only in bit 5 (mask 0x20) of byte 4, e.g. 133457799BBCDFF1 and 13345779BBBCDFF1, give the same des_cbc output | the PC-1 of FIPS 46-3, whose 20th entry is 35 | not executed | DesCipher.DesCbcAsWrittenIgnoresKeyBit | DesCipher.DesCbcUsesKeyBit |
| md4-crack.cpp:336 | list 13 is written `d4,30=0,d4;32=1`, so the last condition has no register and its bit offset is never parsed; the stale offset is used and d4,32 = 1 is never enforced | any search state whose d4 has bit 32 clear keeps it clear after modification | the condition d4,32 = 1, as `d4,30=0;d4,32=1` | not executed | Md4Crack.List13AsWrittenKeepsBit32 | Md4Crack.List13SetsBit32 |
| bm.cpp:58-63 | the new connection polynomial is resized to n + m coefficients, but coefficients are written up to index n - m + len(f_m) - 1 | the bit string "10": at n = 1, m = 0 the write at index 1 overruns a vector of one coefficient | resize to max(len(f_n), n - m + len(f_m)) | not executed | Bm.AsWrittenOverrunsOnTen | Bm.BmOutputGenerates |

=== FILE: aes128.dfy ===
/** The AES-128 forward cipher as aes128_cbc (aes128.cpp:115-211) applies
    it: key expansion (section 5.2 of FIPS 197), then per 16-byte block the
    round sequence of section 5.1 built from SubBytes, ShiftRows,
    MixColumns and AddRoundKey, with xtime (section 4.2.1) for the
    GF(2^8) products.

    Despite its name, aes128_cbc enciphers every block on its own: it reads
    the IV only in its size check and never reads `encrypt`, and there is
    no inverse cipher. The model does the same. */
module Aes128 {
  import Ecb

  /** The S-box (aes128.cpp:12-34), Figure 7 of FIPS 197: entry b is the
      substitute for byte value b. */
  const SBox: seq<bv8> :=
    ((((([0x63, 0x7C, 0x77, 0x7B, 0xF2, 0x6B, 0x6F, 0xC5] +
    [0x30, 0x01, 0x67, 0x2B, 0xFE, 0xD7, 0xAB, 0x76]) +
    ([0xCA, 0x82, 0xC9, 0x7D, 0xFA, 0x59, 0x47, 0xF0] +
    [0xAD, 0xD4, 0xA2, 0xAF, 0x9C, 0xA4, 0x72, 0xC0])) +
    (([0xB7, 0xFD, 0x93, 0x26, 0x36, 0x3F, 0xF7, 0xCC] +
    [0x34, 0xA5, 0xE5, 0xF1, 0x71, 0xD8, 0x31, 0x15]) +
    ([0x04, 0xC7, 0x23, 0xC3, 0x18, 0x96, 0x05, 0x9A] +
    [0x07, 0x12, 0x80, 0xE2, 0xEB, 0x27, 0xB2, 0x75]))) +
    ((([0x09, 0x83, 0x2C, 0x1A, 0x1B, 0x6E, 0x5A, 0xA0] +
    [0x52, 0x3B, 0xD6, 0xB3, 0x29, 0xE3, 0x2F, 0x84]) +
    ([0x53, 0xD1, 0x00, 0xED, 0x20, 0xFC, 0xB1, 0x5B] +
    [0x6A, 0xCB, 0xBE, 0x39, 0x4A, 0x4C, 0x58, 0xCF])) +
    (([0xD0, 0xEF, 0xAA, 0xFB, 0x43, 0x4D, 0x33, 0x85] +
    [0x45, 0xF9, 0x02, 0x7F, 0x50, 0x3C, 0x9F, 0xA8]) +
    ([0x51, 0xA3, 0x40, 0x8F, 0x92, 0x9D, 0x38, 0xF5] +
    [0xBC, 0xB6, 0xDA, 0x21, 0x10, 0xFF, 0xF3, 0xD2])))) +
    (((([0xCD, 0x0C, 0x13, 0xEC, 0x5F, 0x97, 0x44, 0x17] +
    [0xC4, 0xA7, 0x7E, 0x3D, 0x64, 0x5D, 0x19, 0x73]) +
    ([0x60, 0x81, 0x4F, 0xDC, 0x22, 0x2A, 0x90, 0x88] +
    [0x46, 0xEE, 0xB8, 0x14, 0xDE, 0x5E, 0x0B, 0xDB])) +
    (([0xE0, 0x32, 0x3A, 0x0A, 0x49, 0x06, 0x24, 0x5C] +
    [0xC2, 0xD3, 0xAC, 0x62, 0x91, 0x95, 0xE4, 0x79]) +
    ([0xE7, 0xC8, 0x37, 0x6D, 0x8D, 0xD5, 0x4E, 0xA9] +
    [0x6C, 0x56, 0xF4, 0xEA, 0x65, 0x7A, 0xAE, 0x08]))) +
    ((([0xBA, 0x78, 0x25, 0x2E, 0x1C, 0xA6, 0xB4, 0xC6] +
    [0xE8, 0xDD, 0x74, 0x1F, 0x4B, 0xBD, 0x8B, 0x8A]) +
    ([0x70, 0x3E, 0xB5, 0x66, 0x48, 0x03, 0xF6, 0x0E] +
    [0x61, 0x35, 0x57, 0xB9, 0x86, 0xC1, 0x1D, 0x9E])) +
    (([0xE1, 0xF8, 0x98, 0x11, 0x69, 0xD9, 0x8E, 0x94] +
    [0x9B, 0x1E, 0x87, 0xE9, 0xCE, 0x55, 0x28, 0xDF]) +
    ([0x8C, 0xA1, 0x89, 0x0D, 0xBF, 0xE6, 0x42, 0x68] +
    [0x41, 0x99, 0x2D, 0x0F, 0xB0, 0x54, 0xBB, 0x16])))))

  /** The round constants (aes128.cpp:37-39): x^(i-1) in the top byte. */
  const Rcon: seq<bv32> :=
    ([0x01000000, 0x02000000, 0x04000000, 0x08000000, 0x10000000, 0x20000000, 0x40000000, 0x80000000] +
    [0x1B000000, 0x36000000])

  /** The S-box has one entry per byte value; there are ten round constants. */
  lemma TableSizes()
    ensures |SBox| == 256 && |Rcon| == 10
  {
  }

  // ---------------------------------------------------------------------
  // GF(2^8) arithmetic (section 4.2 of FIPS 197)

  /** Multiplication by x of section 4.2.1: shift into 16 bits, then
      reduce by the polynomial x^8 + x^4 + x^3 + x + 1 (0x11B) if the
      product has degree 8. */
  function XTime(b: bv8): bv8 {
    var p := (b as bv16) << 1;
    (if p & 0x100 != 0 then p ^ 0x11B else p) as bv8
  }

  /** A product in GF(2^8) by shift-and-add over the bits of b. */
  function GfMul(a: bv8, b: bv8): bv8
    decreases b
  {
    if b == 0 then 0
    else (if b & 1 == 1 then a else 0) ^ GfMul(XTime(a), b >> 1)
  }

  /** mul2 (aes128.cpp:71-79): shift left, and XOR 0x1B when bit 7 was set. */
  function Mul2(input: bv8): bv8 {
    var output := input << 1;
    if input & 0x80 != 0 then output ^ 0x1B else output
  }

  /** mul3 (aes128.cpp:81-85). */
  function Mul3(input: bv8): bv8 {
    Mul2(input) ^ input
  }

  /** mul2 is xtime. */
  lemma Mul2IsXTime(b: bv8)
    ensures Mul2(b) == XTime(b)
  {
  }

  /** The product by {01} is the identity. */
  lemma GfMulOne(b: bv8)
    ensures GfMul(b, 1) == b
  {
    assert GfMul(XTime(b), 0) == 0;
  }

  /** mul2 is the product by {02}. */
  lemma GfMulTwo(b: bv8)
    ensures GfMul(b, 2) == Mul2(b)
  {
    GfMulOne(XTime(b));
    Mul2IsXTime(b);
    assert GfMul(b, 2) == 0 ^ GfMul(XTime(b), 1);
  }

  /** mul3 is the product by {03}. */
  lemma GfMulThree(b: bv8)
    ensures GfMul(b, 3) == Mul3(b)
  {
    GfMulOne(XTime(b));
    Mul2IsXTime(b);
    assert GfMul(b, 3) == b ^ GfMul(XTime(b), 1);
  }

  /** mul2 is a shift, followed by a reduction when the top bit was set. */
  lemma Mul2Cases(x: bv8)
    ensures x & 0x80 != 0 ==> Mul2(x) == (x << 1) ^ 0x1B
    ensures x & 0x80 == 0 ==> Mul2(x) == x << 1
  {
  }

  /** mul2 distributes over XOR (addition in GF(2^8)). */
  lemma Mul2Linear(a: bv8, b: bv8)
    ensures Mul2(a ^ b) == Mul2(a) ^ Mul2(b)
  {
    Mul2Cases(a);
    Mul2Cases(b);
    Mul2Cases(a ^ b);
    if a & 0x80 != 0 {
      if b & 0x80 != 0 {
        assert (a ^ b) & 0x80 == 0;
      } else {
        assert (a ^ b) & 0x80 != 0;
      }
    } else if b & 0x80 != 0 {
      assert (a ^ b) & 0x80 != 0;
    } else {
      assert (a ^ b) & 0x80 == 0;
    }
  }

  /** mul3 distributes over XOR. */
  lemma Mul3Linear(a: bv8, b: bv8)
    ensures Mul3(a ^ b) == Mul3(a) ^ Mul3(b)
  {
    Mul2Cases(a);
    Mul2Cases(b);
    Mul2Cases(a ^ b);
    if a & 0x80 != 0 {
      if b & 0x80 != 0 {
        assert (a ^ b) & 0x80 == 0;
      } else {
        assert (a ^ b) & 0x80 != 0;
      }
    } else if b & 0x80 != 0 {
      assert (a ^ b) & 0x80 != 0;
    } else {
      assert (a ^ b) & 0x80 == 0;
    }
  }

  // ---------------------------------------------------------------------
  // Words

  /** Byte k of a word, counted from the most significant (k = 0). */
  function ByteOf(w: bv32, k: nat): bv8
    requires k < 4
  {
    if k == 0 then (w >> 24) as bv8
    else if k == 1 then ((w >> 16) & 0xFF) as bv8
    else if k == 2 then ((w >> 8) & 0xFF) as bv8
    else (w & 0xFF) as bv8
  }

  /** Four bytes packed big-endian (aes128.cpp:133-134). */
  function Pack(b0: bv8, b1: bv8, b2: bv8, b3: bv8): bv32 {
    ((b0 as bv32) << 24) | ((b1 as bv32) << 16) | ((b2 as bv32) << 8) | (b3 as bv32)
  }

  /** Packing puts byte k at position k. */
  lemma PackBytes(b0: bv8, b1: bv8, b2: bv8, b3: bv8)
    ensures ByteOf(Pack(b0, b1, b2, b3), 0) == b0
    ensures ByteOf(Pack(b0, b1, b2, b3), 1) == b1
    ensures ByteOf(Pack(b0, b1, b2, b3), 2) == b2
    ensures ByteOf(Pack(b0, b1, b2, b3), 3) == b3
  {
  }

  /** RotWord (aes128.cpp:142): a left rotation by one byte. */
  function RotWord(w: bv32): bv32 {
    (w << 8) | (w >> 24)
  }

  /** RotWord turns [a0, a1, a2, a3] into [a1, a2, a3, a0]. */
  lemma RotWordBytes(w: bv32)
    ensures ByteOf(RotWord(w), 0) == ByteOf(w, 1)
    ensures ByteOf(RotWord(w), 1) == ByteOf(w, 2)
    ensures ByteOf(RotWord(w), 2) == ByteOf(w, 3)
    ensures ByteOf(RotWord(w), 3) == ByteOf(w, 0)
  {
  }

  /** Entry k of the table t, reached one entry at a time. Being recursive,
      it is unfolded only as far as a proof needs, where a direct index into
      the 256-entry S-box literal makes every proof that mentions a
      substituted byte split over all 256 entries; EntryIsIndex states that
      it is plain indexing. */
  function Entry(t: seq<bv8>, k: nat): bv8
    requires k < |t|
  {
    if k == 0 then t[0] else Entry(t[1..], k - 1)
  }

  /** Entry is indexing. */
  lemma {:induction false} EntryIsIndex(t: seq<bv8>, k: nat)
    requires k < |t|
    ensures Entry(t, k) == t[k]
  {
    if k > 0 {
      EntryIsIndex(t[1..], k - 1);
    }
  }

  /** The S-box substitute of one byte: entry b of the S-box. */
  function Sub(b: bv8): bv8 {
    Entry(SBox, b as int)
  }

  /** Sub is the S-box lookup. */
  lemma SubIsSBox(b: bv8)
    ensures Sub(b) == SBox[b as int]
  {
    EntryIsIndex(SBox, b as int);
  }

  /** subword (aes128.cpp:41-49): the four bytes, taken from the top, are
      replaced by their S-box substitutes and put back in place. */
  function SubWord(input: bv32): bv32 {
    Pack(Sub((input >> 24) as bv8), Sub(((input >> 16) & 0xFF) as bv8),
         Sub(((input >> 8) & 0xFF) as bv8), Sub((input & 0xFF) as bv8))
  }

  /** subword applies the S-box to each byte of the word. */
  lemma SubWordBytes(w: bv32)
    ensures ByteOf(SubWord(w), 0) == Sub(ByteOf(w, 0))
    ensures ByteOf(SubWord(w), 1) == Sub(ByteOf(w, 1))
    ensures ByteOf(SubWord(w), 2) == Sub(ByteOf(w, 2))
    ensures ByteOf(SubWord(w), 3) == Sub(ByteOf(w, 3))
  {
    PackBytes(Sub((w >> 24) as bv8), Sub(((w >> 16) & 0xFF) as bv8),
              Sub(((w >> 8) & 0xFF) as bv8), Sub((w & 0xFF) as bv8));
  }

  // ---------------------------------------------------------------------
  // Key expansion (aes128.cpp:129-146, section 5.2 of FIPS 197)

  /** Word i of the key itself, big-endian. */
  function KeyWord(key: seq<bv8>, i: nat): bv32
    requires |key| == 16 && i < 4
  {
    Pack(key[4 * i], key[4 * i + 1], key[4 * i + 2], key[4 * i + 3])
  }

  /** temp for word i: SubWord(RotWord(W[i-1])) XOR Rcon at the start of each
      group of four, W[i-1] otherwise. */
  function KeyTemp(prev: bv32, i: nat): bv32
    requires 4 <= i < 44
  {
    if i % 4 == 0 then SubWord(RotWord(prev)) ^ Rcon[i / 4 - 1] else prev
  }

  /** The word that follows the words w computed so far: a key word for the
      first four, W[i-4] XOR temp after that. */
  function NextWord(key: seq<bv8>, w: seq<bv32>): bv32
    requires |key| == 16 && |w| < 44
  {
    var i := |w|;
    if i < 4 then KeyWord(key, i) else Recur(w[i - 4], w[i - 1], i)
  }

  /** W[i-4] XOR temp, from the words four back and one back. */
  function Recur(back4: bv32, back1: bv32, i: nat): bv32
    requires 4 <= i < 44
  {
    back4 ^ KeyTemp(back1, i)
  }

  /** Recur, written out. */
  lemma RecurIs(back4: bv32, back1: bv32, i: nat)
    requires 4 <= i < 44
    ensures Recur(back4, back1, i) == back4 ^ KeyTemp(back1, i)
  {
  }

  /** The first n words of the key schedule. */
  function KeyWords(key: seq<bv8>, n: nat): (w: seq<bv32>)
    requires |key| == 16 && n <= 44
    ensures |w| == n
  {
    if n == 0 then [] else KeyWords(key, n - 1) + [NextWord(key, KeyWords(key, n - 1))]
  }

  /** The 44 words of the AES-128 key schedule. */
  function ExpandKey(key: seq<bv8>): (w: seq<bv32>)
    requires |key| == 16
    ensures |w| == 44
  {
    KeyWords(key, 44)
  }

  /** Computing more words leaves the earlier ones unchanged. */
  lemma {:induction false} KeyWordsStable(key: seq<bv8>, i: nat, m: nat, n: nat)
    requires |key| == 16 && i < m <= n <= 44
    ensures KeyWords(key, n)[i] == KeyWords(key, m)[i]
    decreases n
  {
    if m < n {
      KeyWordsStable(key, i, m, n - 1);
      KeyWordsLast(key, n, KeyWords(key, n - 1));
    }
  }

  /** One more word extends the words computed so far. */
  lemma KeyWordsLast(key: seq<bv8>, n: nat, prev: seq<bv32>)
    requires |key| == 16 && 0 < n <= 44 && prev == KeyWords(key, n - 1)
    ensures KeyWords(key, n) == prev + [NextWord(key, prev)]
  {
  }

  /** NextWord after the first four words. */
  lemma NextWordLater(key: seq<bv8>, w: seq<bv32>)
    requires |key| == 16 && 4 <= |w| < 44
    ensures NextWord(key, w) == Recur(w[|w| - 4], w[|w| - 1], |w|)
  {
  }

  /** Word i of the schedule is NextWord of the words before it. */
  lemma ExpandKeyNext(key: seq<bv8>, i: nat)
    requires |key| == 16 && i < 44
    ensures ExpandKey(key)[i] == NextWord(key, KeyWords(key, i))
  {
    KeyWordsStable(key, i, i + 1, 44);
    KeyWordsLast(key, i + 1, KeyWords(key, i));
  }

  /** The equations of section 5.2: words 0-3 are the key, and every later
      word is W[i-4] XOR temp. */
  lemma ExpandKeyAt(key: seq<bv8>, i: nat)
    requires |key| == 16 && i < 44
    ensures i < 4 ==> ExpandKey(key)[i] == KeyWord(key, i)
    ensures 4 <= i ==> ExpandKey(key)[i] == ExpandKey(key)[i - 4] ^ KeyTemp(ExpandKey(key)[i - 1], i)
  {
    ExpandKeyNext(key, i);
    if 4 <= i {
      var prev := KeyWords(key, i);
      NextWordLater(key, prev);
      KeyWordsStable(key, i - 4, i, 44);
      KeyWordsStable(key, i - 1, i, 44);
      RecurIs(ExpandKey(key)[i - 4], ExpandKey(key)[i - 1], i);
    }
  }

  /** The source's key expansion: the four key words, then the recurrence
      of section 5.2. The source fills an array of 44 words in index order;
      here the words are appended to a sequence in the same order. */
  method KeyExpansion(key: seq<bv8>) returns (roundkeys: seq<bv32>)
    requires |key| == 16
    ensures roundkeys == ExpandKey(key)
  {
    roundkeys := [];
    var i := 0;
    while i < 4
      invariant 0 <= i <= 4 && roundkeys == KeyWords(key, i)
    {
      KeyWordsLast(key, i + 1, roundkeys);
      roundkeys := roundkeys + [KeyWord(key, i)];
      i := i + 1;
    }
    while i < 44
      invariant 4 <= i <= 44 && roundkeys == KeyWords(key, i)
    {
      var temp := KeyTemp(roundkeys[i - 1], i);
      KeyWordsExtend(key, roundkeys, i, temp);
      roundkeys := roundkeys + [roundkeys[i - 4] ^ temp];
      i := i + 1;
    }
  }

  /** Word i is W[i-4] XOR temp. */
  lemma KeyWordsExtend(key: seq<bv8>, prev: seq<bv32>, i: nat, temp: bv32)
    requires |key| == 16 && 4 <= i < 44 && prev == KeyWords(key, i)
    requires temp == KeyTemp(prev[i - 1], i)
    ensures prev + [prev[i - 4] ^ temp] == KeyWords(key, i + 1)
  {
    NextWordLater(key, prev);
    RecurIs(prev[i - 4], prev[i - 1], i);
    KeyWordsLast(key, i + 1, prev);
  }

  // ---------------------------------------------------------------------
  // The round functions. The state is 16 bytes in column-major order:
  // byte r + 4c is row r of column c.

  /** A 16-byte state. */
  predicate IsState(s: seq<bv8>) {
    |s| == 16
  }

  /** add_round_key (aes128.cpp:51-56): byte r + 4c is XORed with byte r,
      counted from the most significant, of round-key word c. */
  function AddRoundKey(state: seq<bv8>, w: seq<bv32>, round: nat): (r: seq<bv8>)
    requires IsState(state) && |w| == 44 && round <= 10
    ensures IsState(r)
  {
    seq(16, i requires 0 <= i < 16 => state[i] ^ ByteOf(w[4 * round + i / 4], i % 4))
  }

  /** Adding the same round key twice restores the state. */
  lemma AddRoundKeyTwice(state: seq<bv8>, w: seq<bv32>, round: nat)
    requires IsState(state) && |w| == 44 && round <= 10
    ensures AddRoundKey(AddRoundKey(state, w, round), w, round) == state
  {
    var once := AddRoundKey(state, w, round);
    var twice := AddRoundKey(once, w, round);
    forall i | 0 <= i < 16 ensures twice[i] == state[i] {
      XorTwice(state[i], ByteOf(w[4 * round + i / 4], i % 4));
    }
  }

  lemma XorTwice(a: bv8, b: bv8)
    ensures (a ^ b) ^ b == a
  {
  }

  /** sub_bytes (aes128.cpp:109-113). */
  function SubBytes(state: seq<bv8>): (r: seq<bv8>)
    requires IsState(state)
    ensures IsState(r)
  {
    seq(16, i requires 0 <= i < 16 => Sub(state[i]))
  }

  /** shift_rows (aes128.cpp:87-107): the source's exchanges, row by row. */
  function ShiftRows(state: seq<bv8>): (r: seq<bv8>)
    requires IsState(state)
    ensures IsState(r)
  {
    var s := state;
    // row 1: left by one
    var s := s[1 := state[5]][5 := state[9]][9 := state[13]][13 := state[1]];
    // row 2: left by two
    var s := s[2 := state[10]][10 := state[2]][6 := state[14]][14 := state[6]];
    // row 3: left by three
    s[15 := state[11]][11 := state[7]][7 := state[3]][3 := state[15]]
  }

  /** Section 5.1.2: row r of the result is row r of the input rotated left
      by r positions, so row 0 is untouched. */
  lemma ShiftRowsAt(state: seq<bv8>, r: nat, c: nat)
    requires IsState(state) && r < 4 && c < 4
    ensures ShiftRows(state)[r + 4 * c] == state[r + 4 * ((c + r) % 4)]
  {
  }

  /** The inverse rotation, row r right by r positions. */
  function UnshiftRows(state: seq<bv8>): (r: seq<bv8>)
    requires IsState(state)
    ensures IsState(r)
  {
    seq(16, i requires 0 <= i < 16 => state[i % 4 + 4 * ((i / 4 + 4 - i % 4) % 4)])
  }

  /** ShiftRows only moves bytes: undoing the rotation restores the state. */
  lemma ShiftRowsPermutes(state: seq<bv8>)
    requires IsState(state)
    ensures UnshiftRows(ShiftRows(state)) == state
  {
    var t := ShiftRows(state);
    forall i | 0 <= i < 16 ensures UnshiftRows(t)[i] == state[i] {
      var r, c := i % 4, (i / 4 + 4 - i % 4) % 4;
      ShiftRowsAt(state, r, c);
    }
  }

  /** SubBytes works byte by byte and ShiftRows only moves bytes, so the
      two steps of a round can be applied in either order. */
  lemma SubBytesShiftRowsCommute(state: seq<bv8>)
    requires IsState(state)
    ensures ShiftRows(SubBytes(state)) == SubBytes(ShiftRows(state))
  {
    var a, b := ShiftRows(SubBytes(state)), SubBytes(ShiftRows(state));
    forall i | 0 <= i < 16 ensures a[i] == b[i] {
      var r, c := i % 4, i / 4;
      ShiftRowsAt(SubBytes(state), r, c);
      ShiftRowsAt(state, r, c);
    }
  }

  /** One column through MixColumns (aes128.cpp:175-192): the four new
      bytes new0 to new3 of the column a0, a1, a2, a3. */
  function MixColumn(a0: bv8, a1: bv8, a2: bv8, a3: bv8): (r: seq<bv8>)
    ensures |r| == 4
  {
    [Mul2(a0) ^ Mul3(a1) ^ a2 ^ a3,
     a0 ^ Mul2(a1) ^ Mul3(a2) ^ a3,
     a0 ^ a1 ^ Mul2(a2) ^ Mul3(a3),
     Mul3(a0) ^ a1 ^ a2 ^ Mul2(a3)]
  }

  /** MixColumns: the four columns, each mixed on its own. */
  function MixColumns(s: seq<bv8>): (r: seq<bv8>)
    requires IsState(s)
    ensures IsState(r)
  {
    MixColumn(s[0], s[1], s[2], s[3]) + MixColumn(s[4], s[5], s[6], s[7]) +
    MixColumn(s[8], s[9], s[10], s[11]) + MixColumn(s[12], s[13], s[14], s[15])
  }

  /** Column c after MixColumns is column c of the input mixed, so each
      output column depends on the same input column only. */
  lemma MixColumnsAt(s: seq<bv8>)
    requires IsState(s)
    ensures MixColumns(s)[0..4] == MixColumn(s[0], s[1], s[2], s[3])
    ensures MixColumns(s)[4..8] == MixColumn(s[4], s[5], s[6], s[7])
    ensures MixColumns(s)[8..12] == MixColumn(s[8], s[9], s[10], s[11])
    ensures MixColumns(s)[12..16] == MixColumn(s[12], s[13], s[14], s[15])
  {
    Quarters(MixColumn(s[0], s[1], s[2], s[3]), MixColumn(s[4], s[5], s[6], s[7]),
             MixColumn(s[8], s[9], s[10], s[11]), MixColumn(s[12], s[13], s[14], s[15]));
  }

  /** The four 4-element pieces of a concatenation. */
  lemma Quarters<T>(m0: seq<T>, m1: seq<T>, m2: seq<T>, m3: seq<T>)
    requires |m0| == 4 && |m1| == 4 && |m2| == 4 && |m3| == 4
    ensures (m0 + m1 + m2 + m3)[0..4] == m0 && (m0 + m1 + m2 + m3)[4..8] == m1
    ensures (m0 + m1 + m2 + m3)[8..12] == m2 && (m0 + m1 + m2 + m3)[12..16] == m3
  {
    var m := m0 + m1 + m2 + m3;
    assert m[0..4] == m0;
    assert m[4..8] == m1;
    assert m[8..12] == m2;
    assert m[12..16] == m3;
  }

  /** The rows of the matrix each sum to {01} in GF(2^8) ({02} + {03} +
      {01} + {01}), so a column of four equal bytes is left unchanged. */
  lemma MixColumnConstant(x: bv8)
    ensures MixColumn(x, x, x, x) == [x, x, x, x]
  {
  }

  // ---------------------------------------------------------------------
  // The cipher (section 5.1 of FIPS 197)

  /** Rounds 1 to 9: SubBytes, ShiftRows, MixColumns, AddRoundKey. */
  function Round(state: seq<bv8>, w: seq<bv32>, round: nat): (r: seq<bv8>)
    requires IsState(state) && |w| == 44 && 1 <= round <= 9
    ensures IsState(r)
  {
    AddRoundKey(MixColumns(ShiftRows(SubBytes(state))), w, round)
  }

  /** Round 10: SubBytes, ShiftRows and AddRoundKey, without MixColumns. */
  function FinalRound(state: seq<bv8>, w: seq<bv32>): (r: seq<bv8>)
    requires IsState(state) && |w| == 44
    ensures IsState(r)
  {
    AddRoundKey(ShiftRows(SubBytes(state)), w, 10)
  }

  /** The state after rounds 1 to n. */
  function Rounds(state: seq<bv8>, w: seq<bv32>, n: nat): (r: seq<bv8>)
    requires IsState(state) && |w| == 44 && n <= 9
    ensures IsState(r)
  {
    if n == 0 then state else Round(Rounds(state, w, n - 1), w, n)
  }

  /** The forward cipher: the initial AddRoundKey, nine full rounds, and a
      final round without MixColumns. */
  function Cipher(block: seq<bv8>, w: seq<bv32>): (r: seq<bv8>)
    requires IsState(block) && |w| == 44
    ensures IsState(r)
  {
    FinalRound(Rounds(AddRoundKey(block, w, 0), w, 9), w)
  }

  /** The cipher under the schedule w as a block function. */
  function BlockCipher(w: seq<bv32>): (f: seq<bv8> --> seq<bv8>)
    requires |w| == 44
    ensures Ecb.IsBlockFunction(f)
  {
    b requires |b| == 16 => Cipher(b, w)
  }

  /** Every 16-byte block enciphered on its own under the same schedule. */
  function EncryptBlocks(input: seq<bv8>, w: seq<bv32>): (output: seq<bv8>)
    requires |input| % 16 == 0 && |w| == 44
  {
    Ecb.Encrypt(BlockCipher(w), input)
  }

  /** Output block k is the cipher of input block k alone, so equal
      plaintext blocks give equal ciphertext blocks. */
  lemma EncryptBlocksAt(input: seq<bv8>, w: seq<bv32>, k: nat)
    requires |input| % 16 == 0 && |w| == 44 && 16 * k + 16 <= |input|
    ensures |EncryptBlocks(input, w)| == |input|
    ensures EncryptBlocks(input, w)[16 * k .. 16 * k + 16] == Cipher(input[16 * k .. 16 * k + 16], w)
  {
    Ecb.EncryptAt(BlockCipher(w), input, k);
  }

  /** aes128_cbc: the key schedule, then each block through the cipher. The
      result depends on neither `encrypt` nor the IV's contents. */
  method Aes128Cbc(encrypt: bool, input: seq<bv8>, key: seq<bv8>, iv: seq<bv8>) returns (output: seq<bv8>)
    requires |iv| == 16 && |input| % 16 == 0 && |key| == 16
    ensures output == EncryptBlocks(input, ExpandKey(key))
  {
    var w := KeyExpansion(key);
    output := Ecb.EncryptLoop(BlockCipher(w), input);
  }
}

=== FILE: bits.dfy ===
/** 32-bit rotations and the byte orders in which the hash functions read
    and write their words: little-endian in MD4 (md4.cpp:45-50, 134-140),
    big-endian in SHA-256 (sha2.cpp:45-50, 101-106) and SM3 (sm3.cpp:32-37,
    114-119). */
module Bits {

  /** Left rotation of a 32-bit word by n positions, written as the sources
      write it: the word shifted left by n OR'ed with the word shifted right
      by 32 - n. A rotation by 0 shifts right by 32, which leaves nothing. */
  function Rotl(x: bv32, n: bv32): bv32
    requires n < 32
  {
    (x << n) | (x >> (32 - n))
  }

  /** Right rotation of a 32-bit word by n positions. */
  function Rotr(x: bv32, n: bv32): bv32
    requires n < 32
  {
    (x >> n) | (x << (32 - n))
  }

  /** The rotation amounts of MD4's 48 steps (section 3.4 of RFC 1320). */
  predicate IsMd4Shift(n: bv32) {
    n == 3 || n == 7 || n == 11 || n == 19 || n == 5 || n == 9 || n == 13 || n == 15
  }

  /** For MD4's rotation amounts, rotating right undoes rotating left and
      the other way round. */
  lemma RotrRotl(x: bv32, n: bv32)
    requires IsMd4Shift(n)
    ensures Rotr(Rotl(x, n), n) == x
    ensures Rotl(Rotr(x, n), n) == x
  {
    if n == 3 {
      RotrRotl3(x);
    } else if n == 7 {
      RotrRotl7(x);
    } else if n == 11 {
      RotrRotl11(x);
    } else if n == 19 {
      RotrRotl19(x);
    } else if n == 5 {
      RotrRotl5(x);
    } else if n == 9 {
      RotrRotl9(x);
    } else if n == 13 {
      RotrRotl13(x);
    } else {
      RotrRotl15(x);
    }
  }

  // The inverse for each amount on its own: a rotation by a constant
  // amount is cheap to check, one by a symbolic amount is not.

  lemma RotrRotl3(x: bv32)
    ensures Rotr(Rotl(x, 3), 3) == x && Rotl(Rotr(x, 3), 3) == x
  {
  }

  lemma RotrRotl7(x: bv32)
    ensures Rotr(Rotl(x, 7), 7) == x && Rotl(Rotr(x, 7), 7) == x
  {
  }

  lemma RotrRotl11(x: bv32)
    ensures Rotr(Rotl(x, 11), 11) == x && Rotl(Rotr(x, 11), 11) == x
  {
  }

  lemma RotrRotl19(x: bv32)
    ensures Rotr(Rotl(x, 19), 19) == x && Rotl(Rotr(x, 19), 19) == x
  {
  }

  lemma RotrRotl5(x: bv32)
    ensures Rotr(Rotl(x, 5), 5) == x && Rotl(Rotr(x, 5), 5) == x
  {
  }

  lemma RotrRotl9(x: bv32)
    ensures Rotr(Rotl(x, 9), 9) == x && Rotl(Rotr(x, 9), 9) == x
  {
  }

  lemma RotrRotl13(x: bv32)
    ensures Rotr(Rotl(x, 13), 13) == x && Rotl(Rotr(x, 13), 13) == x
  {
  }

  lemma RotrRotl15(x: bv32)
    ensures Rotr(Rotl(x, 15), 15) == x && Rotl(Rotr(x, 15), 15) == x
  {
  }

  /** A rotation by 0 is the identity. */
  lemma RotlZero(x: bv32)
    ensures Rotl(x, 0) == x
  {
  }

  /** Byte j, counted from the least significant, of w: w >> 8j, masked. */
  function ByteOf(w: bv32, j: nat): bv8
    requires j < 4
  {
    if j == 0 then (w & 0xFF) as bv8
    else if j == 1 then ((w >> 8) & 0xFF) as bv8
    else if j == 2 then ((w >> 16) & 0xFF) as bv8
    else ((w >> 24) & 0xFF) as bv8
  }

  /** Four bytes read as a little-endian word: b[0] is the least significant. */
  function Le32(b: seq<bv8>): bv32
    requires |b| == 4
  {
    (b[3] as bv32 << 24) | (b[2] as bv32 << 16) | (b[1] as bv32 << 8) | b[0] as bv32
  }

  /** Four bytes read as a big-endian word: b[0] is the most significant. */
  function Be32(b: seq<bv8>): bv32
    requires |b| == 4
  {
    (b[0] as bv32 << 24) | (b[1] as bv32 << 16) | (b[2] as bv32 << 8) | b[3] as bv32
  }

  /** A word written little-endian. */
  function Le32Bytes(w: bv32): (r: seq<bv8>)
    ensures |r| == 4
  {
    [ByteOf(w, 0), ByteOf(w, 1), ByteOf(w, 2), ByteOf(w, 3)]
  }

  /** A word written big-endian. */
  function Be32Bytes(w: bv32): (r: seq<bv8>)
    ensures |r| == 4
  {
    [ByteOf(w, 3), ByteOf(w, 2), ByteOf(w, 1), ByteOf(w, 0)]
  }

  /** Reading back a word written little-endian gives the word. */
  lemma Le32Bytes32(w: bv32)
    ensures Le32(Le32Bytes(w)) == w
  {
  }

  /** Writing a word read little-endian gives the bytes back. */
  lemma Le32Of(b: seq<bv8>)
    requires |b| == 4
    ensures Le32Bytes(Le32(b)) == b
  {
    Le32OfBytes(b[0], b[1], b[2], b[3]);
    assert b == [b[0], b[1], b[2], b[3]];
  }

  lemma Le32OfBytes(b0: bv8, b1: bv8, b2: bv8, b3: bv8)
    ensures Le32Bytes(Le32([b0, b1, b2, b3])) == [b0, b1, b2, b3]
  {
    var w := (b3 as bv32 << 24) | (b2 as bv32 << 16) | (b1 as bv32 << 8) | b0 as bv32;
    assert Le32([b0, b1, b2, b3]) == w;
    assert ByteOf(w, 0) == b0 && ByteOf(w, 1) == b1 && ByteOf(w, 2) == b2 && ByteOf(w, 3) == b3;
  }

  /** Reading back a word written big-endian gives the word. */
  lemma Be32Bytes32(w: bv32)
    ensures Be32(Be32Bytes(w)) == w
  {
  }

  /** Writing a word read big-endian gives the bytes back. */
  lemma Be32Of(b: seq<bv8>)
    requires |b| == 4
    ensures Be32Bytes(Be32(b)) == b
  {
    Be32OfBytes(b[0], b[1], b[2], b[3]);
    assert b == [b[0], b[1], b[2], b[3]];
  }

  lemma Be32OfBytes(b0: bv8, b1: bv8, b2: bv8, b3: bv8)
    ensures Be32Bytes(Be32([b0, b1, b2, b3])) == [b0, b1, b2, b3]
  {
    var w := (b0 as bv32 << 24) | (b1 as bv32 << 16) | (b2 as bv32 << 8) | b3 as bv32;
    assert Be32([b0, b1, b2, b3]) == w;
    assert ByteOf(w, 3) == b0 && ByteOf(w, 2) == b1 && ByteOf(w, 1) == b2 && ByteOf(w, 0) == b3;
  }

  /** Four bytes read as a word in the given byte order. */
  function Word32(b: seq<bv8>, bigEndian: bool): bv32
    requires |b| == 4
  {
    if bigEndian then Be32(b) else Le32(b)
  }

  /** A word written in the given byte order. */
  function WordBytes(w: bv32, bigEndian: bool): (r: seq<bv8>)
    ensures |r| == 4
  {
    if bigEndian then Be32Bytes(w) else Le32Bytes(w)
  }

  /** Writing and reading back in the same byte order are inverse, in both
      directions. */
  lemma WordRoundTrip(w: bv32, b: seq<bv8>, bigEndian: bool)
    requires |b| == 4
    ensures Word32(WordBytes(w, bigEndian), bigEndian) == w
    ensures WordBytes(Word32(b, bigEndian), bigEndian) == b
  {
    if bigEndian {
      Be32Bytes32(w);
      Be32Of(b);
    } else {
      Le32Bytes32(w);
      Le32Of(b);
    }
  }

  /** Bytes read four at a time as words, in the given byte order. */
  function Words(b: seq<bv8>, bigEndian: bool): (r: seq<bv32>)
    requires |b| % 4 == 0
    ensures 4 * |r| == |b|
    decreases |b|
  {
    if |b| == 0 then [] else [Word32(b[..4], bigEndian)] + Words(b[4..], bigEndian)
  }

  /** Words written one after the other in the given byte order. */
  function Bytes(ws: seq<bv32>, bigEndian: bool): (r: seq<bv8>)
    ensures |r| == 4 * |ws|
    decreases |ws|
  {
    if |ws| == 0 then [] else WordBytes(ws[0], bigEndian) + Bytes(ws[1..], bigEndian)
  }

  /** Word i is read from bytes 4i to 4i + 3, as the sources' loading loops
      read it. */
  lemma {:induction false} WordsAt(b: seq<bv8>, bigEndian: bool, i: nat)
    requires |b| % 4 == 0 && 4 * i + 4 <= |b|
    ensures Words(b, bigEndian)[i] == Word32(b[4 * i .. 4 * i + 4], bigEndian)
    decreases i
  {
    if i > 0 {
      WordsAt(b[4..], bigEndian, i - 1);
      assert b[4..][4 * (i - 1) .. 4 * (i - 1) + 4] == b[4 * i .. 4 * i + 4];
    }
  }

  /** Reading words off two pieces is reading them off the concatenation. */
  lemma {:induction false} WordsAppend(a: seq<bv8>, b: seq<bv8>, bigEndian: bool)
    requires |a| % 4 == 0 && |b| % 4 == 0
    ensures Words(a + b, bigEndian) == Words(a, bigEndian) + Words(b, bigEndian)
    decreases |a|
  {
    if |a| == 0 {
      assert a + b == b;
    } else {
      assert (a + b)[..4] == a[..4];
      assert (a + b)[4..] == a[4..] + b;
      WordsAppend(a[4..], b, bigEndian);
    }
  }

  /** Reading back written words gives the words. */
  lemma {:induction false} WordsOfBytes(ws: seq<bv32>, bigEndian: bool)
    ensures Words(Bytes(ws, bigEndian), bigEndian) == ws
    decreases |ws|
  {
    if |ws| > 0 {
      var b := Bytes(ws, bigEndian);
      assert b[..4] == WordBytes(ws[0], bigEndian);
      assert b[4..] == Bytes(ws[1..], bigEndian);
      WordRoundTrip(ws[0], WordBytes(ws[0], bigEndian), bigEndian);
      WordsOfBytes(ws[1..], bigEndian);
      assert ws == [ws[0]] + ws[1..];
    }
  }

  /** Writing back read words gives the bytes. */
  lemma {:induction false} BytesOfWords(b: seq<bv8>, bigEndian: bool)
    requires |b| % 4 == 0
    ensures Bytes(Words(b, bigEndian), bigEndian) == b
    decreases |b|
  {
    if |b| > 0 {
      var ws := Words(b, bigEndian);
      assert ws[0] == Word32(b[..4], bigEndian);
      assert ws[1..] == Words(b[4..], bigEndian);
      WordRoundTrip(0, b[..4], bigEndian);
      BytesOfWords(b[4..], bigEndian);
      assert b == b[..4] + b[4..];
    }
  }
}

=== FILE: bm.dfy ===
/** bm (bm.cpp:4-94): the Berlekamp-Massey algorithm over GF(2).

    The input is a string of '0' and '1' characters a_0 .. a_{N-1}. The
    algorithm keeps, for every n = 0 .. N, a connection polynomial f_n
    (coefficients from x^0 upwards) and a length l_n, and its output is
    f_N's coefficients as characters with trailing '0's removed.

    The proved property is the one the algorithm exists for: f_N and l_N
    describe a linear feedback shift register that generates the whole
    input, a_i = f_1 a_{i-1} + ... + f_l a_{i-l} for l_N <= i < N.

    The source sizes the new polynomial of the third case as n + m, which
    is too short (the write at n - m + j overruns); the model uses the size
    max(|f_n|, n - m + |f_m|) and keeps the as-written step in
    CombineAsWritten. */
module Bm {
  import opened Util

  /** A polynomial over GF(2), coefficient of x^j at index j. */
  type Poly = seq<bool>

  /** The history of the algorithm after n steps: f_0 .. f_n and l_0 .. l_n. */
  datatype History = History(f: seq<Poly>, l: seq<nat>)

  function Max(a: nat, b: nat): nat {
    if a < b then b else a
  }

  /** The coefficient of x^j; zero outside the stored coefficients. */
  predicate Coef(f: Poly, j: int) {
    0 <= j < |f| && f[j]
  }

  // ---------------------------------------------------------------------
  // Input (bm.cpp:5-15)
  // ---------------------------------------------------------------------

  /** What bm asserts of its input: non-empty, only '0' and '1'. */
  predicate ValidInput(input: string) {
    |input| > 0 && forall i :: 0 <= i < |input| ==> input[i] == '0' || input[i] == '1'
  }

  /** The input as bits. */
  function Bits(input: string): (a: seq<bool>)
    ensures |a| == |input|
  {
    seq(|input|, i requires 0 <= i < |input| => input[i] == '1')
  }

  // ---------------------------------------------------------------------
  // The discrepancy (bm.cpp:24-27) and the feedback it compares against
  // ---------------------------------------------------------------------

  /** d = f[0] a[i] + f[1] a[i-1] + ... + f[L] a[i-L] over GF(2). */
  predicate Disc(f: Poly, a: seq<bool>, i: nat, L: nat)
    requires L <= i < |a|
    decreases L
  {
    if L == 0 then Coef(f, 0) && a[i]
    else Disc(f, a, i, L - 1) != (Coef(f, L) && a[i - L])
  }

  /** The register's feedback f[1] a[i-1] + ... + f[L] a[i-L]. */
  predicate Feedback(f: Poly, a: seq<bool>, i: nat, L: nat)
    requires L <= i < |a|
    decreases L
  {
    if L == 0 then false
    else Feedback(f, a, i, L - 1) != (Coef(f, L) && a[i - L])
  }

  /** With f[0] = 1 the discrepancy vanishes exactly when the feedback
      predicts a[i]. */
  lemma {:induction false} DiscIsPrediction(f: Poly, a: seq<bool>, i: nat, L: nat)
    requires L <= i < |a| && Coef(f, 0)
    ensures !Disc(f, a, i, L) <==> a[i] == Feedback(f, a, i, L)
    ensures Disc(f, a, i, L) == (Feedback(f, a, i, L) != a[i])
    decreases L
  {
    if L > 0 {
      DiscIsPrediction(f, a, i, L - 1);
    }
  }

  /** The sum of Disc with the coefficients of h shifted up by s. */
  predicate Shifted(h: Poly, a: seq<bool>, i: nat, L: nat, s: nat)
    requires L <= i < |a|
    decreases L
  {
    if L == 0 then Coef(h, L as int - s) && a[i]
    else Shifted(h, a, i, L - 1, s) != (Coef(h, L - s) && a[i - L])
  }

  /** The discrepancy is linear: the sum for f + x^s h is the sum for f
      plus the shifted sum for h. */
  lemma {:induction false} DiscLinear(g: Poly, f: Poly, h: Poly, a: seq<bool>, i: nat, L: nat, s: nat)
    requires L <= i < |a|
    requires forall j :: 0 <= j <= L ==> Coef(g, j) == (Coef(f, j) != Coef(h, j - s))
    ensures Disc(g, a, i, L) == (Disc(f, a, i, L) != Shifted(h, a, i, L, s))
    decreases L
  {
    if L > 0 {
      DiscLinear(g, f, h, a, i, L - 1, s);
    }
  }

  /** Below the shift every term of the shifted sum is zero. */
  lemma {:induction false} ShiftedBelow(h: Poly, a: seq<bool>, i: nat, L: nat, s: nat)
    requires L <= i < |a| && L < s
    ensures !Shifted(h, a, i, L, s)
    decreases L
  {
    if L > 0 {
      ShiftedBelow(h, a, i, L - 1, s);
    }
  }

  /** The shifted sum at i is the plain sum for h at i - s. */
  lemma {:induction false} ShiftedIsDisc(h: Poly, a: seq<bool>, i: nat, L: nat, s: nat)
    requires s <= L <= i < |a|
    ensures Shifted(h, a, i, L, s) == Disc(h, a, i - s, L - s)
    decreases L
  {
    if L == s {
      if s > 0 {
        ShiftedBelow(h, a, i, L - 1, s);
      }
    } else {
      ShiftedIsDisc(h, a, i, L - 1, s);
    }
  }

  /** Coefficients above L are zero. */
  predicate Degree(f: Poly, L: nat) {
    forall j :: L < j < |f| ==> !f[j]
  }

  /** Summing further than the degree adds nothing. */
  lemma {:induction false} DiscExtend(f: Poly, a: seq<bool>, i: nat, L: nat, L2: nat)
    requires L <= L2 <= i < |a| && Degree(f, L)
    ensures Disc(f, a, i, L2) == Disc(f, a, i, L)
    decreases L2
  {
    if L2 > L {
      DiscExtend(f, a, i, L, L2 - 1);
    }
  }

  // ---------------------------------------------------------------------
  // The three cases of a step (bm.cpp:28-71)
  // ---------------------------------------------------------------------

  /** l_0 = ... = l_n = 0 (bm.cpp:34-40). */
  predicate AllZero(l: seq<nat>, n: nat)
    requires n < |l|
  {
    forall j :: 0 <= j <= n ==> l[j] == 0
  }

  /** The length grows from step j to step j + 1. */
  predicate Rises(l: seq<nat>, j: nat)
    requires j + 1 < |l|
  {
    l[j] < l[j + 1]
  }

  /** The search of bm.cpp:54-55: the largest m < k with l_m < l_{m+1}. */
  function LastRise(l: seq<nat>, k: nat): (r: Option<nat>)
    requires k < |l|
    ensures r.Some? ==> r.value < k && Rises(l, r.value)
    ensures r.Some? ==> forall j :: r.value < j < k ==> !Rises(l, j)
    ensures r.None? ==> forall j :: 0 <= j < k ==> !Rises(l, j)
    decreases k
  {
    if k == 0 then None
    else if Rises(l, k - 1) then Some(k - 1)
    else LastRise(l, k - 1)
  }

  /** Without a rise below k, l_k is at most l_0. */
  lemma {:induction false} NoRiseBounded(l: seq<nat>, k: nat)
    requires k < |l|
    requires forall j :: 0 <= j < k ==> !Rises(l, j)
    ensures l[k] <= l[0]
    decreases k
  {
    if k > 0 {
      assert !Rises(l, k - 1);
      NoRiseBounded(l, k - 1);
    }
  }

  /** When l_0 = 0 but not every l_j is, the search finds an m. */
  lemma RiseExists(l: seq<nat>, n: nat)
    requires n < |l| && l[0] == 0 && !AllZero(l, n)
    ensures LastRise(l, n).Some?
  {
    if LastRise(l, n).None? {
      forall j | 0 <= j <= n
        ensures l[j] == 0
      {
        NoRiseBounded(l, j);
      }
    }
  }

  /** 1 + x^{n+1} (bm.cpp:44-48). */
  function OnePlusX(n: nat): (g: Poly)
    ensures |g| == n + 2
    ensures forall j :: 0 <= j < n + 2 ==> (g[j] <==> j == 0 || j == n + 1)
  {
    seq(n + 2, j requires 0 <= j < n + 2 => j == 0 || j == n + 1)
  }

  /** f + x^s h over GF(2), as many coefficients as either term needs. */
  function Combine(f: Poly, h: Poly, s: nat): Poly {
    seq(Max(|f|, s + |h|), j requires 0 <= j < Max(|f|, s + |h|) => Coef(f, j) != Coef(h, j - s))
  }

  /** Every coefficient of Combine is the GF(2) sum, and nothing is cut off. */
  lemma CombineCoef(f: Poly, h: Poly, s: nat)
    ensures |Combine(f, h, s)| >= |f| && |Combine(f, h, s)| >= s + |h|
    ensures forall j: int :: Coef(Combine(f, h, s), j) == (Coef(f, j) != Coef(h, j - s))
  {
  }

  /** f_{n+1} and l_{n+1} from the history after n steps (bm.cpp:23-72):
      kept when the discrepancy is 0, 1 + x^{n+1} of length n + 1 when
      every length so far is 0, and f_n + x^{n-m} f_m of length
      max(l_n, n + 1 - l_n) otherwise. */
  function Next(a: seq<bool>, h: History, n: nat): (r: (Poly, nat))
    requires n < |a| && Shape(h, n)
    ensures h.l[n] <= r.1 <= n + 1
  {
    var fn, ln := h.f[n], h.l[n];
    if !Disc(fn, a, n, ln) then (fn, ln)
    else if AllZero(h.l, n) then (OnePlusX(n), n + 1)
    else
      RiseExists(h.l, n);
      var m := LastRise(h.l, n).value;
      (Combine(fn, h.f[m], n - m), Max(ln, n + 1 - ln))
  }

  /** Pushing an entry whose length is between l_n and n + 1 keeps the
      shape and every earlier entry. */
  lemma Push(h: History, n: nat, g: Poly, L: nat)
    requires Shape(h, n) && h.l[n] <= L <= n + 1
    ensures Shape(History(h.f + [g], h.l + [L]), n + 1)
    ensures (h.f + [g])[..n + 1] == h.f && (h.l + [L])[..n + 1] == h.l
  {
  }

  /** The step from f_n, l_n to f_{n+1}, l_{n+1}: the history grows by one
      entry and keeps its shape. */
  function Step(a: seq<bool>, h: History, n: nat): (r: History)
    requires n < |a| && Shape(h, n)
    ensures Shape(r, n + 1)
    ensures r.f[..n + 1] == h.f && r.l[..n + 1] == h.l
  {
    var e := Next(a, h, n);
    Push(h, n, e.0, e.1);
    History(h.f + [e.0], h.l + [e.1])
  }

  /** The shape of the history after n steps: n + 1 entries, l_0 = 0, l
      non-decreasing and l_k <= k (so n + 1 - l_n at bm.cpp:66 does not
      wrap). */
  predicate Shape(h: History, n: nat) {
    |h.f| == n + 1 && |h.l| == n + 1 && h.l[0] == 0
    && (forall j, k :: 0 <= j < k <= n ==> h.l[j] <= h.l[k])
    && (forall k :: 0 <= k <= n ==> h.l[k] <= k)
  }

  /** f_0 = 1, l_0 = 0 (bm.cpp:19-22). */
  function Start(): (h: History)
    ensures Shape(h, 0)
  {
    History([[true]], [0])
  }

  /** The history after the first n input bits. */
  function Run(a: seq<bool>, n: nat): (h: History)
    requires n <= |a|
    ensures Shape(h, n)
    decreases n
  {
    if n == 0 then Start() else Step(a, Run(a, n - 1), n - 1)
  }

  // ---------------------------------------------------------------------
  // Correctness: every f_k generates a_0 .. a_{k-1}
  // ---------------------------------------------------------------------

  /** f has room for coefficients 0 .. L and constant coefficient 1
      (bm.cpp:25 reads f_n[0 .. l_n]; bm.cpp:75 asserts f_i[0] == 1). */
  predicate Fits(f: Poly, L: nat) {
    L < |f| && f[0]
  }

  /** The register (f, L) reproduces a_L .. a_{k-1}. */
  predicate Generates(f: Poly, L: nat, a: seq<bool>, k: nat)
    requires k <= |a|
  {
    forall i :: L <= i < k ==> !Disc(f, a, i, L)
  }

  /** What holds of every f_k, l_k in a history of n steps. */
  predicate Entry(a: seq<bool>, h: History, n: nat, k: nat)
    requires n <= |a| && Shape(h, n) && k <= n
  {
    Fits(h.f[k], h.l[k]) && Degree(h.f[k], h.l[k]) && Generates(h.f[k], h.l[k], a, k)
  }

  /** A length that grows at step k grows to k + 1 - l_k, and grows
      because the discrepancy was 1. */
  predicate Jump(a: seq<bool>, h: History, n: nat, k: nat)
    requires n <= |a| && Shape(h, n) && k < n
  {
    Rises(h.l, k) ==> h.l[k + 1] == k + 1 - h.l[k] && Disc(h.f[k], a, k, h.l[k])
  }

  /** The invariant of the algorithm after n steps. */
  predicate Inv(a: seq<bool>, h: History, n: nat)
    requires n <= |a|
  {
    Shape(h, n)
    && (forall k :: 0 <= k <= n ==> Entry(a, h, n, k))
    && (forall k :: 0 <= k < n ==> Jump(a, h, n, k))
  }

  /** In a history of n steps, l stays at l_{m+1} after the last rise m. */
  lemma {:induction false} FlatAfterRise(l: seq<nat>, m: nat, k: nat, n: nat)
    requires m < k <= n < |l|
    requires forall j :: m < j < n ==> !Rises(l, j)
    requires forall j, k :: 0 <= j < k <= n ==> l[j] <= l[k]
    ensures l[k] == l[m + 1]
    decreases k
  {
    if k > m + 1 {
      FlatAfterRise(l, m, k - 1, n);
      assert !Rises(l, k - 1);
    }
  }

  /** The register of the third case generates a_0 .. a_n: at i < n both
      terms vanish, at i = n both are 1 and cancel. */
  lemma CombineGenerates(a: seq<bool>, fn: Poly, ln: nat, fm: Poly, lm: nat, n: nat, m: nat, L: nat)
    requires m < n < |a| && lm + ln == m + 1 && lm <= m && ln <= n
    requires L == Max(ln, n + 1 - ln)
    requires Degree(fn, ln) && Degree(fm, lm)
    requires Generates(fn, ln, a, n) && Generates(fm, lm, a, m)
    requires Disc(fn, a, n, ln) && Disc(fm, a, m, lm)
    ensures Generates(Combine(fn, fm, n - m), L, a, n + 1)
  {
    var g, s := Combine(fn, fm, n - m), n - m;
    CombineCoef(fn, fm, s);
    forall i | L <= i < n + 1
      ensures !Disc(g, a, i, L)
    {
      DiscLinear(g, fn, fm, a, i, L, s);
      DiscExtend(fn, a, i, ln, L);
      ShiftedIsDisc(fm, a, i, L, s);
      DiscExtend(fm, a, i - s, lm, L - s);
      if i < n {
        assert !Disc(fn, a, i, ln);
        assert !Disc(fm, a, i - s, lm);
      }
    }
  }

  /** The polynomial of the third case fits its length and has no
      coefficient above it. */
  lemma CombineShape(fn: Poly, ln: nat, fm: Poly, lm: nat, n: nat, m: nat, L: nat)
    requires m < n && lm + ln == m + 1 && ln <= n
    requires L == Max(ln, n + 1 - ln)
    requires Fits(fn, ln) && Fits(fm, lm) && Degree(fn, ln) && Degree(fm, lm)
    ensures Fits(Combine(fn, fm, n - m), L) && Degree(Combine(fn, fm, n - m), L)
  {
    CombineCoef(fn, fm, n - m);
    var g := Combine(fn, fm, n - m);
    assert Coef(g, 0);
    forall j | L < j < |g|
      ensures !g[j]
    {
      assert Coef(g, j) == (Coef(fn, j) != Coef(fm, j - (n - m)));
    }
  }

  /** Entries 0 .. n of a history survive a step. */
  lemma StepKeepsOld(a: seq<bool>, h: History, r: History, n: nat, n1: nat)
    requires n < |a| && n1 == n + 1 && Inv(a, h, n) && Shape(r, n1)
    requires r.f[..n1] == h.f && r.l[..n1] == h.l
    ensures forall k :: 0 <= k <= n ==> Entry(a, r, n1, k)
    ensures forall k :: 0 <= k < n ==> Jump(a, r, n1, k)
  {
    forall k | 0 <= k <= n
      ensures Entry(a, r, n1, k)
    {
      assert r.f[k] == h.f[k] && r.l[k] == h.l[k];
      assert Entry(a, h, n, k);
    }
    forall k | 0 <= k < n
      ensures Jump(a, r, n1, k)
    {
      assert r.f[k] == h.f[k] && r.l[k] == h.l[k] && r.l[k + 1] == h.l[k + 1];
      assert Jump(a, h, n, k);
    }
  }

  /** The invariant after a step, from the old entries and the new one. */
  lemma StepKeepsNew(a: seq<bool>, h: History, r: History, n: nat, n1: nat)
    requires n < |a| && n1 == n + 1 && Inv(a, h, n) && Shape(r, n1)
    requires r.f[..n1] == h.f && r.l[..n1] == h.l
    requires Entry(a, r, n1, n1) && Jump(a, r, n1, n)
    ensures Inv(a, r, n1)
  {
    StepKeepsOld(a, h, r, n, n1);
  }

  /** The new entry of a step, from the facts about its polynomial g and
      length L. */
  lemma NewEntry(a: seq<bool>, h: History, r: History, n: nat, n1: nat, g: Poly, L: nat)
    requires n < |a| && n1 == n + 1 && Shape(h, n) && Shape(r, n1)
    requires r.f[n1] == g && r.l[n1] == L && r.f[n] == h.f[n] && r.l[n] == h.l[n]
    requires Fits(g, L) && Degree(g, L) && Generates(g, L, a, n1)
    requires h.l[n] < L ==> L == n1 - h.l[n] && Disc(h.f[n], a, n, h.l[n])
    ensures Entry(a, r, n1, n1) && Jump(a, r, n1, n)
  {
  }

  /** The first case, discrepancy 0: f_n and l_n are kept. */
  lemma KeepFacts(a: seq<bool>, h: History, n: nat)
    requires n < |a| && Inv(a, h, n) && !Disc(h.f[n], a, n, h.l[n])
    ensures Fits(h.f[n], h.l[n]) && Degree(h.f[n], h.l[n]) && Generates(h.f[n], h.l[n], a, n + 1)
  {
    assert Entry(a, h, n, n);
  }

  /** The second case: 1 + x^{n+1} with length n + 1. */
  lemma FirstFacts(a: seq<bool>, n: nat)
    requires n < |a|
    ensures Fits(OnePlusX(n), n + 1) && Degree(OnePlusX(n), n + 1) && Generates(OnePlusX(n), n + 1, a, n + 1)
  {
  }

  /** The third case: f_n + x^{n-m} f_m with length max(l_n, n + 1 - l_n). */
  lemma CombineFacts(a: seq<bool>, h: History, n: nat, m: nat, g: Poly, L: nat)
    requires n < |a| && Inv(a, h, n)
    requires Disc(h.f[n], a, n, h.l[n]) && LastRise(h.l, n) == Some(m)
    requires g == Combine(h.f[n], h.f[m], n - m) && L == Max(h.l[n], n + 1 - h.l[n])
    ensures Fits(g, L) && Degree(g, L) && Generates(g, L, a, n + 1)
    ensures h.l[n] < L ==> L == n + 1 - h.l[n]
  {
    var fn, ln, fm, lm := h.f[n], h.l[n], h.f[m], h.l[m];
    assert Jump(a, h, n, m) && Entry(a, h, n, m) && Entry(a, h, n, n);
    FlatAfterRise(h.l, m, n, n);
    CombineShape(fn, ln, fm, lm, n, m, L);
    CombineGenerates(a, fn, ln, fm, lm, n, m, L);
  }

  /** One step keeps the invariant, in each of its three cases. */
  lemma StepKeeps(a: seq<bool>, h: History, n: nat, r: History, n1: nat)
    requires n < |a| && n1 == n + 1 && Inv(a, h, n) && r == Step(a, h, n)
    ensures Inv(a, r, n1)
  {
    var fn, ln := h.f[n], h.l[n];
    if !Disc(fn, a, n, ln) {
      KeepFacts(a, h, n);
      NewEntry(a, h, r, n, n1, fn, ln);
    } else if AllZero(h.l, n) {
      FirstFacts(a, n);
      NewEntry(a, h, r, n, n1, OnePlusX(n), n + 1);
    } else {
      RiseExists(h.l, n);
      var m := LastRise(h.l, n).value;
      var g, L := Combine(fn, h.f[m], n - m), Max(ln, n + 1 - ln);
      CombineFacts(a, h, n, m, g, L);
      NewEntry(a, h, r, n, n1, g, L);
    }
    StepKeepsNew(a, h, r, n, n1);
  }

  /** The invariant holds before the first step. */
  lemma StartKeeps(a: seq<bool>)
    ensures Inv(a, Start(), 0)
  {
    assert Entry(a, Start(), 0, 0);
  }

  /** The invariant holds after every number of steps. */
  lemma {:induction false} RunKeeps(a: seq<bool>, n: nat)
    requires n <= |a|
    ensures Inv(a, Run(a, n), n)
    decreases n
  {
    if n == 0 {
      StartKeeps(a);
    } else {
      var h := Run(a, n - 1);
      RunKeeps(a, n - 1);
      StepKeeps(a, h, n - 1, Run(a, n), n);
    }
  }

  /** Berlekamp-Massey finds a register for its input: f_N has constant
      coefficient 1 and no coefficient above l_N <= N, and its feedback
      predicts every a_i from l_N on. */
  lemma RegisterGeneratesInput(a: seq<bool>)
    ensures var h := Run(a, |a|);
      var f, L := h.f[|a|], h.l[|a|];
      L <= |a| && Fits(f, L) && Degree(f, L)
      && forall i :: L <= i < |a| ==> a[i] == Feedback(f, a, i, L)
  {
    var N := |a|;
    RunKeeps(a, N);
    var h := Run(a, N);
    assert Entry(a, h, N, N);
    forall i | h.l[N] <= i < N
      ensures a[i] == Feedback(h.f[N], a, i, h.l[N])
    {
      DiscIsPrediction(h.f[N], a, i, h.l[N]);
    }
  }

  // ---------------------------------------------------------------------
  // The output string (bm.cpp:86-93)
  // ---------------------------------------------------------------------

  /** The coefficients as '0' / '1' characters. */
  function Digits(f: Poly): (r: string)
    ensures |r| == |f|
  {
    seq(|f|, j requires 0 <= j < |f| => if f[j] then '1' else '0')
  }

  /** s without its trailing '0's. */
  function StripZeros(s: string): (r: string)
    ensures |r| <= |s| && r == s[..|r|]
    ensures |r| == 0 || r[|r| - 1] != '0'
    ensures forall j :: |r| <= j < |s| ==> s[j] == '0'
    decreases |s|
  {
    if |s| > 0 && s[|s| - 1] == '0' then StripZeros(s[..|s| - 1]) else s
  }

  /** The output for the final polynomial. */
  function Output(f: Poly): string {
    StripZeros(Digits(f))
  }

  /** The polynomial a '0' / '1' string spells. */
  function Register(out: string): (g: Poly)
    ensures |g| == |out|
  {
    seq(|out|, j requires 0 <= j < |out| => out[j] == '1')
  }

  /** The output spells f up to its highest non-zero coefficient: it starts
      and ends with '1' and reads back as the same polynomial. */
  lemma OutputSpells(f: Poly)
    requires |f| > 0 && f[0]
    ensures var out := Output(f);
      0 < |out| <= |f| && out[0] == '1' && out[|out| - 1] == '1'
      && (forall j :: 0 <= j < |out| ==> out[j] == '0' || out[j] == '1')
      && forall j: int :: Coef(Register(out), j) == Coef(f, j)
  {
    var d, out := Digits(f), Output(f);
    assert d[0] == '1';
    forall j: int
      ensures Coef(Register(out), j) == Coef(f, j)
    {
      if 0 <= j < |out| {
        assert out[j] == d[j];
      } else if |out| <= j < |f| {
        assert d[j] == '0';
      }
    }
  }

  /** Registers with the same coefficients have the same feedback. */
  lemma {:induction false} FeedbackSameCoef(f: Poly, g: Poly, a: seq<bool>, i: nat, L: nat)
    requires L <= i < |a|
    requires forall j: int :: Coef(f, j) == Coef(g, j)
    ensures Feedback(f, a, i, L) == Feedback(g, a, i, L)
    decreases L
  {
    if L > 0 {
      FeedbackSameCoef(f, g, a, i, L - 1);
    }
  }

  /** bm's result for an input string. */
  function BmOutput(input: string): string {
    var a := Bits(input);
    Output(Run(a, |a|).f[|a|])
  }

  /** The length l_N of the register bm finds. */
  function RegisterLength(input: string): (L: nat)
    ensures L <= |input|
  {
    var a := Bits(input);
    Run(a, |a|).l[|a|]
  }

  /** The output of bm is a register that generates its input: it starts
      with '1', has degree at most l_N, and from position l_N on every input
      bit is the feedback of the l_N bits before it. */
  lemma BmOutputGenerates(input: string)
    requires ValidInput(input)
    ensures var out, L, a := BmOutput(input), RegisterLength(input), Bits(input);
      0 < |out| <= L + 1 && out[0] == '1' && out[|out| - 1] == '1'
      && forall i :: L <= i < |a| ==> a[i] == Feedback(Register(out), a, i, L)
  {
    var a := Bits(input);
    var N := |a|;
    var h := Run(a, N);
    var f, L := h.f[N], h.l[N];
    RegisterGeneratesInput(a);
    OutputSpells(f);
    var out := Output(f);
    assert Coef(Register(out), |out| - 1);
    forall i | L <= i < N
      ensures a[i] == Feedback(Register(out), a, i, L)
    {
      FeedbackSameCoef(Register(out), f, a, i, L);
    }
  }

  // ---------------------------------------------------------------------
  // The third case as written (bm.cpp:58-63)
  // ---------------------------------------------------------------------

  /** new_f = f_n resized to n + m, then new_f[n - m + j] ^= f_m[j] for
      every j < |f_m|; None when a write falls past the end of new_f. */
  function CombineAsWritten(fn: Poly, fm: Poly, n: nat, m: nat): (r: Option<Poly>)
    requires m < n
    ensures r.None? <==> |fm| > 2 * m
    ensures r.Some? ==> |r.value| == n + m
  {
    var resized := seq(n + m, j requires 0 <= j < n + m => Coef(fn, j));
    if n - m + |fm| > n + m then None
    else Some(seq(n + m, j requires 0 <= j < n + m => Coef(resized, j) != Coef(fm, j - (n - m))))
  }

  /** On the input "10" the second step takes the third case with n = 1 and
      m = 0, where the as-written resize leaves one coefficient and the
      write at index 1 overruns; the corrected step gives f_2 = 1, l_2 = 1,
      and bm outputs "1". */
  lemma AsWrittenOverrunsOnTen()
    ensures var a := Bits("10");
      var h := Run(a, 1);
      h.f == [[true], [true, true]] && h.l == [0, 1]
      && Disc(h.f[1], a, 1, h.l[1]) && !AllZero(h.l, 1) && LastRise(h.l, 1) == Some(0)
      && CombineAsWritten(h.f[1], h.f[0], 1, 0).None?
      && Run(a, 2).f[2] == [true, false] && Run(a, 2).l[2] == 1
      && BmOutput("10") == "1"
  {
    var a := Bits("10");
    assert a == [true, false];
    var h0 := Run(a, 0);
    assert h0 == History([[true]], [0]);
    assert Disc(h0.f[0], a, 0, 0);
    assert AllZero(h0.l, 0);
    var h1 := Run(a, 1);
    assert h1 == Step(a, h0, 0);
    assert OnePlusX(0) == [true, true];
    assert h1 == History([[true], [true, true]], [0, 1]);
    assert Disc(h1.f[1], a, 1, 1);
    assert h1.l[1] != 0;
    assert Rises(h1.l, 0);
    var h2 := Run(a, 2);
    assert h2 == Step(a, h1, 1);
    assert Combine([true, true], [true], 1) == [true, false];
    assert h2.f[2] == [true, false];
    assert Digits([true, false]) == "10";
    assert StripZeros("10") == StripZeros("1");
  }

  // ---------------------------------------------------------------------
  // The loops of bm (bm.cpp:4-94)
  // ---------------------------------------------------------------------

  /** The conversion loop of bm.cpp:8-15. */
  method ToBits(input: string) returns (a: seq<bool>)
    requires ValidInput(input)
    ensures a == Bits(input)
  {
    a := [];
    var i := 0;
    while i < |input|
      invariant 0 <= i <= |input|
      invariant a == Bits(input)[..i]
    {
      if input[i] == '0' {
        a := a + [false];
      } else if input[i] == '1' {
        a := a + [true];
      }
      i := i + 1;
    }
  }

  /** The discrepancy loop of bm.cpp:24-27, reading f_n[0 .. l_n]. */
  method Discrepancy(f: Poly, a: seq<bool>, n: nat, L: nat) returns (d: bool)
    requires L <= n < |a| && L < |f|
    ensures d == Disc(f, a, n, L)
  {
    d := f[0] && a[n];
    var j := 1;
    while j <= L
      invariant 1 <= j <= L + 1
      invariant d == Disc(f, a, n, j - 1)
    {
      d := d != (f[j] && a[n - j]);
      j := j + 1;
    }
  }

  /** The flag loop of bm.cpp:34-40. */
  method ScanAllZero(l: seq<nat>, n: nat) returns (flag: bool)
    requires n < |l|
    ensures flag == AllZero(l, n)
  {
    flag := true;
    var j := 0;
    while j <= n
      invariant 0 <= j <= n + 1
      invariant flag == forall k :: 0 <= k < j ==> l[k] == 0
    {
      if l[j] != 0 {
        flag := false;
        return;
      }
      j := j + 1;
    }
  }

  /** The search of bm.cpp:54-55, downwards from n - 1. */
  method FindRise(l: seq<nat>, n: nat) returns (r: Option<nat>)
    requires n < |l|
    ensures r == LastRise(l, n)
  {
    var m := n;
    while m > 0
      invariant 0 <= m <= n
      invariant LastRise(l, m) == LastRise(l, n)
    {
      if l[m - 1] < l[m] {
        return Some(m - 1);
      }
      m := m - 1;
    }
    r := None;
  }

  /** The loop of bm.cpp:58-63 with the corrected size: new_f is f_n
      widened to max(|f_n|, n - m + |f_m|), then f_m is added in at n - m. */
  method CombineLoop(fn: Poly, fm: Poly, s: nat) returns (g: Poly)
    ensures g == Combine(fn, fm, s)
  {
    var size := Max(|fn|, s + |fm|);
    g := seq(size, k requires 0 <= k < size => Coef(fn, k));
    var j := 0;
    while j < |fm|
      invariant 0 <= j <= |fm| && |g| == size
      invariant forall k :: 0 <= k < size ==> g[k] == (Coef(fn, k) != (k - s < j && Coef(fm, k - s)))
    {
      g := g[s + j := g[s + j] != fm[j]];
      j := j + 1;
    }
  }

  /** The output loops of bm.cpp:86-93. */
  method OutputLoop(f: Poly) returns (out: string)
    ensures out == Output(f)
  {
    out := [];
    var i := 0;
    while i < |f|
      invariant 0 <= i <= |f|
      invariant out == Digits(f)[..i]
    {
      out := out + [if f[i] then '1' else '0'];
      i := i + 1;
    }
    assert out == Digits(f);
    while |out| > 0 && out[|out| - 1] == '0'
      invariant StripZeros(out) == Output(f)
    {
      out := out[..|out| - 1];
    }
  }

  /** f_n has the coefficients the discrepancy loop reads. */
  lemma RunFits(a: seq<bool>, n: nat)
    requires n <= |a|
    ensures Fits(Run(a, n).f[n], Run(a, n).l[n])
  {
    RunKeeps(a, n);
    assert Entry(a, Run(a, n), n, n);
  }

  /** One pass of the loop of bm.cpp:23-72, pushing f_{n+1} and l_{n+1}. */
  method StepLoop(a: seq<bool>, h: History, n: nat) returns (next: History)
    requires n < |a| && Shape(h, n) && h.l[n] < |h.f[n]|
    ensures next == Step(a, h, n)
  {
    var fn, ln := h.f[n], h.l[n];
    var d := Discrepancy(fn, a, n, ln);
    if !d {
      next := History(h.f + [fn], h.l + [ln]);
    } else {
      var flag := ScanAllZero(h.l, n);
      if flag {
        next := History(h.f + [OnePlusX(n)], h.l + [n + 1]);
      } else {
        RiseExists(h.l, n);
        var m := FindRise(h.l, n);
        var g := CombineLoop(fn, h.f[m.value], n - m.value);
        next := History(h.f + [g], h.l + [Max(ln, n + 1 - ln)]);
      }
    }
  }

  /** The history after n + 1 steps is one step on from that after n. */
  lemma RunStep(a: seq<bool>, n: nat, n1: nat)
    requires n1 == n + 1 <= |a|
    ensures Run(a, n1) == Step(a, Run(a, n), n)
  {
  }

  /** The loop of bm.cpp:23-72: f_0 .. f_N and l_0 .. l_N. */
  method RunLoop(a: seq<bool>) returns (h: History)
    ensures h == Run(a, |a|)
  {
    h := Start();
    var n := 0;
    while n < |a|
      invariant 0 <= n <= |a|
      invariant h == Run(a, n)
    {
      RunFits(a, n);
      h := StepLoop(a, h, n);
      RunStep(a, n, n + 1);
      n := n + 1;
    }
  }

  /** bm: the input as bits, the steps, then the output string of f_N. */
  method BmLoop(input: string) returns (output: string)
    requires ValidInput(input)
    ensures output == BmOutput(input)
  {
    var a := ToBits(input);
    var h := RunLoop(a);
    output := OutputLoop(h.f[|a|]);
  }
}

=== FILE: cbc.dfy ===
/** Cipher block chaining, as des_cbc (des.cpp:265-332) chains its 64-bit
    blocks: section 6.2 of NIST SP 800-38A. The block type, the block
    function and the combining operation (XOR in DES) are parameters, so
    this module knows nothing about DES itself. */
module Cbc {

  /** Encryption: each plaintext block is combined with the previous
      ciphertext block (the IV first) before the block function. */
  function Encrypt<W(!new)>(block: W -> W, xor: (W, W) -> W, iv: W, ps: seq<W>): (cs: seq<W>)
    ensures |cs| == |ps|
    decreases |ps|
  {
    if |ps| == 0 then []
    else
      var c := block(xor(ps[0], iv));
      [c] + Encrypt(block, xor, c, ps[1..])
  }

  /** Decryption: each block function output is combined with the previous
      ciphertext block (the IV first). */
  function Decrypt<W(!new)>(unblock: W -> W, xor: (W, W) -> W, iv: W, cs: seq<W>): (ps: seq<W>)
    ensures |ps| == |cs|
    decreases |cs|
  {
    if |cs| == 0 then [] else [xor(unblock(cs[0]), iv)] + Decrypt(unblock, xor, cs[0], cs[1..])
  }

  /** The block that is chained into position i: the IV for the first
      block, the previous ciphertext block after that. */
  function Previous<W(!new)>(iv: W, cs: seq<W>, i: nat): W
    requires i <= |cs|
  {
    if i == 0 then iv else cs[i - 1]
  }

  /** The standard's equations for encryption: C_i = CIPH(P_i xor C_{i-1})
      with C_{-1} the IV. */
  lemma {:induction false} EncryptAt<W(!new)>(block: W -> W, xor: (W, W) -> W, iv: W, ps: seq<W>, i: nat)
    requires i < |ps|
    ensures Encrypt(block, xor, iv, ps)[i] == block(xor(ps[i], Previous(iv, Encrypt(block, xor, iv, ps), i)))
    decreases i
  {
    if i > 0 {
      var c := block(xor(ps[0], iv));
      var rest := Encrypt(block, xor, c, ps[1..]);
      assert Encrypt(block, xor, iv, ps) == [c] + rest;
      EncryptAt(block, xor, c, ps[1..], i - 1);
    }
  }

  /** The standard's equations for decryption: P_i = CIPH^-1(C_i) xor C_{i-1}
      with C_{-1} the IV. */
  lemma {:induction false} DecryptAt<W(!new)>(unblock: W -> W, xor: (W, W) -> W, iv: W, cs: seq<W>, i: nat)
    requires i < |cs|
    ensures Decrypt(unblock, xor, iv, cs)[i] == xor(unblock(cs[i]), Previous(iv, cs, i))
    decreases i
  {
    if i > 0 {
      var rest := Decrypt(unblock, xor, cs[0], cs[1..]);
      assert Decrypt(unblock, xor, iv, cs) == [xor(unblock(cs[0]), iv)] + rest;
      DecryptAt(unblock, xor, cs[0], cs[1..], i - 1);
    }
  }

  /** With an inverse block function and a combining operation that undoes
      itself, decryption undoes encryption. */
  lemma {:induction false} DecryptEncrypt<W(!new)>(block: W -> W, unblock: W -> W, xor: (W, W) -> W, iv: W, ps: seq<W>)
    requires forall x :: unblock(block(x)) == x
    requires forall a, b :: xor(xor(a, b), b) == a
    ensures Decrypt(unblock, xor, iv, Encrypt(block, xor, iv, ps)) == ps
    decreases |ps|
  {
    if |ps| > 0 {
      var c := block(xor(ps[0], iv));
      var cs := Encrypt(block, xor, iv, ps);
      assert cs == [c] + Encrypt(block, xor, c, ps[1..]);
      assert cs[0] == c && cs[1..] == Encrypt(block, xor, c, ps[1..]);
      assert unblock(c) == xor(ps[0], iv);
      assert Decrypt(unblock, xor, iv, cs) == [ps[0]] + Decrypt(unblock, xor, c, cs[1..]);
      DecryptEncrypt(block, unblock, xor, c, ps[1..]);
      assert ps == [ps[0]] + ps[1..];
    }
  }

  /** With an inverse block function and a combining operation that undoes
      itself, encryption undoes decryption. */
  lemma {:induction false} EncryptDecrypt<W(!new)>(block: W -> W, unblock: W -> W, xor: (W, W) -> W, iv: W, cs: seq<W>)
    requires forall x :: block(unblock(x)) == x
    requires forall a, b :: xor(xor(a, b), b) == a
    ensures Encrypt(block, xor, iv, Decrypt(unblock, xor, iv, cs)) == cs
    decreases |cs|
  {
    if |cs| > 0 {
      var p := xor(unblock(cs[0]), iv);
      var ps := Decrypt(unblock, xor, iv, cs);
      assert ps == [p] + Decrypt(unblock, xor, cs[0], cs[1..]);
      assert ps[0] == p && ps[1..] == Decrypt(unblock, xor, cs[0], cs[1..]);
      assert block(xor(p, iv)) == cs[0];
      assert Encrypt(block, xor, iv, ps) == [cs[0]] + Encrypt(block, xor, cs[0], ps[1..]);
      EncryptDecrypt(block, unblock, xor, cs[0], cs[1..]);
      assert cs == [cs[0]] + cs[1..];
    }
  }

  /** Taking a prefix commutes with putting an element in front. */
  lemma ConsPrefix<T>(x: T, s: seq<T>, n: nat)
    requires n <= |s|
    ensures ([x] + s)[..n + 1] == [x] + s[..n]
  {
  }

  /** Encryption is streaming: the first n ciphertext blocks depend only on
      the first n plaintext blocks. */
  lemma {:induction false} EncryptPrefix<W(!new)>(block: W -> W, xor: (W, W) -> W, iv: W, ps: seq<W>, n: nat)
    requires n <= |ps|
    ensures Encrypt(block, xor, iv, ps[..n]) == Encrypt(block, xor, iv, ps)[..n]
    decreases n
  {
    if n > 0 {
      var c := block(xor(ps[0], iv));
      var rest := Encrypt(block, xor, c, ps[1..]);
      assert Encrypt(block, xor, iv, ps) == [c] + rest;
      assert ps[..n][0] == ps[0] && ps[..n][1..] == ps[1..][..n - 1];
      assert Encrypt(block, xor, iv, ps[..n]) == [c] + Encrypt(block, xor, c, ps[1..][..n - 1]);
      EncryptPrefix(block, xor, c, ps[1..], n - 1);
      ConsPrefix(c, rest, n - 1);
    }
  }

  /** Decryption is streaming too: the first n plaintext blocks depend only
      on the first n ciphertext blocks. */
  lemma {:induction false} DecryptPrefix<W(!new)>(unblock: W -> W, xor: (W, W) -> W, iv: W, cs: seq<W>, n: nat)
    requires n <= |cs|
    ensures Decrypt(unblock, xor, iv, cs[..n]) == Decrypt(unblock, xor, iv, cs)[..n]
    decreases n
  {
    if n > 0 {
      var p := xor(unblock(cs[0]), iv);
      var rest := Decrypt(unblock, xor, cs[0], cs[1..]);
      assert Decrypt(unblock, xor, iv, cs) == [p] + rest;
      assert cs[..n][0] == cs[0] && cs[..n][1..] == cs[1..][..n - 1];
      assert Decrypt(unblock, xor, iv, cs[..n]) == [p] + Decrypt(unblock, xor, cs[0], cs[1..][..n - 1]);
      DecryptPrefix(unblock, xor, cs[0], cs[1..], n - 1);
      ConsPrefix(p, rest, n - 1);
    }
  }
}

=== FILE: chain.dfy ===
/** The block chaining of the Merkle-Damgard hash functions MD4
    (md4.cpp:29-132), SHA-256 (sha2.cpp:41-99) and SM3 (sm3.cpp:26-112):
    a chaining value starts from an initial value and every 64-element
    block of the padded message updates it through a compression function.
    The chaining value type, the element type and the compression function
    are parameters. */
module Chain {

  /** A compression function defined on every chaining value and every
      64-element block. */
  ghost predicate IsCompression<H(!new), T(!new)>(f: (H, seq<T>) --> H) {
    forall h: H, b: seq<T> | |b| == 64 :: f.requires(h, b)
  }

  /** The chaining value after the blocks of p, first block first. */
  function Fold<H(!new), T(!new)>(f: (H, seq<T>) --> H, h: H, p: seq<T>): H
    requires |p| % 64 == 0 && IsCompression(f)
    decreases |p|
  {
    if |p| == 0 then h else Fold(f, f(h, p[..64]), p[64..])
  }

  /** Hashing two block-aligned pieces one after the other is hashing their
      concatenation: the second piece starts from the first's result. */
  lemma {:induction false} FoldAppend<H(!new), T(!new)>(f: (H, seq<T>) --> H, h: H, p: seq<T>, q: seq<T>)
    requires |p| % 64 == 0 && |q| % 64 == 0 && IsCompression(f)
    ensures Fold(f, h, p + q) == Fold(f, Fold(f, h, p), q)
    decreases |p|
  {
    if |p| > 0 {
      assert (p + q)[..64] == p[..64];
      assert (p + q)[64..] == p[64..] + q;
      FoldAppend(f, f(h, p[..64]), p[64..], q);
    } else {
      assert p + q == q;
    }
  }

  /** The chaining equation: one more block is one more compression. */
  lemma FoldSnoc<H(!new), T(!new)>(f: (H, seq<T>) --> H, h: H, p: seq<T>, b: seq<T>)
    requires |p| % 64 == 0 && |b| == 64 && IsCompression(f)
    ensures Fold(f, h, p + b) == f(Fold(f, h, p), b)
  {
    FoldAppend(f, h, p, b);
    assert b[..64] == b && b[64..] == [];
  }

  /** The sources' block loop: the chaining value is updated with the block
      at offset, offset + 64, ... until the padded message is used up. */
  method FoldLoop<H(!new), T(!new)>(f: (H, seq<T>) --> H, h: H, p: seq<T>) returns (r: H)
    requires |p| % 64 == 0 && IsCompression(f)
    ensures r == Fold(f, h, p)
  {
    r := h;
    var offset := 0;
    while offset < |p|
      invariant 0 <= offset <= |p| && offset % 64 == 0
      invariant Fold(f, r, p[offset..]) == Fold(f, h, p)
    {
      LoopStep(f, p, offset, r);
      r := f(r, p[offset .. offset + 64]);
      offset := offset + 64;
    }
  }

  /** The rest of the message from offset is its first block, then the
      rest from offset + 64. */
  lemma LoopStep<H(!new), T(!new)>(f: (H, seq<T>) --> H, p: seq<T>, offset: nat, r: H)
    requires |p| % 64 == 0 && IsCompression(f)
    requires offset % 64 == 0 && offset < |p|
    ensures offset + 64 <= |p| && |p[offset..]| % 64 == 0 && |p[offset + 64..]| % 64 == 0
    ensures Fold(f, r, p[offset..]) == Fold(f, f(r, p[offset .. offset + 64]), p[offset + 64..])
  {
    var rest := p[offset..];
    assert rest[..64] == p[offset .. offset + 64] && rest[64..] == p[offset + 64..];
  }
}

=== FILE: des.dfy ===
/** The DES block function as des.cpp computes it: the hand-optimised initial
    permutation and expansion, the merged S-box and P table, the key schedule
    and the 16-round Feistel network.

    Words follow the source's convention: a 64-bit word holds eight bytes,
    each bit-reversed, byte i at bits 8i..8i+7, so FIPS bit k is bit k-1. */
module Des {
  import opened DesPermutation
  import opened DesTables

  // ---------------------------------------------------------------------
  // Initial permutation (des.cpp:97-111, 128-156)

  /** reverse32: the bit order of a 32-bit word reversed. */
  function Reverse32(n: bv32): bv32 {
    var n := ((n >> 1) & 0x55555555) | ((n << 1) & 0xaaaaaaaa);
    var n := ((n >> 2) & 0x33333333) | ((n << 2) & 0xcccccccc);
    var n := ((n >> 4) & 0x0f0f0f0f) | ((n << 4) & 0xf0f0f0f0);
    var n := ((n >> 8) & 0x00ff00ff) | ((n << 8) & 0xff00ff00);
    ((n >> 16) & 0x0000ffff) | ((n << 16) & 0xffff0000)
  }

  /** reverse32_4: the bit order reversed within each 4-bit group. */
  function Reverse32By4(n: bv32): bv32 {
    var n := ((n >> 1) & 0x55555555) | ((n << 1) & 0xaaaaaaaa);
    ((n >> 2) & 0x33333333) | ((n << 2) & 0xcccccccc)
  }

  /** inital_permutation: Outerbridge's sequence of masked swaps. The
      conversion of the 64-bit input to a 32-bit argument keeps its low half. */
  function InitialPermutation(input: bv64): bv64 {
    var left := Reverse32((input & 0xffff_ffff) as bv32);
    var right := Reverse32((input >> 32) as bv32);
    var work := ((right >> 4) ^ left) & 0x0f0f0f0f;
    var left := left ^ work;
    var right := right ^ (work << 4);
    var work := ((left >> 16) ^ right) & 0x0000ffff;
    var right := right ^ work;
    var left := left ^ (work << 16);
    var work := ((right >> 2) ^ left) & 0x33333333;
    var left := left ^ work;
    var right := right ^ (work << 2);
    var work := ((left >> 8) ^ right) & 0x00ff00ff;
    var right := right ^ work;
    var left := left ^ (work << 8);
    var work := ((right >> 1) ^ left) & 0x55555555;
    var left := left ^ work;
    var right := right ^ (work << 1);
    ((Reverse32By4(left) as bv64) << 32) | (Reverse32By4(right) as bv64)
  }

  /** The optimised initial permutation is the table permutation IP. */
  lemma InitialPermutationIsTable(x: bv64)
    ensures InitialPermutation(x) == Permute(x, IP)
  {
    IPIsWord(x);
    InitialPermutationIsWord(x);
  }

  lemma InitialPermutationIsWord(x: bv64)
    ensures InitialPermutation(x) == IPWord(x)
  {
  }

  /** IP undoes the final permutation IP1. */
  lemma IpUndoesIp1(y: bv64)
    ensures InitialPermutation(Permute(y, IP1)) == y
  {
    IP1IsWord(y);
    InitialPermutationIsWord(IP1Word(y));
    WordsInverse(y);
  }

  /** IP1 undoes the initial permutation. */
  lemma Ip1UndoesIp(x: bv64)
    ensures Permute(InitialPermutation(x), IP1) == x
  {
    InitialPermutationIsWord(x);
    IP1IsWord(IPWord(x));
    WordsInverse2(x);
  }

  lemma WordsInverse(y: bv64)
    ensures IPWord(IP1Word(y)) == y
  {
  }

  lemma WordsInverse2(x: bv64)
    ensures IP1Word(IPWord(x)) == x
  {
  }

  // ---------------------------------------------------------------------
  // Expansion (des.cpp:179-201)

  /** expansion: six-bit groups of the half word copied into place. */
  function Expansion(input: bv64): bv64 {
    var res: bv64 := 0;
    var res := res | ((input & 0x1F) << 1) | ((input & (1 << 31)) >> 31);
    var res := res | ((input & (0x3F << 3)) << 3);
    var res := res | ((input & (0x3F << 7)) << 5);
    var res := res | ((input & (0x3F << 11)) << 7);
    var res := res | ((input & (0x3F << 15)) << 9);
    var res := res | ((input & (0x3F << 19)) << 11);
    var res := res | ((input & (0x3F << 23)) << 13);
    res | ((input & (0x1F << 27)) << 15) | ((input & 1) << 47)
  }

  /** The optimised expansion is the table permutation E, for every word. */
  lemma ExpansionIsTable(x: bv64)
    ensures Expansion(x) == Permute(x, E)
  {
    ESelects(x);
    ExpansionFromBits(x, Permute(x, E));
  }

  /** A word that holds, at each bit j below 48, the input bit that E[j]
      names, and nothing above, is the optimised expansion. */
  lemma ExpansionFromBits(x: bv64, t: bv64)
    requires (t >> 0) & 1 == (x >> 31) & 1
    requires (t >> 1) & 1 == (x >> 0) & 1
    requires (t >> 2) & 1 == (x >> 1) & 1
    requires (t >> 3) & 1 == (x >> 2) & 1
    requires (t >> 4) & 1 == (x >> 3) & 1
    requires (t >> 5) & 1 == (x >> 4) & 1
    requires (t >> 6) & 1 == (x >> 3) & 1
    requires (t >> 7) & 1 == (x >> 4) & 1
    requires (t >> 8) & 1 == (x >> 5) & 1
    requires (t >> 9) & 1 == (x >> 6) & 1
    requires (t >> 10) & 1 == (x >> 7) & 1
    requires (t >> 11) & 1 == (x >> 8) & 1
    requires (t >> 12) & 1 == (x >> 7) & 1
    requires (t >> 13) & 1 == (x >> 8) & 1
    requires (t >> 14) & 1 == (x >> 9) & 1
    requires (t >> 15) & 1 == (x >> 10) & 1
    requires (t >> 16) & 1 == (x >> 11) & 1
    requires (t >> 17) & 1 == (x >> 12) & 1
    requires (t >> 18) & 1 == (x >> 11) & 1
    requires (t >> 19) & 1 == (x >> 12) & 1
    requires (t >> 20) & 1 == (x >> 13) & 1
    requires (t >> 21) & 1 == (x >> 14) & 1
    requires (t >> 22) & 1 == (x >> 15) & 1
    requires (t >> 23) & 1 == (x >> 16) & 1
    requires (t >> 24) & 1 == (x >> 15) & 1
    requires (t >> 25) & 1 == (x >> 16) & 1
    requires (t >> 26) & 1 == (x >> 17) & 1
    requires (t >> 27) & 1 == (x >> 18) & 1
    requires (t >> 28) & 1 == (x >> 19) & 1
    requires (t >> 29) & 1 == (x >> 20) & 1
    requires (t >> 30) & 1 == (x >> 19) & 1
    requires (t >> 31) & 1 == (x >> 20) & 1
    requires (t >> 32) & 1 == (x >> 21) & 1
    requires (t >> 33) & 1 == (x >> 22) & 1
    requires (t >> 34) & 1 == (x >> 23) & 1
    requires (t >> 35) & 1 == (x >> 24) & 1
    requires (t >> 36) & 1 == (x >> 23) & 1
    requires (t >> 37) & 1 == (x >> 24) & 1
    requires (t >> 38) & 1 == (x >> 25) & 1
    requires (t >> 39) & 1 == (x >> 26) & 1
    requires (t >> 40) & 1 == (x >> 27) & 1
    requires (t >> 41) & 1 == (x >> 28) & 1
    requires (t >> 42) & 1 == (x >> 27) & 1
    requires (t >> 43) & 1 == (x >> 28) & 1
    requires (t >> 44) & 1 == (x >> 29) & 1
    requires (t >> 45) & 1 == (x >> 30) & 1
    requires (t >> 46) & 1 == (x >> 31) & 1
    requires (t >> 47) & 1 == (x >> 0) & 1
    requires t >> 48 == 0
    ensures Expansion(x) == t
  {
    ExpansionBits0(x); ExpansionBits1(x); ExpansionBits2(x);
    ExpansionBits3(x); ExpansionBits4(x); ExpansionBits5(x);
    BitsEqual(Expansion(x), t);
  }

  // Output bit j of the optimised expansion, eight at a time.

  lemma ExpansionBits0(x: bv64)
    ensures (Expansion(x) >> 0) & 1 == (x >> 31) & 1
    ensures (Expansion(x) >> 1) & 1 == (x >> 0) & 1
    ensures (Expansion(x) >> 2) & 1 == (x >> 1) & 1
    ensures (Expansion(x) >> 3) & 1 == (x >> 2) & 1
    ensures (Expansion(x) >> 4) & 1 == (x >> 3) & 1
    ensures (Expansion(x) >> 5) & 1 == (x >> 4) & 1
    ensures (Expansion(x) >> 6) & 1 == (x >> 3) & 1
    ensures (Expansion(x) >> 7) & 1 == (x >> 4) & 1
  {
  }

  lemma ExpansionBits1(x: bv64)
    ensures (Expansion(x) >> 8) & 1 == (x >> 5) & 1
    ensures (Expansion(x) >> 9) & 1 == (x >> 6) & 1
    ensures (Expansion(x) >> 10) & 1 == (x >> 7) & 1
    ensures (Expansion(x) >> 11) & 1 == (x >> 8) & 1
    ensures (Expansion(x) >> 12) & 1 == (x >> 7) & 1
    ensures (Expansion(x) >> 13) & 1 == (x >> 8) & 1
    ensures (Expansion(x) >> 14) & 1 == (x >> 9) & 1
    ensures (Expansion(x) >> 15) & 1 == (x >> 10) & 1
  {
  }

  lemma ExpansionBits2(x: bv64)
    ensures (Expansion(x) >> 16) & 1 == (x >> 11) & 1
    ensures (Expansion(x) >> 17) & 1 == (x >> 12) & 1
    ensures (Expansion(x) >> 18) & 1 == (x >> 11) & 1
    ensures (Expansion(x) >> 19) & 1 == (x >> 12) & 1
    ensures (Expansion(x) >> 20) & 1 == (x >> 13) & 1
    ensures (Expansion(x) >> 21) & 1 == (x >> 14) & 1
    ensures (Expansion(x) >> 22) & 1 == (x >> 15) & 1
    ensures (Expansion(x) >> 23) & 1 == (x >> 16) & 1
  {
  }

  lemma ExpansionBits3(x: bv64)
    ensures (Expansion(x) >> 24) & 1 == (x >> 15) & 1
    ensures (Expansion(x) >> 25) & 1 == (x >> 16) & 1
    ensures (Expansion(x) >> 26) & 1 == (x >> 17) & 1
    ensures (Expansion(x) >> 27) & 1 == (x >> 18) & 1
    ensures (Expansion(x) >> 28) & 1 == (x >> 19) & 1
    ensures (Expansion(x) >> 29) & 1 == (x >> 20) & 1
    ensures (Expansion(x) >> 30) & 1 == (x >> 19) & 1
    ensures (Expansion(x) >> 31) & 1 == (x >> 20) & 1
  {
  }

  lemma ExpansionBits4(x: bv64)
    ensures (Expansion(x) >> 32) & 1 == (x >> 21) & 1
    ensures (Expansion(x) >> 33) & 1 == (x >> 22) & 1
    ensures (Expansion(x) >> 34) & 1 == (x >> 23) & 1
    ensures (Expansion(x) >> 35) & 1 == (x >> 24) & 1
    ensures (Expansion(x) >> 36) & 1 == (x >> 23) & 1
    ensures (Expansion(x) >> 37) & 1 == (x >> 24) & 1
    ensures (Expansion(x) >> 38) & 1 == (x >> 25) & 1
    ensures (Expansion(x) >> 39) & 1 == (x >> 26) & 1
  {
  }

  lemma ExpansionBits5(x: bv64)
    ensures (Expansion(x) >> 40) & 1 == (x >> 27) & 1
    ensures (Expansion(x) >> 41) & 1 == (x >> 28) & 1
    ensures (Expansion(x) >> 42) & 1 == (x >> 27) & 1
    ensures (Expansion(x) >> 43) & 1 == (x >> 28) & 1
    ensures (Expansion(x) >> 44) & 1 == (x >> 29) & 1
    ensures (Expansion(x) >> 45) & 1 == (x >> 30) & 1
    ensures (Expansion(x) >> 46) & 1 == (x >> 31) & 1
    ensures (Expansion(x) >> 47) & 1 == (x >> 0) & 1
    ensures Expansion(x) >> 48 == 0
  {
  }

  // ---------------------------------------------------------------------
  // S-boxes merged with P (des.cpp:159-177, 296-303)

  /** The S-box index of a 6-bit window. Window bit k is FIPS input bit k+1,
      the row is 2*b1 + b6 and the column is 8*b2 + 4*b3 + 2*b4 + b5. */
  function SboxIndex(window: bv64): (index: bv64)
    requires window < 64
    ensures index < 64
    ensures (index >> 5) & 1 == window & 1
    ensures (index >> 4) & 1 == (window >> 5) & 1
    ensures (index >> 3) & 1 == (window >> 1) & 1
    ensures (index >> 2) & 1 == (window >> 2) & 1
    ensures (index >> 1) & 1 == (window >> 3) & 1
    ensures index & 1 == (window >> 4) & 1
  {
    var row := ((window & 1) << 1) | (window >> 5);
    var col := ((window & 0x2) << 2) | (window & 0x4) | ((window & 0x8) >> 2) | ((window & 0x10) >> 4);
    (row << 4) | col
  }

  /** An S-box output, most significant bit first in FIPS order, turned into
      the least-significant-first convention: bit k moves to bit 3-k. */
  function Reverse4(v: bv64): (r: bv64)
    requires v < 16
    ensures r < 16
    ensures r & 1 == (v >> 3) & 1
    ensures (r >> 1) & 1 == (v >> 2) & 1
    ensures (r >> 2) & 1 == (v >> 1) & 1
    ensures (r >> 3) & 1 == v & 1
  {
    ((v & 0x1) << 3) | ((v & 0x2) << 1) | ((v & 0x4) >> 1) | ((v & 0x8) >> 3)
  }

  /** Entry `index` of S-box `box`. */
  function SboxLookup(box: nat, index: bv64): (r: bv64)
    requires box < 8 && index < 64
    ensures r < 16
  {
    SShape();
    S[box][index as int]
  }

  /** A 4-bit value moved to bits 4*box..4*box+3. */
  function Place(v: bv64, box: nat): (r: bv64)
    requires v < 16 && box < 8
    ensures r >> 32 == 0
  {
    v << (4 * box) as bv64
  }

  /** The S-box output of box `box` for a window, at bits 4*box..4*box+3. */
  function SboxNibble(box: nat, window: bv64): (r: bv64)
    requires box < 8 && window < 64
    ensures r >> 32 == 0
  {
    Place(Reverse4(SboxLookup(box, SboxIndex(window))), box)
  }

  /** s_preprocessed[box][window]: the placed S-box output sent through P. */
  function SPreprocessed(box: nat, window: bv64): (r: bv64)
    requires box < 8 && window < 64
    ensures r >> 32 == 0
  {
    PermuteHigh(SboxNibble(box, window), P, 32);
    Permute(SboxNibble(box, window), P)
  }

  /** The 6-bit window of box `box` in the 48-bit expanded word. */
  function Window(xored: bv64, box: nat): (w: bv64)
    requires box < 8
    ensures w < 64
  {
    (xored >> (6 * box) as bv64) & 63
  }

  /** The merged table entry of box `box` for an expanded, key-mixed word. */
  function Entry(xored: bv64, box: nat): (e: bv64)
    requires box < 8
    ensures e >> 32 == 0
  {
    SPreprocessed(box, Window(xored, box))
  }

  /** The placed S-box output of box `box`, before P. */
  function Nibble(xored: bv64, box: nat): (n: bv64)
    requires box < 8
    ensures n >> 32 == 0
  {
    SboxNibble(box, Window(xored, box))
  }

  /** The XOR of the merged table entries of boxes `box` to 7: the source's
      box loop accumulates the same eight entries. */
  function SboxPFrom(xored: bv64, box: nat): (r: bv64)
    requires box <= 8
    ensures r >> 32 == 0
    decreases 8 - box
  {
    if box == 8 then 0 else Entry(xored, box) ^ SboxPFrom(xored, box + 1)
  }

  /** The S-box outputs of boxes `box` to 7 side by side, box b at bits
      4b..4b+3, before P. */
  function OutputsFrom(xored: bv64, box: nat): (r: bv64)
    requires box <= 8
    ensures r >> 32 == 0
    decreases 8 - box
  {
    if box == 8 then 0 else Nibble(xored, box) ^ OutputsFrom(xored, box + 1)
  }

  /** The S-box and P stage of one round. */
  function SboxP(xored: bv64): (r: bv64)
    ensures r >> 32 == 0
  {
    SboxPFrom(xored, 0)
  }

  /** The Feistel function: expansion, key mixing, S-boxes and P. */
  function F(right: bv64, subkey: bv64): (r: bv64)
    ensures r >> 32 == 0
  {
    SboxP(Expansion(right) ^ subkey)
  }

  /** The merged table computes P applied to the eight S-box outputs, each
      chosen by the row and column that SboxIndex describes. */
  lemma SboxPIsP(xored: bv64)
    ensures SboxP(xored) == Permute(OutputsFrom(xored, 0), P)
  {
    SboxPFromIsP(xored, 0);
    PIsWord(OutputsFrom(xored, 0));
  }

  lemma {:induction false} SboxPFromIsP(xored: bv64, box: nat)
    requires box <= 8
    ensures SboxPFrom(xored, box) == PWord(OutputsFrom(xored, box))
    decreases 8 - box
  {
    if box < 8 {
      SboxPFromIsP(xored, box + 1);
      EntryIsWord(xored, box);
      PWordXor(Nibble(xored, box), OutputsFrom(xored, box + 1), Entry(xored, box), SboxPFrom(xored, box + 1));
    }
  }

  /** One merged table entry is P, spelled out, of the placed S-box output. */
  lemma EntryIsWord(xored: bv64, box: nat)
    requires box < 8
    ensures Entry(xored, box) == PWord(Nibble(xored, box))
  {
    PIsWord(Nibble(xored, box));
  }

  /** P, spelled out bit by bit, distributes over XOR. */
  lemma PWordXor(a: bv64, b: bv64, ea: bv64, eb: bv64)
    requires ea == PWord(a) && eb == PWord(b)
    ensures PWord(a ^ b) == ea ^ eb
  {
  }
}

=== FILE: des_cipher.dfy ===
/** DES in CBC mode as des_cbc (des.cpp:203-333) computes it: byte loading
    with bit reversal, the key schedule, the 16-round Feistel network, the
    block function and the CBC chaining of section 6.2 of NIST SP 800-38A.

    The key schedule takes its PC-1 table as a parameter so that every
    property below holds both for the table as the source writes it (`PC1`)
    and for the table of FIPS 46-3 (`Pc1Fips`). */
module DesCipher {
  import opened DesPermutation
  import opened DesTables
  import opened Des
  import Cbc

  // ---------------------------------------------------------------------
  // Key schedule (des.cpp:123, 226-256)

  /** A 28-bit half rotated right by n positions; m is 28 - n, passed
      separately so that both shift amounts are literals where it is used. */
  function RotR28(h: bv64, n: bv64, m: bv64): (r: bv64)
    requires h >> 28 == 0 && n <= 28 && n + m == 28
    ensures r >> 28 == 0
  {
    ((h >> n) | (h << m)) & 0xFFF_FFFF
  }

  /** rotate: a right rotation by one position of a 28-bit half. */
  function Rotate(num: bv64): bv64 {
    (num >> 1) | ((num & 1) << 27)
  }

  /** Rounds 1, 2, 9 and 16 (0, 1, 8 and 15 counted from zero) rotate each
      half once; every other round rotates twice. */
  predicate RotatesOnce(round: nat) {
    round == 0 || round == 1 || round == 8 || round == 15
  }

  /** The rotations of one round: the source rotates once, then once more
      unless the round is one of 1, 2, 9 and 16. */
  function RoundRotate(x: bv64, round: nat): bv64 {
    var x := Rotate(x);
    if RotatesOnce(round) then x else Rotate(x)
  }

  /** A 28-bit half after the rotations of the first `rounds` rounds. */
  function HalfAfter(h: bv64, rounds: nat): bv64 {
    if rounds == 0 then h else RoundRotate(HalfAfter(h, rounds - 1), rounds - 1)
  }

  // The rotations of each round, counted from 1, applied to a half that the
  // earlier rounds have already rotated.

  lemma RoundRotation1(h: bv64)
    requires h >> 28 == 0
    ensures RoundRotate(h, 0) == RotR28(h, 1, 27)
  {
  }

  lemma RoundRotation2(h: bv64)
    requires h >> 28 == 0
    ensures RoundRotate(RotR28(h, 1, 27), 1) == RotR28(h, 2, 26)
  {
  }

  lemma RoundRotation3(h: bv64)
    requires h >> 28 == 0
    ensures RoundRotate(RotR28(h, 2, 26), 2) == RotR28(h, 4, 24)
  {
  }

  lemma RoundRotation4(h: bv64)
    requires h >> 28 == 0
    ensures RoundRotate(RotR28(h, 4, 24), 3) == RotR28(h, 6, 22)
  {
  }

  lemma RoundRotation5(h: bv64)
    requires h >> 28 == 0
    ensures RoundRotate(RotR28(h, 6, 22), 4) == RotR28(h, 8, 20)
  {
  }

  lemma RoundRotation6(h: bv64)
    requires h >> 28 == 0
    ensures RoundRotate(RotR28(h, 8, 20), 5) == RotR28(h, 10, 18)
  {
  }

  lemma RoundRotation7(h: bv64)
    requires h >> 28 == 0
    ensures RoundRotate(RotR28(h, 10, 18), 6) == RotR28(h, 12, 16)
  {
  }

  lemma RoundRotation8(h: bv64)
    requires h >> 28 == 0
    ensures RoundRotate(RotR28(h, 12, 16), 7) == RotR28(h, 14, 14)
  {
  }

  lemma RoundRotation9(h: bv64)
    requires h >> 28 == 0
    ensures RoundRotate(RotR28(h, 14, 14), 8) == RotR28(h, 15, 13)
  {
  }

  lemma RoundRotation10(h: bv64)
    requires h >> 28 == 0
    ensures RoundRotate(RotR28(h, 15, 13), 9) == RotR28(h, 17, 11)
  {
  }

  lemma RoundRotation11(h: bv64)
    requires h >> 28 == 0
    ensures RoundRotate(RotR28(h, 17, 11), 10) == RotR28(h, 19, 9)
  {
  }

  lemma RoundRotation12(h: bv64)
    requires h >> 28 == 0
    ensures RoundRotate(RotR28(h, 19, 9), 11) == RotR28(h, 21, 7)
  {
  }

  lemma RoundRotation13(h: bv64)
    requires h >> 28 == 0
    ensures RoundRotate(RotR28(h, 21, 7), 12) == RotR28(h, 23, 5)
  {
  }

  lemma RoundRotation14(h: bv64)
    requires h >> 28 == 0
    ensures RoundRotate(RotR28(h, 23, 5), 13) == RotR28(h, 25, 3)
  {
  }

  lemma RoundRotation15(h: bv64)
    requires h >> 28 == 0
    ensures RoundRotate(RotR28(h, 25, 3), 14) == RotR28(h, 27, 1)
  {
  }

  lemma RoundRotation16(h: bv64)
    requires h >> 28 == 0
    ensures RoundRotate(RotR28(h, 27, 1), 15) == h
  {
  }

  /** The halves after rounds 1 to 4. */
  lemma HalfRotations1(h: bv64)
    requires h >> 28 == 0
    ensures HalfAfter(h, 1) == RotR28(h, 1, 27)
    ensures HalfAfter(h, 2) == RotR28(h, 2, 26)
    ensures HalfAfter(h, 3) == RotR28(h, 4, 24)
    ensures HalfAfter(h, 4) == RotR28(h, 6, 22)
  {
    assert HalfAfter(h, 0) == h;
    RoundRotation1(h);
    assert HalfAfter(h, 1) == RotR28(h, 1, 27);
    RoundRotation2(h);
    assert HalfAfter(h, 2) == RotR28(h, 2, 26);
    RoundRotation3(h);
    assert HalfAfter(h, 3) == RotR28(h, 4, 24);
    RoundRotation4(h);
  }

  /** The halves after rounds 5 to 8. */
  lemma HalfRotations2(h: bv64)
    requires h >> 28 == 0
    requires HalfAfter(h, 4) == RotR28(h, 6, 22)
    ensures HalfAfter(h, 5) == RotR28(h, 8, 20)
    ensures HalfAfter(h, 6) == RotR28(h, 10, 18)
    ensures HalfAfter(h, 7) == RotR28(h, 12, 16)
    ensures HalfAfter(h, 8) == RotR28(h, 14, 14)
  {
    RoundRotation5(h);
    assert HalfAfter(h, 5) == RotR28(h, 8, 20);
    RoundRotation6(h);
    assert HalfAfter(h, 6) == RotR28(h, 10, 18);
    RoundRotation7(h);
    assert HalfAfter(h, 7) == RotR28(h, 12, 16);
    RoundRotation8(h);
  }

  /** The halves after rounds 9 to 12. */
  lemma HalfRotations3(h: bv64)
    requires h >> 28 == 0
    requires HalfAfter(h, 8) == RotR28(h, 14, 14)
    ensures HalfAfter(h, 9) == RotR28(h, 15, 13)
    ensures HalfAfter(h, 10) == RotR28(h, 17, 11)
    ensures HalfAfter(h, 11) == RotR28(h, 19, 9)
    ensures HalfAfter(h, 12) == RotR28(h, 21, 7)
  {
    RoundRotation9(h);
    assert HalfAfter(h, 9) == RotR28(h, 15, 13);
    RoundRotation10(h);
    assert HalfAfter(h, 10) == RotR28(h, 17, 11);
    RoundRotation11(h);
    assert HalfAfter(h, 11) == RotR28(h, 19, 9);
    RoundRotation12(h);
  }

  /** The halves after rounds 13 to 16. */
  lemma HalfRotations4(h: bv64)
    requires h >> 28 == 0
    requires HalfAfter(h, 12) == RotR28(h, 21, 7)
    ensures HalfAfter(h, 13) == RotR28(h, 23, 5)
    ensures HalfAfter(h, 14) == RotR28(h, 25, 3)
    ensures HalfAfter(h, 15) == RotR28(h, 27, 1)
    ensures HalfAfter(h, 16) == h
  {
    RoundRotation13(h);
    assert HalfAfter(h, 13) == RotR28(h, 23, 5);
    RoundRotation14(h);
    assert HalfAfter(h, 14) == RotR28(h, 25, 3);
    RoundRotation15(h);
    assert HalfAfter(h, 15) == RotR28(h, 27, 1);
    RoundRotation16(h);
  }

  /** After round k each half is rotated right by the cumulative shift count
      of FIPS 46-3 for that round: 1, 2, 4, 6, 8, 10, 12, 14, 15, 17, 19, 21,
      23, 25, 27 and finally 28, which restores it. */
  lemma HalfRotations(h: bv64)
    requires h >> 28 == 0
    ensures HalfAfter(h, 1) == RotR28(h, 1, 27)
    ensures HalfAfter(h, 2) == RotR28(h, 2, 26)
    ensures HalfAfter(h, 3) == RotR28(h, 4, 24)
    ensures HalfAfter(h, 4) == RotR28(h, 6, 22)
    ensures HalfAfter(h, 5) == RotR28(h, 8, 20)
    ensures HalfAfter(h, 6) == RotR28(h, 10, 18)
    ensures HalfAfter(h, 7) == RotR28(h, 12, 16)
    ensures HalfAfter(h, 8) == RotR28(h, 14, 14)
    ensures HalfAfter(h, 9) == RotR28(h, 15, 13)
    ensures HalfAfter(h, 10) == RotR28(h, 17, 11)
    ensures HalfAfter(h, 11) == RotR28(h, 19, 9)
    ensures HalfAfter(h, 12) == RotR28(h, 21, 7)
    ensures HalfAfter(h, 13) == RotR28(h, 23, 5)
    ensures HalfAfter(h, 14) == RotR28(h, 25, 3)
    ensures HalfAfter(h, 15) == RotR28(h, 27, 1)
    ensures HalfAfter(h, 16) == h
  {
    HalfRotations1(h);
    HalfRotations2(h);
    HalfRotations3(h);
    HalfRotations4(h);
  }

  /** Both halves are back at their post-PC-1 value after round 16. */
  lemma HalvesReturn(h: bv64)
    requires h >> 28 == 0
    ensures HalfAfter(h, 16) == h
  {
    HalfRotations(h);
  }

  /** current_key: the two halves joined, left half on top. */
  function JoinHalves(left: bv64, right: bv64): bv64 {
    (left << 28) | right
  }

  /** The subkey of round `round` (counted from zero) for the PC-1 output cd. */
  function RoundKey(cd: bv64, round: nat): bv64 {
    Permute(JoinHalves(HalfAfter(cd >> 28, round + 1), HalfAfter(cd & 0xFFF_FFFF, round + 1)), PC2)
  }

  /** The subkeys in the order the rounds use them: the schedule's own order
      when encrypting, reversed when decrypting. */
  function Subkeys(cd: bv64, encrypt: bool): (ks: seq<bv64>)
    ensures |ks| == 16
  {
    seq(16, i requires 0 <= i < 16 => RoundKey(cd, if encrypt then i else 15 - i))
  }

  /** s in reverse order. */
  function Reversed<T>(s: seq<T>): (r: seq<T>)
    ensures |r| == |s|
  {
    if |s| == 0 then [] else Reversed(s[1..]) + [s[0]]
  }

  /** Element i of the reversal is element |s| - 1 - i of s. */
  lemma {:induction false} ReversedAt<T>(s: seq<T>, i: nat, j: nat)
    requires i < |s| && j == |s| - 1 - i
    ensures Reversed(s)[i] == s[j]
    decreases |s|
  {
    if i < |s| - 1 {
      ReversedAt(s[1..], i, j - 1);
    }
  }

  /** Reversing twice restores the sequence. */
  lemma ReversedTwice<T>(s: seq<T>)
    ensures Reversed(Reversed(s)) == s
  {
    forall i | 0 <= i < |s|
      ensures Reversed(Reversed(s))[i] == s[i]
    {
      ReversedAt(Reversed(s), i, |s| - 1 - i);
      ReversedAt(s, |s| - 1 - i, i);
    }
  }

  /** The PC-1 output of a 56-entry table has no bit at or above 56. */
  lemma Pc1High(key: bv64, pc1: seq<Pos>)
    requires |pc1| == 56
    ensures Permute(key, pc1) >> 56 == 0
  {
    PermuteHigh(key, pc1, 56);
  }

  /** The halves after round i give that round's subkey. */
  lemma RoundKeyStep(cd: bv64, c0: bv64, d0: bv64, i: nat, i1: nat, left: bv64, right: bv64)
    requires c0 == cd >> 28 && d0 == cd & 0xFFF_FFFF && i1 == i + 1
    requires left == HalfAfter(c0, i) && right == HalfAfter(d0, i)
    ensures RoundRotate(left, i) == HalfAfter(c0, i1)
    ensures RoundRotate(right, i) == HalfAfter(d0, i1)
    ensures Permute(JoinHalves(RoundRotate(left, i), RoundRotate(right, i)), PC2) == RoundKey(cd, i)
  {
  }

  /** The source's key schedule loop: both halves rotate in place, and the
      PC-2 output of round i is stored at index i, or at 15 - i when
      decrypting. The source's array of sixteen subkeys is a sequence
      here, updated in place. */
  method KeySchedule(encrypt: bool, initKey: bv64, pc1: seq<Pos>) returns (subkeys: seq<bv64>)
    requires |pc1| == 56
    ensures subkeys == Subkeys(Permute(initKey, pc1), encrypt)
  {
    var afterPc1 := ApplyPermutation(initKey, pc1);
    var left := afterPc1 >> 28;
    var right := afterPc1 & 0xFFF_FFFF;
    ghost var c0, d0 := left, right;
    subkeys := seq(16, _ => 0);
    var i := 0;
    while i <= 15
      invariant 0 <= i <= 16 && |subkeys| == 16
      invariant left == HalfAfter(c0, i) && right == HalfAfter(d0, i)
      invariant Placed(subkeys, afterPc1, encrypt, i)
    {
      var afterPc2;
      left, right, afterPc2 := ScheduleRound(left, right, i, i + 1, afterPc1, c0, d0);
      subkeys := Store(subkeys, encrypt, i, i + 1, afterPc2, afterPc1);
      i := i + 1;
    }
    SubkeysFromRounds(afterPc1, encrypt, subkeys);
  }

  /** The subkeys of the first n rounds are in place: round k's at k, or at
      15 - k when decrypting. */
  ghost predicate Placed(ks: seq<bv64>, cd: bv64, encrypt: bool, n: nat)
    requires |ks| == 16 && n <= 16
  {
    && (encrypt ==> forall k :: 0 <= k < n ==> ks[k] == RoundKey(cd, k))
    && (!encrypt ==> forall k :: 0 <= k < n ==> ks[15 - k] == RoundKey(cd, k))
  }

  /** One round of the key schedule: rotate both halves and apply PC-2. */
  method ScheduleRound(left: bv64, right: bv64, i: nat, i1: nat, ghost cd: bv64, ghost c0: bv64, ghost d0: bv64)
    returns (left2: bv64, right2: bv64, subkey: bv64)
    requires c0 == cd >> 28 && d0 == cd & 0xFFF_FFFF && i1 == i + 1
    requires left == HalfAfter(c0, i) && right == HalfAfter(d0, i)
    ensures left2 == HalfAfter(c0, i1) && right2 == HalfAfter(d0, i1)
    ensures subkey == RoundKey(cd, i)
  {
    RoundKeyStep(cd, c0, d0, i, i1, left, right);
    left2 := RoundRotate(left, i);
    right2 := RoundRotate(right, i);
    subkey := ApplyPermutation(JoinHalves(left2, right2), PC2);
  }

  /** Store round i's subkey at i, or at 15 - i when decrypting. */
  function Store(ks: seq<bv64>, encrypt: bool, i: nat, i1: nat, subkey: bv64, ghost cd: bv64): (ks2: seq<bv64>)
    requires |ks| == 16 && i < 16 && i1 == i + 1 && subkey == RoundKey(cd, i)
    requires Placed(ks, cd, encrypt, i)
    ensures |ks2| == 16 && Placed(ks2, cd, encrypt, i1)
  {
    if encrypt then ks[i := subkey] else ks[15 - i := subkey]
  }

  /** Sixteen subkeys placed as the source's loop places them are the
      schedule in round order, or reversed when decrypting. */
  lemma SubkeysFromRounds(cd: bv64, encrypt: bool, ks: seq<bv64>)
    requires |ks| == 16 && Placed(ks, cd, encrypt, 16)
    ensures ks == Subkeys(cd, encrypt)
  {
    forall k | 0 <= k < 16
      ensures ks[k] == Subkeys(cd, encrypt)[k]
    {
      if !encrypt {
        assert ks[k] == ks[15 - (15 - k)];
      }
    }
  }

  /** Decryption uses the encryption schedule in reverse order, and
      reversing the decryption schedule gives back the encryption one. */
  lemma DecryptKeysReversed(cd: bv64)
    ensures forall i :: 0 <= i < 16 ==> Subkeys(cd, false)[i] == Subkeys(cd, true)[15 - i]
    ensures Reversed(Subkeys(cd, false)) == Subkeys(cd, true)
  {
    forall i | 0 <= i < 16
      ensures Reversed(Subkeys(cd, false))[i] == Subkeys(cd, true)[i]
    {
      ReversedAt(Subkeys(cd, false), i, 15 - i);
    }
  }

  // ---------------------------------------------------------------------
  // The Feistel network (des.cpp:278-308), for any round function f

  /** The two halves of a block between rounds. */
  datatype Halves = Halves(left: bv64, right: bv64)

  /** Both halves fit in 32 bits. */
  predicate Bounded(h: Halves) {
    h.left >> 32 == 0 && h.right >> 32 == 0
  }

  /** new_right: the old left half XORed with f of the old right half. */
  function Mix(f: (bv64, bv64) -> bv64, left: bv64, right: bv64, k: bv64): bv64 {
    left ^ f(right, k)
  }

  /** One round: the old right half becomes the left half. */
  function Round(f: (bv64, bv64) -> bv64, h: Halves, k: bv64): Halves {
    Halves(h.right, Mix(f, h.left, h.right, k))
  }

  /** One round per subkey, in order. */
  function Rounds(f: (bv64, bv64) -> bv64, h: Halves, ks: seq<bv64>): Halves
    decreases |ks|
  {
    if |ks| == 0 then h else Rounds(f, Round(f, h, ks[0]), ks[1..])
  }

  /** The halves exchanged. */
  function Swap(h: Halves): Halves {
    Halves(h.right, h.left)
  }

  /** A round applied to the exchanged output of the same round undoes it. */
  lemma RoundUndone(f: (bv64, bv64) -> bv64, h: Halves, k: bv64)
    ensures Round(f, Swap(Round(f, h, k)), k) == Swap(h)
  {
    MixTwice(f, h.left, h.right, k);
  }

  /** Mixing the same right half and subkey in twice cancels. */
  lemma MixTwice(f: (bv64, bv64) -> bv64, a: bv64, b: bv64, k: bv64)
    ensures Mix(f, Mix(f, a, b, k), b, k) == a
  {
    XorTwice(a, f(b, k));
  }

  /** XORing the same word twice cancels. */
  lemma XorTwice(a: bv64, b: bv64)
    ensures (a ^ b) ^ b == a
  {
  }

  /** The last round of a longer schedule runs after all the others. */
  lemma {:induction false} RoundsSnoc(f: (bv64, bv64) -> bv64, h: Halves, ks: seq<bv64>, k: bv64)
    ensures Rounds(f, h, ks + [k]) == Round(f, Rounds(f, h, ks), k)
    decreases |ks|
  {
    if |ks| > 0 {
      assert (ks + [k])[0] == ks[0];
      assert (ks + [k])[1..] == ks[1..] + [k];
      RoundsSnoc(f, Round(f, h, ks[0]), ks[1..], k);
    }
  }

  /** Running the rounds with the subkeys reversed on the exchanged output
      gives back the exchanged input: the Feistel network is invertible
      whatever the round function. */
  lemma {:induction false} RoundsUndone(f: (bv64, bv64) -> bv64, h: Halves, ks: seq<bv64>)
    ensures Rounds(f, Swap(Rounds(f, h, ks)), Reversed(ks)) == Swap(h)
    decreases |ks|
  {
    if |ks| > 0 {
      var h1 := Round(f, h, ks[0]);
      RoundsUndone(f, h1, ks[1..]);
      RoundsSnoc(f, Swap(Rounds(f, h1, ks[1..])), Reversed(ks[1..]), ks[0]);
      RoundUndone(f, h, ks[0]);
    }
  }

  /** With a round function whose results fit in 32 bits, the rounds keep
      both halves within 32 bits. */
  lemma {:induction false} RoundsBounded(f: (bv64, bv64) -> bv64, h: Halves, ks: seq<bv64>)
    requires forall a, b :: f(a, b) >> 32 == 0
    requires Bounded(h)
    ensures Bounded(Rounds(f, h, ks))
    decreases |ks|
  {
    if |ks| > 0 {
      RoundsBounded(f, Round(f, h, ks[0]), ks[1..]);
    }
  }

  // ---------------------------------------------------------------------
  // One block (des.cpp:278-313)

  /** The halves after the initial permutation: the low 32 bits on the left. */
  function Split(w: bv64): (h: Halves)
    ensures Bounded(h)
  {
    Halves(w & 0xFFFF_FFFF, w >> 32)
  }

  /** after_rounds: the final left half on top. */
  function Join(h: Halves): bv64 {
    (h.left << 32) | h.right
  }

  /** Splitting a joined block exchanges its halves. */
  lemma SplitJoin(h: Halves)
    requires Bounded(h)
    ensures Split(Join(h)) == Swap(h)
  {
  }

  /** Joining the exchanged halves of a split word gives the word back. */
  lemma JoinSwapSplit(w: bv64)
    ensures Join(Swap(Split(w))) == w
  {
  }

  /** The DES round function never sets a bit above 31. */
  lemma FBounded()
    ensures forall a, b :: F(a, b) >> 32 == 0
  {
  }

  /** A block through IP, the sixteen rounds with the given subkeys, and IP^-1. */
  function Block(x: bv64, ks: seq<bv64>): bv64 {
    Permute(Join(Rounds(F, Split(InitialPermutation(x)), ks)), IP1)
  }

  /** The block function with the subkeys reversed inverts the block
      function. */
  lemma BlockInverse(x: bv64, ks: seq<bv64>)
    ensures Block(Block(x, ks), Reversed(ks)) == x
  {
    var h0 := Split(InitialPermutation(x));
    var h := Rounds(F, h0, ks);
    FBounded();
    RoundsBounded(F, h0, ks);
    IpUndoesIp1(Join(h));
    SplitJoin(h);
    RoundsUndone(F, h0, ks);
    JoinSwapSplit(InitialPermutation(x));
    Ip1UndoesIp(x);
  }

  // ---------------------------------------------------------------------
  // Bytes and words (des.cpp:219-223, 259-263, 267-272, 316-324)

  /** Eight bytes as one word: byte i, bit-reversed, fills bits 8i to 8i+7. */
  function LoadWord(b: seq<bv8>): bv64
    requires |b| == 8
  {
    (Reverse(b[0]) as bv64) |
    ((Reverse(b[1]) as bv64) << 8) |
    ((Reverse(b[2]) as bv64) << 16) |
    ((Reverse(b[3]) as bv64) << 24) |
    ((Reverse(b[4]) as bv64) << 32) |
    ((Reverse(b[5]) as bv64) << 40) |
    ((Reverse(b[6]) as bv64) << 48) |
    ((Reverse(b[7]) as bv64) << 56)
  }

  /** The word written out as eight bytes: byte i is bits 8i to 8i+7,
      bit-reversed. */
  function StoreWord(x: bv64): (b: seq<bv8>)
    ensures |b| == 8
  {
    [Reverse(((x >> 0) & 0xFF) as bv8),
     Reverse(((x >> 8) & 0xFF) as bv8),
     Reverse(((x >> 16) & 0xFF) as bv8),
     Reverse(((x >> 24) & 0xFF) as bv8),
     Reverse(((x >> 32) & 0xFF) as bv8),
     Reverse(((x >> 40) & 0xFF) as bv8),
     Reverse(((x >> 48) & 0xFF) as bv8),
     Reverse(((x >> 56) & 0xFF) as bv8)]
  }

  /** Writing a word out and loading it back gives the word. */
  lemma LoadStore(x: bv64)
    ensures LoadWord(StoreWord(x)) == x
  {
    ReverseInvolution(((x >> 0) & 0xFF) as bv8);
    ReverseInvolution(((x >> 8) & 0xFF) as bv8);
    ReverseInvolution(((x >> 16) & 0xFF) as bv8);
    ReverseInvolution(((x >> 24) & 0xFF) as bv8);
    ReverseInvolution(((x >> 32) & 0xFF) as bv8);
    ReverseInvolution(((x >> 40) & 0xFF) as bv8);
    ReverseInvolution(((x >> 48) & 0xFF) as bv8);
    ReverseInvolution(((x >> 56) & 0xFF) as bv8);
  }

  /** Bits 8i to 8i+7 of a loaded word are byte i, bit-reversed. */
  lemma LoadWordBytes(b: seq<bv8>)
    requires |b| == 8
    ensures ((LoadWord(b) >> 0) & 0xFF) as bv8 == Reverse(b[0])
    ensures ((LoadWord(b) >> 8) & 0xFF) as bv8 == Reverse(b[1])
    ensures ((LoadWord(b) >> 16) & 0xFF) as bv8 == Reverse(b[2])
    ensures ((LoadWord(b) >> 24) & 0xFF) as bv8 == Reverse(b[3])
    ensures ((LoadWord(b) >> 32) & 0xFF) as bv8 == Reverse(b[4])
    ensures ((LoadWord(b) >> 40) & 0xFF) as bv8 == Reverse(b[5])
    ensures ((LoadWord(b) >> 48) & 0xFF) as bv8 == Reverse(b[6])
    ensures ((LoadWord(b) >> 56) & 0xFF) as bv8 == Reverse(b[7])
  {
  }

  /** Loading eight bytes and writing the word out gives the bytes. */
  lemma StoreLoad(b: seq<bv8>)
    requires |b| == 8
    ensures StoreWord(LoadWord(b)) == b
  {
    LoadWordBytes(b);
    ReverseInvolution(b[0]);
    ReverseInvolution(b[1]);
    ReverseInvolution(b[2]);
    ReverseInvolution(b[3]);
    ReverseInvolution(b[4]);
    ReverseInvolution(b[5]);
    ReverseInvolution(b[6]);
    ReverseInvolution(b[7]);
  }

  /** A byte string of whole blocks as words, one per block. */
  function Words(bytes: seq<bv8>): (ws: seq<bv64>)
    requires |bytes| % 8 == 0
    ensures 8 * |ws| == |bytes|
    decreases |bytes|
  {
    if |bytes| == 0 then [] else [LoadWord(bytes[..8])] + Words(bytes[8..])
  }

  /** Words written out one block after another. */
  function Bytes(ws: seq<bv64>): (bytes: seq<bv8>)
    ensures |bytes| == 8 * |ws|
  {
    if |ws| == 0 then [] else StoreWord(ws[0]) + Bytes(ws[1..])
  }

  /** Writing words out and loading them back gives the words. */
  lemma {:induction false} WordsOfBytes(ws: seq<bv64>)
    ensures Words(Bytes(ws)) == ws
  {
    if |ws| > 0 {
      var bytes := Bytes(ws);
      assert bytes[..8] == StoreWord(ws[0]);
      assert bytes[8..] == Bytes(ws[1..]);
      LoadStore(ws[0]);
      WordsOfBytes(ws[1..]);
    }
  }

  /** Loading whole blocks and writing them out gives the bytes. */
  lemma {:induction false} BytesOfWords(bytes: seq<bv8>)
    requires |bytes| % 8 == 0
    ensures Bytes(Words(bytes)) == bytes
    decreases |bytes|
  {
    if |bytes| > 0 {
      var ws := Words(bytes);
      assert ws[0] == LoadWord(bytes[..8]);
      assert ws[1..] == Words(bytes[8..]);
      StoreLoad(bytes[..8]);
      BytesOfWords(bytes[8..]);
      assert bytes[..8] + bytes[8..] == bytes;
    }
  }

  // ---------------------------------------------------------------------
  // des_cbc (des.cpp:203-333)

  /** The combining operation of CBC in DES. */
  function Xor(a: bv64, b: bv64): bv64 {
    a ^ b
  }

  /** XOR with the same word twice is the identity. */
  lemma XorUndoes()
    ensures forall a, b :: Xor(Xor(a, b), b) == a
  {
    forall a, b ensures Xor(Xor(a, b), b) == a {
      XorTwice(a, b);
    }
  }

  /** des_cbc with the given PC-1 table. The source asserts an 8-byte key,
      an 8-byte IV and whole blocks of input; the block function uses the
      subkeys in decryption order when decrypting. */
  function DesCbcWith(pc1: seq<Pos>, encrypt: bool, input: seq<bv8>, key: seq<bv8>, iv: seq<bv8>): (output: seq<bv8>)
    requires |iv| == 8 && |input| % 8 == 0 && |key| == 8
    ensures |output| == |input|
  {
    var ks := Subkeys(Permute(LoadWord(key), pc1), encrypt);
    var words := Words(input);
    Bytes(if encrypt then Cbc.Encrypt(x => Block(x, ks), Xor, LoadWord(iv), words)
          else Cbc.Decrypt(x => Block(x, ks), Xor, LoadWord(iv), words))
  }

  /** The decryption subkeys are the encryption subkeys reversed, and the
      other way round. */
  lemma DecryptKeys(cd: bv64)
    ensures Subkeys(cd, false) == Reversed(Subkeys(cd, true))
    ensures Subkeys(cd, true) == Reversed(Subkeys(cd, false))
  {
    DecryptKeysReversed(cd);
    ReversedTwice(Subkeys(cd, false));
  }

  /** The block function under one subkey order undoes it under the
      other. */
  lemma BlocksUndo(cd: bv64)
    ensures forall x :: Block(Block(x, Subkeys(cd, true)), Subkeys(cd, false)) == x
    ensures forall x :: Block(Block(x, Subkeys(cd, false)), Subkeys(cd, true)) == x
  {
    DecryptKeys(cd);
    forall x ensures Block(Block(x, Subkeys(cd, true)), Subkeys(cd, false)) == x {
      BlockInverse(x, Subkeys(cd, true));
    }
    forall x ensures Block(Block(x, Subkeys(cd, false)), Subkeys(cd, true)) == x {
      BlockInverse(x, Subkeys(cd, false));
    }
  }

  /** Decryption undoes encryption under the same key and IV. */
  lemma DesCbcRoundTrip(pc1: seq<Pos>, input: seq<bv8>, key: seq<bv8>, iv: seq<bv8>)
    requires |iv| == 8 && |input| % 8 == 0 && |key| == 8
    ensures DesCbcWith(pc1, false, DesCbcWith(pc1, true, input, key, iv), key, iv) == input
  {
    var cd := Permute(LoadWord(key), pc1);
    var enc := (x => Block(x, Subkeys(cd, true)));
    var dec := (x => Block(x, Subkeys(cd, false)));
    BlocksUndo(cd);
    XorUndoes();
    var cs := Cbc.Encrypt(enc, Xor, LoadWord(iv), Words(input));
    WordsOfBytes(cs);
    Cbc.DecryptEncrypt(enc, dec, Xor, LoadWord(iv), Words(input));
    BytesOfWords(input);
  }

  /** Encryption undoes decryption under the same key and IV. */
  lemma DesCbcRoundTripBack(pc1: seq<Pos>, input: seq<bv8>, key: seq<bv8>, iv: seq<bv8>)
    requires |iv| == 8 && |input| % 8 == 0 && |key| == 8
    ensures DesCbcWith(pc1, true, DesCbcWith(pc1, false, input, key, iv), key, iv) == input
  {
    var cd := Permute(LoadWord(key), pc1);
    var enc := (x => Block(x, Subkeys(cd, true)));
    var dec := (x => Block(x, Subkeys(cd, false)));
    BlocksUndo(cd);
    XorUndoes();
    var ps := Cbc.Decrypt(dec, Xor, LoadWord(iv), Words(input));
    WordsOfBytes(ps);
    Cbc.EncryptDecrypt(enc, dec, Xor, LoadWord(iv), Words(input));
    BytesOfWords(input);
  }

  /** des_cbc with the PC-1 table of FIPS 46-3. */
  function DesCbc(encrypt: bool, input: seq<bv8>, key: seq<bv8>, iv: seq<bv8>): (output: seq<bv8>)
    requires |iv| == 8 && |input| % 8 == 0 && |key| == 8
    ensures |output| == |input|
  {
    DesCbcWith(Pc1Fips, encrypt, input, key, iv)
  }

  /** des_cbc with the PC-1 table exactly as the source writes it. */
  function DesCbcAsWritten(encrypt: bool, input: seq<bv8>, key: seq<bv8>, iv: seq<bv8>): (output: seq<bv8>)
    requires |iv| == 8 && |input| % 8 == 0 && |key| == 8
    ensures |output| == |input|
  {
    DesCbcWith(PC1, encrypt, input, key, iv)
  }

  // ---------------------------------------------------------------------
  // The PC-1 table (des.cpp:74-79)

  /** Flipping bit 5 of a byte flips bit 2 of its reversal. */
  lemma ReverseFlip(b: bv8)
    ensures Reverse(b ^ 0x20) == Reverse(b) ^ 0x04
  {
  }

  /** Flipping bit 5 of key byte 4 flips bit 34 of the loaded key word. */
  lemma LoadWordFlip(key: seq<bv8>)
    requires |key| == 8
    ensures LoadWord(key[4 := key[4] ^ 0x20]) == LoadWord(key) ^ 0x4_0000_0000
  {
    ReverseFlip(key[4]);
    var k := key[4 := key[4] ^ 0x20];
    assert k[0] == key[0] && k[1] == key[1] && k[2] == key[2] && k[3] == key[3];
    assert k[5] == key[5] && k[6] == key[6] && k[7] == key[7];
  }

  /** No output bit of the source's PC-1 is taken from bit 34. */
  lemma PC1WordIgnoresBit34(x: bv64)
    ensures PC1Word(x ^ 0x4_0000_0000) == PC1Word(x)
  {
  }

  /** As written, PC-1 discards key bit 34 (table entry 35), so two keys
      that differ only there have the same schedule. */
  lemma Pc1IgnoresBit34(x: bv64)
    ensures Permute(x ^ 0x4_0000_0000, PC1) == Permute(x, PC1)
  {
    PC1IsWord(x);
    PC1IsWord(x ^ 0x4_0000_0000);
    PC1WordIgnoresBit34(x);
  }

  /** The table of FIPS 46-3 takes output bit 19 from key bit 34, so keys
      that differ there give different PC-1 outputs. */
  lemma Pc1FipsUsesBit34(x: bv64)
    ensures Permute(x ^ 0x4_0000_0000, Pc1Fips) != Permute(x, Pc1Fips)
  {
    Pc1FipsEntriesLow();
    PermuteBit(x, Pc1Fips, 19, 19);
    PermuteBit(x ^ 0x4_0000_0000, Pc1Fips, 19, 19);
    assert BitAt(x ^ 0x4_0000_0000, 35) != BitAt(x, 35);
  }

  /** The source's des_cbc gives the same output for two keys that differ
      only in bit 5 of byte 4: a key bit that should matter is ignored. */
  lemma DesCbcAsWrittenIgnoresKeyBit(encrypt: bool, input: seq<bv8>, key: seq<bv8>, iv: seq<bv8>)
    requires |iv| == 8 && |input| % 8 == 0 && |key| == 8
    ensures DesCbcAsWritten(encrypt, input, key[4 := key[4] ^ 0x20], iv) == DesCbcAsWritten(encrypt, input, key, iv)
  {
    LoadWordFlip(key);
    Pc1IgnoresBit34(LoadWord(key));
  }

  /** With the standard table, that key bit reaches the key schedule. */
  lemma DesCbcUsesKeyBit(key: seq<bv8>)
    requires |key| == 8
    ensures Permute(LoadWord(key[4 := key[4] ^ 0x20]), Pc1Fips) != Permute(LoadWord(key), Pc1Fips)
  {
    LoadWordFlip(key);
    Pc1FipsUsesBit34(LoadWord(key));
  }

  /** DES-CBC decryption undoes encryption. */
  lemma DesCbcDecryptsEncrypt(input: seq<bv8>, key: seq<bv8>, iv: seq<bv8>)
    requires |iv| == 8 && |input| % 8 == 0 && |key| == 8
    ensures DesCbc(false, DesCbc(true, input, key, iv), key, iv) == input
    ensures DesCbc(true, DesCbc(false, input, key, iv), key, iv) == input
  {
    DesCbcRoundTrip(Pc1Fips, input, key, iv);
    DesCbcRoundTripBack(Pc1Fips, input, key, iv);
  }

  /** The round trip holds for the source's table too: the defect weakens
      the key but does not break decryption. */
  lemma DesCbcAsWrittenDecryptsEncrypt(input: seq<bv8>, key: seq<bv8>, iv: seq<bv8>)
    requires |iv| == 8 && |input| % 8 == 0 && |key| == 8
    ensures DesCbcAsWritten(false, DesCbcAsWritten(true, input, key, iv), key, iv) == input
    ensures DesCbcAsWritten(true, DesCbcAsWritten(false, input, key, iv), key, iv) == input
  {
    DesCbcRoundTrip(PC1, input, key, iv);
    DesCbcRoundTripBack(PC1, input, key, iv);
  }
}

=== FILE: des_permutation.dfy ===
/** The table-driven bit permutation that DES uses for PC-1, PC-2, P and the
    final permutation (apply_permutation<N>), and the byte bit reversal that
    sets up its bit convention.

    Every byte is bit-reversed before it is placed in a 64-bit word, so bit
    positions are counted from the least significant bit and a table entry p
    names bit p-1. Output bit i of a permutation is input bit perm[i]-1, and
    no bit at or above |perm| is set. */
module DesPermutation {

  /** A permutation table entry: a 1-based bit position in a 64-bit word. */
  type Pos = x: bv64 | 1 <= x <= 64 witness 1

  /** Bit p-1 of x, as 0 or 1. */
  function BitAt(x: bv64, p: Pos): (b: bv64)
    ensures b <= 1
  {
    (x >> ((p as bv64) - 1)) & 1
  }

  /** The accumulator of the source loop once it has shifted in the bits named
      by perm[|perm|-1] down to perm[k]: the bit named by perm[k + d] sits at
      bit d. */
  function PermuteFrom(input: bv64, perm: seq<Pos>, k: nat): bv64
    requires k <= |perm|
    decreases |perm| - k
  {
    if k == |perm| then 0 else (PermuteFrom(input, perm, k + 1) << 1) | BitAt(input, perm[k])
  }

  /** apply_permutation<N>(input, perm) with N = |perm|. */
  function Permute(input: bv64, perm: seq<Pos>): bv64 {
    PermuteFrom(input, perm, 0)
  }

  /** The source's bit test: a mask with only bit p-1 set, ANDed with x. */
  method TestBit(x: bv64, p: Pos) returns (b: bv64)
    ensures b == BitAt(x, p)
  {
    b := if x & (1 << ((p as bv64) - 1)) != 0 then 1 else 0;
  }

  /** The source loop: i runs from N-1 down to 0, and each step shifts the
      accumulator left and ORs in the tested bit. */
  method ApplyPermutation(input: bv64, perm: seq<Pos>) returns (output: bv64)
    ensures output == Permute(input, perm)
  {
    output := 0;
    var i := |perm|;
    while i > 0
      invariant 0 <= i <= |perm|
      invariant output == PermuteFrom(input, perm, i)
    {
      i := i - 1;
      var b := TestBit(input, perm[i]);
      ShiftInStep(input, perm, i, output, b);
      output := (output << 1) | b;
    }
  }

  /** One step of the loop extends the accumulator by one table entry. */
  lemma ShiftInStep(input: bv64, perm: seq<Pos>, i: nat, acc: bv64, b: bv64)
    requires i < |perm| && acc == PermuteFrom(input, perm, i + 1) && b == BitAt(input, perm[i])
    ensures (acc << 1) | b == PermuteFrom(input, perm, i)
  {
  }

  lemma ShiftInBit(y: bv64, b: bv64, d: bv64)
    requires b <= 1 && 1 <= d < 64
    ensures (((y << 1) | b) >> d) & 1 == (y >> (d - 1)) & 1
  {
  }

  /** Bit d of the extended accumulator is bit d-1 of the shorter one. */
  lemma BitStep(input: bv64, perm: seq<Pos>, k: nat, d: bv64, acc: bv64, v: bv64)
    requires k < |perm| && acc == PermuteFrom(input, perm, k + 1)
    requires 1 <= d < 64 && (acc >> (d - 1)) & 1 == v
    ensures (PermuteFrom(input, perm, k) >> d) & 1 == v
  {
    ShiftInBit(acc, BitAt(input, perm[k]), d);
  }

  /** Bit d of PermuteFrom(input, perm, k) is the input bit that perm[k + d]
      names. The position is carried both as the index j and as the shift d. */
  lemma {:induction false} PermuteFromBit(input: bv64, perm: seq<Pos>, k: nat, d: bv64, j: nat)
    requires k <= j < |perm| && d < 64 && j == k + d as int
    ensures (PermuteFrom(input, perm, k) >> d) & 1 == BitAt(input, perm[j])
    decreases j - k
  {
    if d != 0 {
      PermuteFromBit(input, perm, k + 1, d - 1, j);
      BitStep(input, perm, k, d, PermuteFrom(input, perm, k + 1), BitAt(input, perm[j]));
    }
  }

  /** Output bit j of the permutation is input bit perm[j]-1 (d is j as a
      shift amount). */
  lemma PermuteBit(input: bv64, perm: seq<Pos>, d: bv64, j: nat)
    requires j < |perm| && d < 64 && j == d as int
    ensures (Permute(input, perm) >> d) & 1 == BitAt(input, perm[j])
  {
    PermuteFromBit(input, perm, 0, d, j);
  }

  lemma ShiftInHigh(y: bv64, b: bv64, d: bv64)
    requires b <= 1 && d < 64 && y >> d == 0
    ensures ((y << 1) | b) >> (d + 1) == 0
  {
  }

  /** Extending the accumulator by one entry raises its width by one. */
  lemma HighStep(input: bv64, perm: seq<Pos>, k: nat, d: bv64, acc: bv64)
    requires k < |perm| && acc == PermuteFrom(input, perm, k + 1)
    requires 1 <= d <= 64 && acc >> (d - 1) == 0
    ensures PermuteFrom(input, perm, k) >> d == 0
  {
    ShiftInHigh(acc, BitAt(input, perm[k]), d - 1);
  }

  /** PermuteFrom(input, perm, k) has no bit set at or above |perm| - k. */
  lemma {:induction false} PermuteFromHigh(input: bv64, perm: seq<Pos>, k: nat, d: bv64)
    requires k <= |perm| <= 64 && d as int == |perm| - k
    ensures PermuteFrom(input, perm, k) >> d == 0
    decreases |perm| - k
  {
    if k < |perm| {
      PermuteFromHigh(input, perm, k + 1, d - 1);
      HighStep(input, perm, k, d, PermuteFrom(input, perm, k + 1));
    }
  }

  /** No output bit at or above N = |perm| is set (d is N as a shift amount). */
  lemma PermuteHigh(input: bv64, perm: seq<Pos>, d: bv64)
    requires |perm| <= 64 && d as int == |perm|
    ensures Permute(input, perm) >> d == 0
  {
    PermuteFromHigh(input, perm, 0, d);
  }

  /** Two words that agree on every bit are equal. */
  lemma BitsEqual(a: bv64, b: bv64)
    requires (a >> 0) & 1 == (b >> 0) & 1
    requires (a >> 1) & 1 == (b >> 1) & 1
    requires (a >> 2) & 1 == (b >> 2) & 1
    requires (a >> 3) & 1 == (b >> 3) & 1
    requires (a >> 4) & 1 == (b >> 4) & 1
    requires (a >> 5) & 1 == (b >> 5) & 1
    requires (a >> 6) & 1 == (b >> 6) & 1
    requires (a >> 7) & 1 == (b >> 7) & 1
    requires (a >> 8) & 1 == (b >> 8) & 1
    requires (a >> 9) & 1 == (b >> 9) & 1
    requires (a >> 10) & 1 == (b >> 10) & 1
    requires (a >> 11) & 1 == (b >> 11) & 1
    requires (a >> 12) & 1 == (b >> 12) & 1
    requires (a >> 13) & 1 == (b >> 13) & 1
    requires (a >> 14) & 1 == (b >> 14) & 1
    requires (a >> 15) & 1 == (b >> 15) & 1
    requires (a >> 16) & 1 == (b >> 16) & 1
    requires (a >> 17) & 1 == (b >> 17) & 1
    requires (a >> 18) & 1 == (b >> 18) & 1
    requires (a >> 19) & 1 == (b >> 19) & 1
    requires (a >> 20) & 1 == (b >> 20) & 1
    requires (a >> 21) & 1 == (b >> 21) & 1
    requires (a >> 22) & 1 == (b >> 22) & 1
    requires (a >> 23) & 1 == (b >> 23) & 1
    requires (a >> 24) & 1 == (b >> 24) & 1
    requires (a >> 25) & 1 == (b >> 25) & 1
    requires (a >> 26) & 1 == (b >> 26) & 1
    requires (a >> 27) & 1 == (b >> 27) & 1
    requires (a >> 28) & 1 == (b >> 28) & 1
    requires (a >> 29) & 1 == (b >> 29) & 1
    requires (a >> 30) & 1 == (b >> 30) & 1
    requires (a >> 31) & 1 == (b >> 31) & 1
    requires (a >> 32) & 1 == (b >> 32) & 1
    requires (a >> 33) & 1 == (b >> 33) & 1
    requires (a >> 34) & 1 == (b >> 34) & 1
    requires (a >> 35) & 1 == (b >> 35) & 1
    requires (a >> 36) & 1 == (b >> 36) & 1
    requires (a >> 37) & 1 == (b >> 37) & 1
    requires (a >> 38) & 1 == (b >> 38) & 1
    requires (a >> 39) & 1 == (b >> 39) & 1
    requires (a >> 40) & 1 == (b >> 40) & 1
    requires (a >> 41) & 1 == (b >> 41) & 1
    requires (a >> 42) & 1 == (b >> 42) & 1
    requires (a >> 43) & 1 == (b >> 43) & 1
    requires (a >> 44) & 1 == (b >> 44) & 1
    requires (a >> 45) & 1 == (b >> 45) & 1
    requires (a >> 46) & 1 == (b >> 46) & 1
    requires (a >> 47) & 1 == (b >> 47) & 1
    requires (a >> 48) & 1 == (b >> 48) & 1
    requires (a >> 49) & 1 == (b >> 49) & 1
    requires (a >> 50) & 1 == (b >> 50) & 1
    requires (a >> 51) & 1 == (b >> 51) & 1
    requires (a >> 52) & 1 == (b >> 52) & 1
    requires (a >> 53) & 1 == (b >> 53) & 1
    requires (a >> 54) & 1 == (b >> 54) & 1
    requires (a >> 55) & 1 == (b >> 55) & 1
    requires (a >> 56) & 1 == (b >> 56) & 1
    requires (a >> 57) & 1 == (b >> 57) & 1
    requires (a >> 58) & 1 == (b >> 58) & 1
    requires (a >> 59) & 1 == (b >> 59) & 1
    requires (a >> 60) & 1 == (b >> 60) & 1
    requires (a >> 61) & 1 == (b >> 61) & 1
    requires (a >> 62) & 1 == (b >> 62) & 1
    requires (a >> 63) & 1 == (b >> 63) & 1
    ensures a == b
  {
  }

  /** reverse(b): bit k of the byte moves to bit 7-k. */
  function Reverse(b: bv8): bv8 {
    var b := ((b & 0xF0) >> 4) | ((b & 0x0F) << 4);
    var b := ((b & 0xCC) >> 2) | ((b & 0x33) << 2);
    ((b & 0xAA) >> 1) | ((b & 0x55) << 1)
  }

  /** Bit k of Reverse(b) is bit 7-k of b. */
  lemma ReverseBits(b: bv8)
    ensures (Reverse(b) >> 0) & 1 == (b >> 7) & 1
    ensures (Reverse(b) >> 1) & 1 == (b >> 6) & 1
    ensures (Reverse(b) >> 2) & 1 == (b >> 5) & 1
    ensures (Reverse(b) >> 3) & 1 == (b >> 4) & 1
    ensures (Reverse(b) >> 4) & 1 == (b >> 3) & 1
    ensures (Reverse(b) >> 5) & 1 == (b >> 2) & 1
    ensures (Reverse(b) >> 6) & 1 == (b >> 1) & 1
    ensures (Reverse(b) >> 7) & 1 == (b >> 0) & 1
  {
  }

  /** Reversing twice restores the byte. */
  lemma ReverseInvolution(b: bv8)
    ensures Reverse(Reverse(b)) == b
  {
  }
}

=== FILE: des_tables.dfy ===
/** The constant tables of DES as the source lists them (des.cpp:12-84), and
    bit-level facts about the permutations they define.

    The tables are kept verbatim, including the PC-1 entry that differs from
    FIPS 46-3; `Pc1Fips` is the table as the standard gives it. The `...Entries`
    lemmas spell out every entry so that the `...Bits` lemmas can name each
    output bit of a table permutation with a literal bit position. */
module DesTables {
  import opened DesPermutation

  /** An S-box output: a 4-bit value. */
  type Nibble = x: bv64 | x < 16

  /** Initial permutation (des.cpp:13-16). */
  const IP: seq<Pos> :=
    ((([58, 50, 42, 34, 26, 18, 10, 2] +
     [60, 52, 44, 36, 28, 20, 12, 4]) +
     ([62, 54, 46, 38, 30, 22, 14, 6] +
      [64, 56, 48, 40, 32, 24, 16, 8])) +
     (([57, 49, 41, 33, 25, 17, 9, 1] +
      [59, 51, 43, 35, 27, 19, 11, 3]) +
      ([61, 53, 45, 37, 29, 21, 13, 5] +
       [63, 55, 47, 39, 31, 23, 15, 7])))

  /** Final permutation, the inverse of IP (des.cpp:19-23). */
  const IP1: seq<Pos> :=
    ((([40, 8, 48, 16, 56, 24, 64, 32] +
     [39, 7, 47, 15, 55, 23, 63, 31]) +
     ([38, 6, 46, 14, 54, 22, 62, 30] +
      [37, 5, 45, 13, 53, 21, 61, 29])) +
     (([36, 4, 44, 12, 52, 20, 60, 28] +
      [35, 3, 43, 11, 51, 19, 59, 27]) +
      ([34, 2, 42, 10, 50, 18, 58, 26] +
       [33, 1, 41, 9, 49, 17, 57, 25])))

  /** Expansion of a 32-bit half to 48 bits (des.cpp:26-28). */
  const E: seq<Pos> :=
    ((([32, 1, 2, 3, 4, 5] +
     [4, 5, 6, 7, 8, 9]) +
     ([8, 9, 10, 11, 12, 13] +
      [12, 13, 14, 15, 16, 17])) +
     (([16, 17, 18, 19, 20, 21] +
      [20, 21, 22, 23, 24, 25]) +
      ([24, 25, 26, 27, 28, 29] +
       [28, 29, 30, 31, 32, 1])))

  /** Permutation of the S-box outputs (des.cpp:31-32). */
  const P: seq<Pos> :=
    ((([16, 7, 20, 21] +
     [29, 12, 28, 17]) +
     ([1, 15, 23, 26] +
      [5, 18, 31, 10])) +
     (([2, 8, 24, 14] +
      [32, 27, 3, 9]) +
      ([19, 13, 30, 6] +
       [22, 11, 4, 25])))

  /** Permuted choice 1 as the source writes it (des.cpp:74-79): the
      20th entry is 25, so bit 25 is chosen twice and bit 35 never. */
  const PC1: seq<Pos> :=
    ((([57, 49, 41, 33, 25, 17, 9] +
     [1, 58, 50, 42, 34, 26, 18]) +
     ([10, 2, 59, 51, 43, 25, 27] +
      [19, 11, 3, 60, 52, 44, 36])) +
     (([63, 55, 47, 39, 31, 23, 15] +
      [7, 62, 54, 46, 38, 30, 22]) +
      ([14, 6, 61, 53, 45, 37, 29] +
       [21, 13, 5, 28, 20, 12, 4])))

  /** Permuted choice 1 as FIPS 46-3 gives it: the 20th entry is 35. */
  const Pc1Fips: seq<Pos> :=
    ((([57, 49, 41, 33, 25, 17, 9] +
     [1, 58, 50, 42, 34, 26, 18]) +
     ([10, 2, 59, 51, 43, 35, 27] +
      [19, 11, 3, 60, 52, 44, 36])) +
     (([63, 55, 47, 39, 31, 23, 15] +
      [7, 62, 54, 46, 38, 30, 22]) +
      ([14, 6, 61, 53, 45, 37, 29] +
       [21, 13, 5, 28, 20, 12, 4])))

  /** Permuted choice 2 (des.cpp:81-84). */
  const PC2: seq<Pos> :=
    ((([14, 17, 11, 24, 1, 5] +
     [3, 28, 15, 6, 21, 10]) +
     ([23, 19, 12, 4, 26, 8] +
      [16, 7, 27, 20, 13, 2])) +
     (([41, 52, 31, 37, 47, 55] +
      [30, 40, 51, 45, 33, 48]) +
      ([44, 49, 39, 56, 34, 53] +
       [46, 42, 50, 36, 29, 32])))

  /** The eight S-boxes (des.cpp:35-67); box b, entry 16 * row + column. */
  const S: seq<seq<Nibble>> := [
    // S1
    ((([14, 4, 13, 1, 2, 15, 11, 8] +
     [3, 10, 6, 12, 5, 9, 0, 7]) +
     ([0, 15, 7, 4, 14, 2, 13, 1] +
      [10, 6, 12, 11, 9, 5, 3, 8])) +
     (([4, 1, 14, 8, 13, 6, 2, 11] +
      [15, 12, 9, 7, 3, 10, 5, 0]) +
      ([15, 12, 8, 2, 4, 9, 1, 7] +
       [5, 11, 3, 14, 10, 0, 6, 13]))),
    // S2
    ((([15, 1, 8, 14, 6, 11, 3, 4] +
     [9, 7, 2, 13, 12, 0, 5, 10]) +
     ([3, 13, 4, 7, 15, 2, 8, 14] +
      [12, 0, 1, 10, 6, 9, 11, 5])) +
     (([0, 14, 7, 11, 10, 4, 13, 1] +
      [5, 8, 12, 6, 9, 3, 2, 15]) +
      ([13, 8, 10, 1, 3, 15, 4, 2] +
       [11, 6, 7, 12, 0, 5, 14, 9]))),
    // S3
    ((([10, 0, 9, 14, 6, 3, 15, 5] +
     [1, 13, 12, 7, 11, 4, 2, 8]) +
     ([13, 7, 0, 9, 3, 4, 6, 10] +
      [2, 8, 5, 14, 12, 11, 15, 1])) +
     (([13, 6, 4, 9, 8, 15, 3, 0] +
      [11, 1, 2, 12, 5, 10, 14, 7]) +
      ([1, 10, 13, 0, 6, 9, 8, 7] +
       [4, 15, 14, 3, 11, 5, 2, 12]))),
    // S4
    ((([7, 13, 14, 3, 0, 6, 9, 10] +
     [1, 2, 8, 5, 11, 12, 4, 15]) +
     ([13, 8, 11, 5, 6, 15, 0, 3] +
      [4, 7, 2, 12, 1, 10, 14, 9])) +
     (([10, 6, 9, 0, 12, 11, 7, 13] +
      [15, 1, 3, 14, 5, 2, 8, 4]) +
      ([3, 15, 0, 6, 10, 1, 13, 8] +
       [9, 4, 5, 11, 12, 7, 2, 14]))),
    // S5
    ((([2, 12, 4, 1, 7, 10, 11, 6] +
     [8, 5, 3, 15, 13, 0, 14, 9]) +
     ([14, 11, 2, 12, 4, 7, 13, 1] +
      [5, 0, 15, 10, 3, 9, 8, 6])) +
     (([4, 2, 1, 11, 10, 13, 7, 8] +
      [15, 9, 12, 5, 6, 3, 0, 14]) +
      ([11, 8, 12, 7, 1, 14, 2, 13] +
       [6, 15, 0, 9, 10, 4, 5, 3]))),
    // S6
    ((([12, 1, 10, 15, 9, 2, 6, 8] +
     [0, 13, 3, 4, 14, 7, 5, 11]) +
     ([10, 15, 4, 2, 7, 12, 9, 5] +
      [6, 1, 13, 14, 0, 11, 3, 8])) +
     (([9, 14, 15, 5, 2, 8, 12, 3] +
      [7, 0, 4, 10, 1, 13, 11, 6]) +
      ([4, 3, 2, 12, 9, 5, 15, 10] +
       [11, 14, 1, 7, 6, 0, 8, 13]))),
    // S7
    ((([4, 11, 2, 14, 15, 0, 8, 13] +
     [3, 12, 9, 7, 5, 10, 6, 1]) +
     ([13, 0, 11, 7, 4, 9, 1, 10] +
      [14, 3, 5, 12, 2, 15, 8, 6])) +
     (([1, 4, 11, 13, 12, 3, 7, 14] +
      [10, 15, 6, 8, 0, 5, 9, 2]) +
      ([6, 11, 13, 8, 1, 4, 10, 7] +
       [9, 5, 0, 15, 14, 2, 3, 12]))),
    // S8
    ((([13, 2, 8, 4, 6, 15, 11, 1] +
     [10, 9, 3, 14, 5, 0, 12, 7]) +
     ([1, 15, 13, 8, 10, 3, 7, 4] +
      [12, 5, 6, 11, 0, 14, 9, 2])) +
     (([7, 11, 4, 1, 9, 12, 14, 2] +
      [0, 6, 10, 13, 15, 3, 5, 8]) +
      ([2, 1, 14, 7, 4, 10, 8, 13] +
       [15, 12, 9, 0, 3, 5, 6, 11])))
  ]

  /** Eight S-boxes of 64 entries each. */
  lemma SShape()
    ensures |S| == 8
    ensures forall box :: 0 <= box < 8 ==> |S[box]| == 64
  {
    assert |S[0]| == 64 && |S[1]| == 64 && |S[2]| == 64 && |S[3]| == 64;
    assert |S[4]| == 64 && |S[5]| == 64 && |S[6]| == 64 && |S[7]| == 64;
  }

  /** Entries 0 to 31 of IP. */
  lemma IPEntriesLow()
    ensures |IP| == 64
    ensures IP[0] == 58
    ensures IP[1] == 50
    ensures IP[2] == 42
    ensures IP[3] == 34
    ensures IP[4] == 26
    ensures IP[5] == 18
    ensures IP[6] == 10
    ensures IP[7] == 2
    ensures IP[8] == 60
    ensures IP[9] == 52
    ensures IP[10] == 44
    ensures IP[11] == 36
    ensures IP[12] == 28
    ensures IP[13] == 20
    ensures IP[14] == 12
    ensures IP[15] == 4
    ensures IP[16] == 62
    ensures IP[17] == 54
    ensures IP[18] == 46
    ensures IP[19] == 38
    ensures IP[20] == 30
    ensures IP[21] == 22
    ensures IP[22] == 14
    ensures IP[23] == 6
    ensures IP[24] == 64
    ensures IP[25] == 56
    ensures IP[26] == 48
    ensures IP[27] == 40
    ensures IP[28] == 32
    ensures IP[29] == 24
    ensures IP[30] == 16
    ensures IP[31] == 8
  {
  }

  /** Entries 32 to 63 of IP. */
  lemma IPEntriesHigh()
    ensures |IP| == 64
    ensures IP[32] == 57
    ensures IP[33] == 49
    ensures IP[34] == 41
    ensures IP[35] == 33
    ensures IP[36] == 25
    ensures IP[37] == 17
    ensures IP[38] == 9
    ensures IP[39] == 1
    ensures IP[40] == 59
    ensures IP[41] == 51
    ensures IP[42] == 43
    ensures IP[43] == 35
    ensures IP[44] == 27
    ensures IP[45] == 19
    ensures IP[46] == 11
    ensures IP[47] == 3
    ensures IP[48] == 61
    ensures IP[49] == 53
    ensures IP[50] == 45
    ensures IP[51] == 37
    ensures IP[52] == 29
    ensures IP[53] == 21
    ensures IP[54] == 13
    ensures IP[55] == 5
    ensures IP[56] == 63
    ensures IP[57] == 55
    ensures IP[58] == 47
    ensures IP[59] == 39
    ensures IP[60] == 31
    ensures IP[61] == 23
    ensures IP[62] == 15
    ensures IP[63] == 7
  {
  }

  /** Entries 0 to 31 of IP1. */
  lemma IP1EntriesLow()
    ensures |IP1| == 64
    ensures IP1[0] == 40
    ensures IP1[1] == 8
    ensures IP1[2] == 48
    ensures IP1[3] == 16
    ensures IP1[4] == 56
    ensures IP1[5] == 24
    ensures IP1[6] == 64
    ensures IP1[7] == 32
    ensures IP1[8] == 39
    ensures IP1[9] == 7
    ensures IP1[10] == 47
    ensures IP1[11] == 15
    ensures IP1[12] == 55
    ensures IP1[13] == 23
    ensures IP1[14] == 63
    ensures IP1[15] == 31
    ensures IP1[16] == 38
    ensures IP1[17] == 6
    ensures IP1[18] == 46
    ensures IP1[19] == 14
    ensures IP1[20] == 54
    ensures IP1[21] == 22
    ensures IP1[22] == 62
    ensures IP1[23] == 30
    ensures IP1[24] == 37
    ensures IP1[25] == 5
    ensures IP1[26] == 45
    ensures IP1[27] == 13
    ensures IP1[28] == 53
    ensures IP1[29] == 21
    ensures IP1[30] == 61
    ensures IP1[31] == 29
  {
  }

  /** Entries 32 to 63 of IP1. */
  lemma IP1EntriesHigh()
    ensures |IP1| == 64
    ensures IP1[32] == 36
    ensures IP1[33] == 4
    ensures IP1[34] == 44
    ensures IP1[35] == 12
    ensures IP1[36] == 52
    ensures IP1[37] == 20
    ensures IP1[38] == 60
    ensures IP1[39] == 28
    ensures IP1[40] == 35
    ensures IP1[41] == 3
    ensures IP1[42] == 43
    ensures IP1[43] == 11
    ensures IP1[44] == 51
    ensures IP1[45] == 19
    ensures IP1[46] == 59
    ensures IP1[47] == 27
    ensures IP1[48] == 34
    ensures IP1[49] == 2
    ensures IP1[50] == 42
    ensures IP1[51] == 10
    ensures IP1[52] == 50
    ensures IP1[53] == 18
    ensures IP1[54] == 58
    ensures IP1[55] == 26
    ensures IP1[56] == 33
    ensures IP1[57] == 1
    ensures IP1[58] == 41
    ensures IP1[59] == 9
    ensures IP1[60] == 49
    ensures IP1[61] == 17
    ensures IP1[62] == 57
    ensures IP1[63] == 25
  {
  }

  /** Entries 0 to 23 of E. */
  lemma EEntriesLow()
    ensures |E| == 48
    ensures E[0] == 32
    ensures E[1] == 1
    ensures E[2] == 2
    ensures E[3] == 3
    ensures E[4] == 4
    ensures E[5] == 5
    ensures E[6] == 4
    ensures E[7] == 5
    ensures E[8] == 6
    ensures E[9] == 7
    ensures E[10] == 8
    ensures E[11] == 9
    ensures E[12] == 8
    ensures E[13] == 9
    ensures E[14] == 10
    ensures E[15] == 11
    ensures E[16] == 12
    ensures E[17] == 13
    ensures E[18] == 12
    ensures E[19] == 13
    ensures E[20] == 14
    ensures E[21] == 15
    ensures E[22] == 16
    ensures E[23] == 17
  {
  }

  /** Entries 24 to 47 of E. */
  lemma EEntriesHigh()
    ensures |E| == 48
    ensures E[24] == 16
    ensures E[25] == 17
    ensures E[26] == 18
    ensures E[27] == 19
    ensures E[28] == 20
    ensures E[29] == 21
    ensures E[30] == 20
    ensures E[31] == 21
    ensures E[32] == 22
    ensures E[33] == 23
    ensures E[34] == 24
    ensures E[35] == 25
    ensures E[36] == 24
    ensures E[37] == 25
    ensures E[38] == 26
    ensures E[39] == 27
    ensures E[40] == 28
    ensures E[41] == 29
    ensures E[42] == 28
    ensures E[43] == 29
    ensures E[44] == 30
    ensures E[45] == 31
    ensures E[46] == 32
    ensures E[47] == 1
  {
  }

  /** Entries 0 to 15 of P. */
  lemma PEntriesLow()
    ensures |P| == 32
    ensures P[0] == 16
    ensures P[1] == 7
    ensures P[2] == 20
    ensures P[3] == 21
    ensures P[4] == 29
    ensures P[5] == 12
    ensures P[6] == 28
    ensures P[7] == 17
    ensures P[8] == 1
    ensures P[9] == 15
    ensures P[10] == 23
    ensures P[11] == 26
    ensures P[12] == 5
    ensures P[13] == 18
    ensures P[14] == 31
    ensures P[15] == 10
  {
  }

  /** Entries 16 to 31 of P. */
  lemma PEntriesHigh()
    ensures |P| == 32
    ensures P[16] == 2
    ensures P[17] == 8
    ensures P[18] == 24
    ensures P[19] == 14
    ensures P[20] == 32
    ensures P[21] == 27
    ensures P[22] == 3
    ensures P[23] == 9
    ensures P[24] == 19
    ensures P[25] == 13
    ensures P[26] == 30
    ensures P[27] == 6
    ensures P[28] == 22
    ensures P[29] == 11
    ensures P[30] == 4
    ensures P[31] == 25
  {
  }

  /** Entries 0 to 27 of the source's PC-1. */
  lemma PC1EntriesLow()
    ensures |PC1| == 56
    ensures PC1[0] == 57
    ensures PC1[1] == 49
    ensures PC1[2] == 41
    ensures PC1[3] == 33
    ensures PC1[4] == 25
    ensures PC1[5] == 17
    ensures PC1[6] == 9
    ensures PC1[7] == 1
    ensures PC1[8] == 58
    ensures PC1[9] == 50
    ensures PC1[10] == 42
    ensures PC1[11] == 34
    ensures PC1[12] == 26
    ensures PC1[13] == 18
    ensures PC1[14] == 10
    ensures PC1[15] == 2
    ensures PC1[16] == 59
    ensures PC1[17] == 51
    ensures PC1[18] == 43
    ensures PC1[19] == 25
    ensures PC1[20] == 27
    ensures PC1[21] == 19
    ensures PC1[22] == 11
    ensures PC1[23] == 3
    ensures PC1[24] == 60
    ensures PC1[25] == 52
    ensures PC1[26] == 44
    ensures PC1[27] == 36
  {
  }

  /** Entries 28 to 55 of the source's PC-1. */
  lemma PC1EntriesHigh()
    ensures |PC1| == 56
    ensures PC1[28] == 63
    ensures PC1[29] == 55
    ensures PC1[30] == 47
    ensures PC1[31] == 39
    ensures PC1[32] == 31
    ensures PC1[33] == 23
    ensures PC1[34] == 15
    ensures PC1[35] == 7
    ensures PC1[36] == 62
    ensures PC1[37] == 54
    ensures PC1[38] == 46
    ensures PC1[39] == 38
    ensures PC1[40] == 30
    ensures PC1[41] == 22
    ensures PC1[42] == 14
    ensures PC1[43] == 6
    ensures PC1[44] == 61
    ensures PC1[45] == 53
    ensures PC1[46] == 45
    ensures PC1[47] == 37
    ensures PC1[48] == 29
    ensures PC1[49] == 21
    ensures PC1[50] == 13
    ensures PC1[51] == 5
    ensures PC1[52] == 28
    ensures PC1[53] == 20
    ensures PC1[54] == 12
    ensures PC1[55] == 4
  {
  }

  /** Entries 0 to 27 of the standard PC-1. */
  lemma Pc1FipsEntriesLow()
    ensures |Pc1Fips| == 56
    ensures Pc1Fips[0] == 57
    ensures Pc1Fips[1] == 49
    ensures Pc1Fips[2] == 41
    ensures Pc1Fips[3] == 33
    ensures Pc1Fips[4] == 25
    ensures Pc1Fips[5] == 17
    ensures Pc1Fips[6] == 9
    ensures Pc1Fips[7] == 1
    ensures Pc1Fips[8] == 58
    ensures Pc1Fips[9] == 50
    ensures Pc1Fips[10] == 42
    ensures Pc1Fips[11] == 34
    ensures Pc1Fips[12] == 26
    ensures Pc1Fips[13] == 18
    ensures Pc1Fips[14] == 10
    ensures Pc1Fips[15] == 2
    ensures Pc1Fips[16] == 59
    ensures Pc1Fips[17] == 51
    ensures Pc1Fips[18] == 43
    ensures Pc1Fips[19] == 35
    ensures Pc1Fips[20] == 27
    ensures Pc1Fips[21] == 19
    ensures Pc1Fips[22] == 11
    ensures Pc1Fips[23] == 3
    ensures Pc1Fips[24] == 60
    ensures Pc1Fips[25] == 52
    ensures Pc1Fips[26] == 44
    ensures Pc1Fips[27] == 36
  {
  }

  /** Entries 28 to 55 of the standard PC-1. */
  lemma Pc1FipsEntriesHigh()
    ensures |Pc1Fips| == 56
    ensures Pc1Fips[28] == 63
    ensures Pc1Fips[29] == 55
    ensures Pc1Fips[30] == 47
    ensures Pc1Fips[31] == 39
    ensures Pc1Fips[32] == 31
    ensures Pc1Fips[33] == 23
    ensures Pc1Fips[34] == 15
    ensures Pc1Fips[35] == 7
    ensures Pc1Fips[36] == 62
    ensures Pc1Fips[37] == 54
    ensures Pc1Fips[38] == 46
    ensures Pc1Fips[39] == 38
    ensures Pc1Fips[40] == 30
    ensures Pc1Fips[41] == 22
    ensures Pc1Fips[42] == 14
    ensures Pc1Fips[43] == 6
    ensures Pc1Fips[44] == 61
    ensures Pc1Fips[45] == 53
    ensures Pc1Fips[46] == 45
    ensures Pc1Fips[47] == 37
    ensures Pc1Fips[48] == 29
    ensures Pc1Fips[49] == 21
    ensures Pc1Fips[50] == 13
    ensures Pc1Fips[51] == 5
    ensures Pc1Fips[52] == 28
    ensures Pc1Fips[53] == 20
    ensures Pc1Fips[54] == 12
    ensures Pc1Fips[55] == 4
  {
  }

  // Output bit j of each table permutation, for every j, four at a time.

  lemma IPBits0(x: bv64)
    ensures (Permute(x, IP) >> 0) & 1 == (x >> 57) & 1
    ensures (Permute(x, IP) >> 1) & 1 == (x >> 49) & 1
    ensures (Permute(x, IP) >> 2) & 1 == (x >> 41) & 1
    ensures (Permute(x, IP) >> 3) & 1 == (x >> 33) & 1
  {
    IPEntriesLow();
    PermuteBit(x, IP, 0, 0);
    PermuteBit(x, IP, 1, 1);
    PermuteBit(x, IP, 2, 2);
    PermuteBit(x, IP, 3, 3);
  }

  lemma IPBits1(x: bv64)
    ensures (Permute(x, IP) >> 4) & 1 == (x >> 25) & 1
    ensures (Permute(x, IP) >> 5) & 1 == (x >> 17) & 1
    ensures (Permute(x, IP) >> 6) & 1 == (x >> 9) & 1
    ensures (Permute(x, IP) >> 7) & 1 == (x >> 1) & 1
  {
    IPEntriesLow();
    PermuteBit(x, IP, 4, 4);
    PermuteBit(x, IP, 5, 5);
    PermuteBit(x, IP, 6, 6);
    PermuteBit(x, IP, 7, 7);
  }

  lemma IPBits2(x: bv64)
    ensures (Permute(x, IP) >> 8) & 1 == (x >> 59) & 1
    ensures (Permute(x, IP) >> 9) & 1 == (x >> 51) & 1
    ensures (Permute(x, IP) >> 10) & 1 == (x >> 43) & 1
    ensures (Permute(x, IP) >> 11) & 1 == (x >> 35) & 1
  {
    IPEntriesLow();
    PermuteBit(x, IP, 8, 8);
    PermuteBit(x, IP, 9, 9);
    PermuteBit(x, IP, 10, 10);
    PermuteBit(x, IP, 11, 11);
  }

  lemma IPBits3(x: bv64)
    ensures (Permute(x, IP) >> 12) & 1 == (x >> 27) & 1
    ensures (Permute(x, IP) >> 13) & 1 == (x >> 19) & 1
    ensures (Permute(x, IP) >> 14) & 1 == (x >> 11) & 1
    ensures (Permute(x, IP) >> 15) & 1 == (x >> 3) & 1
  {
    IPEntriesLow();
    PermuteBit(x, IP, 12, 12);
    PermuteBit(x, IP, 13, 13);
    PermuteBit(x, IP, 14, 14);
    PermuteBit(x, IP, 15, 15);
  }

  lemma IPBits4(x: bv64)
    ensures (Permute(x, IP) >> 16) & 1 == (x >> 61) & 1
    ensures (Permute(x, IP) >> 17) & 1 == (x >> 53) & 1
    ensures (Permute(x, IP) >> 18) & 1 == (x >> 45) & 1
    ensures (Permute(x, IP) >> 19) & 1 == (x >> 37) & 1
  {
    IPEntriesLow();
    PermuteBit(x, IP, 16, 16);
    PermuteBit(x, IP, 17, 17);
    PermuteBit(x, IP, 18, 18);
    PermuteBit(x, IP, 19, 19);
  }

  lemma IPBits5(x: bv64)
    ensures (Permute(x, IP) >> 20) & 1 == (x >> 29) & 1
    ensures (Permute(x, IP) >> 21) & 1 == (x >> 21) & 1
    ensures (Permute(x, IP) >> 22) & 1 == (x >> 13) & 1
    ensures (Permute(x, IP) >> 23) & 1 == (x >> 5) & 1
  {
    IPEntriesLow();
    PermuteBit(x, IP, 20, 20);
    PermuteBit(x, IP, 21, 21);
    PermuteBit(x, IP, 22, 22);
    PermuteBit(x, IP, 23, 23);
  }

  lemma IPBits6(x: bv64)
    ensures (Permute(x, IP) >> 24) & 1 == (x >> 63) & 1
    ensures (Permute(x, IP) >> 25) & 1 == (x >> 55) & 1
    ensures (Permute(x, IP) >> 26) & 1 == (x >> 47) & 1
    ensures (Permute(x, IP) >> 27) & 1 == (x >> 39) & 1
  {
    IPEntriesLow();
    PermuteBit(x, IP, 24, 24);
    PermuteBit(x, IP, 25, 25);
    PermuteBit(x, IP, 26, 26);
    PermuteBit(x, IP, 27, 27);
  }

  lemma IPBits7(x: bv64)
    ensures (Permute(x, IP) >> 28) & 1 == (x >> 31) & 1
    ensures (Permute(x, IP) >> 29) & 1 == (x >> 23) & 1
    ensures (Permute(x, IP) >> 30) & 1 == (x >> 15) & 1
    ensures (Permute(x, IP) >> 31) & 1 == (x >> 7) & 1
  {
    IPEntriesLow();
    PermuteBit(x, IP, 28, 28);
    PermuteBit(x, IP, 29, 29);
    PermuteBit(x, IP, 30, 30);
    PermuteBit(x, IP, 31, 31);
  }

  lemma IPBits8(x: bv64)
    ensures (Permute(x, IP) >> 32) & 1 == (x >> 56) & 1
    ensures (Permute(x, IP) >> 33) & 1 == (x >> 48) & 1
    ensures (Permute(x, IP) >> 34) & 1 == (x >> 40) & 1
    ensures (Permute(x, IP) >> 35) & 1 == (x >> 32) & 1
  {
    IPEntriesHigh();
    PermuteBit(x, IP, 32, 32);
    PermuteBit(x, IP, 33, 33);
    PermuteBit(x, IP, 34, 34);
    PermuteBit(x, IP, 35, 35);
  }

  lemma IPBits9(x: bv64)
    ensures (Permute(x, IP) >> 36) & 1 == (x >> 24) & 1
    ensures (Permute(x, IP) >> 37) & 1 == (x >> 16) & 1
    ensures (Permute(x, IP) >> 38) & 1 == (x >> 8) & 1
    ensures (Permute(x, IP) >> 39) & 1 == (x >> 0) & 1
  {
    IPEntriesHigh();
    PermuteBit(x, IP, 36, 36);
    PermuteBit(x, IP, 37, 37);
    PermuteBit(x, IP, 38, 38);
    PermuteBit(x, IP, 39, 39);
  }

  lemma IPBits10(x: bv64)
    ensures (Permute(x, IP) >> 40) & 1 == (x >> 58) & 1
    ensures (Permute(x, IP) >> 41) & 1 == (x >> 50) & 1
    ensures (Permute(x, IP) >> 42) & 1 == (x >> 42) & 1
    ensures (Permute(x, IP) >> 43) & 1 == (x >> 34) & 1
  {
    IPEntriesHigh();
    PermuteBit(x, IP, 40, 40);
    PermuteBit(x, IP, 41, 41);
    PermuteBit(x, IP, 42, 42);
    PermuteBit(x, IP, 43, 43);
  }

  lemma IPBits11(x: bv64)
    ensures (Permute(x, IP) >> 44) & 1 == (x >> 26) & 1
    ensures (Permute(x, IP) >> 45) & 1 == (x >> 18) & 1
    ensures (Permute(x, IP) >> 46) & 1 == (x >> 10) & 1
    ensures (Permute(x, IP) >> 47) & 1 == (x >> 2) & 1
  {
    IPEntriesHigh();
    PermuteBit(x, IP, 44, 44);
    PermuteBit(x, IP, 45, 45);
    PermuteBit(x, IP, 46, 46);
    PermuteBit(x, IP, 47, 47);
  }

  lemma IPBits12(x: bv64)
    ensures (Permute(x, IP) >> 48) & 1 == (x >> 60) & 1
    ensures (Permute(x, IP) >> 49) & 1 == (x >> 52) & 1
    ensures (Permute(x, IP) >> 50) & 1 == (x >> 44) & 1
    ensures (Permute(x, IP) >> 51) & 1 == (x >> 36) & 1
  {
    IPEntriesHigh();
    PermuteBit(x, IP, 48, 48);
    PermuteBit(x, IP, 49, 49);
    PermuteBit(x, IP, 50, 50);
    PermuteBit(x, IP, 51, 51);
  }

  lemma IPBits13(x: bv64)
    ensures (Permute(x, IP) >> 52) & 1 == (x >> 28) & 1
    ensures (Permute(x, IP) >> 53) & 1 == (x >> 20) & 1
    ensures (Permute(x, IP) >> 54) & 1 == (x >> 12) & 1
    ensures (Permute(x, IP) >> 55) & 1 == (x >> 4) & 1
  {
    IPEntriesHigh();
    PermuteBit(x, IP, 52, 52);
    PermuteBit(x, IP, 53, 53);
    PermuteBit(x, IP, 54, 54);
    PermuteBit(x, IP, 55, 55);
  }

  lemma IPBits14(x: bv64)
    ensures (Permute(x, IP) >> 56) & 1 == (x >> 62) & 1
    ensures (Permute(x, IP) >> 57) & 1 == (x >> 54) & 1
    ensures (Permute(x, IP) >> 58) & 1 == (x >> 46) & 1
    ensures (Permute(x, IP) >> 59) & 1 == (x >> 38) & 1
  {
    IPEntriesHigh();
    PermuteBit(x, IP, 56, 56);
    PermuteBit(x, IP, 57, 57);
    PermuteBit(x, IP, 58, 58);
    PermuteBit(x, IP, 59, 59);
  }

  lemma IPBits15(x: bv64)
    ensures (Permute(x, IP) >> 60) & 1 == (x >> 30) & 1
    ensures (Permute(x, IP) >> 61) & 1 == (x >> 22) & 1
    ensures (Permute(x, IP) >> 62) & 1 == (x >> 14) & 1
    ensures (Permute(x, IP) >> 63) & 1 == (x >> 6) & 1
  {
    IPEntriesHigh();
    PermuteBit(x, IP, 60, 60);
    PermuteBit(x, IP, 61, 61);
    PermuteBit(x, IP, 62, 62);
    PermuteBit(x, IP, 63, 63);
  }

  lemma IP1Bits0(x: bv64)
    ensures (Permute(x, IP1) >> 0) & 1 == (x >> 39) & 1
    ensures (Permute(x, IP1) >> 1) & 1 == (x >> 7) & 1
    ensures (Permute(x, IP1) >> 2) & 1 == (x >> 47) & 1
    ensures (Permute(x, IP1) >> 3) & 1 == (x >> 15) & 1
  {
    IP1EntriesLow();
    PermuteBit(x, IP1, 0, 0);
    PermuteBit(x, IP1, 1, 1);
    PermuteBit(x, IP1, 2, 2);
    PermuteBit(x, IP1, 3, 3);
  }

  lemma IP1Bits1(x: bv64)
    ensures (Permute(x, IP1) >> 4) & 1 == (x >> 55) & 1
    ensures (Permute(x, IP1) >> 5) & 1 == (x >> 23) & 1
    ensures (Permute(x, IP1) >> 6) & 1 == (x >> 63) & 1
    ensures (Permute(x, IP1) >> 7) & 1 == (x >> 31) & 1
  {
    IP1EntriesLow();
    PermuteBit(x, IP1, 4, 4);
    PermuteBit(x, IP1, 5, 5);
    PermuteBit(x, IP1, 6, 6);
    PermuteBit(x, IP1, 7, 7);
  }

  lemma IP1Bits2(x: bv64)
    ensures (Permute(x, IP1) >> 8) & 1 == (x >> 38) & 1
    ensures (Permute(x, IP1) >> 9) & 1 == (x >> 6) & 1
    ensures (Permute(x, IP1) >> 10) & 1 == (x >> 46) & 1
    ensures (Permute(x, IP1) >> 11) & 1 == (x >> 14) & 1
  {
    IP1EntriesLow();
    PermuteBit(x, IP1, 8, 8);
    PermuteBit(x, IP1, 9, 9);
    PermuteBit(x, IP1, 10, 10);
    PermuteBit(x, IP1, 11, 11);
  }

  lemma IP1Bits3(x: bv64)
    ensures (Permute(x, IP1) >> 12) & 1 == (x >> 54) & 1
    ensures (Permute(x, IP1) >> 13) & 1 == (x >> 22) & 1
    ensures (Permute(x, IP1) >> 14) & 1 == (x >> 62) & 1
    ensures (Permute(x, IP1) >> 15) & 1 == (x >> 30) & 1
  {
    IP1EntriesLow();
    PermuteBit(x, IP1, 12, 12);
    PermuteBit(x, IP1, 13, 13);
    PermuteBit(x, IP1, 14, 14);
    PermuteBit(x, IP1, 15, 15);
  }

  lemma IP1Bits4(x: bv64)
    ensures (Permute(x, IP1) >> 16) & 1 == (x >> 37) & 1
    ensures (Permute(x, IP1) >> 17) & 1 == (x >> 5) & 1
    ensures (Permute(x, IP1) >> 18) & 1 == (x >> 45) & 1
    ensures (Permute(x, IP1) >> 19) & 1 == (x >> 13) & 1
  {
    IP1EntriesLow();
    PermuteBit(x, IP1, 16, 16);
    PermuteBit(x, IP1, 17, 17);
    PermuteBit(x, IP1, 18, 18);
    PermuteBit(x, IP1, 19, 19);
  }

  lemma IP1Bits5(x: bv64)
    ensures (Permute(x, IP1) >> 20) & 1 == (x >> 53) & 1
    ensures (Permute(x, IP1) >> 21) & 1 == (x >> 21) & 1
    ensures (Permute(x, IP1) >> 22) & 1 == (x >> 61) & 1
    ensures (Permute(x, IP1) >> 23) & 1 == (x >> 29) & 1
  {
    IP1EntriesLow();
    PermuteBit(x, IP1, 20, 20);
    PermuteBit(x, IP1, 21, 21);
    PermuteBit(x, IP1, 22, 22);
    PermuteBit(x, IP1, 23, 23);
  }

  lemma IP1Bits6(x: bv64)
    ensures (Permute(x, IP1) >> 24) & 1 == (x >> 36) & 1
    ensures (Permute(x, IP1) >> 25) & 1 == (x >> 4) & 1
    ensures (Permute(x, IP1) >> 26) & 1 == (x >> 44) & 1
    ensures (Permute(x, IP1) >> 27) & 1 == (x >> 12) & 1
  {
    IP1EntriesLow();
    PermuteBit(x, IP1, 24, 24);
    PermuteBit(x, IP1, 25, 25);
    PermuteBit(x, IP1, 26, 26);
    PermuteBit(x, IP1, 27, 27);
  }

  lemma IP1Bits7(x: bv64)
    ensures (Permute(x, IP1) >> 28) & 1 == (x >> 52) & 1
    ensures (Permute(x, IP1) >> 29) & 1 == (x >> 20) & 1
    ensures (Permute(x, IP1) >> 30) & 1 == (x >> 60) & 1
    ensures (Permute(x, IP1) >> 31) & 1 == (x >> 28) & 1
  {
    IP1EntriesLow();
    PermuteBit(x, IP1, 28, 28);
    PermuteBit(x, IP1, 29, 29);
    PermuteBit(x, IP1, 30, 30);
    PermuteBit(x, IP1, 31, 31);
  }

  lemma IP1Bits8(x: bv64)
    ensures (Permute(x, IP1) >> 32) & 1 == (x >> 35) & 1
    ensures (Permute(x, IP1) >> 33) & 1 == (x >> 3) & 1
    ensures (Permute(x, IP1) >> 34) & 1 == (x >> 43) & 1
    ensures (Permute(x, IP1) >> 35) & 1 == (x >> 11) & 1
  {
    IP1EntriesHigh();
    PermuteBit(x, IP1, 32, 32);
    PermuteBit(x, IP1, 33, 33);
    PermuteBit(x, IP1, 34, 34);
    PermuteBit(x, IP1, 35, 35);
  }

  lemma IP1Bits9(x: bv64)
    ensures (Permute(x, IP1) >> 36) & 1 == (x >> 51) & 1
    ensures (Permute(x, IP1) >> 37) & 1 == (x >> 19) & 1
    ensures (Permute(x, IP1) >> 38) & 1 == (x >> 59) & 1
    ensures (Permute(x, IP1) >> 39) & 1 == (x >> 27) & 1
  {
    IP1EntriesHigh();
    PermuteBit(x, IP1, 36, 36);
    PermuteBit(x, IP1, 37, 37);
    PermuteBit(x, IP1, 38, 38);
    PermuteBit(x, IP1, 39, 39);
  }

  lemma IP1Bits10(x: bv64)
    ensures (Permute(x, IP1) >> 40) & 1 == (x >> 34) & 1
    ensures (Permute(x, IP1) >> 41) & 1 == (x >> 2) & 1
    ensures (Permute(x, IP1) >> 42) & 1 == (x >> 42) & 1
    ensures (Permute(x, IP1) >> 43) & 1 == (x >> 10) & 1
  {
    IP1EntriesHigh();
    PermuteBit(x, IP1, 40, 40);
    PermuteBit(x, IP1, 41, 41);
    PermuteBit(x, IP1, 42, 42);
    PermuteBit(x, IP1, 43, 43);
  }

  lemma IP1Bits11(x: bv64)
    ensures (Permute(x, IP1) >> 44) & 1 == (x >> 50) & 1
    ensures (Permute(x, IP1) >> 45) & 1 == (x >> 18) & 1
    ensures (Permute(x, IP1) >> 46) & 1 == (x >> 58) & 1
    ensures (Permute(x, IP1) >> 47) & 1 == (x >> 26) & 1
  {
    IP1EntriesHigh();
    PermuteBit(x, IP1, 44, 44);
    PermuteBit(x, IP1, 45, 45);
    PermuteBit(x, IP1, 46, 46);
    PermuteBit(x, IP1, 47, 47);
  }

  lemma IP1Bits12(x: bv64)
    ensures (Permute(x, IP1) >> 48) & 1 == (x >> 33) & 1
    ensures (Permute(x, IP1) >> 49) & 1 == (x >> 1) & 1
    ensures (Permute(x, IP1) >> 50) & 1 == (x >> 41) & 1
    ensures (Permute(x, IP1) >> 51) & 1 == (x >> 9) & 1
  {
    IP1EntriesHigh();
    PermuteBit(x, IP1, 48, 48);
    PermuteBit(x, IP1, 49, 49);
    PermuteBit(x, IP1, 50, 50);
    PermuteBit(x, IP1, 51, 51);
  }

  lemma IP1Bits13(x: bv64)
    ensures (Permute(x, IP1) >> 52) & 1 == (x >> 49) & 1
    ensures (Permute(x, IP1) >> 53) & 1 == (x >> 17) & 1
    ensures (Permute(x, IP1) >> 54) & 1 == (x >> 57) & 1
    ensures (Permute(x, IP1) >> 55) & 1 == (x >> 25) & 1
  {
    IP1EntriesHigh();
    PermuteBit(x, IP1, 52, 52);
    PermuteBit(x, IP1, 53, 53);
    PermuteBit(x, IP1, 54, 54);
    PermuteBit(x, IP1, 55, 55);
  }

  lemma IP1Bits14(x: bv64)
    ensures (Permute(x, IP1) >> 56) & 1 == (x >> 32) & 1
    ensures (Permute(x, IP1) >> 57) & 1 == (x >> 0) & 1
    ensures (Permute(x, IP1) >> 58) & 1 == (x >> 40) & 1
    ensures (Permute(x, IP1) >> 59) & 1 == (x >> 8) & 1
  {
    IP1EntriesHigh();
    PermuteBit(x, IP1, 56, 56);
    PermuteBit(x, IP1, 57, 57);
    PermuteBit(x, IP1, 58, 58);
    PermuteBit(x, IP1, 59, 59);
  }

  lemma IP1Bits15(x: bv64)
    ensures (Permute(x, IP1) >> 60) & 1 == (x >> 48) & 1
    ensures (Permute(x, IP1) >> 61) & 1 == (x >> 16) & 1
    ensures (Permute(x, IP1) >> 62) & 1 == (x >> 56) & 1
    ensures (Permute(x, IP1) >> 63) & 1 == (x >> 24) & 1
  {
    IP1EntriesHigh();
    PermuteBit(x, IP1, 60, 60);
    PermuteBit(x, IP1, 61, 61);
    PermuteBit(x, IP1, 62, 62);
    PermuteBit(x, IP1, 63, 63);
  }

  lemma EBits0(x: bv64)
    ensures (Permute(x, E) >> 0) & 1 == (x >> 31) & 1
    ensures (Permute(x, E) >> 1) & 1 == (x >> 0) & 1
    ensures (Permute(x, E) >> 2) & 1 == (x >> 1) & 1
    ensures (Permute(x, E) >> 3) & 1 == (x >> 2) & 1
  {
    EEntriesLow();
    PermuteBit(x, E, 0, 0);
    PermuteBit(x, E, 1, 1);
    PermuteBit(x, E, 2, 2);
    PermuteBit(x, E, 3, 3);
  }

  lemma EBits1(x: bv64)
    ensures (Permute(x, E) >> 4) & 1 == (x >> 3) & 1
    ensures (Permute(x, E) >> 5) & 1 == (x >> 4) & 1
    ensures (Permute(x, E) >> 6) & 1 == (x >> 3) & 1
    ensures (Permute(x, E) >> 7) & 1 == (x >> 4) & 1
  {
    EEntriesLow();
    PermuteBit(x, E, 4, 4);
    PermuteBit(x, E, 5, 5);
    PermuteBit(x, E, 6, 6);
    PermuteBit(x, E, 7, 7);
  }

  lemma EBits2(x: bv64)
    ensures (Permute(x, E) >> 8) & 1 == (x >> 5) & 1
    ensures (Permute(x, E) >> 9) & 1 == (x >> 6) & 1
    ensures (Permute(x, E) >> 10) & 1 == (x >> 7) & 1
    ensures (Permute(x, E) >> 11) & 1 == (x >> 8) & 1
  {
    EEntriesLow();
    PermuteBit(x, E, 8, 8);
    PermuteBit(x, E, 9, 9);
    PermuteBit(x, E, 10, 10);
    PermuteBit(x, E, 11, 11);
  }

  lemma EBits3(x: bv64)
    ensures (Permute(x, E) >> 12) & 1 == (x >> 7) & 1
    ensures (Permute(x, E) >> 13) & 1 == (x >> 8) & 1
    ensures (Permute(x, E) >> 14) & 1 == (x >> 9) & 1
    ensures (Permute(x, E) >> 15) & 1 == (x >> 10) & 1
  {
    EEntriesLow();
    PermuteBit(x, E, 12, 12);
    PermuteBit(x, E, 13, 13);
    PermuteBit(x, E, 14, 14);
    PermuteBit(x, E, 15, 15);
  }

  lemma EBits4(x: bv64)
    ensures (Permute(x, E) >> 16) & 1 == (x >> 11) & 1
    ensures (Permute(x, E) >> 17) & 1 == (x >> 12) & 1
    ensures (Permute(x, E) >> 18) & 1 == (x >> 11) & 1
    ensures (Permute(x, E) >> 19) & 1 == (x >> 12) & 1
  {
    EEntriesLow();
    PermuteBit(x, E, 16, 16);
    PermuteBit(x, E, 17, 17);
    PermuteBit(x, E, 18, 18);
    PermuteBit(x, E, 19, 19);
  }

  lemma EBits5(x: bv64)
    ensures (Permute(x, E) >> 20) & 1 == (x >> 13) & 1
    ensures (Permute(x, E) >> 21) & 1 == (x >> 14) & 1
    ensures (Permute(x, E) >> 22) & 1 == (x >> 15) & 1
    ensures (Permute(x, E) >> 23) & 1 == (x >> 16) & 1
  {
    EEntriesLow();
    PermuteBit(x, E, 20, 20);
    PermuteBit(x, E, 21, 21);
    PermuteBit(x, E, 22, 22);
    PermuteBit(x, E, 23, 23);
  }

  lemma EBits6(x: bv64)
    ensures (Permute(x, E) >> 24) & 1 == (x >> 15) & 1
    ensures (Permute(x, E) >> 25) & 1 == (x >> 16) & 1
    ensures (Permute(x, E) >> 26) & 1 == (x >> 17) & 1
    ensures (Permute(x, E) >> 27) & 1 == (x >> 18) & 1
  {
    EEntriesHigh();
    PermuteBit(x, E, 24, 24);
    PermuteBit(x, E, 25, 25);
    PermuteBit(x, E, 26, 26);
    PermuteBit(x, E, 27, 27);
  }

  lemma EBits7(x: bv64)
    ensures (Permute(x, E) >> 28) & 1 == (x >> 19) & 1
    ensures (Permute(x, E) >> 29) & 1 == (x >> 20) & 1
    ensures (Permute(x, E) >> 30) & 1 == (x >> 19) & 1
    ensures (Permute(x, E) >> 31) & 1 == (x >> 20) & 1
  {
    EEntriesHigh();
    PermuteBit(x, E, 28, 28);
    PermuteBit(x, E, 29, 29);
    PermuteBit(x, E, 30, 30);
    PermuteBit(x, E, 31, 31);
  }

  lemma EBits8(x: bv64)
    ensures (Permute(x, E) >> 32) & 1 == (x >> 21) & 1
    ensures (Permute(x, E) >> 33) & 1 == (x >> 22) & 1
    ensures (Permute(x, E) >> 34) & 1 == (x >> 23) & 1
    ensures (Permute(x, E) >> 35) & 1 == (x >> 24) & 1
  {
    EEntriesHigh();
    PermuteBit(x, E, 32, 32);
    PermuteBit(x, E, 33, 33);
    PermuteBit(x, E, 34, 34);
    PermuteBit(x, E, 35, 35);
  }

  lemma EBits9(x: bv64)
    ensures (Permute(x, E) >> 36) & 1 == (x >> 23) & 1
    ensures (Permute(x, E) >> 37) & 1 == (x >> 24) & 1
    ensures (Permute(x, E) >> 38) & 1 == (x >> 25) & 1
    ensures (Permute(x, E) >> 39) & 1 == (x >> 26) & 1
  {
    EEntriesHigh();
    PermuteBit(x, E, 36, 36);
    PermuteBit(x, E, 37, 37);
    PermuteBit(x, E, 38, 38);
    PermuteBit(x, E, 39, 39);
  }

  lemma EBits10(x: bv64)
    ensures (Permute(x, E) >> 40) & 1 == (x >> 27) & 1
    ensures (Permute(x, E) >> 41) & 1 == (x >> 28) & 1
    ensures (Permute(x, E) >> 42) & 1 == (x >> 27) & 1
    ensures (Permute(x, E) >> 43) & 1 == (x >> 28) & 1
  {
    EEntriesHigh();
    PermuteBit(x, E, 40, 40);
    PermuteBit(x, E, 41, 41);
    PermuteBit(x, E, 42, 42);
    PermuteBit(x, E, 43, 43);
  }

  lemma EBits11(x: bv64)
    ensures (Permute(x, E) >> 44) & 1 == (x >> 29) & 1
    ensures (Permute(x, E) >> 45) & 1 == (x >> 30) & 1
    ensures (Permute(x, E) >> 46) & 1 == (x >> 31) & 1
    ensures (Permute(x, E) >> 47) & 1 == (x >> 0) & 1
  {
    EEntriesHigh();
    PermuteBit(x, E, 44, 44);
    PermuteBit(x, E, 45, 45);
    PermuteBit(x, E, 46, 46);
    PermuteBit(x, E, 47, 47);
  }

  lemma PBits0(x: bv64)
    ensures (Permute(x, P) >> 0) & 1 == (x >> 15) & 1
    ensures (Permute(x, P) >> 1) & 1 == (x >> 6) & 1
    ensures (Permute(x, P) >> 2) & 1 == (x >> 19) & 1
    ensures (Permute(x, P) >> 3) & 1 == (x >> 20) & 1
  {
    PEntriesLow();
    PermuteBit(x, P, 0, 0);
    PermuteBit(x, P, 1, 1);
    PermuteBit(x, P, 2, 2);
    PermuteBit(x, P, 3, 3);
  }

  lemma PBits1(x: bv64)
    ensures (Permute(x, P) >> 4) & 1 == (x >> 28) & 1
    ensures (Permute(x, P) >> 5) & 1 == (x >> 11) & 1
    ensures (Permute(x, P) >> 6) & 1 == (x >> 27) & 1
    ensures (Permute(x, P) >> 7) & 1 == (x >> 16) & 1
  {
    PEntriesLow();
    PermuteBit(x, P, 4, 4);
    PermuteBit(x, P, 5, 5);
    PermuteBit(x, P, 6, 6);
    PermuteBit(x, P, 7, 7);
  }

  lemma PBits2(x: bv64)
    ensures (Permute(x, P) >> 8) & 1 == (x >> 0) & 1
    ensures (Permute(x, P) >> 9) & 1 == (x >> 14) & 1
    ensures (Permute(x, P) >> 10) & 1 == (x >> 22) & 1
    ensures (Permute(x, P) >> 11) & 1 == (x >> 25) & 1
  {
    PEntriesLow();
    PermuteBit(x, P, 8, 8);
    PermuteBit(x, P, 9, 9);
    PermuteBit(x, P, 10, 10);
    PermuteBit(x, P, 11, 11);
  }

  lemma PBits3(x: bv64)
    ensures (Permute(x, P) >> 12) & 1 == (x >> 4) & 1
    ensures (Permute(x, P) >> 13) & 1 == (x >> 17) & 1
    ensures (Permute(x, P) >> 14) & 1 == (x >> 30) & 1
    ensures (Permute(x, P) >> 15) & 1 == (x >> 9) & 1
  {
    PEntriesLow();
    PermuteBit(x, P, 12, 12);
    PermuteBit(x, P, 13, 13);
    PermuteBit(x, P, 14, 14);
    PermuteBit(x, P, 15, 15);
  }

  lemma PBits4(x: bv64)
    ensures (Permute(x, P) >> 16) & 1 == (x >> 1) & 1
    ensures (Permute(x, P) >> 17) & 1 == (x >> 7) & 1
    ensures (Permute(x, P) >> 18) & 1 == (x >> 23) & 1
    ensures (Permute(x, P) >> 19) & 1 == (x >> 13) & 1
  {
    PEntriesHigh();
    PermuteBit(x, P, 16, 16);
    PermuteBit(x, P, 17, 17);
    PermuteBit(x, P, 18, 18);
    PermuteBit(x, P, 19, 19);
  }

  lemma PBits5(x: bv64)
    ensures (Permute(x, P) >> 20) & 1 == (x >> 31) & 1
    ensures (Permute(x, P) >> 21) & 1 == (x >> 26) & 1
    ensures (Permute(x, P) >> 22) & 1 == (x >> 2) & 1
    ensures (Permute(x, P) >> 23) & 1 == (x >> 8) & 1
  {
    PEntriesHigh();
    PermuteBit(x, P, 20, 20);
    PermuteBit(x, P, 21, 21);
    PermuteBit(x, P, 22, 22);
    PermuteBit(x, P, 23, 23);
  }

  lemma PBits6(x: bv64)
    ensures (Permute(x, P) >> 24) & 1 == (x >> 18) & 1
    ensures (Permute(x, P) >> 25) & 1 == (x >> 12) & 1
    ensures (Permute(x, P) >> 26) & 1 == (x >> 29) & 1
    ensures (Permute(x, P) >> 27) & 1 == (x >> 5) & 1
  {
    PEntriesHigh();
    PermuteBit(x, P, 24, 24);
    PermuteBit(x, P, 25, 25);
    PermuteBit(x, P, 26, 26);
    PermuteBit(x, P, 27, 27);
  }

  lemma PBits7(x: bv64)
    ensures (Permute(x, P) >> 28) & 1 == (x >> 21) & 1
    ensures (Permute(x, P) >> 29) & 1 == (x >> 10) & 1
    ensures (Permute(x, P) >> 30) & 1 == (x >> 3) & 1
    ensures (Permute(x, P) >> 31) & 1 == (x >> 24) & 1
  {
    PEntriesHigh();
    PermuteBit(x, P, 28, 28);
    PermuteBit(x, P, 29, 29);
    PermuteBit(x, P, 30, 30);
    PermuteBit(x, P, 31, 31);
  }

  lemma PC1Bits0(x: bv64)
    ensures (Permute(x, PC1) >> 0) & 1 == (x >> 56) & 1
    ensures (Permute(x, PC1) >> 1) & 1 == (x >> 48) & 1
    ensures (Permute(x, PC1) >> 2) & 1 == (x >> 40) & 1
    ensures (Permute(x, PC1) >> 3) & 1 == (x >> 32) & 1
  {
    PC1EntriesLow();
    PermuteBit(x, PC1, 0, 0);
    PermuteBit(x, PC1, 1, 1);
    PermuteBit(x, PC1, 2, 2);
    PermuteBit(x, PC1, 3, 3);
  }

  lemma PC1Bits1(x: bv64)
    ensures (Permute(x, PC1) >> 4) & 1 == (x >> 24) & 1
    ensures (Permute(x, PC1) >> 5) & 1 == (x >> 16) & 1
    ensures (Permute(x, PC1) >> 6) & 1 == (x >> 8) & 1
    ensures (Permute(x, PC1) >> 7) & 1 == (x >> 0) & 1
  {
    PC1EntriesLow();
    PermuteBit(x, PC1, 4, 4);
    PermuteBit(x, PC1, 5, 5);
    PermuteBit(x, PC1, 6, 6);
    PermuteBit(x, PC1, 7, 7);
  }

  lemma PC1Bits2(x: bv64)
    ensures (Permute(x, PC1) >> 8) & 1 == (x >> 57) & 1
    ensures (Permute(x, PC1) >> 9) & 1 == (x >> 49) & 1
    ensures (Permute(x, PC1) >> 10) & 1 == (x >> 41) & 1
    ensures (Permute(x, PC1) >> 11) & 1 == (x >> 33) & 1
  {
    PC1EntriesLow();
    PermuteBit(x, PC1, 8, 8);
    PermuteBit(x, PC1, 9, 9);
    PermuteBit(x, PC1, 10, 10);
    PermuteBit(x, PC1, 11, 11);
  }

  lemma PC1Bits3(x: bv64)
    ensures (Permute(x, PC1) >> 12) & 1 == (x >> 25) & 1
    ensures (Permute(x, PC1) >> 13) & 1 == (x >> 17) & 1
    ensures (Permute(x, PC1) >> 14) & 1 == (x >> 9) & 1
    ensures (Permute(x, PC1) >> 15) & 1 == (x >> 1) & 1
  {
    PC1EntriesLow();
    PermuteBit(x, PC1, 12, 12);
    PermuteBit(x, PC1, 13, 13);
    PermuteBit(x, PC1, 14, 14);
    PermuteBit(x, PC1, 15, 15);
  }

  lemma PC1Bits4(x: bv64)
    ensures (Permute(x, PC1) >> 16) & 1 == (x >> 58) & 1
    ensures (Permute(x, PC1) >> 17) & 1 == (x >> 50) & 1
    ensures (Permute(x, PC1) >> 18) & 1 == (x >> 42) & 1
    ensures (Permute(x, PC1) >> 19) & 1 == (x >> 24) & 1
  {
    PC1EntriesLow();
    PermuteBit(x, PC1, 16, 16);
    PermuteBit(x, PC1, 17, 17);
    PermuteBit(x, PC1, 18, 18);
    PermuteBit(x, PC1, 19, 19);
  }

  lemma PC1Bits5(x: bv64)
    ensures (Permute(x, PC1) >> 20) & 1 == (x >> 26) & 1
    ensures (Permute(x, PC1) >> 21) & 1 == (x >> 18) & 1
    ensures (Permute(x, PC1) >> 22) & 1 == (x >> 10) & 1
    ensures (Permute(x, PC1) >> 23) & 1 == (x >> 2) & 1
  {
    PC1EntriesLow();
    PermuteBit(x, PC1, 20, 20);
    PermuteBit(x, PC1, 21, 21);
    PermuteBit(x, PC1, 22, 22);
    PermuteBit(x, PC1, 23, 23);
  }

  lemma PC1Bits6(x: bv64)
    ensures (Permute(x, PC1) >> 24) & 1 == (x >> 59) & 1
    ensures (Permute(x, PC1) >> 25) & 1 == (x >> 51) & 1
    ensures (Permute(x, PC1) >> 26) & 1 == (x >> 43) & 1
    ensures (Permute(x, PC1) >> 27) & 1 == (x >> 35) & 1
  {
    PC1EntriesLow();
    PermuteBit(x, PC1, 24, 24);
    PermuteBit(x, PC1, 25, 25);
    PermuteBit(x, PC1, 26, 26);
    PermuteBit(x, PC1, 27, 27);
  }

  lemma PC1Bits7(x: bv64)
    ensures (Permute(x, PC1) >> 28) & 1 == (x >> 62) & 1
    ensures (Permute(x, PC1) >> 29) & 1 == (x >> 54) & 1
    ensures (Permute(x, PC1) >> 30) & 1 == (x >> 46) & 1
    ensures (Permute(x, PC1) >> 31) & 1 == (x >> 38) & 1
  {
    PC1EntriesHigh();
    PermuteBit(x, PC1, 28, 28);
    PermuteBit(x, PC1, 29, 29);
    PermuteBit(x, PC1, 30, 30);
    PermuteBit(x, PC1, 31, 31);
  }

  lemma PC1Bits8(x: bv64)
    ensures (Permute(x, PC1) >> 32) & 1 == (x >> 30) & 1
    ensures (Permute(x, PC1) >> 33) & 1 == (x >> 22) & 1
    ensures (Permute(x, PC1) >> 34) & 1 == (x >> 14) & 1
    ensures (Permute(x, PC1) >> 35) & 1 == (x >> 6) & 1
  {
    PC1EntriesHigh();
    PermuteBit(x, PC1, 32, 32);
    PermuteBit(x, PC1, 33, 33);
    PermuteBit(x, PC1, 34, 34);
    PermuteBit(x, PC1, 35, 35);
  }

  lemma PC1Bits9(x: bv64)
    ensures (Permute(x, PC1) >> 36) & 1 == (x >> 61) & 1
    ensures (Permute(x, PC1) >> 37) & 1 == (x >> 53) & 1
    ensures (Permute(x, PC1) >> 38) & 1 == (x >> 45) & 1
    ensures (Permute(x, PC1) >> 39) & 1 == (x >> 37) & 1
  {
    PC1EntriesHigh();
    PermuteBit(x, PC1, 36, 36);
    PermuteBit(x, PC1, 37, 37);
    PermuteBit(x, PC1, 38, 38);
    PermuteBit(x, PC1, 39, 39);
  }

  lemma PC1Bits10(x: bv64)
    ensures (Permute(x, PC1) >> 40) & 1 == (x >> 29) & 1
    ensures (Permute(x, PC1) >> 41) & 1 == (x >> 21) & 1
    ensures (Permute(x, PC1) >> 42) & 1 == (x >> 13) & 1
    ensures (Permute(x, PC1) >> 43) & 1 == (x >> 5) & 1
  {
    PC1EntriesHigh();
    PermuteBit(x, PC1, 40, 40);
    PermuteBit(x, PC1, 41, 41);
    PermuteBit(x, PC1, 42, 42);
    PermuteBit(x, PC1, 43, 43);
  }

  lemma PC1Bits11(x: bv64)
    ensures (Permute(x, PC1) >> 44) & 1 == (x >> 60) & 1
    ensures (Permute(x, PC1) >> 45) & 1 == (x >> 52) & 1
    ensures (Permute(x, PC1) >> 46) & 1 == (x >> 44) & 1
    ensures (Permute(x, PC1) >> 47) & 1 == (x >> 36) & 1
  {
    PC1EntriesHigh();
    PermuteBit(x, PC1, 44, 44);
    PermuteBit(x, PC1, 45, 45);
    PermuteBit(x, PC1, 46, 46);
    PermuteBit(x, PC1, 47, 47);
  }

  lemma PC1Bits12(x: bv64)
    ensures (Permute(x, PC1) >> 48) & 1 == (x >> 28) & 1
    ensures (Permute(x, PC1) >> 49) & 1 == (x >> 20) & 1
    ensures (Permute(x, PC1) >> 50) & 1 == (x >> 12) & 1
    ensures (Permute(x, PC1) >> 51) & 1 == (x >> 4) & 1
  {
    PC1EntriesHigh();
    PermuteBit(x, PC1, 48, 48);
    PermuteBit(x, PC1, 49, 49);
    PermuteBit(x, PC1, 50, 50);
    PermuteBit(x, PC1, 51, 51);
  }

  lemma PC1Bits13(x: bv64)
    ensures (Permute(x, PC1) >> 52) & 1 == (x >> 27) & 1
    ensures (Permute(x, PC1) >> 53) & 1 == (x >> 19) & 1
    ensures (Permute(x, PC1) >> 54) & 1 == (x >> 11) & 1
    ensures (Permute(x, PC1) >> 55) & 1 == (x >> 3) & 1
  {
    PC1EntriesHigh();
    PermuteBit(x, PC1, 52, 52);
    PermuteBit(x, PC1, 53, 53);
    PermuteBit(x, PC1, 54, 54);
    PermuteBit(x, PC1, 55, 55);
  }

  /** Every output bit of the table permutation IP. */
  lemma IPSelects(x: bv64)
    ensures (Permute(x, IP) >> 0) & 1 == (x >> 57) & 1
    ensures (Permute(x, IP) >> 1) & 1 == (x >> 49) & 1
    ensures (Permute(x, IP) >> 2) & 1 == (x >> 41) & 1
    ensures (Permute(x, IP) >> 3) & 1 == (x >> 33) & 1
    ensures (Permute(x, IP) >> 4) & 1 == (x >> 25) & 1
    ensures (Permute(x, IP) >> 5) & 1 == (x >> 17) & 1
    ensures (Permute(x, IP) >> 6) & 1 == (x >> 9) & 1
    ensures (Permute(x, IP) >> 7) & 1 == (x >> 1) & 1
    ensures (Permute(x, IP) >> 8) & 1 == (x >> 59) & 1
    ensures (Permute(x, IP) >> 9) & 1 == (x >> 51) & 1
    ensures (Permute(x, IP) >> 10) & 1 == (x >> 43) & 1
    ensures (Permute(x, IP) >> 11) & 1 == (x >> 35) & 1
    ensures (Permute(x, IP) >> 12) & 1 == (x >> 27) & 1
    ensures (Permute(x, IP) >> 13) & 1 == (x >> 19) & 1
    ensures (Permute(x, IP) >> 14) & 1 == (x >> 11) & 1
    ensures (Permute(x, IP) >> 15) & 1 == (x >> 3) & 1
    ensures (Permute(x, IP) >> 16) & 1 == (x >> 61) & 1
    ensures (Permute(x, IP) >> 17) & 1 == (x >> 53) & 1
    ensures (Permute(x, IP) >> 18) & 1 == (x >> 45) & 1
    ensures (Permute(x, IP) >> 19) & 1 == (x >> 37) & 1
    ensures (Permute(x, IP) >> 20) & 1 == (x >> 29) & 1
    ensures (Permute(x, IP) >> 21) & 1 == (x >> 21) & 1
    ensures (Permute(x, IP) >> 22) & 1 == (x >> 13) & 1
    ensures (Permute(x, IP) >> 23) & 1 == (x >> 5) & 1
    ensures (Permute(x, IP) >> 24) & 1 == (x >> 63) & 1
    ensures (Permute(x, IP) >> 25) & 1 == (x >> 55) & 1
    ensures (Permute(x, IP) >> 26) & 1 == (x >> 47) & 1
    ensures (Permute(x, IP) >> 27) & 1 == (x >> 39) & 1
    ensures (Permute(x, IP) >> 28) & 1 == (x >> 31) & 1
    ensures (Permute(x, IP) >> 29) & 1 == (x >> 23) & 1
    ensures (Permute(x, IP) >> 30) & 1 == (x >> 15) & 1
    ensures (Permute(x, IP) >> 31) & 1 == (x >> 7) & 1
    ensures (Permute(x, IP) >> 32) & 1 == (x >> 56) & 1
    ensures (Permute(x, IP) >> 33) & 1 == (x >> 48) & 1
    ensures (Permute(x, IP) >> 34) & 1 == (x >> 40) & 1
    ensures (Permute(x, IP) >> 35) & 1 == (x >> 32) & 1
    ensures (Permute(x, IP) >> 36) & 1 == (x >> 24) & 1
    ensures (Permute(x, IP) >> 37) & 1 == (x >> 16) & 1
    ensures (Permute(x, IP) >> 38) & 1 == (x >> 8) & 1
    ensures (Permute(x, IP) >> 39) & 1 == (x >> 0) & 1
    ensures (Permute(x, IP) >> 40) & 1 == (x >> 58) & 1
    ensures (Permute(x, IP) >> 41) & 1 == (x >> 50) & 1
    ensures (Permute(x, IP) >> 42) & 1 == (x >> 42) & 1
    ensures (Permute(x, IP) >> 43) & 1 == (x >> 34) & 1
    ensures (Permute(x, IP) >> 44) & 1 == (x >> 26) & 1
    ensures (Permute(x, IP) >> 45) & 1 == (x >> 18) & 1
    ensures (Permute(x, IP) >> 46) & 1 == (x >> 10) & 1
    ensures (Permute(x, IP) >> 47) & 1 == (x >> 2) & 1
    ensures (Permute(x, IP) >> 48) & 1 == (x >> 60) & 1
    ensures (Permute(x, IP) >> 49) & 1 == (x >> 52) & 1
    ensures (Permute(x, IP) >> 50) & 1 == (x >> 44) & 1
    ensures (Permute(x, IP) >> 51) & 1 == (x >> 36) & 1
    ensures (Permute(x, IP) >> 52) & 1 == (x >> 28) & 1
    ensures (Permute(x, IP) >> 53) & 1 == (x >> 20) & 1
    ensures (Permute(x, IP) >> 54) & 1 == (x >> 12) & 1
    ensures (Permute(x, IP) >> 55) & 1 == (x >> 4) & 1
    ensures (Permute(x, IP) >> 56) & 1 == (x >> 62) & 1
    ensures (Permute(x, IP) >> 57) & 1 == (x >> 54) & 1
    ensures (Permute(x, IP) >> 58) & 1 == (x >> 46) & 1
    ensures (Permute(x, IP) >> 59) & 1 == (x >> 38) & 1
    ensures (Permute(x, IP) >> 60) & 1 == (x >> 30) & 1
    ensures (Permute(x, IP) >> 61) & 1 == (x >> 22) & 1
    ensures (Permute(x, IP) >> 62) & 1 == (x >> 14) & 1
    ensures (Permute(x, IP) >> 63) & 1 == (x >> 6) & 1
  {
    IPBits0(x); IPBits1(x); IPBits2(x); IPBits3(x); IPBits4(x); IPBits5(x); IPBits6(x); IPBits7(x); IPBits8(x); IPBits9(x); IPBits10(x); IPBits11(x); IPBits12(x); IPBits13(x); IPBits14(x); IPBits15(x);
  }

  /** Every output bit of the table permutation IP1. */
  lemma IP1Selects(x: bv64)
    ensures (Permute(x, IP1) >> 0) & 1 == (x >> 39) & 1
    ensures (Permute(x, IP1) >> 1) & 1 == (x >> 7) & 1
    ensures (Permute(x, IP1) >> 2) & 1 == (x >> 47) & 1
    ensures (Permute(x, IP1) >> 3) & 1 == (x >> 15) & 1
    ensures (Permute(x, IP1) >> 4) & 1 == (x >> 55) & 1
    ensures (Permute(x, IP1) >> 5) & 1 == (x >> 23) & 1
    ensures (Permute(x, IP1) >> 6) & 1 == (x >> 63) & 1
    ensures (Permute(x, IP1) >> 7) & 1 == (x >> 31) & 1
    ensures (Permute(x, IP1) >> 8) & 1 == (x >> 38) & 1
    ensures (Permute(x, IP1) >> 9) & 1 == (x >> 6) & 1
    ensures (Permute(x, IP1) >> 10) & 1 == (x >> 46) & 1
    ensures (Permute(x, IP1) >> 11) & 1 == (x >> 14) & 1
    ensures (Permute(x, IP1) >> 12) & 1 == (x >> 54) & 1
    ensures (Permute(x, IP1) >> 13) & 1 == (x >> 22) & 1
    ensures (Permute(x, IP1) >> 14) & 1 == (x >> 62) & 1
    ensures (Permute(x, IP1) >> 15) & 1 == (x >> 30) & 1
    ensures (Permute(x, IP1) >> 16) & 1 == (x >> 37) & 1
    ensures (Permute(x, IP1) >> 17) & 1 == (x >> 5) & 1
    ensures (Permute(x, IP1) >> 18) & 1 == (x >> 45) & 1
    ensures (Permute(x, IP1) >> 19) & 1 == (x >> 13) & 1
    ensures (Permute(x, IP1) >> 20) & 1 == (x >> 53) & 1
    ensures (Permute(x, IP1) >> 21) & 1 == (x >> 21) & 1
    ensures (Permute(x, IP1) >> 22) & 1 == (x >> 61) & 1
    ensures (Permute(x, IP1) >> 23) & 1 == (x >> 29) & 1
    ensures (Permute(x, IP1) >> 24) & 1 == (x >> 36) & 1
    ensures (Permute(x, IP1) >> 25) & 1 == (x >> 4) & 1
    ensures (Permute(x, IP1) >> 26) & 1 == (x >> 44) & 1
    ensures (Permute(x, IP1) >> 27) & 1 == (x >> 12) & 1
    ensures (Permute(x, IP1) >> 28) & 1 == (x >> 52) & 1
    ensures (Permute(x, IP1) >> 29) & 1 == (x >> 20) & 1
    ensures (Permute(x, IP1) >> 30) & 1 == (x >> 60) & 1
    ensures (Permute(x, IP1) >> 31) & 1 == (x >> 28) & 1
    ensures (Permute(x, IP1) >> 32) & 1 == (x >> 35) & 1
    ensures (Permute(x, IP1) >> 33) & 1 == (x >> 3) & 1
    ensures (Permute(x, IP1) >> 34) & 1 == (x >> 43) & 1
    ensures (Permute(x, IP1) >> 35) & 1 == (x >> 11) & 1
    ensures (Permute(x, IP1) >> 36) & 1 == (x >> 51) & 1
    ensures (Permute(x, IP1) >> 37) & 1 == (x >> 19) & 1
    ensures (Permute(x, IP1) >> 38) & 1 == (x >> 59) & 1
    ensures (Permute(x, IP1) >> 39) & 1 == (x >> 27) & 1
    ensures (Permute(x, IP1) >> 40) & 1 == (x >> 34) & 1
    ensures (Permute(x, IP1) >> 41) & 1 == (x >> 2) & 1
    ensures (Permute(x, IP1) >> 42) & 1 == (x >> 42) & 1
    ensures (Permute(x, IP1) >> 43) & 1 == (x >> 10) & 1
    ensures (Permute(x, IP1) >> 44) & 1 == (x >> 50) & 1
    ensures (Permute(x, IP1) >> 45) & 1 == (x >> 18) & 1
    ensures (Permute(x, IP1) >> 46) & 1 == (x >> 58) & 1
    ensures (Permute(x, IP1) >> 47) & 1 == (x >> 26) & 1
    ensures (Permute(x, IP1) >> 48) & 1 == (x >> 33) & 1
    ensures (Permute(x, IP1) >> 49) & 1 == (x >> 1) & 1
    ensures (Permute(x, IP1) >> 50) & 1 == (x >> 41) & 1
    ensures (Permute(x, IP1) >> 51) & 1 == (x >> 9) & 1
    ensures (Permute(x, IP1) >> 52) & 1 == (x >> 49) & 1
    ensures (Permute(x, IP1) >> 53) & 1 == (x >> 17) & 1
    ensures (Permute(x, IP1) >> 54) & 1 == (x >> 57) & 1
    ensures (Permute(x, IP1) >> 55) & 1 == (x >> 25) & 1
    ensures (Permute(x, IP1) >> 56) & 1 == (x >> 32) & 1
    ensures (Permute(x, IP1) >> 57) & 1 == (x >> 0) & 1
    ensures (Permute(x, IP1) >> 58) & 1 == (x >> 40) & 1
    ensures (Permute(x, IP1) >> 59) & 1 == (x >> 8) & 1
    ensures (Permute(x, IP1) >> 60) & 1 == (x >> 48) & 1
    ensures (Permute(x, IP1) >> 61) & 1 == (x >> 16) & 1
    ensures (Permute(x, IP1) >> 62) & 1 == (x >> 56) & 1
    ensures (Permute(x, IP1) >> 63) & 1 == (x >> 24) & 1
  {
    IP1Bits0(x); IP1Bits1(x); IP1Bits2(x); IP1Bits3(x); IP1Bits4(x); IP1Bits5(x); IP1Bits6(x); IP1Bits7(x); IP1Bits8(x); IP1Bits9(x); IP1Bits10(x); IP1Bits11(x); IP1Bits12(x); IP1Bits13(x); IP1Bits14(x); IP1Bits15(x);
  }

  /** Every output bit of the table expansion E, and nothing above them. */
  lemma ESelects(x: bv64)
    ensures (Permute(x, E) >> 0) & 1 == (x >> 31) & 1
    ensures (Permute(x, E) >> 1) & 1 == (x >> 0) & 1
    ensures (Permute(x, E) >> 2) & 1 == (x >> 1) & 1
    ensures (Permute(x, E) >> 3) & 1 == (x >> 2) & 1
    ensures (Permute(x, E) >> 4) & 1 == (x >> 3) & 1
    ensures (Permute(x, E) >> 5) & 1 == (x >> 4) & 1
    ensures (Permute(x, E) >> 6) & 1 == (x >> 3) & 1
    ensures (Permute(x, E) >> 7) & 1 == (x >> 4) & 1
    ensures (Permute(x, E) >> 8) & 1 == (x >> 5) & 1
    ensures (Permute(x, E) >> 9) & 1 == (x >> 6) & 1
    ensures (Permute(x, E) >> 10) & 1 == (x >> 7) & 1
    ensures (Permute(x, E) >> 11) & 1 == (x >> 8) & 1
    ensures (Permute(x, E) >> 12) & 1 == (x >> 7) & 1
    ensures (Permute(x, E) >> 13) & 1 == (x >> 8) & 1
    ensures (Permute(x, E) >> 14) & 1 == (x >> 9) & 1
    ensures (Permute(x, E) >> 15) & 1 == (x >> 10) & 1
    ensures (Permute(x, E) >> 16) & 1 == (x >> 11) & 1
    ensures (Permute(x, E) >> 17) & 1 == (x >> 12) & 1
    ensures (Permute(x, E) >> 18) & 1 == (x >> 11) & 1
    ensures (Permute(x, E) >> 19) & 1 == (x >> 12) & 1
    ensures (Permute(x, E) >> 20) & 1 == (x >> 13) & 1
    ensures (Permute(x, E) >> 21) & 1 == (x >> 14) & 1
    ensures (Permute(x, E) >> 22) & 1 == (x >> 15) & 1
    ensures (Permute(x, E) >> 23) & 1 == (x >> 16) & 1
    ensures (Permute(x, E) >> 24) & 1 == (x >> 15) & 1
    ensures (Permute(x, E) >> 25) & 1 == (x >> 16) & 1
    ensures (Permute(x, E) >> 26) & 1 == (x >> 17) & 1
    ensures (Permute(x, E) >> 27) & 1 == (x >> 18) & 1
    ensures (Permute(x, E) >> 28) & 1 == (x >> 19) & 1
    ensures (Permute(x, E) >> 29) & 1 == (x >> 20) & 1
    ensures (Permute(x, E) >> 30) & 1 == (x >> 19) & 1
    ensures (Permute(x, E) >> 31) & 1 == (x >> 20) & 1
    ensures (Permute(x, E) >> 32) & 1 == (x >> 21) & 1
    ensures (Permute(x, E) >> 33) & 1 == (x >> 22) & 1
    ensures (Permute(x, E) >> 34) & 1 == (x >> 23) & 1
    ensures (Permute(x, E) >> 35) & 1 == (x >> 24) & 1
    ensures (Permute(x, E) >> 36) & 1 == (x >> 23) & 1
    ensures (Permute(x, E) >> 37) & 1 == (x >> 24) & 1
    ensures (Permute(x, E) >> 38) & 1 == (x >> 25) & 1
    ensures (Permute(x, E) >> 39) & 1 == (x >> 26) & 1
    ensures (Permute(x, E) >> 40) & 1 == (x >> 27) & 1
    ensures (Permute(x, E) >> 41) & 1 == (x >> 28) & 1
    ensures (Permute(x, E) >> 42) & 1 == (x >> 27) & 1
    ensures (Permute(x, E) >> 43) & 1 == (x >> 28) & 1
    ensures (Permute(x, E) >> 44) & 1 == (x >> 29) & 1
    ensures (Permute(x, E) >> 45) & 1 == (x >> 30) & 1
    ensures (Permute(x, E) >> 46) & 1 == (x >> 31) & 1
    ensures (Permute(x, E) >> 47) & 1 == (x >> 0) & 1
    ensures Permute(x, E) >> 48 == 0
  {
    EBits0(x); EBits1(x); EBits2(x); EBits3(x); EBits4(x); EBits5(x); EBits6(x); EBits7(x); EBits8(x); EBits9(x); EBits10(x); EBits11(x);
    PermuteHigh(x, E, 48);
  }

  /** Every output bit of the table permutation P, and nothing above them. */
  lemma PSelects(x: bv64)
    ensures (Permute(x, P) >> 0) & 1 == (x >> 15) & 1
    ensures (Permute(x, P) >> 1) & 1 == (x >> 6) & 1
    ensures (Permute(x, P) >> 2) & 1 == (x >> 19) & 1
    ensures (Permute(x, P) >> 3) & 1 == (x >> 20) & 1
    ensures (Permute(x, P) >> 4) & 1 == (x >> 28) & 1
    ensures (Permute(x, P) >> 5) & 1 == (x >> 11) & 1
    ensures (Permute(x, P) >> 6) & 1 == (x >> 27) & 1
    ensures (Permute(x, P) >> 7) & 1 == (x >> 16) & 1
    ensures (Permute(x, P) >> 8) & 1 == (x >> 0) & 1
    ensures (Permute(x, P) >> 9) & 1 == (x >> 14) & 1
    ensures (Permute(x, P) >> 10) & 1 == (x >> 22) & 1
    ensures (Permute(x, P) >> 11) & 1 == (x >> 25) & 1
    ensures (Permute(x, P) >> 12) & 1 == (x >> 4) & 1
    ensures (Permute(x, P) >> 13) & 1 == (x >> 17) & 1
    ensures (Permute(x, P) >> 14) & 1 == (x >> 30) & 1
    ensures (Permute(x, P) >> 15) & 1 == (x >> 9) & 1
    ensures (Permute(x, P) >> 16) & 1 == (x >> 1) & 1
    ensures (Permute(x, P) >> 17) & 1 == (x >> 7) & 1
    ensures (Permute(x, P) >> 18) & 1 == (x >> 23) & 1
    ensures (Permute(x, P) >> 19) & 1 == (x >> 13) & 1
    ensures (Permute(x, P) >> 20) & 1 == (x >> 31) & 1
    ensures (Permute(x, P) >> 21) & 1 == (x >> 26) & 1
    ensures (Permute(x, P) >> 22) & 1 == (x >> 2) & 1
    ensures (Permute(x, P) >> 23) & 1 == (x >> 8) & 1
    ensures (Permute(x, P) >> 24) & 1 == (x >> 18) & 1
    ensures (Permute(x, P) >> 25) & 1 == (x >> 12) & 1
    ensures (Permute(x, P) >> 26) & 1 == (x >> 29) & 1
    ensures (Permute(x, P) >> 27) & 1 == (x >> 5) & 1
    ensures (Permute(x, P) >> 28) & 1 == (x >> 21) & 1
    ensures (Permute(x, P) >> 29) & 1 == (x >> 10) & 1
    ensures (Permute(x, P) >> 30) & 1 == (x >> 3) & 1
    ensures (Permute(x, P) >> 31) & 1 == (x >> 24) & 1
    ensures Permute(x, P) >> 32 == 0
  {
    PBits0(x); PBits1(x); PBits2(x); PBits3(x); PBits4(x); PBits5(x); PBits6(x); PBits7(x);
    PermuteHigh(x, P, 32);
  }

  /** Every output bit of the source's PC-1, and nothing above them. */
  lemma PC1Selects(x: bv64)
    ensures (Permute(x, PC1) >> 0) & 1 == (x >> 56) & 1
    ensures (Permute(x, PC1) >> 1) & 1 == (x >> 48) & 1
    ensures (Permute(x, PC1) >> 2) & 1 == (x >> 40) & 1
    ensures (Permute(x, PC1) >> 3) & 1 == (x >> 32) & 1
    ensures (Permute(x, PC1) >> 4) & 1 == (x >> 24) & 1
    ensures (Permute(x, PC1) >> 5) & 1 == (x >> 16) & 1
    ensures (Permute(x, PC1) >> 6) & 1 == (x >> 8) & 1
    ensures (Permute(x, PC1) >> 7) & 1 == (x >> 0) & 1
    ensures (Permute(x, PC1) >> 8) & 1 == (x >> 57) & 1
    ensures (Permute(x, PC1) >> 9) & 1 == (x >> 49) & 1
    ensures (Permute(x, PC1) >> 10) & 1 == (x >> 41) & 1
    ensures (Permute(x, PC1) >> 11) & 1 == (x >> 33) & 1
    ensures (Permute(x, PC1) >> 12) & 1 == (x >> 25) & 1
    ensures (Permute(x, PC1) >> 13) & 1 == (x >> 17) & 1
    ensures (Permute(x, PC1) >> 14) & 1 == (x >> 9) & 1
    ensures (Permute(x, PC1) >> 15) & 1 == (x >> 1) & 1
    ensures (Permute(x, PC1) >> 16) & 1 == (x >> 58) & 1
    ensures (Permute(x, PC1) >> 17) & 1 == (x >> 50) & 1
    ensures (Permute(x, PC1) >> 18) & 1 == (x >> 42) & 1
    ensures (Permute(x, PC1) >> 19) & 1 == (x >> 24) & 1
    ensures (Permute(x, PC1) >> 20) & 1 == (x >> 26) & 1
    ensures (Permute(x, PC1) >> 21) & 1 == (x >> 18) & 1
    ensures (Permute(x, PC1) >> 22) & 1 == (x >> 10) & 1
    ensures (Permute(x, PC1) >> 23) & 1 == (x >> 2) & 1
    ensures (Permute(x, PC1) >> 24) & 1 == (x >> 59) & 1
    ensures (Permute(x, PC1) >> 25) & 1 == (x >> 51) & 1
    ensures (Permute(x, PC1) >> 26) & 1 == (x >> 43) & 1
    ensures (Permute(x, PC1) >> 27) & 1 == (x >> 35) & 1
    ensures (Permute(x, PC1) >> 28) & 1 == (x >> 62) & 1
    ensures (Permute(x, PC1) >> 29) & 1 == (x >> 54) & 1
    ensures (Permute(x, PC1) >> 30) & 1 == (x >> 46) & 1
    ensures (Permute(x, PC1) >> 31) & 1 == (x >> 38) & 1
    ensures (Permute(x, PC1) >> 32) & 1 == (x >> 30) & 1
    ensures (Permute(x, PC1) >> 33) & 1 == (x >> 22) & 1
    ensures (Permute(x, PC1) >> 34) & 1 == (x >> 14) & 1
    ensures (Permute(x, PC1) >> 35) & 1 == (x >> 6) & 1
    ensures (Permute(x, PC1) >> 36) & 1 == (x >> 61) & 1
    ensures (Permute(x, PC1) >> 37) & 1 == (x >> 53) & 1
    ensures (Permute(x, PC1) >> 38) & 1 == (x >> 45) & 1
    ensures (Permute(x, PC1) >> 39) & 1 == (x >> 37) & 1
    ensures (Permute(x, PC1) >> 40) & 1 == (x >> 29) & 1
    ensures (Permute(x, PC1) >> 41) & 1 == (x >> 21) & 1
    ensures (Permute(x, PC1) >> 42) & 1 == (x >> 13) & 1
    ensures (Permute(x, PC1) >> 43) & 1 == (x >> 5) & 1
    ensures (Permute(x, PC1) >> 44) & 1 == (x >> 60) & 1
    ensures (Permute(x, PC1) >> 45) & 1 == (x >> 52) & 1
    ensures (Permute(x, PC1) >> 46) & 1 == (x >> 44) & 1
    ensures (Permute(x, PC1) >> 47) & 1 == (x >> 36) & 1
    ensures (Permute(x, PC1) >> 48) & 1 == (x >> 28) & 1
    ensures (Permute(x, PC1) >> 49) & 1 == (x >> 20) & 1
    ensures (Permute(x, PC1) >> 50) & 1 == (x >> 12) & 1
    ensures (Permute(x, PC1) >> 51) & 1 == (x >> 4) & 1
    ensures (Permute(x, PC1) >> 52) & 1 == (x >> 27) & 1
    ensures (Permute(x, PC1) >> 53) & 1 == (x >> 19) & 1
    ensures (Permute(x, PC1) >> 54) & 1 == (x >> 11) & 1
    ensures (Permute(x, PC1) >> 55) & 1 == (x >> 3) & 1
    ensures Permute(x, PC1) >> 56 == 0
  {
    PC1Bits0(x); PC1Bits1(x); PC1Bits2(x); PC1Bits3(x); PC1Bits4(x); PC1Bits5(x); PC1Bits6(x); PC1Bits7(x); PC1Bits8(x); PC1Bits9(x); PC1Bits10(x); PC1Bits11(x); PC1Bits12(x); PC1Bits13(x);
    PermuteHigh(x, PC1, 56);
  }

  /** The permutation IP with every output bit spelled out: bit j is input bit IP[j]-1. */
  function IPWord(x: bv64): bv64 {
    ((x >> 57) & 1) | (((x >> 49) & 1) << 1) | (((x >> 41) & 1) << 2) | (((x >> 33) & 1) << 3) |
    (((x >> 25) & 1) << 4) | (((x >> 17) & 1) << 5) | (((x >> 9) & 1) << 6) | (((x >> 1) & 1) << 7) |
    (((x >> 59) & 1) << 8) | (((x >> 51) & 1) << 9) | (((x >> 43) & 1) << 10) | (((x >> 35) & 1) << 11) |
    (((x >> 27) & 1) << 12) | (((x >> 19) & 1) << 13) | (((x >> 11) & 1) << 14) | (((x >> 3) & 1) << 15) |
    (((x >> 61) & 1) << 16) | (((x >> 53) & 1) << 17) | (((x >> 45) & 1) << 18) | (((x >> 37) & 1) << 19) |
    (((x >> 29) & 1) << 20) | (((x >> 21) & 1) << 21) | (((x >> 13) & 1) << 22) | (((x >> 5) & 1) << 23) |
    (((x >> 63) & 1) << 24) | (((x >> 55) & 1) << 25) | (((x >> 47) & 1) << 26) | (((x >> 39) & 1) << 27) |
    (((x >> 31) & 1) << 28) | (((x >> 23) & 1) << 29) | (((x >> 15) & 1) << 30) | (((x >> 7) & 1) << 31) |
    (((x >> 56) & 1) << 32) | (((x >> 48) & 1) << 33) | (((x >> 40) & 1) << 34) | (((x >> 32) & 1) << 35) |
    (((x >> 24) & 1) << 36) | (((x >> 16) & 1) << 37) | (((x >> 8) & 1) << 38) | (((x >> 0) & 1) << 39) |
    (((x >> 58) & 1) << 40) | (((x >> 50) & 1) << 41) | (((x >> 42) & 1) << 42) | (((x >> 34) & 1) << 43) |
    (((x >> 26) & 1) << 44) | (((x >> 18) & 1) << 45) | (((x >> 10) & 1) << 46) | (((x >> 2) & 1) << 47) |
    (((x >> 60) & 1) << 48) | (((x >> 52) & 1) << 49) | (((x >> 44) & 1) << 50) | (((x >> 36) & 1) << 51) |
    (((x >> 28) & 1) << 52) | (((x >> 20) & 1) << 53) | (((x >> 12) & 1) << 54) | (((x >> 4) & 1) << 55) |
    (((x >> 62) & 1) << 56) | (((x >> 54) & 1) << 57) | (((x >> 46) & 1) << 58) | (((x >> 38) & 1) << 59) |
    (((x >> 30) & 1) << 60) | (((x >> 22) & 1) << 61) | (((x >> 14) & 1) << 62) | (((x >> 6) & 1) << 63)
  }

  /** The source's loop over IP computes IPWord. */
  lemma IPIsWord(x: bv64)
    ensures Permute(x, IP) == IPWord(x)
  {
    IPSelects(x);
    IPWordFromBits(x, Permute(x, IP));
  }

  lemma IPWordFromBits(x: bv64, t: bv64)
    requires (t >> 0) & 1 == (x >> 57) & 1
    requires (t >> 1) & 1 == (x >> 49) & 1
    requires (t >> 2) & 1 == (x >> 41) & 1
    requires (t >> 3) & 1 == (x >> 33) & 1
    requires (t >> 4) & 1 == (x >> 25) & 1
    requires (t >> 5) & 1 == (x >> 17) & 1
    requires (t >> 6) & 1 == (x >> 9) & 1
    requires (t >> 7) & 1 == (x >> 1) & 1
    requires (t >> 8) & 1 == (x >> 59) & 1
    requires (t >> 9) & 1 == (x >> 51) & 1
    requires (t >> 10) & 1 == (x >> 43) & 1
    requires (t >> 11) & 1 == (x >> 35) & 1
    requires (t >> 12) & 1 == (x >> 27) & 1
    requires (t >> 13) & 1 == (x >> 19) & 1
    requires (t >> 14) & 1 == (x >> 11) & 1
    requires (t >> 15) & 1 == (x >> 3) & 1
    requires (t >> 16) & 1 == (x >> 61) & 1
    requires (t >> 17) & 1 == (x >> 53) & 1
    requires (t >> 18) & 1 == (x >> 45) & 1
    requires (t >> 19) & 1 == (x >> 37) & 1
    requires (t >> 20) & 1 == (x >> 29) & 1
    requires (t >> 21) & 1 == (x >> 21) & 1
    requires (t >> 22) & 1 == (x >> 13) & 1
    requires (t >> 23) & 1 == (x >> 5) & 1
    requires (t >> 24) & 1 == (x >> 63) & 1
    requires (t >> 25) & 1 == (x >> 55) & 1
    requires (t >> 26) & 1 == (x >> 47) & 1
    requires (t >> 27) & 1 == (x >> 39) & 1
    requires (t >> 28) & 1 == (x >> 31) & 1
    requires (t >> 29) & 1 == (x >> 23) & 1
    requires (t >> 30) & 1 == (x >> 15) & 1
    requires (t >> 31) & 1 == (x >> 7) & 1
    requires (t >> 32) & 1 == (x >> 56) & 1
    requires (t >> 33) & 1 == (x >> 48) & 1
    requires (t >> 34) & 1 == (x >> 40) & 1
    requires (t >> 35) & 1 == (x >> 32) & 1
    requires (t >> 36) & 1 == (x >> 24) & 1
    requires (t >> 37) & 1 == (x >> 16) & 1
    requires (t >> 38) & 1 == (x >> 8) & 1
    requires (t >> 39) & 1 == (x >> 0) & 1
    requires (t >> 40) & 1 == (x >> 58) & 1
    requires (t >> 41) & 1 == (x >> 50) & 1
    requires (t >> 42) & 1 == (x >> 42) & 1
    requires (t >> 43) & 1 == (x >> 34) & 1
    requires (t >> 44) & 1 == (x >> 26) & 1
    requires (t >> 45) & 1 == (x >> 18) & 1
    requires (t >> 46) & 1 == (x >> 10) & 1
    requires (t >> 47) & 1 == (x >> 2) & 1
    requires (t >> 48) & 1 == (x >> 60) & 1
    requires (t >> 49) & 1 == (x >> 52) & 1
    requires (t >> 50) & 1 == (x >> 44) & 1
    requires (t >> 51) & 1 == (x >> 36) & 1
    requires (t >> 52) & 1 == (x >> 28) & 1
    requires (t >> 53) & 1 == (x >> 20) & 1
    requires (t >> 54) & 1 == (x >> 12) & 1
    requires (t >> 55) & 1 == (x >> 4) & 1
    requires (t >> 56) & 1 == (x >> 62) & 1
    requires (t >> 57) & 1 == (x >> 54) & 1
    requires (t >> 58) & 1 == (x >> 46) & 1
    requires (t >> 59) & 1 == (x >> 38) & 1
    requires (t >> 60) & 1 == (x >> 30) & 1
    requires (t >> 61) & 1 == (x >> 22) & 1
    requires (t >> 62) & 1 == (x >> 14) & 1
    requires (t >> 63) & 1 == (x >> 6) & 1
    ensures IPWord(x) == t
  {
  }

  /** The permutation IP1 with every output bit spelled out: bit j is input bit IP1[j]-1. */
  function IP1Word(x: bv64): bv64 {
    ((x >> 39) & 1) | (((x >> 7) & 1) << 1) | (((x >> 47) & 1) << 2) | (((x >> 15) & 1) << 3) |
    (((x >> 55) & 1) << 4) | (((x >> 23) & 1) << 5) | (((x >> 63) & 1) << 6) | (((x >> 31) & 1) << 7) |
    (((x >> 38) & 1) << 8) | (((x >> 6) & 1) << 9) | (((x >> 46) & 1) << 10) | (((x >> 14) & 1) << 11) |
    (((x >> 54) & 1) << 12) | (((x >> 22) & 1) << 13) | (((x >> 62) & 1) << 14) | (((x >> 30) & 1) << 15) |
    (((x >> 37) & 1) << 16) | (((x >> 5) & 1) << 17) | (((x >> 45) & 1) << 18) | (((x >> 13) & 1) << 19) |
    (((x >> 53) & 1) << 20) | (((x >> 21) & 1) << 21) | (((x >> 61) & 1) << 22) | (((x >> 29) & 1) << 23) |
    (((x >> 36) & 1) << 24) | (((x >> 4) & 1) << 25) | (((x >> 44) & 1) << 26) | (((x >> 12) & 1) << 27) |
    (((x >> 52) & 1) << 28) | (((x >> 20) & 1) << 29) | (((x >> 60) & 1) << 30) | (((x >> 28) & 1) << 31) |
    (((x >> 35) & 1) << 32) | (((x >> 3) & 1) << 33) | (((x >> 43) & 1) << 34) | (((x >> 11) & 1) << 35) |
    (((x >> 51) & 1) << 36) | (((x >> 19) & 1) << 37) | (((x >> 59) & 1) << 38) | (((x >> 27) & 1) << 39) |
    (((x >> 34) & 1) << 40) | (((x >> 2) & 1) << 41) | (((x >> 42) & 1) << 42) | (((x >> 10) & 1) << 43) |
    (((x >> 50) & 1) << 44) | (((x >> 18) & 1) << 45) | (((x >> 58) & 1) << 46) | (((x >> 26) & 1) << 47) |
    (((x >> 33) & 1) << 48) | (((x >> 1) & 1) << 49) | (((x >> 41) & 1) << 50) | (((x >> 9) & 1) << 51) |
    (((x >> 49) & 1) << 52) | (((x >> 17) & 1) << 53) | (((x >> 57) & 1) << 54) | (((x >> 25) & 1) << 55) |
    (((x >> 32) & 1) << 56) | (((x >> 0) & 1) << 57) | (((x >> 40) & 1) << 58) | (((x >> 8) & 1) << 59) |
    (((x >> 48) & 1) << 60) | (((x >> 16) & 1) << 61) | (((x >> 56) & 1) << 62) | (((x >> 24) & 1) << 63)
  }

  /** The source's loop over IP1 computes IP1Word. */
  lemma IP1IsWord(x: bv64)
    ensures Permute(x, IP1) == IP1Word(x)
  {
    IP1Selects(x);
    IP1WordFromBits(x, Permute(x, IP1));
  }

  lemma IP1WordFromBits(x: bv64, t: bv64)
    requires (t >> 0) & 1 == (x >> 39) & 1
    requires (t >> 1) & 1 == (x >> 7) & 1
    requires (t >> 2) & 1 == (x >> 47) & 1
    requires (t >> 3) & 1 == (x >> 15) & 1
    requires (t >> 4) & 1 == (x >> 55) & 1
    requires (t >> 5) & 1 == (x >> 23) & 1
    requires (t >> 6) & 1 == (x >> 63) & 1
    requires (t >> 7) & 1 == (x >> 31) & 1
    requires (t >> 8) & 1 == (x >> 38) & 1
    requires (t >> 9) & 1 == (x >> 6) & 1
    requires (t >> 10) & 1 == (x >> 46) & 1
    requires (t >> 11) & 1 == (x >> 14) & 1
    requires (t >> 12) & 1 == (x >> 54) & 1
    requires (t >> 13) & 1 == (x >> 22) & 1
    requires (t >> 14) & 1 == (x >> 62) & 1
    requires (t >> 15) & 1 == (x >> 30) & 1
    requires (t >> 16) & 1 == (x >> 37) & 1
    requires (t >> 17) & 1 == (x >> 5) & 1
    requires (t >> 18) & 1 == (x >> 45) & 1
    requires (t >> 19) & 1 == (x >> 13) & 1
    requires (t >> 20) & 1 == (x >> 53) & 1
    requires (t >> 21) & 1 == (x >> 21) & 1
    requires (t >> 22) & 1 == (x >> 61) & 1
    requires (t >> 23) & 1 == (x >> 29) & 1
    requires (t >> 24) & 1 == (x >> 36) & 1
    requires (t >> 25) & 1 == (x >> 4) & 1
    requires (t >> 26) & 1 == (x >> 44) & 1
    requires (t >> 27) & 1 == (x >> 12) & 1
    requires (t >> 28) & 1 == (x >> 52) & 1
    requires (t >> 29) & 1 == (x >> 20) & 1
    requires (t >> 30) & 1 == (x >> 60) & 1
    requires (t >> 31) & 1 == (x >> 28) & 1
    requires (t >> 32) & 1 == (x >> 35) & 1
    requires (t >> 33) & 1 == (x >> 3) & 1
    requires (t >> 34) & 1 == (x >> 43) & 1
    requires (t >> 35) & 1 == (x >> 11) & 1
    requires (t >> 36) & 1 == (x >> 51) & 1
    requires (t >> 37) & 1 == (x >> 19) & 1
    requires (t >> 38) & 1 == (x >> 59) & 1
    requires (t >> 39) & 1 == (x >> 27) & 1
    requires (t >> 40) & 1 == (x >> 34) & 1
    requires (t >> 41) & 1 == (x >> 2) & 1
    requires (t >> 42) & 1 == (x >> 42) & 1
    requires (t >> 43) & 1 == (x >> 10) & 1
    requires (t >> 44) & 1 == (x >> 50) & 1
    requires (t >> 45) & 1 == (x >> 18) & 1
    requires (t >> 46) & 1 == (x >> 58) & 1
    requires (t >> 47) & 1 == (x >> 26) & 1
    requires (t >> 48) & 1 == (x >> 33) & 1
    requires (t >> 49) & 1 == (x >> 1) & 1
    requires (t >> 50) & 1 == (x >> 41) & 1
    requires (t >> 51) & 1 == (x >> 9) & 1
    requires (t >> 52) & 1 == (x >> 49) & 1
    requires (t >> 53) & 1 == (x >> 17) & 1
    requires (t >> 54) & 1 == (x >> 57) & 1
    requires (t >> 55) & 1 == (x >> 25) & 1
    requires (t >> 56) & 1 == (x >> 32) & 1
    requires (t >> 57) & 1 == (x >> 0) & 1
    requires (t >> 58) & 1 == (x >> 40) & 1
    requires (t >> 59) & 1 == (x >> 8) & 1
    requires (t >> 60) & 1 == (x >> 48) & 1
    requires (t >> 61) & 1 == (x >> 16) & 1
    requires (t >> 62) & 1 == (x >> 56) & 1
    requires (t >> 63) & 1 == (x >> 24) & 1
    ensures IP1Word(x) == t
  {
  }

  /** The permutation P with every output bit spelled out: bit j is input bit P[j]-1. */
  function PWord(x: bv64): bv64 {
    ((x >> 15) & 1) | (((x >> 6) & 1) << 1) | (((x >> 19) & 1) << 2) | (((x >> 20) & 1) << 3) |
    (((x >> 28) & 1) << 4) | (((x >> 11) & 1) << 5) | (((x >> 27) & 1) << 6) | (((x >> 16) & 1) << 7) |
    (((x >> 0) & 1) << 8) | (((x >> 14) & 1) << 9) | (((x >> 22) & 1) << 10) | (((x >> 25) & 1) << 11) |
    (((x >> 4) & 1) << 12) | (((x >> 17) & 1) << 13) | (((x >> 30) & 1) << 14) | (((x >> 9) & 1) << 15) |
    (((x >> 1) & 1) << 16) | (((x >> 7) & 1) << 17) | (((x >> 23) & 1) << 18) | (((x >> 13) & 1) << 19) |
    (((x >> 31) & 1) << 20) | (((x >> 26) & 1) << 21) | (((x >> 2) & 1) << 22) | (((x >> 8) & 1) << 23) |
    (((x >> 18) & 1) << 24) | (((x >> 12) & 1) << 25) | (((x >> 29) & 1) << 26) | (((x >> 5) & 1) << 27) |
    (((x >> 21) & 1) << 28) | (((x >> 10) & 1) << 29) | (((x >> 3) & 1) << 30) | (((x >> 24) & 1) << 31)
  }

  /** The source's loop over P computes PWord. */
  lemma PIsWord(x: bv64)
    ensures Permute(x, P) == PWord(x)
  {
    PSelects(x);
    PWordFromBits(x, Permute(x, P));
  }

  lemma PWordFromBits(x: bv64, t: bv64)
    requires (t >> 0) & 1 == (x >> 15) & 1
    requires (t >> 1) & 1 == (x >> 6) & 1
    requires (t >> 2) & 1 == (x >> 19) & 1
    requires (t >> 3) & 1 == (x >> 20) & 1
    requires (t >> 4) & 1 == (x >> 28) & 1
    requires (t >> 5) & 1 == (x >> 11) & 1
    requires (t >> 6) & 1 == (x >> 27) & 1
    requires (t >> 7) & 1 == (x >> 16) & 1
    requires (t >> 8) & 1 == (x >> 0) & 1
    requires (t >> 9) & 1 == (x >> 14) & 1
    requires (t >> 10) & 1 == (x >> 22) & 1
    requires (t >> 11) & 1 == (x >> 25) & 1
    requires (t >> 12) & 1 == (x >> 4) & 1
    requires (t >> 13) & 1 == (x >> 17) & 1
    requires (t >> 14) & 1 == (x >> 30) & 1
    requires (t >> 15) & 1 == (x >> 9) & 1
    requires (t >> 16) & 1 == (x >> 1) & 1
    requires (t >> 17) & 1 == (x >> 7) & 1
    requires (t >> 18) & 1 == (x >> 23) & 1
    requires (t >> 19) & 1 == (x >> 13) & 1
    requires (t >> 20) & 1 == (x >> 31) & 1
    requires (t >> 21) & 1 == (x >> 26) & 1
    requires (t >> 22) & 1 == (x >> 2) & 1
    requires (t >> 23) & 1 == (x >> 8) & 1
    requires (t >> 24) & 1 == (x >> 18) & 1
    requires (t >> 25) & 1 == (x >> 12) & 1
    requires (t >> 26) & 1 == (x >> 29) & 1
    requires (t >> 27) & 1 == (x >> 5) & 1
    requires (t >> 28) & 1 == (x >> 21) & 1
    requires (t >> 29) & 1 == (x >> 10) & 1
    requires (t >> 30) & 1 == (x >> 3) & 1
    requires (t >> 31) & 1 == (x >> 24) & 1
    requires t >> 32 == 0
    ensures PWord(x) == t
  {
  }

  /** The source's PC-1 with every output bit spelled out: bit j is input bit PC1[j]-1. */
  function PC1Word(x: bv64): bv64 {
    ((x >> 56) & 1) | (((x >> 48) & 1) << 1) | (((x >> 40) & 1) << 2) | (((x >> 32) & 1) << 3) |
    (((x >> 24) & 1) << 4) | (((x >> 16) & 1) << 5) | (((x >> 8) & 1) << 6) | (((x >> 0) & 1) << 7) |
    (((x >> 57) & 1) << 8) | (((x >> 49) & 1) << 9) | (((x >> 41) & 1) << 10) | (((x >> 33) & 1) << 11) |
    (((x >> 25) & 1) << 12) | (((x >> 17) & 1) << 13) | (((x >> 9) & 1) << 14) | (((x >> 1) & 1) << 15) |
    (((x >> 58) & 1) << 16) | (((x >> 50) & 1) << 17) | (((x >> 42) & 1) << 18) | (((x >> 24) & 1) << 19) |
    (((x >> 26) & 1) << 20) | (((x >> 18) & 1) << 21) | (((x >> 10) & 1) << 22) | (((x >> 2) & 1) << 23) |
    (((x >> 59) & 1) << 24) | (((x >> 51) & 1) << 25) | (((x >> 43) & 1) << 26) | (((x >> 35) & 1) << 27) |
    (((x >> 62) & 1) << 28) | (((x >> 54) & 1) << 29) | (((x >> 46) & 1) << 30) | (((x >> 38) & 1) << 31) |
    (((x >> 30) & 1) << 32) | (((x >> 22) & 1) << 33) | (((x >> 14) & 1) << 34) | (((x >> 6) & 1) << 35) |
    (((x >> 61) & 1) << 36) | (((x >> 53) & 1) << 37) | (((x >> 45) & 1) << 38) | (((x >> 37) & 1) << 39) |
    (((x >> 29) & 1) << 40) | (((x >> 21) & 1) << 41) | (((x >> 13) & 1) << 42) | (((x >> 5) & 1) << 43) |
    (((x >> 60) & 1) << 44) | (((x >> 52) & 1) << 45) | (((x >> 44) & 1) << 46) | (((x >> 36) & 1) << 47) |
    (((x >> 28) & 1) << 48) | (((x >> 20) & 1) << 49) | (((x >> 12) & 1) << 50) | (((x >> 4) & 1) << 51) |
    (((x >> 27) & 1) << 52) | (((x >> 19) & 1) << 53) | (((x >> 11) & 1) << 54) | (((x >> 3) & 1) << 55)
  }

  /** The source's loop over PC1 computes PC1Word. */
  lemma PC1IsWord(x: bv64)
    ensures Permute(x, PC1) == PC1Word(x)
  {
    PC1Selects(x);
    PC1WordFromBits(x, Permute(x, PC1));
  }

  lemma PC1WordFromBits(x: bv64, t: bv64)
    requires (t >> 0) & 1 == (x >> 56) & 1
    requires (t >> 1) & 1 == (x >> 48) & 1
    requires (t >> 2) & 1 == (x >> 40) & 1
    requires (t >> 3) & 1 == (x >> 32) & 1
    requires (t >> 4) & 1 == (x >> 24) & 1
    requires (t >> 5) & 1 == (x >> 16) & 1
    requires (t >> 6) & 1 == (x >> 8) & 1
    requires (t >> 7) & 1 == (x >> 0) & 1
    requires (t >> 8) & 1 == (x >> 57) & 1
    requires (t >> 9) & 1 == (x >> 49) & 1
    requires (t >> 10) & 1 == (x >> 41) & 1
    requires (t >> 11) & 1 == (x >> 33) & 1
    requires (t >> 12) & 1 == (x >> 25) & 1
    requires (t >> 13) & 1 == (x >> 17) & 1
    requires (t >> 14) & 1 == (x >> 9) & 1
    requires (t >> 15) & 1 == (x >> 1) & 1
    requires (t >> 16) & 1 == (x >> 58) & 1
    requires (t >> 17) & 1 == (x >> 50) & 1
    requires (t >> 18) & 1 == (x >> 42) & 1
    requires (t >> 19) & 1 == (x >> 24) & 1
    requires (t >> 20) & 1 == (x >> 26) & 1
    requires (t >> 21) & 1 == (x >> 18) & 1
    requires (t >> 22) & 1 == (x >> 10) & 1
    requires (t >> 23) & 1 == (x >> 2) & 1
    requires (t >> 24) & 1 == (x >> 59) & 1
    requires (t >> 25) & 1 == (x >> 51) & 1
    requires (t >> 26) & 1 == (x >> 43) & 1
    requires (t >> 27) & 1 == (x >> 35) & 1
    requires (t >> 28) & 1 == (x >> 62) & 1
    requires (t >> 29) & 1 == (x >> 54) & 1
    requires (t >> 30) & 1 == (x >> 46) & 1
    requires (t >> 31) & 1 == (x >> 38) & 1
    requires (t >> 32) & 1 == (x >> 30) & 1
    requires (t >> 33) & 1 == (x >> 22) & 1
    requires (t >> 34) & 1 == (x >> 14) & 1
    requires (t >> 35) & 1 == (x >> 6) & 1
    requires (t >> 36) & 1 == (x >> 61) & 1
    requires (t >> 37) & 1 == (x >> 53) & 1
    requires (t >> 38) & 1 == (x >> 45) & 1
    requires (t >> 39) & 1 == (x >> 37) & 1
    requires (t >> 40) & 1 == (x >> 29) & 1
    requires (t >> 41) & 1 == (x >> 21) & 1
    requires (t >> 42) & 1 == (x >> 13) & 1
    requires (t >> 43) & 1 == (x >> 5) & 1
    requires (t >> 44) & 1 == (x >> 60) & 1
    requires (t >> 45) & 1 == (x >> 52) & 1
    requires (t >> 46) & 1 == (x >> 44) & 1
    requires (t >> 47) & 1 == (x >> 36) & 1
    requires (t >> 48) & 1 == (x >> 28) & 1
    requires (t >> 49) & 1 == (x >> 20) & 1
    requires (t >> 50) & 1 == (x >> 12) & 1
    requires (t >> 51) & 1 == (x >> 4) & 1
    requires (t >> 52) & 1 == (x >> 27) & 1
    requires (t >> 53) & 1 == (x >> 19) & 1
    requires (t >> 54) & 1 == (x >> 11) & 1
    requires (t >> 55) & 1 == (x >> 3) & 1
    requires t >> 56 == 0
    ensures PC1Word(x) == t
  {
  }

}

=== FILE: ecb.dfy ===
/** Block-wise encryption without chaining, as aes128_cbc (aes128.cpp:148-211)
    applies its block function: the input is cut into 16-element blocks and
    every block goes through the block function on its own. The element
    type and the block function are parameters. */
module Ecb {

  /** A block function defined on every 16-element block and giving a
      16-element block back. */
  ghost predicate IsBlockFunction<T(!new)>(f: seq<T> --> seq<T>) {
    forall b: seq<T> | |b| == 16 :: f.requires(b) && |f(b)| == 16
  }

  /** The blocks of `input` through f, in order. */
  function Encrypt<T(!new)>(f: seq<T> --> seq<T>, input: seq<T>): (output: seq<T>)
    requires |input| % 16 == 0 && IsBlockFunction(f)
    ensures |output| == |input|
    decreases |input|
  {
    if |input| == 0 then [] else f(input[..16]) + Encrypt(f, input[16..])
  }

  /** One step of the source's block loop: the output for the input from
      offset on is the first block's output followed by the rest's. */
  lemma EncryptStep<T(!new)>(f: seq<T> --> seq<T>, input: seq<T>, offset: nat)
    requires IsBlockFunction(f)
    requires offset < |input| && (|input| - offset) % 16 == 0
    ensures offset + 16 <= |input| && (|input| - (offset + 16)) % 16 == 0
    ensures |input[offset..]| % 16 == 0 && |input[offset + 16..]| % 16 == 0
    ensures Encrypt(f, input[offset..]) == f(input[offset .. offset + 16]) + Encrypt(f, input[offset + 16..])
  {
    RestBlocks(|input| - offset);
    var rest := input[offset..];
    assert rest[..16] == input[offset .. offset + 16] && rest[16..] == input[offset + 16..];
  }

  /** A non-empty run of whole blocks holds a first block and whole blocks
      after it. */
  lemma RestBlocks(r: nat)
    requires r % 16 == 0 && r > 0
    ensures r >= 16 && (r - 16) % 16 == 0
  {
  }

  /** Output block k is the block function applied to input block k alone. */
  lemma {:induction false} EncryptAt<T(!new)>(f: seq<T> --> seq<T>, input: seq<T>, k: nat)
    requires |input| % 16 == 0 && IsBlockFunction(f)
    requires 16 * k + 16 <= |input|
    ensures Encrypt(f, input)[16 * k .. 16 * k + 16] == f(input[16 * k .. 16 * k + 16])
    decreases k
  {
    var head := f(input[..16]);
    var rest := Encrypt(f, input[16..]);
    assert Encrypt(f, input) == head + rest;
    if k > 0 {
      EncryptAt(f, input[16..], k - 1);
      assert input[16..][16 * (k - 1) .. 16 * (k - 1) + 16] == input[16 * k .. 16 * k + 16];
      assert (head + rest)[16 * k .. 16 * k + 16] == rest[16 * (k - 1) .. 16 * (k - 1) + 16];
    }
  }

  /** The source's block loop: one block at a time from offset 0, each
      block's output appended to the output so far. */
  method EncryptLoop<T(!new)>(f: seq<T> --> seq<T>, input: seq<T>) returns (output: seq<T>)
    requires |input| % 16 == 0 && IsBlockFunction(f)
    ensures output == Encrypt(f, input)
  {
    output := [];
    var offset := 0;
    while offset < |input|
      invariant 0 <= offset <= |input| && (|input| - offset) % 16 == 0
      invariant output + Encrypt(f, input[offset..]) == Encrypt(f, input)
    {
      output, offset := Advance(f, input, offset, output);
    }
    LoopDone(f, input, output);
  }

  /** The body of the block loop: encipher the block at offset and append
      it to the output. */
  method Advance<T(!new)>(f: seq<T> --> seq<T>, input: seq<T>, offset: nat, output: seq<T>)
    returns (output2: seq<T>, offset2: nat)
    requires |input| % 16 == 0 && IsBlockFunction(f)
    requires offset < |input| && (|input| - offset) % 16 == 0
    requires output + Encrypt(f, input[offset..]) == Encrypt(f, input)
    ensures offset2 == offset + 16 <= |input| && (|input| - offset2) % 16 == 0
    ensures output2 + Encrypt(f, input[offset2..]) == Encrypt(f, input)
  {
    LoopStep(f, input, offset, output);
    var block := f(input[offset .. offset + 16]);
    output2 := output + block;
    offset2 := offset + 16;
  }

  /** One iteration of the block loop keeps "output so far, then the output
      for the rest of the input" equal to the whole output. */
  lemma LoopStep<T(!new)>(f: seq<T> --> seq<T>, input: seq<T>, offset: nat, output: seq<T>)
    requires |input| % 16 == 0 && IsBlockFunction(f)
    requires offset < |input| && (|input| - offset) % 16 == 0
    requires output + Encrypt(f, input[offset..]) == Encrypt(f, input)
    ensures offset + 16 <= |input| && (|input| - (offset + 16)) % 16 == 0
    ensures f.requires(input[offset .. offset + 16])
    ensures (output + f(input[offset .. offset + 16])) + Encrypt(f, input[offset + 16..]) == Encrypt(f, input)
  {
    EncryptStep(f, input, offset);
    Regroup(output, f(input[offset .. offset + 16]), Encrypt(f, input[offset + 16..]));
  }

  /** Concatenation is associative. */
  lemma Regroup<T>(a: seq<T>, b: seq<T>, c: seq<T>)
    ensures a + (b + c) == (a + b) + c
  {
  }

  /** Once the whole input is consumed the output so far is the whole output. */
  lemma LoopDone<T(!new)>(f: seq<T> --> seq<T>, input: seq<T>, output: seq<T>)
    requires |input| % 16 == 0 && IsBlockFunction(f)
    requires output + Encrypt(f, input[|input|..]) == Encrypt(f, input)
    ensures output == Encrypt(f, input)
  {
    assert Encrypt(f, input[|input|..]) == [];
    assert output + [] == output;
  }
}

=== FILE: md4.dfy ===
/** MD4 as md4 (md4.cpp:7-141) computes it, following RFC 1320: the padded
    message is cut into 64-byte blocks, each read as sixteen little-endian
    words, and each block updates the four chaining registers through 48
    steps in three rounds of sixteen. The digest is the four registers,
    each written little-endian. */
module Md4 {
  import opened Bits
  import MdPadding
  import Chain

  /** The four chaining registers A, B, C and D. */
  datatype Regs = Regs(a: bv32, b: bv32, c: bv32, d: bv32)

  /** The initial buffer of section 3.3 of RFC 1320 (md4.cpp:24-27). */
  const Init: Regs := Regs(0x67452301, 0xefcdab89, 0x98badcfe, 0x10325476)

  // ---------------------------------------------------------------------
  // The auxiliary functions of section 3.4 (md4.cpp:33-37)

  /** F: where a bit of x is set take y's bit, otherwise z's. */
  function F(x: bv32, y: bv32, z: bv32): bv32 {
    (x & y) | (!x & z)
  }

  /** G: the majority of the three bits. */
  function G(x: bv32, y: bv32, z: bv32): bv32 {
    (x & y) | (x & z) | (y & z)
  }

  /** H: the parity of the three bits. */
  function H(x: bv32, y: bv32, z: bv32): bv32 {
    x ^ y ^ z
  }

  /** F selects bitwise: a word of ones selects y, zero selects z. */
  lemma FSelects(y: bv32, z: bv32)
    ensures F(0xFFFF_FFFF, y, z) == y && F(0, y, z) == z
  {
  }

  /** G is the bitwise majority: two equal arguments decide it. */
  lemma GMajority(x: bv32, y: bv32)
    ensures G(x, x, y) == x && G(x, y, x) == x && G(y, x, x) == x
  {
  }

  // ---------------------------------------------------------------------
  // The step tables (md4.cpp:61-126)

  /** The message word order of round 2: column by column through the
      sixteen words laid out as a 4x4 matrix. */
  const Order2: seq<nat> := [0, 4, 8, 12, 1, 5, 9, 13, 2, 6, 10, 14, 3, 7, 11, 15]

  /** The message word order of round 3: the four index bits reversed. */
  const Order3: seq<nat> := [0, 8, 4, 12, 2, 10, 6, 14, 1, 9, 5, 13, 3, 11, 7, 15]

  /** The rotation amounts of the four steps of a group, per round. */
  const Shifts1: seq<bv32> := [3, 7, 11, 19]
  const Shifts2: seq<bv32> := [3, 5, 9, 13]
  const Shifts3: seq<bv32> := [3, 9, 11, 15]

  /** The message word step i (0 to 47) reads. */
  function WordIndex(i: nat): (k: nat)
    requires i < 48
    ensures k < 16
  {
    if i < 16 then i else if i < 32 then Order2[i - 16] else Order3[i - 32]
  }

  /** The rotation amount of step i. */
  function Shift(i: nat): (s: bv32)
    requires i < 48
    ensures IsMd4Shift(s)
  {
    if i < 16 then Shifts1[i % 4] else if i < 32 then Shifts2[i % 4] else Shifts3[i % 4]
  }

  /** Round 2 reads the words column by column and round 3 in bit-reversed
      index order, as section 3.4 of RFC 1320 lists them. */
  lemma OrdersAsDescribed(j: nat)
    requires j < 16
    ensures Order2[j] == 4 * (j % 4) + j / 4
    ensures Order3[j] == 8 * (j % 2) + 4 * (j / 2 % 2) + 2 * (j / 4 % 2) + j / 8
  {
  }

  /** Each round reads every message word exactly once: the two orders
      are permutations of 0..15. */
  lemma OrdersPermute()
    ensures forall j :: 0 <= j < 16 ==> Order2[j] < 16 && Order3[j] < 16
    ensures forall j, k :: 0 <= j < k < 16 ==> Order2[j] != Order2[k] && Order3[j] != Order3[k]
  {
  }

  // ---------------------------------------------------------------------
  // The steps (md4.cpp:58-126)

  /** The operation [abcd k s] of round `round` (0, 1 or 2):
      a = (a + f(b, c, d) + X[k] + constant) <<< s, with f = F, G, H and the
      constants 0, 0x5A827999 and 0x6ED9EBA1. */
  function Op(round: nat, a: bv32, b: bv32, c: bv32, d: bv32, x: bv32, s: bv32): bv32
    requires s < 32
  {
    if round == 0 then Rotl(a + (F(b, c, d) + x), s)
    else if round == 1 then Rotl(a + (G(b, c, d) + x + 0x5A827999), s)
    else Rotl(a + (H(b, c, d) + x + 0x6ED9EBA1), s)
  }

  /** Step i (0 to 47) on message words X. Within each group of four the
      steps update A, D, C and B in turn, each passing the other three in
      the order the source passes them. */
  function Step(r: Regs, i: nat, X: seq<bv32>): Regs
    requires i < 48 && |X| == 16
  {
    var round := i / 16;
    var x := X[WordIndex(i)];
    var s := Shift(i);
    if i % 4 == 0 then r.(a := Op(round, r.a, r.b, r.c, r.d, x, s))
    else if i % 4 == 1 then r.(d := Op(round, r.d, r.a, r.b, r.c, x, s))
    else if i % 4 == 2 then r.(c := Op(round, r.c, r.d, r.a, r.b, x, s))
    else r.(b := Op(round, r.b, r.c, r.d, r.a, x, s))
  }

  /** The registers after the first n steps. */
  function Steps(r: Regs, X: seq<bv32>, n: nat): Regs
    requires n <= 48 && |X| == 16
  {
    if n == 0 then r else Step(Steps(r, X, n - 1), n - 1, X)
  }

  /** The register index (A = 0, B = 1, C = 2, D = 3) that step i writes. */
  function Target(i: nat): (k: nat)
    ensures k < 4
  {
    if i % 4 == 0 then 0 else if i % 4 == 1 then 3 else if i % 4 == 2 then 2 else 1
  }

  /** Register k of r. */
  function Get(r: Regs, k: nat): bv32
    requires k < 4
  {
    if k == 0 then r.a else if k == 1 then r.b else if k == 2 then r.c else r.d
  }

  /** A step writes the register it targets and leaves the other three alone. */
  lemma StepWritesTarget(r: Regs, i: nat, X: seq<bv32>, k: nat)
    requires i < 48 && |X| == 16 && k < 4 && k != Target(i)
    ensures Get(Step(r, i, X), k) == Get(r, k)
  {
  }

  /** The steps read message word k only through the steps that use it:
      two word lists that agree on the words the first n steps read give the
      same registers after n steps. */
  lemma {:induction false} StepsAgree(r: Regs, X: seq<bv32>, Y: seq<bv32>, n: nat)
    requires n <= 48 && |X| == 16 && |Y| == 16
    requires forall i :: 0 <= i < n ==> X[WordIndex(i)] == Y[WordIndex(i)]
    ensures Steps(r, X, n) == Steps(r, Y, n)
    decreases n
  {
    if n > 0 {
      StepsAgree(r, X, Y, n - 1);
    }
  }

  /** Register-wise addition modulo 2^32. */
  function Add(h: Regs, r: Regs): Regs {
    Regs(h.a + r.a, h.b + r.b, h.c + r.c, h.d + r.d)
  }

  /** The compression of one block given as its sixteen words: the 48 steps
      from the chaining value, added back onto it (md4.cpp:53-131). */
  function CompressWords(h: Regs, X: seq<bv32>): Regs
    requires |X| == 16
  {
    Add(h, Steps(h, X, 48))
  }

  /** The compression of one 64-byte block, read as little-endian words. */
  function Compress(h: Regs, block: seq<bv8>): Regs
    requires |block| == 64
  {
    CompressWords(h, Words(block, false))
  }

  /** The compression function as the block function of the chaining loop. */
  function Compression(): (f: (Regs, seq<bv8>) --> Regs)
    ensures Chain.IsCompression(f)
  {
    (h: Regs, b: seq<bv8>) requires |b| == 64 => Compress(h, b)
  }

  /** The chaining value after every block of a word list whose length is
      a multiple of 16, sixteen words per block. */
  function ChainWords(h: Regs, words: seq<bv32>): Regs
    requires |words| % 16 == 0
    decreases |words|
  {
    if |words| == 0 then h else ChainWords(CompressWords(h, words[..16]), words[16..])
  }

  /** Chaining over bytes is chaining over their little-endian words. */
  lemma {:induction false} FoldIsChainWords(h: Regs, p: seq<bv8>)
    requires |p| % 64 == 0
    ensures |Words(p, false)| % 16 == 0
    ensures Chain.Fold(Compression(), h, p) == ChainWords(h, Words(p, false))
    decreases |p|
  {
    WordCount(|p|, |Words(p, false)|);
    if |p| > 0 {
      WordsOfFirstBlock(p);
      FoldIsChainWords(Compress(h, p[..64]), p[64..]);
    }
  }

  /** Whole blocks of bytes give whole blocks of words. */
  lemma WordCount(n: nat, m: nat)
    requires n % 64 == 0 && 4 * m == n
    ensures m % 16 == 0
  {
    var k := n / 64;
    assert n == 64 * k;
    assert m == 16 * k;
  }

  /** The first sixteen words of a message are the words of its first
      block, and the rest are the words of the rest. */
  lemma WordsOfFirstBlock(p: seq<bv8>)
    requires |p| % 64 == 0 && |p| > 0
    ensures |p| >= 64 && (|p| - 64) % 4 == 0 && |p| % 4 == 0
    ensures |Words(p, false)| >= 16
    ensures Words(p, false)[..16] == Words(p[..64], false)
    ensures Words(p, false)[16..] == Words(p[64..], false)
  {
    RestLength(|p|);
    MdPadding.SplitAt(p, 64);
    SplitWords(p, p[..64], p[64..]);
  }

  /** The words of a block followed by more bytes. */
  lemma SplitWords(p: seq<bv8>, x: seq<bv8>, y: seq<bv8>)
    requires p == x + y && |x| == 64 && |y| % 4 == 0 && |p| % 4 == 0
    ensures |Words(p, false)| >= 16
    ensures Words(p, false)[..16] == Words(x, false)
    ensures Words(p, false)[16..] == Words(y, false)
  {
    WordsAppend(x, y, false);
    ConcatParts(Words(p, false), Words(x, false), Words(y, false));
  }

  /** A message of whole blocks is at least one block long and what
      follows its first block is whole words. */
  lemma RestLength(n: nat)
    requires n % 64 == 0 && n > 0
    ensures n >= 64 && (n - 64) % 4 == 0 && n % 4 == 0
  {
    var k := n / 64;
    assert n == 64 * k;
    assert n - 64 == 4 * (16 * k - 16);
    assert n == 4 * (16 * k);
  }

  /** The two parts of a concatenation, cut off again. */
  lemma ConcatParts<T>(s: seq<T>, a: seq<T>, b: seq<T>)
    requires s == a + b
    ensures s[..|a|] == a && s[|a|..] == b
  {
  }

  // ---------------------------------------------------------------------
  // The digest (md4.cpp:9, 134-140)

  /** A, B, C and D, each written little-endian. */
  function Digest(h: Regs): (out: seq<bv8>)
    ensures |out| == 16
  {
    Bytes([h.a, h.b, h.c, h.d], false)
  }

  /** The registers a 16-byte digest holds. */
  function DigestRegs(out: seq<bv8>): Regs
    requires |out| == 16
  {
    var ws := Words(out, false);
    Regs(ws[0], ws[1], ws[2], ws[3])
  }

  /** The digest determines the registers and the other way round. */
  lemma DigestRoundTrip(h: Regs, out: seq<bv8>)
    requires |out| == 16
    ensures DigestRegs(Digest(h)) == h
    ensures Digest(DigestRegs(out)) == out
  {
    WordsOfBytes([h.a, h.b, h.c, h.d], false);
    var ws := Words(out, false);
    assert ws == [ws[0], ws[1], ws[2], ws[3]];
    BytesOfWords(out, false);
  }

  /** The MD4 digest of a message. */
  function Md4(input: seq<bv8>): (out: seq<bv8>)
    ensures |out| == 16
  {
    Digest(Chain.Fold(Compression(), Init, MdPadding.Pad(input, false)))
  }

  /** A message of whole blocks followed by more: hashing continues from
      the registers the first part left, which is the chaining equation of
      the construction. */
  lemma Md4Chains(input: seq<bv8>, p: seq<bv8>, q: seq<bv8>)
    requires |p| % 64 == 0 && |q| % 64 == 0 && MdPadding.Pad(input, false) == p + q
    ensures Md4(input) == Digest(Chain.Fold(Compression(), Chain.Fold(Compression(), Init, p), q))
  {
    Chain.FoldAppend(Compression(), Init, p, q);
  }

  /** md4: preprocess, run the block loop, write the digest. */
  method Md4Hash(input: seq<bv8>) returns (output: seq<bv8>)
    ensures |output| == 16
    ensures output == Md4(input)
    ensures DigestRegs(output) == Chain.Fold(Compression(), Init, MdPadding.Pad(input, false))
  {
    var p := MdPadding.Preprocess(input, false);
    var h := Chain.FoldLoop(Compression(), Init, p);
    output := Digest(h);
    DigestRoundTrip(h, output);
  }
}

=== FILE: md4_crack.dfy ===
/** The single-step message modification of md4-crack.cpp, the first stage
    of Wang et al.'s MD4 collision attack: the message padding, the MD4
    compression with every intermediate register state logged, the bit
    conditions on the round-1 states and the choice of message word that
    makes a round-1 step produce a wanted value. */
module Md4Crack {
  import opened Bits
  import MdPadding
  import Md4

  type Regs = Md4.Regs

  // ---------------------------------------------------------------------
  // Padding (md4-crack.cpp:32-46)

  /** padding: the same preprocessing as md4's. Its little-endian words,
      chained from MD4's initial buffer, give the MD4 digest of the
      message. */
  method Padding(input: seq<bv8>) returns (p: seq<bv8>)
    ensures p == MdPadding.Pad(input, false)
    ensures |p| % 4 == 0 && |Words(p, false)| % 16 == 0
    ensures Md4.Md4(input) == Md4.Digest(Md4.ChainWords(Md4.Init, Words(p, false)))
  {
    p := MdPadding.Preprocess(input, false);
    WholeWords(|p|);
    Md4.FoldIsChainWords(Md4.Init, p);
  }

  /** Whole blocks are whole words. */
  lemma WholeWords(n: nat)
    requires n % 64 == 0
    ensures n % 4 == 0
  {
    if n > 0 {
      Md4.RestLength(n);
    }
  }

  // ---------------------------------------------------------------------
  // The logged compression (md4-crack.cpp:48-182)

  /** The log of one block up to step n as the source builds it: the
      registers before the first step, then the registers after each step,
      each step applied to the last logged state. */
  function BlockLog(h: Regs, X: seq<bv32>, n: nat): (log: seq<Regs>)
    requires n <= 48 && |X| == 16
    ensures |log| == n + 1
  {
    if n == 0 then [h]
    else
      var prev := BlockLog(h, X, n - 1);
      prev + [Md4.Step(prev[n - 1], n - 1, X)]
  }

  /** Entry k of a block's log is the state after k steps. */
  lemma {:induction false} BlockLogAt(h: Regs, X: seq<bv32>, n: nat, k: nat)
    requires k <= n <= 48 && |X| == 16
    ensures BlockLog(h, X, n)[k] == Md4.Steps(h, X, k)
    decreases n
  {
    if k < n {
      BlockLogAt(h, X, n - 1, k);
    } else if n > 0 {
      BlockLogAt(h, X, n - 1, n - 1);
    }
  }

  /** The log of a whole word list, sixteen words per block: the 49 states
      of each block, the blocks chained by MD4's compression. */
  function LogAll(h: Regs, words: seq<bv32>): seq<Regs>
    requires |words| % 16 == 0
    decreases |words|
  {
    if |words| == 0 then []
    else BlockLog(h, words[..16], 48) + LogAll(Md4.CompressWords(h, words[..16]), words[16..])
  }

  /** The log holds 49 states for every block. */
  lemma {:induction false} LogAllLength(h: Regs, words: seq<bv32>)
    requires |words| % 16 == 0
    ensures 16 * |LogAll(h, words)| == 49 * |words|
    decreases |words|
  {
    if |words| > 0 {
      LogAllLength(Md4.CompressWords(h, words[..16]), words[16..]);
    }
  }

  /** For a single block the log is its 49 states. */
  lemma OneBlockLog(h: Regs, words: seq<bv32>, k: nat)
    requires |words| == 16 && k <= 48
    ensures |LogAll(h, words)| == 49
    ensures LogAll(h, words)[k] == Md4.Steps(h, words, k)
  {
    assert words[..16] == words && words[16..] == [];
    assert LogAll(h, words) == BlockLog(h, words, 48) + [];
    BlockLogAt(h, words, 48, k);
  }

  /** md4_crack_logging: the block loop of md4 with a state logged before the
      first step and after every step; `hash` is MD4's chaining value. */
  method Logging(input: seq<bv32>) returns (log: seq<Regs>, hash: Regs)
    requires |input| % 16 == 0
    ensures log == LogAll(Md4.Init, input)
    ensures hash == Md4.ChainWords(Md4.Init, input)
  {
    var h := Md4.Init;
    log := [];
    var offset := 0;
    while offset < |input|
      invariant 0 <= offset <= |input| && offset % 16 == 0
      invariant log + LogAll(h, input[offset..]) == LogAll(Md4.Init, input)
      invariant Md4.ChainWords(h, input[offset..]) == Md4.ChainWords(Md4.Init, input)
    {
      var X := input[offset .. offset + 16];
      var blockLog, r := BlockLogging(h, X);
      LoggingStep(input, offset, h, log, blockLog);
      h := Md4.Add(h, r);
      log := log + blockLog;
      offset := offset + 16;
    }
    assert input[offset..] == [];
    assert log + [] == log;
    hash := h;
  }

  /** The 48 steps of one block with the state logged before the first
      and after every step. */
  method BlockLogging(h: Regs, X: seq<bv32>) returns (blockLog: seq<Regs>, r: Regs)
    requires |X| == 16
    ensures blockLog == BlockLog(h, X, 48) && r == Md4.Steps(h, X, 48)
  {
    r := h;
    blockLog := [r];
    var i := 0;
    while i < 48
      invariant 0 <= i <= 48
      invariant blockLog == BlockLog(h, X, i) && r == blockLog[i]
    {
      r := Md4.Step(r, i, X);
      blockLog := blockLog + [r];
      i := i + 1;
    }
    BlockLogAt(h, X, 48, 48);
  }

  /** One block of the logging loop. */
  lemma LoggingStep(input: seq<bv32>, offset: nat, h: Regs, log: seq<Regs>, blockLog: seq<Regs>)
    requires |input| % 16 == 0 && offset % 16 == 0 && offset < |input|
    requires offset + 16 <= |input|
    requires blockLog == BlockLog(h, input[offset .. offset + 16], 48)
    ensures (offset + 16) % 16 == 0 && |input[offset..]| % 16 == 0 && |input[offset + 16..]| % 16 == 0
    ensures log + LogAll(h, input[offset..]) == (log + blockLog)
      + LogAll(Md4.CompressWords(h, input[offset .. offset + 16]), input[offset + 16..])
    ensures Md4.ChainWords(h, input[offset..])
      == Md4.ChainWords(Md4.CompressWords(h, input[offset .. offset + 16]), input[offset + 16..])
  {
    var rest := input[offset..];
    assert rest[..16] == input[offset .. offset + 16] && rest[16..] == input[offset + 16..];
  }

  // ---------------------------------------------------------------------
  // Bit conditions (md4-crack.cpp:228-233, 283-288, 352-363)

  /** A parsed condition: bit `offset` (1 to 32) of the target register is
      set, cleared, or made equal to the same bit of register `valueIndex`
      (a = 0, b = 1, c = 2, d = 3) in log entry 4 * rowIndex. */
  datatype Constraint =
    | SetBit(offset: bv32)
    | ClearBit(offset: bv32)
    | BitMatch(offset: bv32, valueIndex: nat, rowIndex: nat)

  /** The single bit `offset` picks, counted from 1: 0x1 << (offset - 1). */
  function Mask(offset: bv32): bv32
    requires 1 <= offset <= 32
  {
    1 << (offset - 1)
  }

  /** Distinct offsets pick distinct bits. */
  lemma MasksDisjoint(o1: bv32, o2: bv32)
    requires 1 <= o1 <= 32 && 1 <= o2 <= 32 && o1 != o2
    ensures Disjoint(Mask(o1), Mask(o2))
  {
  }

  /** A condition the source can apply: the bit exists and a referenced
      register lies in round 1's first sixteen steps. */
  predicate ValidConstraint(c: Constraint) {
    1 <= c.offset <= 32 && (c.BitMatch? ==> c.valueIndex < 4 && c.rowIndex <= 4)
  }

  /** The register a matching condition refers to, read from the log; 0
      for the other kinds, which read nothing. */
  function Ref(c: Constraint, log: seq<Regs>): bv32
    requires ValidConstraint(c) && |log| > 16
  {
    if c.BitMatch? then Md4.Get(log[4 * c.rowIndex], c.valueIndex) else 0
  }

  /** One condition applied to the target value t, as the loop at
      md4-crack.cpp:352-363 applies it: t XOR'ed with the bit of ~t, of t,
      or of t ^ ref. */
  function Apply(t: bv32, c: Constraint, log: seq<Regs>): bv32
    requires ValidConstraint(c) && |log| > 16
  {
    if c.SetBit? then SetOne(t, Mask(c.offset))
    else if c.ClearBit? then ClearOne(t, Mask(c.offset))
    else CopyBits(t, Mask(c.offset), Ref(c, log))
  }

  /** SET: t ^ (~t & m). */
  function SetOne(t: bv32, m: bv32): bv32 {
    t ^ (!t & m)
  }

  /** CLEAR: t ^ (t & m). */
  function ClearOne(t: bv32, m: bv32): bv32 {
    t ^ (t & m)
  }

  /** The value whose bit the condition asks for: all ones, zero, or the
      referenced register. */
  function Wanted(c: Constraint, log: seq<Regs>): bv32
    requires ValidConstraint(c) && |log| > 16
  {
    if c.SetBit? then 0xFFFF_FFFF else if c.ClearBit? then 0 else Ref(c, log)
  }

  /** Whether v meets the condition: its bit is the wanted one. */
  predicate Holds(c: Constraint, v: bv32, log: seq<Regs>)
    requires ValidConstraint(c) && |log| > 16
  {
    Agree(v, Wanted(c, log), Mask(c.offset))
  }

  /** x and y have the same bits where m has ones. */
  predicate Agree(x: bv32, y: bv32, m: bv32) {
    x & m == y & m
  }

  /** m1 and m2 share no bit. */
  predicate Disjoint(m1: bv32, m2: bv32) {
    m1 & m2 == 0
  }

  /** BIT_MATCH: t ^ ((t ^ p) & m), which is t with the bits in m taken
      from p. */
  function CopyBits(t: bv32, m: bv32, p: bv32): bv32 {
    t ^ ((t ^ p) & m)
  }

  /** Each of the three forms copies the wanted bit into t. */
  lemma ApplyCopies(t: bv32, c: Constraint, log: seq<Regs>)
    requires ValidConstraint(c) && |log| > 16
    ensures Apply(t, c, log) == CopyBits(t, Mask(c.offset), Wanted(c, log))
  {
    if c.SetBit? {
      SetCopies(t, Mask(c.offset));
    } else if c.ClearBit? {
      ClearCopies(t, Mask(c.offset));
    }
  }

  lemma SetCopies(t: bv32, m: bv32)
    ensures SetOne(t, m) == CopyBits(t, m, 0xFFFF_FFFF)
  {
  }

  lemma ClearCopies(t: bv32, m: bv32)
    ensures ClearOne(t, m) == CopyBits(t, m, 0)
  {
  }

  /** Copying bits sets those in m and keeps the rest. */
  lemma CopyEffect(t: bv32, m: bv32, p: bv32)
    ensures Agree(CopyBits(t, m, p), p, m)
    ensures Agree(CopyBits(t, m, p), t, !m)
  {
  }

  /** Applying a condition makes it hold. */
  lemma ApplyHolds(t: bv32, c: Constraint, log: seq<Regs>)
    requires ValidConstraint(c) && |log| > 16
    ensures Holds(c, Apply(t, c, log), log)
  {
    ApplyCopies(t, c, log);
    CopyEffect(t, Mask(c.offset), Wanted(c, log));
  }

  /** Applying a condition leaves every bit but its own alone. */
  lemma ApplyKeepsOthers(t: bv32, c: Constraint, log: seq<Regs>)
    requires ValidConstraint(c) && |log| > 16
    ensures Agree(Apply(t, c, log), t, !Mask(c.offset))
  {
    ApplyCopies(t, c, log);
    CopyEffect(t, Mask(c.offset), Wanted(c, log));
  }

  /** Every condition of the list can be applied. */
  predicate AllValid(cs: seq<Constraint>) {
    forall k :: 0 <= k < |cs| ==> ValidConstraint(cs[k])
  }

  /** The conditions of one list applied in order, from entry i on. */
  function ApplyFrom(t: bv32, cs: seq<Constraint>, log: seq<Regs>, i: nat): bv32
    requires |log| > 16 && AllValid(cs) && i <= |cs|
    decreases |cs| - i
  {
    if i == |cs| then t else ApplyFrom(Apply(t, cs[i], log), cs, log, i + 1)
  }

  /** The whole list applied in order. */
  function ApplyAll(t: bv32, cs: seq<Constraint>, log: seq<Regs>): bv32
    requires |log| > 16 && AllValid(cs)
  {
    ApplyFrom(t, cs, log, 0)
  }

  /** The conditions of a list constrain distinct bits. */
  predicate DistinctBits(cs: seq<Constraint>) {
    forall j, k :: 0 <= j < k < |cs| ==> cs[j].offset != cs[k].offset
  }

  /** The bit each condition of the list constrains. */
  function MaskList(cs: seq<Constraint>): (ms: seq<bv32>)
    requires AllValid(cs)
    ensures |ms| == |cs| && forall k :: 0 <= k < |cs| ==> ms[k] == Mask(cs[k].offset)
  {
    seq(|cs|, k requires 0 <= k < |cs| => Mask(cs[k].offset))
  }

  /** The value each condition of the list asks its bit to come from. */
  function WantedList(cs: seq<Constraint>, log: seq<Regs>): (ps: seq<bv32>)
    requires AllValid(cs) && |log| > 16
    ensures |ps| == |cs| && forall k :: 0 <= k < |cs| ==> ps[k] == Wanted(cs[k], log)
  {
    seq(|cs|, k requires 0 <= k < |cs| => Wanted(cs[k], log))
  }

  /** Bits copied in order: the bits of ms[k] taken from ps[k], from entry
      i on. */
  function CopyFrom(t: bv32, ms: seq<bv32>, ps: seq<bv32>, i: nat): bv32
    requires |ms| == |ps| && i <= |ms|
    decreases |ms| - i
  {
    if i == |ms| then t else CopyFrom(CopyBits(t, ms[i], ps[i]), ms, ps, i + 1)
  }

  /** Applying a list of conditions is copying each one's wanted bit. */
  lemma {:induction false} ApplyFromCopies(t: bv32, cs: seq<Constraint>, log: seq<Regs>, i: nat)
    requires |log| > 16 && AllValid(cs) && i <= |cs|
    ensures ApplyFrom(t, cs, log, i) == CopyFrom(t, MaskList(cs), WantedList(cs, log), i)
    decreases |cs| - i
  {
    if i < |cs| {
      ApplyCopies(t, cs[i], log);
      ApplyFromCopies(Apply(t, cs[i], log), cs, log, i + 1);
    }
  }

  /** Copies into bits outside m leave the bits in m alone. */
  lemma {:induction false} CopyFromKeeps(t: bv32, ms: seq<bv32>, ps: seq<bv32>, i: nat, m: bv32)
    requires |ms| == |ps| && i <= |ms|
    requires forall k :: i <= k < |ms| ==> Disjoint(m, ms[k])
    ensures Agree(CopyFrom(t, ms, ps, i), t, m)
    decreases |ms| - i
  {
    if i < |ms| {
      var t1 := CopyBits(t, ms[i], ps[i]);
      CopyFromKeeps(t1, ms, ps, i + 1, m);
      KeepStep(t, ms[i], ps[i], CopyFrom(t1, ms, ps, i + 1), m);
    }
  }

  /** r agrees on m with t after a copy into bits m avoids: so r agrees
      with t on m. */
  lemma KeepStep(t: bv32, m0: bv32, p: bv32, r: bv32, m: bv32)
    requires Disjoint(m, m0) && Agree(r, CopyBits(t, m0, p), m)
    ensures Agree(r, t, m)
  {
    CopyEffect(t, m0, p);
  }

  /** After copies into pairwise disjoint bits, each bit holds what was
      copied into it. */
  lemma {:induction false} CopyFromSets(t: bv32, ms: seq<bv32>, ps: seq<bv32>, i: nat)
    requires |ms| == |ps| && i <= |ms|
    requires forall j, k :: i <= j < k < |ms| ==> Disjoint(ms[j], ms[k])
    ensures forall k :: i <= k < |ms| ==> Agree(CopyFrom(t, ms, ps, i), ps[k], ms[k])
    decreases |ms| - i
  {
    if i < |ms| {
      var t1 := CopyBits(t, ms[i], ps[i]);
      CopyFromSets(t1, ms, ps, i + 1);
      CopyFromKeeps(t1, ms, ps, i + 1, ms[i]);
      SetStep(t, CopyFrom(t1, ms, ps, i + 1), ms[i], ps[i]);
    }
  }

  /** r agrees on m with t after p's bits in m are copied into it: so r
      carries p's bits in m. */
  lemma SetStep(t: bv32, r: bv32, m: bv32, p: bv32)
    requires Agree(r, CopyBits(t, m, p), m)
    ensures Agree(r, p, m)
  {
    CopyEffect(t, m, p);
  }

  /** After a list of conditions on distinct bits is applied, all of them
      hold. */
  lemma ApplyAllHolds(t: bv32, cs: seq<Constraint>, log: seq<Regs>)
    requires |log| > 16 && AllValid(cs) && DistinctBits(cs)
    ensures forall k :: 0 <= k < |cs| ==> Holds(cs[k], ApplyAll(t, cs, log), log)
  {
    var ms := MaskList(cs);
    forall j, k | 0 <= j < k < |ms|
      ensures Disjoint(ms[j], ms[k])
    {
      MasksDisjoint(cs[j].offset, cs[k].offset);
    }
    ApplyFromCopies(t, cs, log, 0);
    CopyFromSets(t, ms, WantedList(cs, log), 0);
  }

  /** Conditions on bits outside m leave the bits in m alone. */
  lemma ApplyAllKeeps(t: bv32, cs: seq<Constraint>, log: seq<Regs>, m: bv32)
    requires |log| > 16 && AllValid(cs)
    requires forall k :: 0 <= k < |cs| ==> Disjoint(m, Mask(cs[k].offset))
    ensures Agree(ApplyAll(t, cs, log), t, m)
  {
    ApplyFromCopies(t, cs, log, 0);
    CopyFromKeeps(t, MaskList(cs), WantedList(cs, log), 0, m);
  }

  // ---------------------------------------------------------------------
  // Inverting a round-1 step (md4-crack.cpp:365-379)

  /** The message word the source computes for round-1 step i so that the
      step writes `target`: the rotation undone by a right rotation, then
      the register's old value and F of the other three subtracted. `cur`
      is log entry 4 * (i / 4 + 1) and `pre` is log entry 4 * (i / 4). */
  function ModifiedWord(i: nat, target: bv32, cur: Regs, pre: Regs): bv32
    requires i < 16
  {
    if i % 4 == 0 then Word(target, 3, pre.a, pre.b, pre.c, pre.d)
    else if i % 4 == 1 then Word(target, 7, pre.d, cur.a, pre.b, pre.c)
    else if i % 4 == 2 then Word(target, 11, pre.c, cur.d, cur.a, pre.b)
    else Word(target, 19, pre.b, cur.c, cur.d, cur.a)
  }

  /** RIGHTROTATE(target, s) - a - F(b, c, d): the word that makes the
      round-1 operation [a b c d s] write the target. */
  function Word(target: bv32, s: bv32, a: bv32, b: bv32, c: bv32, d: bv32): bv32
    requires s < 32
  {
    Rotr(target, s) - a - Md4.F(b, c, d)
  }

  /** Subtracting what the step adds cancels it. */
  lemma Cancel(a: bv32, f: bv32, r: bv32)
    ensures a + (f + (r - a - f)) == r
  {
  }

  /** Adding a and f back to Rotr(target, s) - a - f and rotating left by s
      gives the target. */
  lemma UndoSum(a: bv32, f: bv32, s: bv32, r: bv32, target: bv32)
    requires IsMd4Shift(s) && r == Rotr(target, s)
    ensures Rotl(a + (f + (r - a - f)), s) == target
  {
    Cancel(a, f, r);
    RotrRotl(target, s);
  }

  /** The round-1 operation is the rotated sum. */
  lemma RoundOneOp(a: bv32, b: bv32, c: bv32, d: bv32, x: bv32, s: bv32)
    requires s < 32
    ensures Md4.Op(0, a, b, c, d, x, s) == Rotl(a + (Md4.F(b, c, d) + x), s)
  {
  }

  /** The round-1 operation fed the modified word gives the target. */
  lemma OpInverts(a: bv32, b: bv32, c: bv32, d: bv32, s: bv32, target: bv32)
    requires IsMd4Shift(s)
    ensures Md4.Op(0, a, b, c, d, Rotr(target, s) - a - Md4.F(b, c, d), s) == target
  {
    RoundOneOp(a, b, c, d, Rotr(target, s) - a - Md4.F(b, c, d), s);
    UndoSum(a, Md4.F(b, c, d), s, Rotr(target, s), target);
  }

  /** The round-1 operation fed Word's result gives the target. */
  lemma WordInverts(a: bv32, b: bv32, c: bv32, d: bv32, s: bv32, target: bv32)
    requires IsMd4Shift(s)
    ensures Md4.Op(0, a, b, c, d, Word(target, s, a, b, c, d), s) == target
  {
    WordIs(target, s, a, b, c, d);
    OpInverts(a, b, c, d, s, target);
  }

  lemma WordIs(target: bv32, s: bv32, a: bv32, b: bv32, c: bv32, d: bv32)
    requires s < 32
    ensures Word(target, s, a, b, c, d) == Rotr(target, s) - a - Md4.F(b, c, d)
  {
  }

  /** In round 1 the step after state k uses word k. */
  lemma RoundOneWord(i: nat)
    requires i < 16
    ensures Md4.WordIndex(i) == i
  {
  }

  /** The step that last wrote register v by log entry 4 * row: for row 0
      none (the state is the chaining value), otherwise the step of group
      row - 1 that writes v, counted from 1. */
  function WrittenBy(row: nat, v: nat): (k: nat)
    requires row <= 4 && v < 4
    ensures k <= 4 * row && (row > 0 ==> 4 * (row - 1) < k)
  {
    if row == 0 then 0
    else 4 * (row - 1) + (if v == 0 then 1 else if v == 3 then 2 else if v == 2 then 3 else 4)
  }

  /** Log entry 4 * row holds in register v what the step that last wrote
      it left there. */
  lemma GroupKeeps(h: Regs, X: seq<bv32>, row: nat, v: nat)
    requires row <= 4 && v < 4 && |X| == 16
    ensures Md4.Get(Md4.Steps(h, X, 4 * row), v) == Md4.Get(Md4.Steps(h, X, WrittenBy(row, v)), v)
  {
    if row > 0 {
      KeepsFrom(h, X, WrittenBy(row, v), 4 * row, v);
    }
  }

  /** Register v is untouched by the steps from k to n, none of which
      targets it. */
  lemma {:induction false} KeepsFrom(h: Regs, X: seq<bv32>, k: nat, n: nat, v: nat)
    requires k <= n <= 48 && v < 4 && |X| == 16
    requires forall j :: k <= j < n ==> Md4.Target(j) != v
    ensures Md4.Get(Md4.Steps(h, X, n), v) == Md4.Get(Md4.Steps(h, X, k), v)
    decreases n
  {
    if n > k {
      KeepsFrom(h, X, k, n - 1, v);
      Md4.StepWritesTarget(Md4.Steps(h, X, n - 1), n - 1, X, v);
    }
  }

  /** Changing word j leaves the states after the first k <= j steps
      alone: round 1 reads the words in order, so those steps read words 0
      to k - 1 only. */
  lemma UpdateKeepsSteps(h: Regs, X: seq<bv32>, j: nat, w: bv32, k: nat)
    requires k <= j < 16 && |X| == 16
    ensures Md4.Steps(h, X[j := w], k) == Md4.Steps(h, X, k)
  {
    forall i | 0 <= i < k
      ensures X[Md4.WordIndex(i)] == X[j := w][Md4.WordIndex(i)]
    {
      RoundOneWord(i);
    }
    Md4.StepsAgree(h, X, X[j := w], k);
  }

  /** The word the source computes for step i from the states of the log
      that it reads: entry 4 * (i / 4 + 1) as `cur`, 4 * (i / 4) as `pre`. */
  function WordFor(h: Regs, X: seq<bv32>, i: nat, target: bv32): bv32
    requires i < 16 && |X| == 16
  {
    ModifiedWord(i, target, Md4.Steps(h, X, 4 * (i / 4) + 4), Md4.Steps(h, X, 4 * (i / 4)))
  }

  /** Step i of round 1 fed the word the source computes writes the target
      into the register it updates. */
  lemma InvertStep(h: Regs, X: seq<bv32>, i: nat, target: bv32)
    requires i < 16 && |X| == 16
    ensures Md4.Get(Md4.Step(Md4.Steps(h, X, i), i, X[i := WordFor(h, X, i, target)]), Md4.Target(i)) == target
  {
    if i % 4 == 0 {
      InvertAtA(h, X, i, target);
    } else if i % 4 == 1 {
      InvertAtD(h, X, i, target);
    } else if i % 4 == 2 {
      InvertAtC(h, X, i, target);
    } else {
      InvertAtB(h, X, i, target);
    }
  }

  /** InvertStep for each position within a group. */
  lemma InvertAtA(h: Regs, X: seq<bv32>, i: nat, target: bv32)
    requires i < 16 && i % 4 == 0 && |X| == 16
    ensures Md4.Get(Md4.Step(Md4.Steps(h, X, i), i, X[i := WordFor(h, X, i, target)]), Md4.Target(i)) == target
  {
    var g := i / 4;
    assert i == 4 * g;
    InvertA(h, X, g, target);
  }

  lemma InvertAtD(h: Regs, X: seq<bv32>, i: nat, target: bv32)
    requires i < 16 && i % 4 == 1 && |X| == 16
    ensures Md4.Get(Md4.Step(Md4.Steps(h, X, i), i, X[i := WordFor(h, X, i, target)]), Md4.Target(i)) == target
  {
    var g := i / 4;
    assert i == 4 * g + 1;
    InvertD(h, X, g, target);
  }

  lemma InvertAtC(h: Regs, X: seq<bv32>, i: nat, target: bv32)
    requires i < 16 && i % 4 == 2 && |X| == 16
    ensures Md4.Get(Md4.Step(Md4.Steps(h, X, i), i, X[i := WordFor(h, X, i, target)]), Md4.Target(i)) == target
  {
    var g := i / 4;
    assert i == 4 * g + 2;
    InvertC(h, X, g, target);
  }

  lemma InvertAtB(h: Regs, X: seq<bv32>, i: nat, target: bv32)
    requires i < 16 && i % 4 == 3 && |X| == 16
    ensures Md4.Get(Md4.Step(Md4.Steps(h, X, i), i, X[i := WordFor(h, X, i, target)]), Md4.Target(i)) == target
  {
    var g := i / 4;
    assert i == 4 * g + 3;
    InvertB(h, X, g, target);
  }



  /** The registers the four steps of a group write: A, D, C, B. */
  lemma GroupTargets(g: nat)
    ensures Md4.Target(4 * g) == 0 && Md4.Target(4 * g + 1) == 3
    ensures Md4.Target(4 * g + 2) == 2 && Md4.Target(4 * g + 3) == 1
  {
  }

  /** Step k leaves register v alone unless it targets it. */
  lemma KeepsOne(h: Regs, X: seq<bv32>, k: nat, n: nat, v: nat)
    requires n == k + 1 && n <= 48 && v < 4 && |X| == 16 && Md4.Target(k) != v
    ensures Md4.Get(Md4.Steps(h, X, n), v) == Md4.Get(Md4.Steps(h, X, k), v)
  {
    Md4.StepWritesTarget(Md4.Steps(h, X, k), k, X, v);
  }

  /** The four steps of round-1 group g as operations on the registers. */
  lemma StepA(r: Regs, Y: seq<bv32>, g: nat)
    requires g < 4 && |Y| == 16
    ensures Md4.Step(r, 4 * g, Y) == r.(a := Md4.Op(0, r.a, r.b, r.c, r.d, Y[4 * g], 3))
  {
    RoundOneWord(4 * g);
  }

  lemma StepD(r: Regs, Y: seq<bv32>, g: nat)
    requires g < 4 && |Y| == 16
    ensures Md4.Step(r, 4 * g + 1, Y) == r.(d := Md4.Op(0, r.d, r.a, r.b, r.c, Y[4 * g + 1], 7))
  {
    RoundOneWord(4 * g + 1);
  }

  lemma StepC(r: Regs, Y: seq<bv32>, g: nat)
    requires g < 4 && |Y| == 16
    ensures Md4.Step(r, 4 * g + 2, Y) == r.(c := Md4.Op(0, r.c, r.d, r.a, r.b, Y[4 * g + 2], 11))
  {
    RoundOneWord(4 * g + 2);
  }

  lemma StepB(r: Regs, Y: seq<bv32>, g: nat)
    requires g < 4 && |Y| == 16
    ensures Md4.Step(r, 4 * g + 3, Y) == r.(b := Md4.Op(0, r.b, r.c, r.d, r.a, Y[4 * g + 3], 19))
  {
    RoundOneWord(4 * g + 3);
  }

  /** The word the source computes at each position of group g. */
  lemma WordForA(h: Regs, X: seq<bv32>, g: nat, target: bv32)
    requires g < 4 && |X| == 16
    ensures var pre := Md4.Steps(h, X, 4 * g);
      WordFor(h, X, 4 * g, target) == Word(target, 3, pre.a, pre.b, pre.c, pre.d)
  {
    assert (4 * g) / 4 == g;
  }

  lemma WordForD(h: Regs, X: seq<bv32>, g: nat, target: bv32)
    requires g < 4 && |X| == 16
    ensures var pre := Md4.Steps(h, X, 4 * g);
      var cur := Md4.Steps(h, X, 4 * g + 4);
      WordFor(h, X, 4 * g + 1, target) == Word(target, 7, pre.d, cur.a, pre.b, pre.c)
  {
    assert (4 * g + 1) / 4 == g;
  }

  lemma WordForC(h: Regs, X: seq<bv32>, g: nat, target: bv32)
    requires g < 4 && |X| == 16
    ensures var pre := Md4.Steps(h, X, 4 * g);
      var cur := Md4.Steps(h, X, 4 * g + 4);
      WordFor(h, X, 4 * g + 2, target) == Word(target, 11, pre.c, cur.d, cur.a, pre.b)
  {
    assert (4 * g + 2) / 4 == g;
  }

  lemma WordForB(h: Regs, X: seq<bv32>, g: nat, target: bv32)
    requires g < 4 && |X| == 16
    ensures var pre := Md4.Steps(h, X, 4 * g);
      var cur := Md4.Steps(h, X, 4 * g + 4);
      WordFor(h, X, 4 * g + 3, target) == Word(target, 19, pre.b, cur.c, cur.d, cur.a)
  {
    assert (4 * g + 3) / 4 == g;
  }

  /** Get reads the named fields. */
  lemma GetFields(r: Regs)
    ensures Md4.Get(r, 0) == r.a && Md4.Get(r, 1) == r.b && Md4.Get(r, 2) == r.c && Md4.Get(r, 3) == r.d
  {
  }

  /** Steps k and k + 1 leave register v alone unless one of them targets it. */
  lemma KeepsTwo(h: Regs, X: seq<bv32>, k: nat, n1: nat, n2: nat, v: nat)
    requires n1 == k + 1 && n2 == n1 + 1 && n2 <= 48 && v < 4 && |X| == 16
    requires Md4.Target(k) != v && Md4.Target(n1) != v
    ensures Md4.Get(Md4.Steps(h, X, n2), v) == Md4.Get(Md4.Steps(h, X, k), v)
  {
    KeepsOne(h, X, k, n1, v);
    KeepsOne(h, X, n1, n2, v);
  }

  /** The same for three steps. */
  lemma KeepsThree(h: Regs, X: seq<bv32>, k: nat, n1: nat, n2: nat, n3: nat, v: nat)
    requires n1 == k + 1 && n2 == n1 + 1 && n3 == n2 + 1 && n3 <= 48 && v < 4 && |X| == 16
    requires Md4.Target(k) != v && Md4.Target(n1) != v && Md4.Target(n2) != v
    ensures Md4.Get(Md4.Steps(h, X, n3), v) == Md4.Get(Md4.Steps(h, X, k), v)
  {
    KeepsTwo(h, X, k, n1, n2, v);
    KeepsOne(h, X, n2, n3, v);
  }

  /** What the steps of group g read: each register as the group's start
      state `pre` holds it, or, once an earlier step of the group has
      written it, as the group's end state `cur` holds it. */
  lemma InputsD(h: Regs, X: seq<bv32>, g: nat)
    requires g < 4 && |X| == 16
    ensures var pre := Md4.Steps(h, X, 4 * g);
      var cur := Md4.Steps(h, X, 4 * g + 4);
      var r := Md4.Steps(h, X, 4 * g + 1);
      Md4.Get(r, 0) == Md4.Get(cur, 0) && Md4.Get(r, 1) == Md4.Get(pre, 1) && Md4.Get(r, 2) == Md4.Get(pre, 2) && Md4.Get(r, 3) == Md4.Get(pre, 3)
  {
    GroupTargets(g);
    KeepsThree(h, X, 4 * g + 1, 4 * g + 2, 4 * g + 3, 4 * g + 4, 0);
    KeepsOne(h, X, 4 * g, 4 * g + 1, 1);
    KeepsOne(h, X, 4 * g, 4 * g + 1, 2);
    KeepsOne(h, X, 4 * g, 4 * g + 1, 3);
  }

  lemma InputsC(h: Regs, X: seq<bv32>, g: nat)
    requires g < 4 && |X| == 16
    ensures var pre := Md4.Steps(h, X, 4 * g);
      var cur := Md4.Steps(h, X, 4 * g + 4);
      var r := Md4.Steps(h, X, 4 * g + 2);
      Md4.Get(r, 0) == Md4.Get(cur, 0) && Md4.Get(r, 1) == Md4.Get(pre, 1) && Md4.Get(r, 2) == Md4.Get(pre, 2) && Md4.Get(r, 3) == Md4.Get(cur, 3)
  {
    GroupTargets(g);
    KeepsTwo(h, X, 4 * g + 2, 4 * g + 3, 4 * g + 4, 0);
    KeepsTwo(h, X, 4 * g, 4 * g + 1, 4 * g + 2, 1);
    KeepsTwo(h, X, 4 * g, 4 * g + 1, 4 * g + 2, 2);
    KeepsTwo(h, X, 4 * g + 2, 4 * g + 3, 4 * g + 4, 3);
  }

  lemma InputsB(h: Regs, X: seq<bv32>, g: nat)
    requires g < 4 && |X| == 16
    ensures var pre := Md4.Steps(h, X, 4 * g);
      var cur := Md4.Steps(h, X, 4 * g + 4);
      var r := Md4.Steps(h, X, 4 * g + 3);
      Md4.Get(r, 0) == Md4.Get(cur, 0) && Md4.Get(r, 1) == Md4.Get(pre, 1) && Md4.Get(r, 2) == Md4.Get(cur, 2) && Md4.Get(r, 3) == Md4.Get(cur, 3)
  {
    GroupTargets(g);
    KeepsOne(h, X, 4 * g + 3, 4 * g + 4, 0);
    KeepsThree(h, X, 4 * g, 4 * g + 1, 4 * g + 2, 4 * g + 3, 1);
    KeepsOne(h, X, 4 * g + 3, 4 * g + 4, 2);
    KeepsOne(h, X, 4 * g + 3, 4 * g + 4, 3);
  }

  lemma InvertA(h: Regs, X: seq<bv32>, g: nat, target: bv32)
    requires g < 4 && |X| == 16
    ensures Md4.Step(Md4.Steps(h, X, 4 * g), 4 * g, X[4 * g := WordFor(h, X, 4 * g, target)]).a == target
  {
    var pre := Md4.Steps(h, X, 4 * g);
    var x := WordFor(h, X, 4 * g, target);
    WordForA(h, X, g, target);
    StepA(pre, X[4 * g := x], g);
    WordInverts(pre.a, pre.b, pre.c, pre.d, 3, target);
  }

  lemma InvertD(h: Regs, X: seq<bv32>, g: nat, target: bv32)
    requires g < 4 && |X| == 16
    ensures var i := 4 * g + 1;
      Md4.Step(Md4.Steps(h, X, i), i, X[i := WordFor(h, X, i, target)]).d == target
  {
    var pre := Md4.Steps(h, X, 4 * g);
    var cur := Md4.Steps(h, X, 4 * g + 4);
    var x := WordFor(h, X, 4 * g + 1, target);
    InputsD(h, X, g);
    GetFields(pre);
    GetFields(cur);
    GetFields(Md4.Steps(h, X, 4 * g + 1));
    WordForD(h, X, g, target);
    StepD(Md4.Steps(h, X, 4 * g + 1), X[4 * g + 1 := x], g);
    WordInverts(pre.d, cur.a, pre.b, pre.c, 7, target);
  }

  lemma InvertC(h: Regs, X: seq<bv32>, g: nat, target: bv32)
    requires g < 4 && |X| == 16
    ensures var i := 4 * g + 2;
      Md4.Step(Md4.Steps(h, X, i), i, X[i := WordFor(h, X, i, target)]).c == target
  {
    var pre := Md4.Steps(h, X, 4 * g);
    var cur := Md4.Steps(h, X, 4 * g + 4);
    var x := WordFor(h, X, 4 * g + 2, target);
    InputsC(h, X, g);
    GetFields(pre);
    GetFields(cur);
    GetFields(Md4.Steps(h, X, 4 * g + 2));
    WordForC(h, X, g, target);
    StepC(Md4.Steps(h, X, 4 * g + 2), X[4 * g + 2 := x], g);
    WordInverts(pre.c, cur.d, cur.a, pre.b, 11, target);
  }

  lemma InvertB(h: Regs, X: seq<bv32>, g: nat, target: bv32)
    requires g < 4 && |X| == 16
    ensures var i := 4 * g + 3;
      Md4.Step(Md4.Steps(h, X, i), i, X[i := WordFor(h, X, i, target)]).b == target
  {
    var pre := Md4.Steps(h, X, 4 * g);
    var cur := Md4.Steps(h, X, 4 * g + 4);
    var x := WordFor(h, X, 4 * g + 3, target);
    InputsB(h, X, g);
    GetFields(pre);
    GetFields(cur);
    GetFields(Md4.Steps(h, X, 4 * g + 3));
    WordForB(h, X, g, target);
    StepB(Md4.Steps(h, X, 4 * g + 3), X[4 * g + 3 := x], g);
    WordInverts(pre.b, cur.c, cur.d, cur.a, 19, target);
  }

  /** Step i with the word the source computes writes the target, and
      the log entry that the source reads it back from, 4 * (i / 4 + 1),
      still holds it: no later step of the group writes that register. */
  lemma ModificationWrites(h: Regs, X: seq<bv32>, i: nat, target: bv32)
    requires i < 16 && |X| == 16
    ensures Md4.Get(Md4.Steps(h, X[i := WordFor(h, X, i, target)], 4 * (i / 4 + 1)), Md4.Target(i)) == target
  {
    var Y := X[i := WordFor(h, X, i, target)];
    UpdateKeepsSteps(h, X, i, WordFor(h, X, i, target), i);
    InvertStep(h, X, i, target);
    WrittenByTarget(i);
    GroupKeeps(h, Y, i / 4 + 1, Md4.Target(i));
  }

  /** The step that writes register Target(i) last by entry 4 * (i / 4 + 1)
      is step i, counted from 0. */
  lemma WrittenByTarget(i: nat)
    requires i < 16
    ensures WrittenBy(i / 4 + 1, Md4.Target(i)) == i + 1
  {
  }

  /** Changing word i leaves every register that steps 1 to i last write
      alone in the log entries 0, 4, ..., 16. */
  lemma ModificationKeeps(h: Regs, X: seq<bv32>, i: nat, w: bv32, row: nat, v: nat)
    requires i < 16 && |X| == 16 && row <= 4 && v < 4 && WrittenBy(row, v) <= i
    ensures Md4.Get(Md4.Steps(h, X[i := w], 4 * row), v) == Md4.Get(Md4.Steps(h, X, 4 * row), v)
  {
    GroupKeeps(h, X, row, v);
    GroupKeeps(h, X[i := w], row, v);
    UpdateKeepsSteps(h, X, i, w, WrittenBy(row, v));
  }

  // ---------------------------------------------------------------------
  // The constraint loop (md4-crack.cpp:342-381)

  /** The log of a word list, as md4_crack_logging returns it. */
  function LogOf(words: seq<bv32>): (log: seq<Regs>)
    requires |words| % 16 == 0
    ensures 16 * |log| == 49 * |words|
  {
    LogAllLength(Md4.Init, words);
    LogAll(Md4.Init, words)
  }

  /** The first 49 entries of the log are the states of the first block. */
  lemma FirstBlock(words: seq<bv32>, k: nat)
    requires |words| % 16 == 0 && 16 <= |words| && k <= 48
    ensures |LogOf(words)| > 48 && LogOf(words)[k] == Md4.Steps(Md4.Init, words[..16], k)
  {
    var X := words[..16];
    var first := BlockLog(Md4.Init, X, 48);
    var rest := LogAll(Md4.CompressWords(Md4.Init, X), words[16..]);
    assert LogOf(words) == first + rest;
    ConcatIndex(first, rest, k);
    BlockLogAt(Md4.Init, X, 48, k);
  }

  /** Indexing into a concatenation below the first part's length. */
  lemma ConcatIndex<T>(a: seq<T>, b: seq<T>, k: nat)
    requires k < |a|
    ensures |a + b| > k && (a + b)[k] == a[k]
  {
  }

  /** The value list i constrains: register Target(i) (a, d, c, b in turn)
      of log entry 4 * (i / 4 + 1). */
  function TargetValue(i: nat, log: seq<Regs>): bv32
    requires i < 16 && |log| > 16
  {
    Md4.Get(log[4 * (i / 4 + 1)], Md4.Target(i))
  }

  /** Every condition of list i holds on the value it constrains. */
  predicate ListHolds(i: nat, cs: seq<Constraint>, log: seq<Regs>)
    requires i < 16 && |log| > 16 && AllValid(cs)
  {
    forall k :: 0 <= k < |cs| ==> Holds(cs[k], TargetValue(i, log), log)
  }

  /** A condition list the loop can meet at position i: conditions on
      distinct bits, each one matching against a register that steps 1 to
      i already wrote for the last time. */
  predicate WellFormedList(i: nat, cs: seq<Constraint>) {
    AllValid(cs) && DistinctBits(cs)
    && forall k :: 0 <= k < |cs| && cs[k].BitMatch? ==> WrittenBy(cs[k].rowIndex, cs[k].valueIndex) <= i
  }

  /** A table of at most sixteen lists, list i for round-1 step i. */
  predicate WellFormed(table: seq<seq<Constraint>>) {
    |table| <= 16 && forall i :: 0 <= i < |table| ==> WellFormedList(i, table[i])
  }

  /** log2 holds what log1 holds in every register of the entries 0, 4,
      ..., 16 that steps 1 to n write for the last time. */
  predicate StableUpTo(log1: seq<Regs>, log2: seq<Regs>, n: nat)
    requires |log1| > 16 && |log2| > 16
  {
    forall row: nat, v: nat :: row <= 4 && v < 4 && WrittenBy(row, v) <= n ==> Md4.Get(log2[4 * row], v) == Md4.Get(log1[4 * row], v)
  }

  /** A condition that matches only against stable registers holds in the
      new log when it held in the old one. */
  lemma HoldsMoves(c: Constraint, v: bv32, log1: seq<Regs>, log2: seq<Regs>, n: nat)
    requires |log1| > 16 && |log2| > 16 && ValidConstraint(c)
    requires c.BitMatch? ==> WrittenBy(c.rowIndex, c.valueIndex) <= n
    requires StableUpTo(log1, log2, n) && Holds(c, v, log1)
    ensures Holds(c, v, log2)
  {
    assert Wanted(c, log2) == Wanted(c, log1);
  }

  /** A list met at an earlier position stays met while the log stays
      stable up to a later step. */
  lemma ListStays(j: nat, cs: seq<Constraint>, log1: seq<Regs>, log2: seq<Regs>, n: nat)
    requires j < n && j < 16 && |log1| > 16 && |log2| > 16 && WellFormedList(j, cs)
    requires StableUpTo(log1, log2, n) && ListHolds(j, cs, log1)
    ensures ListHolds(j, cs, log2)
  {
    WrittenByTarget(j);
    assert TargetValue(j, log2) == TargetValue(j, log1);
    forall k | 0 <= k < |cs|
      ensures Holds(cs[k], TargetValue(j, log2), log2)
    {
      HoldsMoves(cs[k], TargetValue(j, log1), log1, log2, n);
    }
  }

  /** One pass of the loop body: the target value read from the log, the
      list's conditions applied to it, and word i replaced by the word
      that makes step i write it. */
  function Modify(words: seq<bv32>, i: nat, cs: seq<Constraint>): (r: seq<bv32>)
    requires |words| % 16 == 0 && 16 <= |words| && i < 16 && AllValid(cs)
    ensures |r| == |words|
  {
    var log := LogOf(words);
    var target := ApplyAll(TargetValue(i, log), cs, log);
    words[i := ModifiedWord(i, target, log[4 * (i / 4) + 4], log[4 * (i / 4)])]
  }

  /** The word Modify stores is WordFor's on the first block. */
  lemma ModifyIsWordFor(words: seq<bv32>, i: nat, cs: seq<Constraint>)
    requires |words| % 16 == 0 && 16 <= |words| && i < 16 && AllValid(cs)
    ensures var log := LogOf(words);
      var target := ApplyAll(TargetValue(i, log), cs, log);
      Modify(words, i, cs)[..16] == words[..16][i := WordFor(Md4.Init, words[..16], i, target)]
  {
    var log := LogOf(words);
    var target := ApplyAll(TargetValue(i, log), cs, log);
    FirstBlock(words, 4 * (i / 4) + 4);
    FirstBlock(words, 4 * (i / 4));
    assert Modify(words, i, cs) == words[i := WordFor(Md4.Init, words[..16], i, target)];
    UpdatePrefix(words, i, WordFor(Md4.Init, words[..16], i, target), 16);
  }

  /** Storing below index n and taking the first n elements commute. */
  lemma UpdatePrefix<T>(s: seq<T>, i: nat, w: T, n: nat)
    requires i < n <= |s|
    ensures s[i := w][..n] == s[..n][i := w]
  {
  }

  /** Modify keeps the log stable up to step i. */
  lemma ModifyStable(words: seq<bv32>, i: nat, cs: seq<Constraint>)
    requires |words| % 16 == 0 && 16 <= |words| && i < 16 && AllValid(cs)
    ensures |LogOf(Modify(words, i, cs))| > 16
    ensures StableUpTo(LogOf(words), LogOf(Modify(words, i, cs)), i)
  {
    var log := LogOf(words);
    var target := ApplyAll(TargetValue(i, log), cs, log);
    var words2 := Modify(words, i, cs);
    var X := words[..16];
    var w := WordFor(Md4.Init, X, i, target);
    ModifyIsWordFor(words, i, cs);
    FirstBlock(words2, 0);
    forall row: nat, v: nat | row <= 4 && v < 4 && WrittenBy(row, v) <= i
      ensures Md4.Get(LogOf(words2)[4 * row], v) == Md4.Get(log[4 * row], v)
    {
      FirstBlock(words, 4 * row);
      FirstBlock(words2, 4 * row);
      ModificationKeeps(Md4.Init, X, i, w, row, v);
    }
  }

  /** After Modify the value list i constrains is the target it computed. */
  lemma ModifyWrites(words: seq<bv32>, i: nat, cs: seq<Constraint>)
    requires |words| % 16 == 0 && 16 <= |words| && i < 16 && AllValid(cs)
    ensures |LogOf(Modify(words, i, cs))| > 16
    ensures var log := LogOf(words);
      TargetValue(i, LogOf(Modify(words, i, cs))) == ApplyAll(TargetValue(i, log), cs, log)
  {
    var log := LogOf(words);
    var target := ApplyAll(TargetValue(i, log), cs, log);
    var words2 := Modify(words, i, cs);
    ModifyIsWordFor(words, i, cs);
    FirstBlock(words2, 4 * (i / 4 + 1));
    ModificationWrites(Md4.Init, words[..16], i, target);
  }

  /** One pass of the loop keeps lists 0 to i - 1 met and meets list i. */
  lemma ModifyMeets(words: seq<bv32>, table: seq<seq<Constraint>>, i: nat)
    requires |words| % 16 == 0 && 16 <= |words| && WellFormed(table) && i < |table|
    requires forall j :: 0 <= j < i ==> ListHolds(j, table[j], LogOf(words))
    ensures |LogOf(Modify(words, i, table[i]))| > 16
    ensures forall j :: 0 <= j <= i ==> ListHolds(j, table[j], LogOf(Modify(words, i, table[i])))
  {
    var cs := table[i];
    var log := LogOf(words);
    var log2 := LogOf(Modify(words, i, cs));
    var target := ApplyAll(TargetValue(i, log), cs, log);
    ModifyStable(words, i, cs);
    ModifyWrites(words, i, cs);
    ApplyAllHolds(TargetValue(i, log), cs, log);
    forall k | 0 <= k < |cs|
      ensures Holds(cs[k], TargetValue(i, log2), log2)
    {
      HoldsMoves(cs[k], target, log, log2, i);
    }
    forall j | 0 <= j < i
      ensures ListHolds(j, table[j], log2)
    {
      ListStays(j, table[j], log, log2, i);
    }
  }

  /** The loop over one list's conditions (md4-crack.cpp:352-363). On
      distinct bits every condition holds afterwards. */
  method ApplyConstraints(t: bv32, cs: seq<Constraint>, log: seq<Regs>) returns (r: bv32)
    requires |log| > 16 && AllValid(cs)
    ensures r == ApplyAll(t, cs, log)
    ensures DistinctBits(cs) ==> forall k :: 0 <= k < |cs| ==> Holds(cs[k], r, log)
  {
    r := t;
    var k := 0;
    while k < |cs|
      invariant 0 <= k <= |cs| && ApplyFrom(r, cs, log, k) == ApplyAll(t, cs, log)
    {
      r := Apply(r, cs[k], log);
      k := k + 1;
    }
    if DistinctBits(cs) {
      ApplyAllHolds(t, cs, log);
    }
  }

  /** The loop of single_step_modification over a table of condition
      lists: afterwards every list holds on the final log, and only the
      first |table| words have changed. */
  method ConstraintLoop(input: seq<bv32>, table: seq<seq<Constraint>>) returns (words: seq<bv32>, log: seq<Regs>)
    requires |input| % 16 == 0 && 16 <= |input| && WellFormed(table)
    ensures |words| == |input| && forall k :: |table| <= k < |input| ==> words[k] == input[k]
    ensures log == LogOf(words) && |log| > 16
    ensures forall i :: 0 <= i < |table| ==> ListHolds(i, table[i], log)
  {
    words := input;
    var hash;
    log, hash := Logging(words);
    var i := 0;
    while i < |table|
      invariant 0 <= i <= |table| && |words| == |input| && |words| % 16 == 0
      invariant forall k :: i <= k < |input| ==> words[k] == input[k]
      invariant log == LogOf(words) && |log| > 16
      invariant forall j :: 0 <= j < i ==> ListHolds(j, table[j], log)
    {
      var target := Md4.Get(log[4 * (i / 4 + 1)], Md4.Target(i));
      target := ApplyConstraints(target, table[i], log);
      ModifyMeets(words, table, i);
      words := words[i := ModifiedWord(i, target, log[4 * (i / 4) + 4], log[4 * (i / 4)])];
      log, hash := Logging(words);
      i := i + 1;
    }
  }

  // ---------------------------------------------------------------------
  // The source's condition table (md4-crack.cpp:311-340) and the checks
  // after the loop (md4-crack.cpp:493-553)

  /** Condition list i, as the parser turns the source's strings into
      conditions: "x,n=1" sets bit n, "x,n=0" clears it, "x,n=yr,m"
      matches bit m (the second offset read overwrites the first) against
      register y of log entry 4 * r. List 13 is given as intended; see
      List13AsWritten for what its string parses to. */
  function ConditionList(i: nat): seq<Constraint>
    requires i < 16
  {
    if i == 0 then // a1
      [BitMatch(7, 1, 0)]
    else if i == 1 then // d1
      [ClearBit(7), BitMatch(8, 0, 1), BitMatch(11, 0, 1)]
    else if i == 2 then // c1
      [SetBit(7), SetBit(8), ClearBit(11), BitMatch(26, 3, 1)]
    else if i == 3 then // b1
      [SetBit(7), ClearBit(8), ClearBit(11), ClearBit(26)]
    else if i == 4 then // a2
      [SetBit(8), SetBit(11), ClearBit(26), BitMatch(14, 1, 1)]
    else if i == 5 then // d2
      [ClearBit(14), BitMatch(19, 0, 2), BitMatch(20, 0, 2), BitMatch(21, 0, 2), BitMatch(22, 0, 2), SetBit(26)]
    else if i == 6 then // c2
      [BitMatch(13, 3, 2), ClearBit(14), BitMatch(15, 3, 2), ClearBit(19), ClearBit(20), SetBit(21), ClearBit(22)]
    else if i == 7 then // b2
      [SetBit(13), SetBit(14), ClearBit(15), BitMatch(17, 2, 2), ClearBit(19), ClearBit(20), ClearBit(21), ClearBit(22)]
    else if i == 8 then // a3
      [SetBit(13), SetBit(14), SetBit(15), ClearBit(17), ClearBit(19), ClearBit(20), ClearBit(21), BitMatch(23, 1, 2), SetBit(22), BitMatch(26, 1, 2)]
    else if i == 9 then // d3
      [SetBit(13), SetBit(14), SetBit(15), ClearBit(17), ClearBit(20), SetBit(21), SetBit(22), ClearBit(23), SetBit(26), BitMatch(30, 0, 3)]
    else if i == 10 then // c3
      [SetBit(17), ClearBit(20), ClearBit(21), ClearBit(22), ClearBit(23), ClearBit(26), SetBit(30), BitMatch(32, 3, 3)]
    else if i == 11 then // b3
      [ClearBit(20), SetBit(21), SetBit(22), BitMatch(23, 2, 3), SetBit(26), ClearBit(30), ClearBit(32)]
    else if i == 12 then // a4
      [ClearBit(23), ClearBit(26), BitMatch(27, 1, 3), BitMatch(29, 1, 3), SetBit(30), ClearBit(32)]
    else if i == 13 then // d4
      [ClearBit(23), ClearBit(26), SetBit(27), SetBit(29), ClearBit(30), SetBit(32)]
    else if i == 14 then // c4
      [BitMatch(19, 3, 4), SetBit(23), SetBit(26), ClearBit(27), ClearBit(29), ClearBit(30)]
    else // b4
      [ClearBit(19), BitMatch(26, 2, 4), SetBit(27), SetBit(29), ClearBit(30)]
  }

  /** The sixteen lists, list i for step i. */
  function Table(): (t: seq<seq<Constraint>>)
    ensures |t| == 16 && forall i :: 0 <= i < 16 ==> t[i] == ConditionList(i)
  {
    seq(16, i requires 0 <= i < 16 => ConditionList(i))
  }

  /** Every list of the table, list 13 as intended, can be met at its position. */
  lemma TableWellFormed()
    ensures WellFormed(Table())
  {
    forall i | 0 <= i < 16
      ensures WellFormedList(i, Table()[i])
    {
      ListChecked(i);
      ChecksWellFormed(ConditionList(i), i);
    }
  }

  /** Offset o differs from the offsets of cs from entry k on. */
  predicate NotIn(o: bv32, cs: seq<Constraint>, k: nat)
    decreases |cs| - k
  {
    k >= |cs| || (cs[k].offset != o && NotIn(o, cs, k + 1))
  }

  /** WellFormedList checked one condition at a time from entry i on, in
      a form the verifier can evaluate on a literal list. */
  predicate Checks(cs: seq<Constraint>, n: nat, i: nat)
    decreases |cs| - i
  {
    i >= |cs|
    || (ValidConstraint(cs[i]) && (cs[i].BitMatch? ==> WrittenBy(cs[i].rowIndex, cs[i].valueIndex) <= n)
        && NotIn(cs[i].offset, cs, i + 1) && Checks(cs, n, i + 1))
  }

  lemma {:induction false} NotInMeans(o: bv32, cs: seq<Constraint>, k: nat)
    requires NotIn(o, cs, k)
    ensures forall m :: k <= m < |cs| ==> cs[m].offset != o
    decreases |cs| - k
  {
    if k < |cs| {
      NotInMeans(o, cs, k + 1);
    }
  }

  /** The step-by-step check from entry i on means the list's suffix is
      well formed. */
  lemma {:induction false} ChecksFrom(cs: seq<Constraint>, n: nat, i: nat)
    requires Checks(cs, n, i)
    ensures forall k :: i <= k < |cs| ==> ValidConstraint(cs[k])
    ensures forall k :: i <= k < |cs| && cs[k].BitMatch? ==>
      ValidConstraint(cs[k]) && WrittenBy(cs[k].rowIndex, cs[k].valueIndex) <= n
    ensures forall j, k :: i <= j < k < |cs| ==> cs[j].offset != cs[k].offset
    decreases |cs| - i
  {
    if i < |cs| {
      ChecksFrom(cs, n, i + 1);
      NotInMeans(cs[i].offset, cs, i + 1);
    }
  }

  /** The check is WellFormedList. */
  lemma ChecksWellFormed(cs: seq<Constraint>, n: nat)
    requires Checks(cs, n, 0)
    ensures WellFormedList(n, cs)
  {
    ChecksFrom(cs, n, 0);
  }

  /** Each list of the table passes the check. */
  lemma ListChecked(i: nat)
    requires i < 16
    ensures Checks(ConditionList(i), i, 0)
  {
    if i == 0 {
      ListA1Checked();
    } else if i == 1 {
      ListD1Checked();
    } else if i == 2 {
      ListC1Checked();
    } else if i == 3 {
      ListB1Checked();
    } else if i == 4 {
      ListA2Checked();
    } else if i == 5 {
      ListD2Checked();
    } else if i == 6 {
      ListC2Checked();
    } else if i == 7 {
      ListB2Checked();
    } else if i == 8 {
      ListA3Checked();
    } else if i == 9 {
      ListD3Checked();
    } else if i == 10 {
      ListC3Checked();
    } else if i == 11 {
      ListB3Checked();
    } else if i == 12 {
      ListA4Checked();
    } else if i == 13 {
      ListD4Checked();
    } else if i == 14 {
      ListC4Checked();
    } else {
      ListB4Checked();
    }
  }

  lemma ListA1Checked()
    ensures Checks(ConditionList(0), 0, 0)
  {
  }

  lemma ListD1Checked()
    ensures Checks(ConditionList(1), 1, 0)
  {
  }

  lemma ListC1Checked()
    ensures Checks(ConditionList(2), 2, 0)
  {
  }

  lemma ListB1Checked()
    ensures Checks(ConditionList(3), 3, 0)
  {
  }

  lemma ListA2Checked()
    ensures Checks(ConditionList(4), 4, 0)
  {
  }

  lemma ListD2Checked()
    ensures Checks(ConditionList(5), 5, 0)
  {
  }

  lemma ListC2Checked()
    ensures Checks(ConditionList(6), 6, 0)
  {
  }

  lemma ListB2Checked()
    ensures Checks(ConditionList(7), 7, 0)
  {
  }

  lemma ListA3Checked()
    ensures Checks(ConditionList(8), 8, 0)
  {
  }

  lemma ListD3Checked()
    ensures Checks(ConditionList(9), 9, 0)
  {
  }

  lemma ListC3Checked()
    ensures Checks(ConditionList(10), 10, 0)
  {
  }

  lemma ListB3Checked()
    ensures Checks(ConditionList(11), 11, 0)
  {
  }

  lemma ListA4Checked()
    ensures Checks(ConditionList(12), 12, 0)
  {
  }

  lemma ListD4Checked()
    ensures Checks(ConditionList(13), 13, 0)
  {
  }

  lemma ListC4Checked()
    ensures Checks(ConditionList(14), 14, 0)
  {
  }

  lemma ListB4Checked()
    ensures Checks(ConditionList(15), 15, 0)
  {
  }

  /** EXTRACT(num, bit): the bit of num numbered from 1, in place. */
  function Extract(x: bv32, bit: bv32): bv32
    requires 1 <= bit <= 32
  {
    x & Mask(bit)
  }

  /** What each kind of condition means for the bit in place: set, clear,
      or equal to the referenced register's. */
  lemma HoldsMeans(c: Constraint, v: bv32, log: seq<Regs>)
    requires ValidConstraint(c) && |log| > 16 && Holds(c, v, log)
    ensures c.SetBit? ==> Extract(v, c.offset) != 0
    ensures c.ClearBit? ==> Extract(v, c.offset) == 0
    ensures c.BitMatch? ==> Extract(v, c.offset) == Extract(Ref(c, log), c.offset)
  {
    var w := Wanted(c, log);
    if c.SetBit? {
      assert w == 0xFFFF_FFFF;
      SetMeans(v, c.offset);
    } else if c.ClearBit? {
      assert w == 0;
      ClearMeans(v, c.offset);
    } else {
      assert w == Ref(c, log);
      MatchMeans(v, w, c.offset);
    }
  }

  lemma SetMeans(v: bv32, o: bv32)
    requires 1 <= o <= 32 && Agree(v, 0xFFFF_FFFF, Mask(o))
    ensures Extract(v, o) != 0
  {
  }

  lemma ClearMeans(v: bv32, o: bv32)
    requires 1 <= o <= 32 && Agree(v, 0, Mask(o))
    ensures Extract(v, o) == 0
  {
  }

  lemma MatchMeans(v: bv32, p: bv32, o: bv32)
    requires 1 <= o <= 32 && Agree(v, p, Mask(o))
    ensures Extract(v, o) == Extract(p, o)
  {
  }

  /** The checks single_step_modification asserts after its loop
      (md4-crack.cpp:493-553), on the registers a1 to a3. Register x of
      row r is field x of log entry 4 * r. */
  predicate SourceChecks(log: seq<Regs>)
    requires |log| > 16
  {
    CheckA1(log)
    && CheckD1(log)
    && CheckC1(log)
    && CheckB1(log)
    && CheckA2(log)
    && CheckD2(log)
    && CheckC2(log)
    && CheckB2(log)
    && CheckA3(log)
  }

  /** The checks on a1. */
  predicate CheckA1(log: seq<Regs>)
    requires |log| > 16
  {
    Extract(log[4].a, 7) == Extract(log[0].b, 7)
  }

  /** The checks on d1. */
  predicate CheckD1(log: seq<Regs>)
    requires |log| > 16
  {
    Extract(log[4].d, 7) == 0
    && Extract(log[4].d, 8) == Extract(log[4].a, 8)
    && Extract(log[4].d, 11) == Extract(log[4].a, 11)
  }

  /** The checks on c1. */
  predicate CheckC1(log: seq<Regs>)
    requires |log| > 16
  {
    Extract(log[4].c, 7) != 0
    && Extract(log[4].c, 8) != 0
    && Extract(log[4].c, 11) == 0
    && Extract(log[4].c, 26) == Extract(log[4].d, 26)
  }

  /** The checks on b1. */
  predicate CheckB1(log: seq<Regs>)
    requires |log| > 16
  {
    Extract(log[4].b, 7) != 0
    && Extract(log[4].b, 8) == 0
    && Extract(log[4].b, 11) == 0
    && Extract(log[4].b, 26) == 0
  }

  /** The checks on a2. */
  predicate CheckA2(log: seq<Regs>)
    requires |log| > 16
  {
    Extract(log[8].a, 8) != 0
    && Extract(log[8].a, 11) != 0
    && Extract(log[8].a, 26) == 0
    && Extract(log[8].a, 14) == Extract(log[4].b, 14)
  }

  /** The checks on d2. */
  predicate CheckD2(log: seq<Regs>)
    requires |log| > 16
  {
    Extract(log[8].d, 14) == 0
    && Extract(log[8].d, 19) == Extract(log[8].a, 19)
    && Extract(log[8].d, 20) == Extract(log[8].a, 20)
    && Extract(log[8].d, 21) == Extract(log[8].a, 21)
    && Extract(log[8].d, 22) == Extract(log[8].a, 22)
    && Extract(log[8].d, 26) != 0
  }

  /** The checks on c2. */
  predicate CheckC2(log: seq<Regs>)
    requires |log| > 16
  {
    Extract(log[8].c, 13) == Extract(log[8].d, 13)
    && Extract(log[8].c, 14) == 0
    && Extract(log[8].c, 15) == Extract(log[8].d, 15)
    && Extract(log[8].c, 19) == 0
    && Extract(log[8].c, 20) == 0
    && Extract(log[8].c, 21) != 0
    && Extract(log[8].c, 22) == 0
  }

  /** The checks on b2. */
  predicate CheckB2(log: seq<Regs>)
    requires |log| > 16
  {
    Extract(log[8].b, 13) != 0
    && Extract(log[8].b, 14) != 0
    && Extract(log[8].b, 15) == 0
    && Extract(log[8].b, 17) == Extract(log[8].c, 17)
    && Extract(log[8].b, 19) == 0
    && Extract(log[8].b, 20) == 0
    && Extract(log[8].b, 21) == 0
    && Extract(log[8].b, 22) == 0
  }

  /** The checks on a3. */
  predicate CheckA3(log: seq<Regs>)
    requires |log| > 16
  {
    Extract(log[12].a, 13) != 0
    && Extract(log[12].a, 14) != 0
    && Extract(log[12].a, 15) != 0
    && Extract(log[12].a, 17) == 0
    && Extract(log[12].a, 19) == 0
    && Extract(log[12].a, 20) == 0
    && Extract(log[12].a, 21) == 0
    && Extract(log[12].a, 23) == Extract(log[8].b, 23)
    && Extract(log[12].a, 22) != 0
    && Extract(log[12].a, 26) == Extract(log[8].b, 26)
  }

  /** Lists 0 to 8 met on the log pass the source's checks. */
  lemma ListsMeanChecks(log: seq<Regs>)
    requires |log| > 16 && WellFormed(Table())
    requires forall i :: 0 <= i < 9 ==> ListHolds(i, Table()[i], log)
    ensures SourceChecks(log)
  {
    ListA1MeetsCheck(log);
    ListD1MeetsCheck(log);
    ListC1MeetsCheck(log);
    ListB1MeetsCheck(log);
    ListA2MeetsCheck(log);
    ListD2MeetsCheck(log);
    ListC2MeetsCheck(log);
    ListB2MeetsCheck(log);
    ListA3MeetsCheck(log);
  }

  lemma ListA1MeetsCheck(log: seq<Regs>)
    requires |log| > 16 && WellFormed(Table()) && ListHolds(0, Table()[0], log)
    ensures CheckA1(log)
  {
    var cs := ConditionList(0);
    assert TargetValue(0, log) == log[4].a;
    HoldsMeans(cs[0], TargetValue(0, log), log);
  }

  lemma ListD1MeetsCheck(log: seq<Regs>)
    requires |log| > 16 && WellFormed(Table()) && ListHolds(1, Table()[1], log)
    ensures CheckD1(log)
  {
    var cs := ConditionList(1);
    assert TargetValue(1, log) == log[4].d;
    HoldsMeans(cs[0], TargetValue(1, log), log);
    HoldsMeans(cs[1], TargetValue(1, log), log);
    HoldsMeans(cs[2], TargetValue(1, log), log);
  }

  lemma ListC1MeetsCheck(log: seq<Regs>)
    requires |log| > 16 && WellFormed(Table()) && ListHolds(2, Table()[2], log)
    ensures CheckC1(log)
  {
    var cs := ConditionList(2);
    assert TargetValue(2, log) == log[4].c;
    HoldsMeans(cs[0], TargetValue(2, log), log);
    HoldsMeans(cs[1], TargetValue(2, log), log);
    HoldsMeans(cs[2], TargetValue(2, log), log);
    HoldsMeans(cs[3], TargetValue(2, log), log);
  }

  lemma ListB1MeetsCheck(log: seq<Regs>)
    requires |log| > 16 && WellFormed(Table()) && ListHolds(3, Table()[3], log)
    ensures CheckB1(log)
  {
    var cs := ConditionList(3);
    assert TargetValue(3, log) == log[4].b;
    HoldsMeans(cs[0], TargetValue(3, log), log);
    HoldsMeans(cs[1], TargetValue(3, log), log);
    HoldsMeans(cs[2], TargetValue(3, log), log);
    HoldsMeans(cs[3], TargetValue(3, log), log);
  }

  lemma ListA2MeetsCheck(log: seq<Regs>)
    requires |log| > 16 && WellFormed(Table()) && ListHolds(4, Table()[4], log)
    ensures CheckA2(log)
  {
    var cs := ConditionList(4);
    assert TargetValue(4, log) == log[8].a;
    HoldsMeans(cs[0], TargetValue(4, log), log);
    HoldsMeans(cs[1], TargetValue(4, log), log);
    HoldsMeans(cs[2], TargetValue(4, log), log);
    HoldsMeans(cs[3], TargetValue(4, log), log);
  }

  lemma ListD2MeetsCheck(log: seq<Regs>)
    requires |log| > 16 && WellFormed(Table()) && ListHolds(5, Table()[5], log)
    ensures CheckD2(log)
  {
    ListD2MeetsPart(log, 0);
    ListD2MeetsPart(log, 4);
  }

  /** The checks on d2 four at a time, from condition `from` on. */
  lemma ListD2MeetsPart(log: seq<Regs>, from: nat)
    requires |log| > 16 && WellFormed(Table()) && ListHolds(5, Table()[5], log)
    requires from % 4 == 0 && from < 6
    ensures from == 0 ==>
      Extract(log[8].d, 14) == 0
      && Extract(log[8].d, 19) == Extract(log[8].a, 19)
      && Extract(log[8].d, 20) == Extract(log[8].a, 20)
      && Extract(log[8].d, 21) == Extract(log[8].a, 21)
    ensures from == 4 ==>
      Extract(log[8].d, 22) == Extract(log[8].a, 22)
      && Extract(log[8].d, 26) != 0
  {
    var cs := ConditionList(5);
    assert TargetValue(5, log) == log[8].d;
    if from == 0 {
      HoldsMeans(cs[0], TargetValue(5, log), log);
      HoldsMeans(cs[1], TargetValue(5, log), log);
      HoldsMeans(cs[2], TargetValue(5, log), log);
      HoldsMeans(cs[3], TargetValue(5, log), log);
    } else {
      HoldsMeans(cs[4], TargetValue(5, log), log);
      HoldsMeans(cs[5], TargetValue(5, log), log);
    }
  }

  lemma ListC2MeetsCheck(log: seq<Regs>)
    requires |log| > 16 && WellFormed(Table()) && ListHolds(6, Table()[6], log)
    ensures CheckC2(log)
  {
    ListC2MeetsPart(log, 0);
    ListC2MeetsPart(log, 4);
  }

  /** The checks on c2 four at a time, from condition `from` on. */
  lemma ListC2MeetsPart(log: seq<Regs>, from: nat)
    requires |log| > 16 && WellFormed(Table()) && ListHolds(6, Table()[6], log)
    requires from % 4 == 0 && from < 7
    ensures from == 0 ==>
      Extract(log[8].c, 13) == Extract(log[8].d, 13)
      && Extract(log[8].c, 14) == 0
      && Extract(log[8].c, 15) == Extract(log[8].d, 15)
      && Extract(log[8].c, 19) == 0
    ensures from == 4 ==>
      Extract(log[8].c, 20) == 0
      && Extract(log[8].c, 21) != 0
      && Extract(log[8].c, 22) == 0
  {
    var cs := ConditionList(6);
    assert TargetValue(6, log) == log[8].c;
    if from == 0 {
      HoldsMeans(cs[0], TargetValue(6, log), log);
      HoldsMeans(cs[1], TargetValue(6, log), log);
      HoldsMeans(cs[2], TargetValue(6, log), log);
      HoldsMeans(cs[3], TargetValue(6, log), log);
    } else {
      HoldsMeans(cs[4], TargetValue(6, log), log);
      HoldsMeans(cs[5], TargetValue(6, log), log);
      HoldsMeans(cs[6], TargetValue(6, log), log);
    }
  }

  lemma ListB2MeetsCheck(log: seq<Regs>)
    requires |log| > 16 && WellFormed(Table()) && ListHolds(7, Table()[7], log)
    ensures CheckB2(log)
  {
    ListB2MeetsPart(log, 0);
    ListB2MeetsPart(log, 4);
  }

  /** The checks on b2 four at a time, from condition `from` on. */
  lemma ListB2MeetsPart(log: seq<Regs>, from: nat)
    requires |log| > 16 && WellFormed(Table()) && ListHolds(7, Table()[7], log)
    requires from % 4 == 0 && from < 8
    ensures from == 0 ==>
      Extract(log[8].b, 13) != 0
      && Extract(log[8].b, 14) != 0
      && Extract(log[8].b, 15) == 0
      && Extract(log[8].b, 17) == Extract(log[8].c, 17)
    ensures from == 4 ==>
      Extract(log[8].b, 19) == 0
      && Extract(log[8].b, 20) == 0
      && Extract(log[8].b, 21) == 0
      && Extract(log[8].b, 22) == 0
  {
    var cs := ConditionList(7);
    assert TargetValue(7, log) == log[8].b;
    if from == 0 {
      HoldsMeans(cs[0], TargetValue(7, log), log);
      HoldsMeans(cs[1], TargetValue(7, log), log);
      HoldsMeans(cs[2], TargetValue(7, log), log);
      HoldsMeans(cs[3], TargetValue(7, log), log);
    } else {
      HoldsMeans(cs[4], TargetValue(7, log), log);
      HoldsMeans(cs[5], TargetValue(7, log), log);
      HoldsMeans(cs[6], TargetValue(7, log), log);
      HoldsMeans(cs[7], TargetValue(7, log), log);
    }
  }

  lemma ListA3MeetsCheck(log: seq<Regs>)
    requires |log| > 16 && WellFormed(Table()) && ListHolds(8, Table()[8], log)
    ensures CheckA3(log)
  {
    ListA3MeetsPart(log, 0);
    ListA3MeetsPart(log, 4);
    ListA3MeetsPart(log, 8);
  }

  /** The checks on a3 four at a time, from condition `from` on. */
  lemma ListA3MeetsPart(log: seq<Regs>, from: nat)
    requires |log| > 16 && WellFormed(Table()) && ListHolds(8, Table()[8], log)
    requires from % 4 == 0 && from < 10
    ensures from == 0 ==>
      Extract(log[12].a, 13) != 0
      && Extract(log[12].a, 14) != 0
      && Extract(log[12].a, 15) != 0
      && Extract(log[12].a, 17) == 0
    ensures from == 4 ==>
      Extract(log[12].a, 19) == 0
      && Extract(log[12].a, 20) == 0
      && Extract(log[12].a, 21) == 0
      && Extract(log[12].a, 23) == Extract(log[8].b, 23)
    ensures from == 8 ==>
      Extract(log[12].a, 22) != 0
      && Extract(log[12].a, 26) == Extract(log[8].b, 26)
  {
    var cs := ConditionList(8);
    assert TargetValue(8, log) == log[12].a;
    if from == 0 {
      HoldsMeans(cs[0], TargetValue(8, log), log);
      HoldsMeans(cs[1], TargetValue(8, log), log);
      HoldsMeans(cs[2], TargetValue(8, log), log);
      HoldsMeans(cs[3], TargetValue(8, log), log);
    } else if from == 4 {
      HoldsMeans(cs[4], TargetValue(8, log), log);
      HoldsMeans(cs[5], TargetValue(8, log), log);
      HoldsMeans(cs[6], TargetValue(8, log), log);
      HoldsMeans(cs[7], TargetValue(8, log), log);
    } else {
      HoldsMeans(cs[8], TargetValue(8, log), log);
      HoldsMeans(cs[9], TargetValue(8, log), log);
    }
  }

  /** List 13 as the parser reads md4-crack.cpp:335-336, where a comma
      stands for the semicolon before the last condition: "d4,30=0,d4"
      clears bit 30, and "32=1" makes sscanf stop before it stores an
      offset, so SET uses whatever `offset` held. */
  function List13AsWritten(offset: bv32): seq<Constraint> {
    [ClearBit(23), ClearBit(26), SetBit(27), SetBit(29), ClearBit(30), SetBit(offset)]
  }

  /** As written, list 13 never sets bit 32 (unless the stale offset
      happens to be 32): a d4 value with bit 32 clear keeps it clear,
      although d4,32 = 1 is one of the attack's conditions. */
  lemma List13AsWrittenKeepsBit32(t: bv32, offset: bv32, log: seq<Regs>)
    requires 1 <= offset < 32 && |log| > 16 && Extract(t, 32) == 0
    ensures AllValid(List13AsWritten(offset))
    ensures Extract(ApplyAll(t, List13AsWritten(offset), log), 32) == 0
  {
    var cs := List13AsWritten(offset);
    forall k | 0 <= k < |cs|
      ensures Disjoint(Mask(32), Mask(cs[k].offset))
    {
      MasksDisjoint(32, cs[k].offset);
    }
    ApplyAllKeeps(t, cs, log, Mask(32));
    MatchMeans(ApplyAll(t, cs, log), t, 32);
  }

  /** The intended list 13 sets bit 32 of every value it is applied to. */
  lemma List13SetsBit32(t: bv32, log: seq<Regs>)
    requires |log| > 16
    ensures AllValid(ConditionList(13))
    ensures Extract(ApplyAll(t, ConditionList(13), log), 32) != 0
  {
    var cs := ConditionList(13);
    ListD4Checked();
    ChecksWellFormed(cs, 13);
    ApplyAllHolds(t, cs, log);
    HoldsMeans(cs[5], ApplyAll(t, cs, log), log);
  }

  /** single_step_modification: the constraint loop over the source's
      table with list 13 corrected (see List13AsWritten), after which the
      source's checks on a1 to a3 pass. */
  method SingleStepModification(input: seq<bv32>) returns (words: seq<bv32>, log: seq<Regs>)
    requires |input| % 16 == 0 && 16 <= |input|
    ensures |words| == |input| && words[16..] == input[16..]
    ensures log == LogOf(words) && |log| > 16
    ensures WellFormed(Table()) && forall i :: 0 <= i < 16 ==> ListHolds(i, Table()[i], log)
    ensures SourceChecks(log)
  {
    TableWellFormed();
    words, log := ConstraintLoop(input, Table());
    ListsMeanChecks(log);
  }
}

=== FILE: md_padding.dfy ===
/** The message padding MD4 and SHA-256 share (md4.cpp:12-22,
    sha2.cpp:29-39, and padding in md4-crack.cpp:32-46): the message, one
    0x80 byte, zero bytes, and the message length in bits as a 64-bit
    number in the last eight bytes, the whole a multiple of 64 bytes long
    (section 3.1-3.2 of RFC 1320, section 5.1.1 of FIPS 180-4). MD4 writes
    the length little-endian, SHA-256 big-endian. */
module MdPadding {

  /** (length + 9 + 63) & ~63: clearing the low six bits of length + 72
      rounds it down to a multiple of 64. */
  function PaddedLength(n: nat): nat {
    (n + 72) - (n + 72) % 64
  }

  /** The padded length is the least multiple of 64 that leaves room for
      the message, the 0x80 byte and the eight length bytes: it is at least
      n + 9, and the multiple of 64 below it is not. */
  lemma PaddedLengthLeast(n: nat)
    ensures PaddedLength(n) % 64 == 0
    ensures n + 9 <= PaddedLength(n)
    ensures PaddedLength(n) - 64 < n + 9
  {
  }

  /** The message length in bits as the sources compute it, in a uint64:
      8 * length modulo 2^64. */
  function BitLength(n: nat): bv64 {
    ((n * 8) % 0x1_0000_0000_0000_0000) as bv64
  }

  /** Byte k of x, counted from the least significant: (x >> 8k) & 0xFF. */
  function Byte64(x: bv64, k: nat): bv8
    requires k < 8
  {
    if k == 0 then (x & 0xFF) as bv8
    else if k == 1 then ((x >> 8) & 0xFF) as bv8
    else if k == 2 then ((x >> 16) & 0xFF) as bv8
    else if k == 3 then ((x >> 24) & 0xFF) as bv8
    else if k == 4 then ((x >> 32) & 0xFF) as bv8
    else if k == 5 then ((x >> 40) & 0xFF) as bv8
    else if k == 6 then ((x >> 48) & 0xFF) as bv8
    else ((x >> 56) & 0xFF) as bv8
  }

  /** x as eight bytes, least significant first. */
  function Le64Bytes(x: bv64): (r: seq<bv8>)
    ensures |r| == 8
  {
    [Byte64(x, 0), Byte64(x, 1), Byte64(x, 2), Byte64(x, 3),
     Byte64(x, 4), Byte64(x, 5), Byte64(x, 6), Byte64(x, 7)]
  }

  /** x as eight bytes, most significant first. */
  function Be64Bytes(x: bv64): (r: seq<bv8>)
    ensures |r| == 8
  {
    [Byte64(x, 7), Byte64(x, 6), Byte64(x, 5), Byte64(x, 4),
     Byte64(x, 3), Byte64(x, 2), Byte64(x, 1), Byte64(x, 0)]
  }

  /** Eight bytes read least significant first. */
  function Le64(b: seq<bv8>): bv64
    requires |b| == 8
  {
    (b[7] as bv64 << 56) | (b[6] as bv64 << 48) | (b[5] as bv64 << 40) | (b[4] as bv64 << 32)
    | (b[3] as bv64 << 24) | (b[2] as bv64 << 16) | (b[1] as bv64 << 8) | b[0] as bv64
  }

  /** Eight bytes read most significant first. */
  function Be64(b: seq<bv8>): bv64
    requires |b| == 8
  {
    (b[0] as bv64 << 56) | (b[1] as bv64 << 48) | (b[2] as bv64 << 40) | (b[3] as bv64 << 32)
    | (b[4] as bv64 << 24) | (b[5] as bv64 << 16) | (b[6] as bv64 << 8) | b[7] as bv64
  }

  /** Reading back a number written least significant first gives it back. */
  lemma Le64Bytes64(x: bv64)
    ensures Le64(Le64Bytes(x)) == x
  {
  }

  /** Reading back a number written most significant first gives it back. */
  lemma Be64Bytes64(x: bv64)
    ensures Be64(Be64Bytes(x)) == x
  {
  }

  /** The trailing length field: little-endian for MD4, big-endian for
      SHA-256. */
  function LengthField(n: nat, bigEndian: bool): (r: seq<bv8>)
    ensures |r| == 8
  {
    if bigEndian then Be64Bytes(BitLength(n)) else Le64Bytes(BitLength(n))
  }

  /** n zero bytes. */
  function Zeros(n: nat): (r: seq<bv8>)
    ensures |r| == n && forall i :: 0 <= i < n ==> r[i] == 0
  {
    seq(n, _ => 0)
  }

  /** The message, 0x80 and the zero bytes: everything but the length field. */
  function Head(input: seq<bv8>): (r: seq<bv8>)
    ensures |r| == PaddedLength(|input|) - 8
  {
    input + [0x80] + Zeros(PaddedLength(|input|) - |input| - 9)
  }

  /** The padded message. */
  function Pad(input: seq<bv8>, bigEndian: bool): (p: seq<bv8>)
    ensures |p| == PaddedLength(|input|) && |p| % 64 == 0
  {
    PaddedLengthLeast(|input|);
    Head(input) + LengthField(|input|, bigEndian)
  }

  /** The padded message starts with the message and the 0x80 byte, has
      only zeros up to the length field, and its last eight bytes read back
      as the message length in bits, modulo 2^64. */
  lemma PadParts(input: seq<bv8>, bigEndian: bool)
    ensures Pad(input, bigEndian)[..|input|] == input
    ensures Pad(input, bigEndian)[|input|] == 0x80
    ensures forall i :: |input| < i < PaddedLength(|input|) - 8 ==> Pad(input, bigEndian)[i] == 0
    ensures var tail := Pad(input, bigEndian)[PaddedLength(|input|) - 8..];
      (if bigEndian then Be64(tail) else Le64(tail)) == BitLength(|input|)
  {
    var p := Pad(input, bigEndian);
    var n := |input|;
    var m := PaddedLength(n);
    assert p == input + [0x80] + Zeros(m - n - 9) + LengthField(n, bigEndian);
    assert p[..n] == input;
    assert p[m - 8..] == LengthField(n, bigEndian);
    Le64Bytes64(BitLength(n));
    Be64Bytes64(BitLength(n));
  }

  /** The length byte the sources' loop writes at index real_length - i - 1:
      byte i of the bit length for big-endian, byte 7 - i for little-endian. */
  function LoopByte(bits: bv64, i: nat, bigEndian: bool): bv8
    requires i < 8
  {
    if bigEndian then Byte64(bits, i) else Byte64(bits, 7 - i)
  }

  /** The byte the loop writes at index m - i - 1 is byte 7 - i of the
      length field. */
  lemma LoopByteIsField(n: nat, i: nat, bigEndian: bool)
    requires i < 8
    ensures LoopByte(BitLength(n), i, bigEndian) == LengthField(n, bigEndian)[7 - i]
  {
    LoopByteAt(BitLength(n), i, bigEndian);
  }

  /** The same for any 64-bit number, one loop index at a time. */
  lemma LoopByteAt(x: bv64, i: nat, bigEndian: bool)
    requires i < 8
    ensures LoopByte(x, i, bigEndian) == (if bigEndian then Be64Bytes(x) else Le64Bytes(x))[7 - i]
  {
    if i == 0 {
    } else if i == 1 {
    } else if i == 2 {
    } else if i == 3 {
    } else if i == 4 {
    } else if i == 5 {
    } else if i == 6 {
    } else {
    }
  }

  /** The sources' preprocessing: resize the message to the padded length
      with zero bytes, store 0x80 right after the message, then write the
      eight length bytes from the last index backwards. */
  method Preprocess(input: seq<bv8>, bigEndian: bool) returns (p: seq<bv8>)
    ensures p == Pad(input, bigEndian)
  {
    var n := |input|;
    var m := (n + 9 + 63) - (n + 9 + 63) % 64;
    p := input + Zeros(m - n);
    p := p[n := 0x80];
    assert p[..m - 8] == Head(input);
    p := StoreBackwards(p, LengthField(n, bigEndian));
    assert p[m - 8..] == LengthField(n, bigEndian);
    SplitAt(p, m - 8);
  }

  /** The sources' length loop: for i from 0 to 7 it stores at index
      |p| - i - 1 the byte LoopByte(bits, i, bigEndian), which is byte
      7 - i of the length field (LoopByteIsField). Only the last eight
      elements change, and they become the field. */
  method StoreBackwards<T>(p0: seq<T>, field: seq<T>) returns (p: seq<T>)
    requires 8 <= |p0| && |field| == 8
    ensures |p| == |p0| && p[..|p0| - 8] == p0[..|p0| - 8]
    ensures p[|p0| - 8..] == field
  {
    var m := |p0|;
    p := p0;
    var i := 0;
    while i < 8
      invariant 0 <= i <= 8 && |p| == m
      invariant p[..m - 8] == p0[..m - 8]
      invariant forall k :: m - i <= k < m ==> p[k] == field[k - (m - 8)]
    {
      UpdateKeepsPrefix(p, m - i - 1, field[7 - i], m - 8);
      StoreFromEnd(p, p[m - i - 1 := field[7 - i]], field, i, field[7 - i]);
      p := p[m - i - 1 := field[7 - i]];
      i := i + 1;
    }
    assert p[m - 8..] == field;
  }

  /** Storing at or after index k leaves the first k elements alone. */
  lemma UpdateKeepsPrefix<T>(s: seq<T>, j: nat, v: T, k: nat)
    requires k <= j < |s|
    ensures s[j := v][..k] == s[..k]
  {
  }

  /** Storing byte 7 - i of an eight-byte field at index i from the end
      extends the stretch of the field already written at the end. */
  lemma StoreFromEnd<T>(p: seq<T>, q: seq<T>, f: seq<T>, i: nat, v: T)
    requires |f| == 8 && 8 <= |p| && i < 8 && v == f[7 - i] && q == p[|p| - i - 1 := v]
    requires forall k :: |p| - i <= k < |p| ==> p[k] == f[k - (|p| - 8)]
    ensures forall k :: |q| - (i + 1) <= k < |q| ==> q[k] == f[k - (|q| - 8)]
  {
  }

  /** A sequence is its first k elements followed by the rest. */
  lemma SplitAt<T>(s: seq<T>, k: nat)
    requires k <= |s|
    ensures s == s[..k] + s[k..]
  {
  }
}

=== FILE: rc4.dfy ===
/** RC4 as rc4 (rc4.cpp:4-34) computes it: the key-scheduling algorithm,
    then one keystream byte per input byte, XORed into the input.

    The reference functions below follow the source's two loops step by
    step; the method `Rc4` is the source's code, proved to compute them. */
module Rc4 {

  /** The identity permutation of the byte values, s[k] = k (rc4.cpp:11-13). */
  function Identity(): (s: seq<bv8>)
    ensures |s| == 256
  {
    seq(256, k requires 0 <= k < 256 => k as bv8)
  }

  /** s holds each byte value exactly once: 256 entries that take all 256
      values. */
  ghost predicate IsPermutation(s: seq<bv8>) {
    |s| == 256 && forall v: bv8 :: v in s
  }

  /** a and b hold the same values. */
  ghost predicate SameValues(a: seq<bv8>, b: seq<bv8>) {
    forall v :: v in a <==> v in b
  }

  /** The identity holds every byte value. */
  lemma IdentityIsPermutation()
    ensures IsPermutation(Identity())
  {
    forall v: bv8 ensures v in Identity() {
      assert Identity()[v as int] == v;
    }
  }

  /** Exchange entries a and b. */
  function Swap(s: seq<bv8>, a: nat, b: nat): (r: seq<bv8>)
    requires a < |s| && b < |s|
    ensures |r| == |s|
  {
    s[a := s[b]][b := s[a]]
  }

  /** A swap only moves entries around. */
  lemma SwapPermutes(s: seq<bv8>, a: nat, b: nat)
    requires a < |s| && b < |s|
    ensures SameValues(Swap(s, a, b), s)
  {
    var r := Swap(s, a, b);
    forall v ensures v in r <==> v in s {
      if v in s {
        var k :| 0 <= k < |s| && s[k] == v;
        if k == a {
          assert r[b] == v;
        } else if k == b {
          assert r[a] == v;
        } else {
          assert r[k] == v;
        }
      }
      if v in r {
        var k :| 0 <= k < |r| && r[k] == v;
        if k == a {
          assert s[b] == v;
        } else if k == b {
          assert s[a] == v;
        } else {
          assert s[k] == v;
        }
      }
    }
  }

  /** One step of key scheduling (rc4.cpp:16-19): the new j, and s with
      entries i and j exchanged. */
  function KsaJ(key: seq<bv8>, s: seq<bv8>, i: nat, j: nat): (j': nat)
    requires |key| >= 1 && |s| == 256 && i < 256
    ensures j' < 256
  {
    (j + s[i] as nat + key[i % |key|] as nat) % 256
  }

  /** Key scheduling from step i with the current s and j (rc4.cpp:15-20). */
  function KsaFrom(key: seq<bv8>, s: seq<bv8>, i: nat, j: nat): (r: seq<bv8>)
    requires |key| >= 1 && |s| == 256 && i <= 256
    ensures |r| == 256
    decreases 256 - i
  {
    if i == 256 then s
    else
      var j' := KsaJ(key, s, i, j);
      KsaFrom(key, Swap(s, i, j'), i + 1, j')
  }

  /** The permutation after key scheduling. */
  function KeySchedule(key: seq<bv8>): (s: seq<bv8>)
    requires |key| >= 1
    ensures |s| == 256
  {
    KsaFrom(key, Identity(), 0, 0)
  }

  /** Key scheduling only swaps, so it keeps the values of s. */
  lemma {:induction false} KsaFromPermutes(key: seq<bv8>, s: seq<bv8>, i: nat, j: nat)
    requires |key| >= 1 && |s| == 256 && i <= 256
    ensures SameValues(KsaFrom(key, s, i, j), s)
    decreases 256 - i
  {
    if i < 256 {
      var j' := KsaJ(key, s, i, j);
      SwapPermutes(s, i, j');
      KsaFromPermutes(key, Swap(s, i, j'), i + 1, j');
    }
  }

  /** After key scheduling, s is a permutation of 0..255. */
  lemma KeyScheduleIsPermutation(key: seq<bv8>)
    requires |key| >= 1
    ensures IsPermutation(KeySchedule(key))
  {
    IdentityIsPermutation();
    KsaFromPermutes(key, Identity(), 0, 0);
  }

  /** The generator state: the permutation and the two indices. */
  datatype State = State(s: seq<bv8>, i: nat, j: nat)

  predicate Valid(st: State) {
    |st.s| == 256 && st.i < 256 && st.j < 256
  }

  /** One generation step (rc4.cpp:26-30): advance i, add s[i] to j, swap. */
  function Step(st: State): (r: State)
    requires Valid(st)
    ensures Valid(r)
  {
    var i := (st.i + 1) % 256;
    var j := (st.j + st.s[i] as nat) % 256;
    State(Swap(st.s, i, j), i, j)
  }

  /** The keystream byte of a state just produced by a step (rc4.cpp:31). */
  function Output(st: State): bv8
    requires Valid(st)
  {
    st.s[(st.s[st.i] as nat + st.s[st.j] as nat) % 256]
  }

  /** The state after n generation steps. */
  function Run(st: State, n: nat): (r: State)
    requires Valid(st)
    ensures Valid(r)
  {
    if n == 0 then st else Step(Run(st, n - 1))
  }

  /** A step only swaps two entries. */
  lemma StepPermutes(st: State)
    requires Valid(st)
    ensures SameValues(Step(st).s, st.s)
  {
    var i := (st.i + 1) % 256;
    SwapPermutes(st.s, i, (st.j + st.s[i] as nat) % 256);
  }

  /** Steps only swap, so they keep the values of s. */
  lemma {:induction false} RunPermutes(st: State, n: nat)
    requires Valid(st)
    ensures SameValues(Run(st, n).s, st.s)
  {
    if n > 0 {
      RunPermutes(st, n - 1);
      StepPermutes(Run(st, n - 1));
    }
  }

  /** The first n keystream bytes from st. */
  function Keystream(st: State, n: nat): (ks: seq<bv8>)
    requires Valid(st)
    ensures |ks| == n
  {
    if n == 0 then [] else Keystream(st, n - 1) + [Output(Run(st, n))]
  }

  /** Keystream byte k is the output of step k + 1. */
  lemma {:induction false} KeystreamAt(st: State, n: nat, k: nat)
    requires Valid(st) && k < n
    ensures Keystream(st, n)[k] == Output(Run(st, k + 1))
  {
    if k < n - 1 {
      KeystreamAt(st, n - 1, k);
      SnocAt(Keystream(st, n), Keystream(st, n - 1), Output(Run(st, n)), k, Output(Run(st, k + 1)));
    }
  }

  /** Appending an element leaves the earlier elements alone. */
  lemma SnocAt<T>(whole: seq<T>, s: seq<T>, x: T, k: nat, v: T)
    requires whole == s + [x] && k < |s| && s[k] == v
    ensures whole[k] == v
  {
  }

  /** The generator state right after key scheduling. */
  function Initial(key: seq<bv8>): (st: State)
    requires |key| >= 1
    ensures Valid(st)
  {
    State(KeySchedule(key), 0, 0)
  }

  /** Byte-wise XOR of two equally long sequences. */
  function XorBytes(a: seq<bv8>, b: seq<bv8>): (r: seq<bv8>)
    requires |a| == |b|
    ensures |r| == |a|
  {
    seq(|a|, k requires 0 <= k < |a| => a[k] ^ b[k])
  }

  /** rc4: the input XORed with the keystream of the key. The key must
      have 1 to 256 bytes: the source's assert admits an empty key, for
      which i % key.size() divides by zero. */
  function Cipher(input: seq<bv8>, key: seq<bv8>): (output: seq<bv8>)
    requires 1 <= |key| <= 256
    ensures |output| == |input|
  {
    XorBytes(input, Keystream(Initial(key), |input|))
  }

  /** The generator's permutation stays a permutation of 0..255 after every
      step, and the indices stay in 0..255. */
  lemma StateIsPermutation(key: seq<bv8>, n: nat)
    requires 1 <= |key| <= 256
    ensures Valid(Run(Initial(key), n))
    ensures IsPermutation(Run(Initial(key), n).s)
  {
    KeyScheduleIsPermutation(key);
    RunPermutes(Initial(key), n);
  }

  /** Output byte k is input byte k XOR a keystream byte that depends only
      on the key and k. */
  lemma CipherAt(input: seq<bv8>, key: seq<bv8>, k: nat)
    requires 1 <= |key| <= 256 && k < |input|
    ensures Cipher(input, key)[k] == input[k] ^ Output(Run(Initial(key), k + 1))
  {
    KeystreamAt(Initial(key), |input|, k);
  }

  lemma XorTwice(a: bv8, b: bv8)
    ensures (a ^ b) ^ b == a
  {
  }

  /** Applying rc4 twice with the same key returns the input. */
  lemma CipherInvolution(input: seq<bv8>, key: seq<bv8>)
    requires 1 <= |key| <= 256
    ensures Cipher(Cipher(input, key), key) == input
  {
    var once := Cipher(input, key);
    var twice := Cipher(once, key);
    forall k | 0 <= k < |input| ensures twice[k] == input[k] {
      var x := Output(Run(Initial(key), k + 1));
      CipherAt(input, key, k);
      CipherAt(once, key, k);
      XorTwice(input[k], x);
    }
  }

  /** Appending an element leaves the shorter prefixes alone. */
  lemma PrefixOfSnoc<T>(whole: seq<T>, s: seq<T>, x: T, m: nat, pre: seq<T>)
    requires whole == s + [x] && m <= |s| && s[..m] == pre
    ensures whole[..m] == pre
  {
    assert (s + [x])[..m] == s[..m];
  }

  /** The first m keystream bytes do not depend on how many follow. */
  lemma {:induction false} KeystreamPrefix(st: State, m: nat, n: nat)
    requires Valid(st) && m <= n
    ensures Keystream(st, n)[..m] == Keystream(st, m)
    decreases n
  {
    if m < n {
      var n0 := n - 1;
      KeystreamPrefix(st, m, n0);
      KeystreamSnoc(st, n0, n);
      PrefixOfSnoc(Keystream(st, n), Keystream(st, n0), Output(Run(st, n)), m, Keystream(st, m));
    }
  }

  /** One more keystream byte. */
  lemma KeystreamSnoc(st: State, n: nat, n1: nat)
    requires Valid(st) && n1 == n + 1
    ensures Keystream(st, n1) == Keystream(st, n) + [Output(Run(st, n1))]
  {
  }

  /** Encrypting a prefix of the input gives the matching prefix of the
      output. */
  lemma CipherPrefix(input: seq<bv8>, key: seq<bv8>, n: nat)
    requires 1 <= |key| <= 256 && n <= |input|
    ensures Cipher(input[..n], key) == Cipher(input, key)[..n]
  {
    var ks := Keystream(Initial(key), |input|);
    KeystreamPrefix(Initial(key), n, |input|);
    XorBytesPrefix(input, ks, n, Keystream(Initial(key), n));
  }

  /** XOR of prefixes is the prefix of the XOR. */
  lemma XorBytesPrefix(a: seq<bv8>, b: seq<bv8>, n: nat, bn: seq<bv8>)
    requires |a| == |b| && n <= |a| && bn == b[..n]
    ensures XorBytes(a[..n], bn) == XorBytes(a, b)[..n]
  {
  }

  /** One more step of key scheduling. */
  lemma KsaFromStep(key: seq<bv8>, s: seq<bv8>, i: nat, j: nat)
    requires |key| >= 1 && |s| == 256 && i < 256
    ensures KsaFrom(key, s, i, j) == KsaFrom(key, Swap(s, i, KsaJ(key, s, i, j)), i + 1, KsaJ(key, s, i, j))
  {
  }

  /** Extending a prefix by one element. */
  lemma PrefixStep<T>(s: seq<T>, k: nat)
    requires k < |s|
    ensures s[..k + 1] == s[..k] + [s[k]]
  {
  }

  /** XOR of two sequences extended by one element each. */
  lemma XorBytesSnoc(a: seq<bv8>, b: seq<bv8>, x: bv8, y: bv8)
    requires |a| == |b|
    ensures XorBytes(a + [x], b + [y]) == XorBytes(a, b) + [x ^ y]
  {
  }

  /** One more keystream byte. */
  lemma KeystreamStep(st: State, k: nat)
    requires Valid(st)
    ensures Keystream(st, k + 1) == Keystream(st, k) + [Output(Step(Run(st, k)))]
  {
  }

  /** The source's two loops: key scheduling on an array of 256 bytes, then
      one swap and one output byte per input byte. */
  method Rc4(input: seq<bv8>, key: seq<bv8>) returns (output: seq<bv8>)
    requires 1 <= |key| <= 256
    ensures output == Cipher(input, key)
  {
    var s := Identity();
    var j: nat := 0;
    var i := 0;
    while i < 256
      invariant 0 <= i <= 256 && j < 256 && |s| == 256
      invariant KsaFrom(key, s, i, j) == KeySchedule(key)
    {
      KsaFromStep(key, s, i, j);
      j := KsaJ(key, s, i, j);
      s := Swap(s, i, j);
      i := i + 1;
    }
    ghost var start := Initial(key);
    var st := State(s, 0, 0);
    output := [];
    var k := 0;
    while k < |input|
      invariant 0 <= k <= |input|
      invariant Valid(st) && st == Run(start, k)
      invariant output == XorBytes(input[..k], Keystream(start, k))
    {
      KeystreamStep(start, k);
      PrefixStep(input, k);
      st := Step(st);
      XorBytesSnoc(input[..k], Keystream(start, k), input[k], Output(st));
      output := output + [input[k] ^ Output(st)];
      k := k + 1;
    }
    assert input[..k] == input;
  }
}

=== FILE: sha2.dfy ===
/** SHA-256 as sha256 (sha2.cpp:21-107) computes it, following FIPS 180-4:
    the message is padded as for MD4 but with a big-endian length field,
    every 64-byte block is read as sixteen big-endian words, extended to a
    schedule of 64 words, and runs 64 rounds over eight working registers
    that are then added onto the chaining value. The digest is the eight
    chaining words, each written big-endian. */
module Sha256 {
  import opened Bits
  import opened Words8
  import MdPadding
  import Chain

  /** The initial hash value of section 5.3.3 of FIPS 180-4 (sha2.cpp:25-26). */
  const Init: State := State(0x6a09e667, 0xbb67ae85, 0x3c6ef372, 0xa54ff53a,
                             0x510e527f, 0x9b05688c, 0x1f83d9ab, 0x5be0cd19)

  /** The 64 round constants of section 4.2.2 (sha2.cpp:8-19). */
  const K: seq<bv32> :=
    ((([0x428a2f98, 0x71374491, 0xb5c0fbcf, 0xe9b5dba5, 0x3956c25b, 0x59f111f1, 0x923f82a4, 0xab1c5ed5] +
    [0xd807aa98, 0x12835b01, 0x243185be, 0x550c7dc3, 0x72be5d74, 0x80deb1fe, 0x9bdc06a7, 0xc19bf174]) +
    ([0xe49b69c1, 0xefbe4786, 0x0fc19dc6, 0x240ca1cc, 0x2de92c6f, 0x4a7484aa, 0x5cb0a9dc, 0x76f988da] +
    [0x983e5152, 0xa831c66d, 0xb00327c8, 0xbf597fc7, 0xc6e00bf3, 0xd5a79147, 0x06ca6351, 0x14292967])) +
    (([0x27b70a85, 0x2e1b2138, 0x4d2c6dfc, 0x53380d13, 0x650a7354, 0x766a0abb, 0x81c2c92e, 0x92722c85] +
    [0xa2bfe8a1, 0xa81a664b, 0xc24b8b70, 0xc76c51a3, 0xd192e819, 0xd6990624, 0xf40e3585, 0x106aa070]) +
    ([0x19a4c116, 0x1e376c08, 0x2748774c, 0x34b0bcb5, 0x391c0cb3, 0x4ed8aa4a, 0x5b9cca4f, 0x682e6ff3] +
    [0x748f82ee, 0x78a5636f, 0x84c87814, 0x8cc70208, 0x90befffa, 0xa4506ceb, 0xbef9a3f7, 0xc67178f2])))

  /** One round constant per round. */
  lemma KSize()
    ensures |K| == 64
  {
  }

  // ---------------------------------------------------------------------
  // The functions of section 4.1.2 (sha2.cpp:54-57, 72-78)

  /** Ch: where a bit of e is set take f's bit, otherwise g's. */
  function Ch(e: bv32, f: bv32, g: bv32): bv32 {
    (e & f) ^ (!e & g)
  }

  /** Maj: the majority of the three bits. */
  function Maj(a: bv32, b: bv32, c: bv32): bv32 {
    (a & b) ^ (a & c) ^ (b & c)
  }

  /** Ch selects bitwise: a word of ones selects f, zero selects g. */
  lemma ChSelects(f: bv32, g: bv32)
    ensures Ch(0xFFFF_FFFF, f, g) == f && Ch(0, f, g) == g
  {
  }

  /** Maj is the bitwise majority: two equal arguments decide it, and the
      order of the arguments does not matter. */
  lemma MajMajority(x: bv32, y: bv32, z: bv32)
    ensures Maj(x, x, y) == x && Maj(x, y, x) == x && Maj(y, x, x) == x
    ensures Maj(x, y, z) == Maj(y, z, x) && Maj(x, y, z) == Maj(y, x, z)
  {
  }

  /** The upper-case sigma applied to a. */
  function BigSigma0(x: bv32): bv32 {
    Rotr(x, 2) ^ Rotr(x, 13) ^ Rotr(x, 22)
  }

  /** The upper-case sigma applied to e. */
  function BigSigma1(x: bv32): bv32 {
    Rotr(x, 6) ^ Rotr(x, 11) ^ Rotr(x, 25)
  }

  /** The lower-case sigma applied to w[i - 15]. */
  function SmallSigma0(x: bv32): bv32 {
    Rotr(x, 7) ^ Rotr(x, 18) ^ (x >> 3)
  }

  /** The lower-case sigma applied to w[i - 2]. */
  function SmallSigma1(x: bv32): bv32 {
    Rotr(x, 17) ^ Rotr(x, 19) ^ (x >> 10)
  }

  // ---------------------------------------------------------------------
  // The message schedule (sha2.cpp:42-59)

  /** Schedule word i from words i - 16, i - 15, i - 7 and i - 2. */
  function Next(w16: bv32, w15: bv32, w7: bv32, w2: bv32): bv32 {
    w16 + SmallSigma0(w15) + w7 + SmallSigma1(w2)
  }

  /** The first n words (16 <= n <= 64) of the schedule that starts with
      m and continues with `next` applied to the words 16, 15, 7 and 2
      places back. */
  function Expand<T>(next: (T, T, T, T) -> T, m: seq<T>, n: nat): (w: seq<T>)
    requires |m| == 16 && 16 <= n <= 64
    ensures |w| == n
    decreases n
  {
    if n == 16 then m
    else
      var w := Expand(next, m, n - 1);
      w + [next(w[n - 17], w[n - 16], w[n - 8], w[n - 3])]
  }

  /** w starts with m and every later word is `next` of the words 16, 15,
      7 and 2 places back. */
  ghost predicate Recurs<T>(next: (T, T, T, T) -> T, m: seq<T>, w: seq<T>) {
    |w| == 64 && w[..16] == m && forall i :: 16 <= i < 64 ==> Follows(next, w, i)
  }

  /** Word i of w is `next` of the words 16, 15, 7 and 2 places back. */
  ghost predicate Follows<T>(next: (T, T, T, T) -> T, w: seq<T>, i: nat)
    requires 16 <= i < |w|
  {
    w[i] == next(w[i - 16], w[i - 15], w[i - 7], w[i - 2])
  }

  /** A shorter expansion is a prefix of a longer one. */
  lemma {:induction false} ExpandPrefix<T>(next: (T, T, T, T) -> T, m: seq<T>, k: nat, n: nat)
    requires |m| == 16 && 16 <= k <= n <= 64
    ensures Expand(next, m, n)[..k] == Expand(next, m, k)
    decreases n
  {
    if k < n {
      ExpandPrefix(next, m, k, n - 1);
      assert Expand(next, m, n)[..n - 1] == Expand(next, m, n - 1);
    }
  }

  /** The expansion obeys the recurrence, and it is the only sequence of
      64 words starting with m that does. */
  lemma ExpandIsRecurrence<T>(next: (T, T, T, T) -> T, m: seq<T>, w: seq<T>)
    requires |m| == 16
    ensures Recurs(next, m, Expand(next, m, 64))
    ensures Recurs(next, m, w) ==> w == Expand(next, m, 64)
  {
    var s := Expand(next, m, 64);
    ExpandPrefix(next, m, 16, 64);
    forall i | 16 <= i < 64
      ensures Follows(next, s, i)
    {
      ExpandPrefix(next, m, i + 1, 64);
      ExpandPrefix(next, m, i, 64);
      assert s[i] == Expand(next, m, 64)[..i + 1][i];
    }
    if Recurs(next, m, w) {
      ExpandUnique(next, m, w, 64);
    }
  }

  /** Words obeying the recurrence agree with the expansion on every prefix. */
  lemma {:induction false} ExpandUnique<T>(next: (T, T, T, T) -> T, m: seq<T>, w: seq<T>, n: nat)
    requires |m| == 16 && 16 <= n <= 64 && Recurs(next, m, w)
    ensures w[..n] == Expand(next, m, n)
    decreases n
  {
    if n > 16 {
      ExpandUnique(next, m, w, n - 1);
      assert Follows(next, w, n - 1);
      UniqueStep(next, Expand(next, m, n - 1), w, n);
    }
  }

  /** A prefix of w that agrees with e, extended by a word that follows
      the recurrence. */
  lemma UniqueStep<T>(next: (T, T, T, T) -> T, e: seq<T>, w: seq<T>, n: nat)
    requires 17 <= n <= |w| && e == w[..n - 1] && Follows(next, w, n - 1)
    ensures w[..n] == e + [next(e[n - 17], e[n - 16], e[n - 8], e[n - 3])]
  {
    assert w[..n] == w[..n - 1] + [w[n - 1]];
  }

  /** The schedule of a block's sixteen words m. */
  function Schedule(m: seq<bv32>): (w: seq<bv32>)
    requires |m| == 16
    ensures |w| == 64
  {
    Expand(Next, m, 64)
  }

  /** The schedule starts with the block's words and obeys the recurrence
      of section 6.2.2, step 1, and it is the only sequence of 64 words
      that does. */
  lemma ScheduleIsRecurrence(m: seq<bv32>, w: seq<bv32>)
    requires |m| == 16
    ensures Schedule(m)[..16] == m
    ensures forall i :: 16 <= i < 64 ==> Follows(Next, Schedule(m), i)
    ensures Recurs(Next, m, w) ==> w == Schedule(m)
  {
    ExpandIsRecurrence(Next, m, w);
  }

  /** The sources' extension loop over w[16..63], writing one word at a
      time into a 64-word buffer whose first sixteen words are the block's. */
  method ExtendLoop(m: seq<bv32>) returns (w: seq<bv32>)
    requires |m| == 16
    ensures w == Schedule(m)
  {
    w := m + seq(48, _ => 0);
    var i := 16;
    while i < 64
      invariant 16 <= i <= 64 && |w| == 64
      invariant w[..i] == Expand(Next, m, i)
    {
      ExpandStep(Next, m, w, i);
      w := w[i := Next(w[i - 16], w[i - 15], w[i - 7], w[i - 2])];
      i := i + 1;
    }
    assert w == w[..64];
  }

  /** Storing word i of the expansion into a buffer holding the first i
      extends the held prefix by one. */
  lemma ExpandStep<T>(next: (T, T, T, T) -> T, m: seq<T>, w: seq<T>, i: nat)
    requires |m| == 16 && 16 <= i < 64 && |w| == 64 && w[..i] == Expand(next, m, i)
    ensures w[i := next(w[i - 16], w[i - 15], w[i - 7], w[i - 2])][..i + 1] == Expand(next, m, i + 1)
  {
    var e := Expand(next, m, i);
    assert e[i - 16] == w[i - 16] && e[i - 15] == w[i - 15] && e[i - 7] == w[i - 7] && e[i - 2] == w[i - 2];
    var v := next(w[i - 16], w[i - 15], w[i - 7], w[i - 2]);
    assert w[i := v][..i + 1] == w[..i] + [v];
  }

  // ---------------------------------------------------------------------
  // The rounds (sha2.cpp:61-89)

  /** temp2 of a round: Sigma0(a) + Maj(a, b, c). */
  function Temp2(a: bv32, b: bv32, c: bv32): bv32 {
    BigSigma0(a) + Maj(a, b, c)
  }

  /** A round on the registers given one by one. */
  function RoundOf(a: bv32, b: bv32, c: bv32, d: bv32, e: bv32, f: bv32, g: bv32, h: bv32,
                   k: bv32, w: bv32): State
  {
    RoundWith(a, b, c, d, e, f, g, h, k, w, BigSigma1(e), Ch(e, f, g), Temp2(a, b, c))
  }

  /** A round given s1 = Sigma1(e), ch = Ch(e, f, g) and temp2 already
      computed: temp1 is h + s1 + ch + K[i] + w[i], e becomes d + temp1 and
      a becomes temp1 + temp2. */
  function RoundWith(a: bv32, b: bv32, c: bv32, d: bv32, e: bv32, f: bv32, g: bv32, h: bv32,
                     k: bv32, w: bv32, s1: bv32, ch: bv32, t2: bv32): State
  {
    var t1 := h + s1 + ch + k + w;
    State(t1 + t2, a, b, c, d + t1, e, f, g)
  }

  /** One round with round constant k and schedule word w. */
  function Round(s: State, k: bv32, w: bv32): State {
    RoundOf(s.a, s.b, s.c, s.d, s.e, s.f, s.g, s.h, k, w)
  }

  /** A round shifts the registers down by one: b, c, d take the old a, b,
      c, and f, g, h the old e, f, g; e becomes d + temp1 and a becomes
      temp1 + temp2, with temp1 = h + Sigma1(e) + Ch(e, f, g) + k + w. */
  lemma RoundShifts(s: State, k: bv32, w: bv32)
    ensures var r := Round(s, k, w);
      r.b == s.a && r.c == s.b && r.d == s.c && r.f == s.e && r.g == s.f && r.h == s.g
    ensures var r := Round(s, k, w); var t1 := s.h + BigSigma1(s.e) + Ch(s.e, s.f, s.g) + k + w;
      r.e == s.d + t1 && r.a == t1 + Temp2(s.a, s.b, s.c)
  {
    RoundOfTemps(s.a, s.b, s.c, s.d, s.e, s.f, s.g, s.h, k, w);
  }

  /** The new e and a of a round on registers given one by one. */
  lemma RoundOfTemps(a: bv32, b: bv32, c: bv32, d: bv32, e: bv32, f: bv32, g: bv32, h: bv32, k: bv32, w: bv32)
    ensures var t1 := h + BigSigma1(e) + Ch(e, f, g) + k + w;
      RoundOf(a, b, c, d, e, f, g, h, k, w).e == d + t1 && RoundOf(a, b, c, d, e, f, g, h, k, w).a == t1 + Temp2(a, b, c)
  {
  }

  /** The registers a round came from, recovered from the registers it
      produced: a round is a bijection on the eight registers. */
  function UnRound(r: State, k: bv32, w: bv32): State {
    UnRoundWith(r.a, r.b, r.c, r.d, r.e, r.f, r.g, r.h, k, w, BigSigma1(r.f), Ch(r.f, r.g, r.h), Temp2(r.b, r.c, r.d))
  }

  /** The inverse round given Sigma1, Ch and temp2 of the registers the
      round came from, which the new registers still hold in b..d and
      f..h. */
  function UnRoundWith(a: bv32, b: bv32, c: bv32, d: bv32, e: bv32, f: bv32, g: bv32, h: bv32,
                       k: bv32, w: bv32, s1: bv32, ch: bv32, t2: bv32): State
  {
    var t1 := a - t2;
    State(b, c, d, e - t1, f, g, h, t1 - w - k - ch - s1)
  }

  /** Subtracting what was added gives back the other term. */
  lemma AddSub(x: bv32, y: bv32)
    ensures (x + y) - y == x
  {
  }

  /** Adding back what was subtracted gives back the other term. */
  lemma SubAdd(x: bv32, y: bv32)
    ensures (x - y) + y == x
  {
  }

  /** Taking temp1 + temp2 and d + temp1 apart again. */
  lemma UndoTemps(d: bv32, h: bv32, s1: bv32, ch: bv32, k: bv32, w: bv32, t2: bv32)
    ensures var t1 := h + s1 + ch + k + w; (d + t1) - ((t1 + t2) - t2) == d
    ensures ((h + s1 + ch + k + w + t2) - t2) - w - k - ch - s1 == h
  {
    AddSub(h + s1 + ch + k + w, t2);
    AddSub(d, h + s1 + ch + k + w);
    AddSub(h + s1 + ch + k, w);
    AddSub(h + s1 + ch, k);
    AddSub(h + s1, ch);
    AddSub(h, s1);
  }

  /** Putting a - t2 and e - (a - t2) back together. */
  lemma RedoTemps(a: bv32, e: bv32, s1: bv32, ch: bv32, k: bv32, w: bv32, t2: bv32)
    ensures var h0 := (a - t2) - w - k - ch - s1;
      (e - (a - t2)) + (h0 + s1 + ch + k + w) == e && (h0 + s1 + ch + k + w) + t2 == a
  {
    var t1 := a - t2;
    SubAdd(t1 - w - k - ch, s1);
    SubAdd(t1 - w - k, ch);
    SubAdd(t1 - w, k);
    SubAdd(t1, w);
    SubAdd(a, t2);
    SubAdd(e, t1);
  }

  /** With Sigma1, Ch and temp2 held fixed, the inverse undoes the round. */
  lemma UnRoundWithRoundWith(a: bv32, b: bv32, c: bv32, d: bv32, e: bv32, f: bv32, g: bv32, h: bv32,
                             k: bv32, w: bv32, s1: bv32, ch: bv32, t2: bv32)
    ensures var r := RoundWith(a, b, c, d, e, f, g, h, k, w, s1, ch, t2);
      UnRoundWith(r.a, r.b, r.c, r.d, r.e, r.f, r.g, r.h, k, w, s1, ch, t2) == State(a, b, c, d, e, f, g, h)
  {
    UndoTemps(d, h, s1, ch, k, w, t2);
    UnRoundWithOf(a, b, c, d, e, f, g, h, k, w, s1, ch, t2);
  }

  /** The inverse applied to the round's registers written out. */
  lemma UnRoundWithOf(a: bv32, b: bv32, c: bv32, d: bv32, e: bv32, f: bv32, g: bv32, h: bv32,
                      k: bv32, w: bv32, s1: bv32, ch: bv32, t2: bv32)
    requires var t1 := h + s1 + ch + k + w;
      (d + t1) - ((t1 + t2) - t2) == d && ((t1 + t2) - t2) - w - k - ch - s1 == h
    ensures var t1 := h + s1 + ch + k + w;
      UnRoundWith(t1 + t2, a, b, c, d + t1, e, f, g, k, w, s1, ch, t2) == State(a, b, c, d, e, f, g, h)
  {
  }

  /** With Sigma1, Ch and temp2 held fixed, the round undoes the inverse. */
  lemma RoundWithUnRoundWith(a: bv32, b: bv32, c: bv32, d: bv32, e: bv32, f: bv32, g: bv32, h: bv32,
                             k: bv32, w: bv32, s1: bv32, ch: bv32, t2: bv32)
    ensures var u := UnRoundWith(a, b, c, d, e, f, g, h, k, w, s1, ch, t2);
      RoundWith(u.a, u.b, u.c, u.d, u.e, u.f, u.g, u.h, k, w, s1, ch, t2) == State(a, b, c, d, e, f, g, h)
  {
    RedoTemps(a, e, s1, ch, k, w, t2);
    RoundWithOf(a, b, c, d, e, f, g, h, k, w, s1, ch, t2);
  }

  /** The round applied to the inverse's registers written out. */
  lemma RoundWithOf(a: bv32, b: bv32, c: bv32, d: bv32, e: bv32, f: bv32, g: bv32, h: bv32,
                    k: bv32, w: bv32, s1: bv32, ch: bv32, t2: bv32)
    requires var h0 := (a - t2) - w - k - ch - s1;
      (e - (a - t2)) + (h0 + s1 + ch + k + w) == e && (h0 + s1 + ch + k + w) + t2 == a
    ensures RoundWith(b, c, d, e - (a - t2), f, g, h, (a - t2) - w - k - ch - s1, k, w, s1, ch, t2)
      == State(a, b, c, d, e, f, g, h)
  {
  }

  /** UnRound undoes Round. */
  lemma UnRoundRound(s: State, k: bv32, w: bv32)
    ensures UnRound(Round(s, k, w), k, w) == s
  {
    UnRoundWithRoundWith(s.a, s.b, s.c, s.d, s.e, s.f, s.g, s.h, k, w, BigSigma1(s.e), Ch(s.e, s.f, s.g), Temp2(s.a, s.b, s.c));
  }

  /** Round undoes UnRound. */
  lemma RoundUnRound(r: State, k: bv32, w: bv32)
    ensures Round(UnRound(r, k, w), k, w) == r
  {
    RoundWithUnRoundWith(r.a, r.b, r.c, r.d, r.e, r.f, r.g, r.h, k, w, BigSigma1(r.f), Ch(r.f, r.g, r.h), Temp2(r.b, r.c, r.d));
  }

  /** The registers after the first n rounds over schedule w. */
  function Rounds(s: State, w: seq<bv32>, n: nat): State
    requires |w| == 64 && n <= 64
  {
    if n == 0 then s else Round(Rounds(s, w, n - 1), K[n - 1], w[n - 1])
  }

  /** The rounds undone from the last to the first. */
  function UnRounds(r: State, w: seq<bv32>, n: nat): State
    requires |w| == 64 && n <= 64
    decreases n
  {
    if n == 0 then r else UnRounds(UnRound(r, K[n - 1], w[n - 1]), w, n - 1)
  }

  /** The 64 rounds are a bijection for every schedule: undoing them gives
      back the registers they started from, and the other way round. */
  lemma {:induction false} RoundsInvert(s: State, w: seq<bv32>, n: nat)
    requires |w| == 64 && n <= 64
    ensures UnRounds(Rounds(s, w, n), w, n) == s
    decreases n
  {
    if n > 0 {
      UnRoundRound(Rounds(s, w, n - 1), K[n - 1], w[n - 1]);
      RoundsInvert(s, w, n - 1);
    }
  }

  /** The sources' round loop: round i with K[i] and w[i], for i from 0
      to 63. */
  method RoundLoop(hv: State, w: seq<bv32>) returns (r: State)
    requires |w| == 64
    ensures r == Rounds(hv, w, 64)
    ensures UnRounds(r, w, 64) == hv
  {
    r := hv;
    var i := 0;
    while i < 64
      invariant 0 <= i <= 64
      invariant r == Rounds(hv, w, i)
    {
      r := Round(r, K[i], w[i]);
      i := i + 1;
    }
    RoundsInvert(hv, w, 64);
  }

  // ---------------------------------------------------------------------
  // The compression and the chaining (sha2.cpp:41-99)

  /** Register-wise addition modulo 2^32 (sha2.cpp:91-98). */
  function Add(x: State, y: State): State {
    State(x.a + y.a, x.b + y.b, x.c + y.c, x.d + y.d, x.e + y.e, x.f + y.f, x.g + y.g, x.h + y.h)
  }

  /** The compression of one block given as its sixteen words. */
  function CompressWords(hv: State, m: seq<bv32>): State
    requires |m| == 16
  {
    Add(hv, Rounds(hv, Schedule(m), 64))
  }

  /** The compression of one 64-byte block, read as big-endian words. */
  function Compress(hv: State, block: seq<bv8>): State
    requires |block| == 64
  {
    CompressWords(hv, Words(block, true))
  }

  /** The compression function as the block function of the chaining loop. */
  function Compression(): (f: (State, seq<bv8>) --> State)
    ensures Chain.IsCompression(f)
  {
    (hv: State, b: seq<bv8>) requires |b| == 64 => Compress(hv, b)
  }

  /** One iteration of the sources' block loop: load, extend, run the
      rounds, add back. */
  method CompressBlock(hv: State, block: seq<bv8>) returns (r: State)
    requires |block| == 64
    ensures r == Compress(hv, block)
  {
    var m := LoadWords(block);
    var w := ExtendLoop(m);
    var x := RoundLoop(hv, w);
    r := Add(hv, x);
  }

  /** The SHA-256 digest of a message. */
  function Sha256(input: seq<bv8>): (out: seq<bv8>)
    ensures |out| == 32
  {
    Digest(Chain.Fold(Compression(), Init, MdPadding.Pad(input, true)))
  }

  /** A padded message split into whole blocks: hashing continues from the
      chaining value the first part left. */
  lemma Sha256Chains(input: seq<bv8>, p: seq<bv8>, q: seq<bv8>)
    requires |p| % 64 == 0 && |q| % 64 == 0 && MdPadding.Pad(input, true) == p + q
    ensures Sha256(input) == Digest(Chain.Fold(Compression(), Chain.Fold(Compression(), Init, p), q))
  {
    Chain.FoldAppend(Compression(), Init, p, q);
  }

  /** sha256: preprocess, run the block loop, write the digest. */
  method Sha256Hash(input: seq<bv8>) returns (output: seq<bv8>)
    ensures |output| == 32
    ensures output == Sha256(input)
    ensures DigestState(output) == Chain.Fold(Compression(), Init, MdPadding.Pad(input, true))
  {
    var p := MdPadding.Preprocess(input, true);
    var hv := Chain.FoldLoop(Compression(), Init, p);
    output := Digest(hv);
    DigestRoundTrip(hv, output);
  }
}

=== FILE: sha3.dfy ===
/** SHA-3 (sha3.cpp): the sponge KECCAK[c] over the permutation
    KECCAK-p[1600, 24] with the SHA-3 suffix and pad10*1 (FIPS 202). The
    state is 25 lanes of 64 bits, lane x + 5y holding A[x, y]. */
module Sha3 {
  import MdPadding

  /** The state: 25 lanes of 64 bits, lane x + 5y holding A[x, y]. */
  type State = s: seq<bv64> | |s| == 25 witness seq(25, _ => 0)

  /** The digest sizes the library instantiates (sha3.cpp:129-143). */
  predicate ValidDigest(d: nat) {
    d == 224 || d == 256 || d == 384 || d == 512
  }

  /** Capacity c = 2d bits (sha3.cpp:25). */
  function Capacity(d: nat): nat {
    2 * d
  }

  /** Rate r = 1600 - c bits (sha3.cpp:26). */
  function Rate(d: nat): int {
    1600 - Capacity(d)
  }

  /** Bytes absorbed per block, r / 8 (sha3.cpp:27). */
  function BlockSize(d: nat): int {
    Rate(d) / 8
  }

  /** Bytes of output, d / 8 (sha3.cpp:31). */
  function DigestSize(d: nat): nat {
    d / 8
  }

  /** For every instantiated digest size the rate is a whole number of
      lanes, the block fits in the 25-lane state, and the digest is no
      longer than one block, so a single squeeze gives the whole output. */
  lemma SizesFit(d: nat)
    requires ValidDigest(d)
    ensures Capacity(d) + Rate(d) == 1600
    ensures 0 < BlockSize(d) && BlockSize(d) % 8 == 0 && BlockSize(d) / 8 <= 25
    ensures DigestSize(d) <= BlockSize(d)
    ensures DigestSize(d) <= 8 * 8
  {
  }

  /** The block size as a natural number. */
  function Block(d: nat): (bs: nat)
    requires ValidDigest(d)
    ensures bs == BlockSize(d)
    ensures 0 < bs <= 200 && bs % 8 == 0 && d / 8 <= bs
  {
    SizesFit(d);
    BlockSize(d)
  }

  // ---------------------------------------------------------------------
  // Padding (sha3.cpp:33-40)
  // ---------------------------------------------------------------------

  /** (n + 1 + bs - 1) / bs * bs: n + 1 rounded up to a multiple of the
      block size. */
  function PaddedLength(n: nat, d: nat): nat
    requires ValidDigest(d)
  {
    (n + 1 + Block(d) - 1) / Block(d) * Block(d)
  }

  /** The padded length is the least multiple of the block size that leaves
      room for the message and one more byte. */
  lemma PaddedLengthLeast(n: nat, d: nat)
    requires ValidDigest(d)
    ensures PaddedLength(n, d) % Block(d) == 0
    ensures n + 1 <= PaddedLength(n, d)
    ensures PaddedLength(n, d) - Block(d) < n + 1
  {
    SizesFit(d);
    if d == 224 {
      assert Block(d) == 144;
      RoundUp144(n, PaddedLength(n, d));
    } else if d == 256 {
      assert Block(d) == 136;
      RoundUp136(n, PaddedLength(n, d));
    } else if d == 384 {
      assert Block(d) == 104;
      RoundUp104(n, PaddedLength(n, d));
    } else {
      assert Block(d) == 72;
      RoundUp72(n, PaddedLength(n, d));
    }
  }

  /** n + 1 rounded up to a multiple of 144. */
  lemma RoundUp144(n: nat, m: nat)
    requires m == (n + 144) / 144 * 144
    ensures m % 144 == 0 && n + 1 <= m && m - 144 < n + 1
  {
  }

  /** n + 1 rounded up to a multiple of 136. */
  lemma RoundUp136(n: nat, m: nat)
    requires m == (n + 136) / 136 * 136
    ensures m % 136 == 0 && n + 1 <= m && m - 136 < n + 1
  {
  }

  /** n + 1 rounded up to a multiple of 104. */
  lemma RoundUp104(n: nat, m: nat)
    requires m == (n + 104) / 104 * 104
    ensures m % 104 == 0 && n + 1 <= m && m - 104 < n + 1
  {
  }

  /** n + 1 rounded up to a multiple of 72. */
  lemma RoundUp72(n: nat, m: nat)
    requires m == (n + 72) / 72 * 72
    ensures m % 72 == 0 && n + 1 <= m && m - 72 < n + 1
  {
  }

  /** The padded message: the input, the byte 0x06 (the SHA-3 suffix bits
      01 followed by the first 1 of pad10*1), zero bytes up to the padded
      length, and the bit 0x80 set in the last byte. */
  function Pad(input: seq<bv8>, d: nat): (p: seq<bv8>)
    requires ValidDigest(d)
    ensures |p| == PaddedLength(|input|, d)
  {
    PaddedLengthLeast(|input|, d);
    var m := PaddedLength(|input|, d);
    var q := input + [0x06] + MdPadding.Zeros(m - |input| - 1);
    q[m - 1 := q[m - 1] | 0x80]
  }

  /** The padding of Appendix B.2 of FIPS 202 in bytes: the message comes
      first; byte |input| is 0x06, or 0x86 when it is also the last byte;
      the last byte has 0x80 set; and every byte in between is zero. */
  lemma PadParts(input: seq<bv8>, d: nat)
    requires ValidDigest(d)
    ensures var p := Pad(input, d);
      && |p| % Block(d) == 0
      && |input| < |p|
      && p[..|input|] == input
      && p[|input|] == (if |input| == |p| - 1 then 0x86 else 0x06)
      && (forall i :: |input| < i < |p| - 1 ==> p[i] == 0)
      && p[|p| - 1] & 0x80 == 0x80
      && (|input| < |p| - 1 ==> p[|p| - 1] == 0x80)
  {
    PaddedLengthLeast(|input|, d);
    var n := |input|;
    var m := PaddedLength(n, d);
    var q := input + [0x06] + MdPadding.Zeros(m - n - 1);
    assert q[..n] == input;
    assert q[n] == 0x06;
  }

  // ---------------------------------------------------------------------
  // Absorbing a block (sha3.cpp:48-60)
  // ---------------------------------------------------------------------

  /** XOR of two lanes. */
  function Xor64(a: bv64, b: bv64): bv64 {
    a ^ b
  }

  /** XOR-ing the same lane twice cancels, and the order does not matter. */
  lemma Xor64Twice(a: bv64, b: bv64)
    ensures Xor64(Xor64(a, b), b) == a
    ensures Xor64(a, b) == Xor64(b, a)
  {
  }

  /** XOR with a zero lane changes nothing. */
  lemma Xor64Zero(a: bv64)
    ensures Xor64(a, 0) == a
  {
  }

  /** Lane i of a block: its bytes 8i .. 8i+7, least significant first. */
  function BlockLane(block: seq<bv8>, i: nat): bv64
    requires 8 * i + 8 <= |block|
  {
    MdPadding.Le64(block[8 * i..8 * i + 8])
  }

  /** The state with a block XOR-ed into its first |block| / 8 lanes. */
  function XorBlock(s: State, block: seq<bv8>): (r: State)
  {
    seq(25, i requires 0 <= i < 25 =>
      if i < |block| / 8 then Xor64(s[i], BlockLane(block, i)) else s[i])
  }

  /** Absorbing a block leaves the lanes beyond the rate untouched, and
      absorbing the same block again restores the state. */
  lemma XorBlockTouchesRate(s: State, block: seq<bv8>)
    ensures forall i :: |block| / 8 <= i < 25 ==> XorBlock(s, block)[i] == s[i]
    ensures XorBlock(XorBlock(s, block), block) == s
  {
    var r := XorBlock(s, block);
    forall i | 0 <= i < |block| / 8 && i < 25
      ensures XorBlock(r, block)[i] == s[i]
    {
      Xor64Twice(s[i], BlockLane(block, i));
    }
  }

  // ---------------------------------------------------------------------
  // theta (sha3.cpp:66-85, section 3.2.1 of FIPS 202)
  // ---------------------------------------------------------------------

  /** A lane rotated left by one bit. */
  function Rotl1(x: bv64): bv64 {
    (x << 1) | (x >> 63)
  }

  /** C[x]: the parity of column x, the XOR of its five lanes. */
  function Parity(s: State, x: nat): bv64
    requires x < 5
  {
    s[x] ^ s[x + 5] ^ s[x + 10] ^ s[x + 15] ^ s[x + 20]
  }

  /** D[x] = C[x - 1] ^ rot(C[x + 1], 1), indices mod 5. */
  function Effect(s: State, x: nat): bv64
    requires x < 5
  {
    Xor64(Parity(s, (x + 4) % 5), Rotl1(Parity(s, (x + 1) % 5)))
  }

  /** theta: every lane of column x is XOR-ed with D[x]. */
  function Theta(s: State): (r: State)
  {
    seq(25, k requires 0 <= k < 25 => Xor64(s[k], Effect(s, k % 5)))
  }

  /** Lane k of theta's result. */
  lemma ThetaLane(s: State, k: nat)
    requires k < 25
    ensures Theta(s)[k] == Xor64(s[k], Effect(s, k % 5))
  {
  }

  /** Undoing a XOR recovers the other operand. */
  lemma Xor64Undo(a: bv64, e: bv64, r: bv64)
    requires r == Xor64(a, e)
    ensures Xor64(r, a) == e
  {
  }

  /** theta XORs lane (x, y) with D[x]. */
  lemma ThetaAdds(s: State, x: nat, y: nat)
    requires x < 5 && y < 5
    ensures Xor64(Theta(s)[x + 5 * y], s[x + 5 * y]) == Effect(s, x)
  {
    assert (x + 5 * y) % 5 == x;
    ThetaLane(s, x + 5 * y);
    Xor64Undo(s[x + 5 * y], Effect(s, x), Theta(s)[x + 5 * y]);
  }

  /** theta adds the same value to all five lanes of a column, a value
      computed from the two neighbouring columns alone. */
  lemma ThetaByColumn(s: State, x: nat, y: nat, y2: nat)
    requires x < 5 && y < 5 && y2 < 5
    ensures Xor64(Theta(s)[x + 5 * y], s[x + 5 * y]) == Xor64(Theta(s)[x + 5 * y2], s[x + 5 * y2])
  {
    ThetaAdds(s, x, y);
    ThetaAdds(s, x, y2);
  }

  /** A state whose every column has even parity is a fixed point of theta. */
  lemma ThetaKernel(s: State)
    requires forall x :: 0 <= x < 5 ==> Parity(s, x) == 0
    ensures Theta(s) == s
  {
    assert Rotl1(0) == 0;
    Xor64Zero(0);
    forall k | 0 <= k < 25
      ensures Theta(s)[k] == s[k]
    {
      assert Parity(s, (k % 5 + 4) % 5) == 0;
      assert Parity(s, (k % 5 + 1) % 5) == 0;
      assert Effect(s, k % 5) == 0;
      Xor64Zero(s[k]);
    }
  }

  // ---------------------------------------------------------------------
  // rho (sha3.cpp:87-97, section 3.2.2 of FIPS 202)
  // ---------------------------------------------------------------------

  /** The walk's move (x, y) -> (y, 2x + 3y mod 5), on lane indices. */
  function Step(lane: nat): (r: nat)
    ensures r < 25
  {
    lane / 5 % 5 + 5 * ((2 * (lane % 5) + 3 * (lane / 5)) % 5)
  }

  /** The lane the walk visits at step t, starting from (1, 0). */
  function WalkLane(t: nat): (r: nat)
    ensures r < 25
  {
    if t == 0 then 1 else Step(WalkLane(t - 1))
  }

  /** The rotation applied at step t: (t + 1)(t + 2) / 2 mod 64. */
  function Offset(t: nat): nat {
    (t + 1) * (t + 2) / 2 % 64
  }

  /** The rotation offsets of Table 2 of FIPS 202, by lane index x + 5y. */
  const RhoOffsets: seq<nat> :=
    [0, 1, 62, 28, 27, 36, 44, 6] + [55, 20, 3, 10, 43, 25, 39, 41]
    + [45, 15, 21, 8, 18, 2, 61, 56] + [14]

  /** The lanes of the walk, in the order it visits them. */
  const WalkLanes: seq<nat> :=
    [1, 10, 7, 11, 17, 18, 3, 5] + [16, 8, 21, 24, 4, 15, 23, 19]
    + [13, 12, 2, 20, 14, 22, 9, 6]

  /** The step at which the walk visits each lane (24 for lane 0, which
      it never visits). */
  const VisitTime: seq<nat> :=
    [24, 0, 18, 6, 12, 7, 23, 2] + [9, 22, 1, 3, 17, 16, 20, 13]
    + [8, 4, 5, 15, 19, 10, 21, 14] + [11]

  /** The tables wl (lanes by step), vt (steps by lane) and ro (offsets
      by lane) checked against the walk at steps t .. end - 1. */
  predicate WalkTableIn(t: nat, end: nat, wl: seq<nat>, vt: seq<nat>, ro: seq<nat>)
    requires end <= 24 && |wl| == 24 && |vt| == 25 && |ro| == 25
    decreases end - t
  {
    t >= end ||
      (var lane := wl[t];
       && 0 < lane < 25
       && vt[lane] == t
       && Offset(t) == ro[lane]
       && (t + 1 < 24 ==> Step(lane) == wl[t + 1])
       && WalkTableIn(t + 1, end, wl, vt, ro))
  }

  /** The same tables checked lane by lane at lanes k .. end - 1. */
  predicate VisitTableIn(k: nat, end: nat, wl: seq<nat>, vt: seq<nat>, ro: seq<nat>)
    requires end <= 25 && |wl| == 24 && |vt| == 25 && |ro| == 25
    decreases end - k
  {
    k >= end ||
      (&& vt[k] < 24
       && wl[vt[k]] == k
       && 0 < ro[k] < 64
       && VisitTableIn(k + 1, end, wl, vt, ro))
  }

  /** What WalkTableIn(t, end, ...) says about each of its steps. */
  lemma {:induction false} WalkTableAll(t: nat, end: nat, wl: seq<nat>, vt: seq<nat>, ro: seq<nat>)
    requires end <= 24 && |wl| == 24 && |vt| == 25 && |ro| == 25
    requires WalkTableIn(t, end, wl, vt, ro)
    ensures forall u :: t <= u < end ==>
      0 < wl[u] < 25 && vt[wl[u]] == u && Offset(u) == ro[wl[u]]
    ensures forall u {:trigger Step(wl[u])} :: t <= u < end && u + 1 < 24 ==> Step(wl[u]) == wl[u + 1]
    decreases end - t
  {
    if t < end {
      WalkTableAll(t + 1, end, wl, vt, ro);
    }
  }

  /** What VisitTableIn(k, end, ...) says about each of its lanes. */
  lemma {:induction false} VisitTableAll(k: nat, end: nat, wl: seq<nat>, vt: seq<nat>, ro: seq<nat>)
    requires end <= 25 && |wl| == 24 && |vt| == 25 && |ro| == 25
    requires VisitTableIn(k, end, wl, vt, ro)
    ensures forall j :: k <= j < end ==> vt[j] < 24 && wl[vt[j]] == j && 0 < ro[j] < 64
    decreases end - k
  {
    if k < end {
      VisitTableAll(k + 1, end, wl, vt, ro);
    }
  }

  /** The literal tables, checked four steps or five lanes at a time. */
  lemma WalkSteps0(wl: seq<nat>, vt: seq<nat>, ro: seq<nat>)
    requires wl == WalkLanes && vt == VisitTime && ro == RhoOffsets
    ensures WalkTableIn(0, 4, wl, vt, ro)
  {
  }

  lemma WalkSteps4(wl: seq<nat>, vt: seq<nat>, ro: seq<nat>)
    requires wl == WalkLanes && vt == VisitTime && ro == RhoOffsets
    ensures WalkTableIn(4, 8, wl, vt, ro)
  {
  }

  lemma WalkSteps8(wl: seq<nat>, vt: seq<nat>, ro: seq<nat>)
    requires wl == WalkLanes && vt == VisitTime && ro == RhoOffsets
    ensures WalkTableIn(8, 12, wl, vt, ro)
  {
  }

  lemma WalkSteps12(wl: seq<nat>, vt: seq<nat>, ro: seq<nat>)
    requires wl == WalkLanes && vt == VisitTime && ro == RhoOffsets
    ensures WalkTableIn(12, 16, wl, vt, ro)
  {
  }

  lemma WalkSteps16(wl: seq<nat>, vt: seq<nat>, ro: seq<nat>)
    requires wl == WalkLanes && vt == VisitTime && ro == RhoOffsets
    ensures WalkTableIn(16, 20, wl, vt, ro)
  {
  }

  lemma WalkSteps20(wl: seq<nat>, vt: seq<nat>, ro: seq<nat>)
    requires wl == WalkLanes && vt == VisitTime && ro == RhoOffsets
    ensures WalkTableIn(20, 24, wl, vt, ro)
  {
  }

  lemma VisitLanes1(wl: seq<nat>, vt: seq<nat>, ro: seq<nat>)
    requires wl == WalkLanes && vt == VisitTime && ro == RhoOffsets
    ensures VisitTableIn(1, 7, wl, vt, ro)
  {
  }

  lemma VisitLanes7(wl: seq<nat>, vt: seq<nat>, ro: seq<nat>)
    requires wl == WalkLanes && vt == VisitTime && ro == RhoOffsets
    ensures VisitTableIn(7, 13, wl, vt, ro)
  {
  }

  lemma VisitLanes13(wl: seq<nat>, vt: seq<nat>, ro: seq<nat>)
    requires wl == WalkLanes && vt == VisitTime && ro == RhoOffsets
    ensures VisitTableIn(13, 19, wl, vt, ro)
  {
  }

  lemma VisitLanes19(wl: seq<nat>, vt: seq<nat>, ro: seq<nat>)
    requires wl == WalkLanes && vt == VisitTime && ro == RhoOffsets
    ensures VisitTableIn(19, 25, wl, vt, ro)
  {
  }

  /** Tables that check out describe the walk: wl lists the lanes it
      visits, vt inverts wl on the 24 lanes other than 0, and ro holds the
      offsets. */
  predicate WalkTables(wl: seq<nat>, vt: seq<nat>, ro: seq<nat>)
  {
    && |wl| == 24 && |vt| == 25 && |ro| == 25
    && wl[0] == 1
    && (forall u :: 0 <= u < 24 ==> 0 < wl[u] < 25 && vt[wl[u]] == u && Offset(u) == ro[wl[u]])
    && (forall u {:trigger Step(wl[u])} :: 0 <= u < 23 ==> Step(wl[u]) == wl[u + 1])
    && (forall j :: 1 <= j < 25 ==> vt[j] < 24 && wl[vt[j]] == j && 0 < ro[j] < 64)
  }

  /** Tables whose chunks check out describe the walk. */
  lemma TablesFromChunks(wl: seq<nat>, vt: seq<nat>, ro: seq<nat>)
    requires |wl| == 24 && |vt| == 25 && |ro| == 25
    requires wl[0] == 1
    requires WalkTableIn(0, 4, wl, vt, ro)
    requires WalkTableIn(4, 8, wl, vt, ro)
    requires WalkTableIn(8, 12, wl, vt, ro)
    requires WalkTableIn(12, 16, wl, vt, ro)
    requires WalkTableIn(16, 20, wl, vt, ro)
    requires WalkTableIn(20, 24, wl, vt, ro)
    requires VisitTableIn(1, 7, wl, vt, ro)
    requires VisitTableIn(7, 13, wl, vt, ro)
    requires VisitTableIn(13, 19, wl, vt, ro)
    requires VisitTableIn(19, 25, wl, vt, ro)
    ensures WalkTables(wl, vt, ro)
  {
    WalkTableAll(0, 4, wl, vt, ro);
    WalkTableAll(4, 8, wl, vt, ro);
    WalkTableAll(8, 12, wl, vt, ro);
    WalkTableAll(12, 16, wl, vt, ro);
    WalkTableAll(16, 20, wl, vt, ro);
    WalkTableAll(20, 24, wl, vt, ro);
    VisitTableAll(1, 7, wl, vt, ro);
    VisitTableAll(7, 13, wl, vt, ro);
    VisitTableAll(13, 19, wl, vt, ro);
    VisitTableAll(19, 25, wl, vt, ro);
  }

  /** The literal tables are the walk's. */
  lemma WalkTablesHold(wl: seq<nat>, vt: seq<nat>, ro: seq<nat>)
    requires wl == WalkLanes && vt == VisitTime && ro == RhoOffsets
    ensures WalkTables(wl, vt, ro)
  {
    WalkSteps0(wl, vt, ro);
    WalkSteps4(wl, vt, ro);
    WalkSteps8(wl, vt, ro);
    WalkSteps12(wl, vt, ro);
    WalkSteps16(wl, vt, ro);
    WalkSteps20(wl, vt, ro);
    VisitLanes1(wl, vt, ro);
    VisitLanes7(wl, vt, ro);
    VisitLanes13(wl, vt, ro);
    VisitLanes19(wl, vt, ro);
    TablesFromChunks(wl, vt, ro);
  }

  /** The walk follows tables that check out. */
  lemma {:induction false} WalkFollows(t: nat, wl: seq<nat>, vt: seq<nat>, ro: seq<nat>)
    requires WalkTables(wl, vt, ro)
    requires t < 24
    ensures WalkLane(t) == wl[t]
  {
    if t > 0 {
      WalkFollows(t - 1, wl, vt, ro);
    }
  }

  /** The walk is the list wl. */
  lemma WalkIsTable(wl: seq<nat>, vt: seq<nat>, ro: seq<nat>)
    requires WalkTables(wl, vt, ro)
    ensures forall t :: 0 <= t < 24 ==> WalkLane(t) == wl[t]
  {
    forall t | 0 <= t < 24
      ensures WalkLane(t) == wl[t]
    {
      WalkFollows(t, wl, vt, ro);
    }
  }

  /** The walk's properties, from tables that check out. */
  lemma WalkFromTables(wl: seq<nat>, vt: seq<nat>, ro: seq<nat>)
    requires WalkTables(wl, vt, ro)
    ensures forall t :: 0 <= t < 24 ==>
      0 < WalkLane(t) < 25 && 0 < Offset(t) < 64 && Offset(t) == ro[WalkLane(t)]
    ensures forall t, u :: 0 <= t < u < 24 ==> WalkLane(t) != WalkLane(u)
    ensures forall k :: 0 < k < 25 ==> vt[k] < 24 && WalkLane(vt[k]) == k
  {
    WalkIsTable(wl, vt, ro);
  }

  /** The walk from (1, 0) visits each of the 24 lanes other than (0, 0)
      exactly once, and every rotation it applies is by 1 to 63 bits (so the
      source's shift by 64 - rotate never shifts by the full width); the
      offset at each lane is the one Table 2 of FIPS 202 gives. */
  lemma RhoWalkVisitsEachLaneOnce()
    ensures forall t :: 0 <= t < 24 ==>
      0 < WalkLane(t) < 25 && 0 < Offset(t) < 64 && Offset(t) == RhoOffsets[WalkLane(t)]
    ensures forall t, u :: 0 <= t < u < 24 ==> WalkLane(t) != WalkLane(u)
    ensures forall k :: 0 < k < 25 ==> VisitTime[k] < 24 && WalkLane(VisitTime[k]) == k
  {
    WalkTablesHold(WalkLanes, VisitTime, RhoOffsets);
    WalkFromTables(WalkLanes, VisitTime, RhoOffsets);
  }

  /** A lane rotated left by n bits, 0 < n < 64, as (x << n) | (x >> (64 - n)). */
  function Rotl64(x: bv64, n: nat): bv64
    requires 0 < n < 64
  {
    (x << n) | (x >> (64 - n))
  }

  /** Every offset of Table 2 of FIPS 202 but lane 0's is a rotation by 1
      to 63 bits. */
  lemma RhoOffsetsInRange()
    ensures forall k :: 0 < k < 25 ==> 0 < RhoOffsets[k] < 64
  {
    WalkTablesHold(WalkLanes, VisitTime, RhoOffsets);
  }

  /** rho as section 3.2.2 of FIPS 202 tabulates it: lane (0, 0) stays and
      every other lane is rotated by its offset from Table 2. */
  function Rho(s: State): (r: State)
  {
    RhoOffsetsInRange();
    seq(25, k requires 0 <= k < 25 =>
      if k == 0 then s[0] else Rotl64(s[k], RhoOffsets[k]))
  }

  /** The walk's step t rotates by 1 to 63 bits. */
  lemma OffsetInRange(t: nat)
    requires t < 24
    ensures 0 < Offset(t) < 64
  {
    WalkTablesHold(WalkLanes, VisitTime, RhoOffsets);
    WalkFromTables(WalkLanes, VisitTime, RhoOffsets);
  }

  /** The lane index x + 5y splits back into x and y. */
  lemma LaneCoordinates(x: nat, y: nat)
    requires x < 5 && y < 5
    ensures (x + y * 5) / 5 == y && (x + y * 5) % 5 == x
  {
  }

  /** The source's update of (x, y) moves to the walk's next lane. */
  lemma WalkMove(x: nat, y: nat, t: nat)
    requires x < 5 && y < 5 && x + y * 5 == WalkLane(t)
    ensures y + ((2 * x + 3 * y) % 5) * 5 == WalkLane(t + 1)
  {
    LaneCoordinates(x, y);
    assert WalkLane(t + 1) == Step(x + y * 5);
    StepAt(x, y);
  }

  /** Step on the lane (x, y). */
  lemma StepAt(x: nat, y: nat)
    requires x < 5 && y < 5
    ensures Step(x + y * 5) == y + ((2 * x + 3 * y) % 5) * 5
  {
    LaneCoordinates(x, y);
  }

  /** s with one lane rotated by n bits. */
  function RotateLane(s: State, lane: nat, n: nat): State
    requires lane < 25 && 0 < n < 64
  {
    UpdateLane(s, lane, Rotl64(s[lane], n))
  }

  /** s with lane replaced by v. */
  function UpdateLane(s: State, lane: nat, v: bv64): State
    requires lane < 25
  {
    s[lane := v]
  }

  /** Lane k of s0 after the first t steps of the walk, given the tables
      vt (steps by lane) and ro (offsets by lane): rotated if the walk has
      passed it, as it was otherwise. */
  function RotatedWith(s0: State, k: nat, t: nat, vt: seq<nat>, ro: seq<nat>): bv64
    requires k < 25 && |vt| == 25 && |ro| == 25
  {
    if 0 < k && vt[k] < t && 0 < ro[k] < 64 then Rotl64(s0[k], ro[k]) else s0[k]
  }

  /** Lanes k .. 24 of s are those of s0 after t steps of the walk. */
  predicate RhoAfter(s0: State, s: State, t: nat, k: nat, vt: seq<nat>, ro: seq<nat>)
    requires k <= 25 && |vt| == 25 && |ro| == 25
    decreases 25 - k
  {
    k == 25 || (s[k] == RotatedWith(s0, k, t, vt, ro) && RhoAfter(s0, s, t, k + 1, vt, ro))
  }

  /** RhoAfter, lane by lane. */
  lemma {:induction false} RhoAfterAll(s0: State, s: State, t: nat, k: nat, vt: seq<nat>, ro: seq<nat>)
    requires k <= 25 && |vt| == 25 && |ro| == 25
    ensures RhoAfter(s0, s, t, k, vt, ro) <==>
      forall j :: k <= j < 25 ==> s[j] == RotatedWith(s0, j, t, vt, ro)
    decreases 25 - k
  {
    if k < 25 {
      RhoAfterAll(s0, s, t, k + 1, vt, ro);
    }
  }

  /** The lane a step visits has not been rotated before and is rotated
      after. */
  lemma RhoStepVisited(s0: State, s: State, s2: State, t: nat, lane: nat,
                       vt: seq<nat>, ro: seq<nat>)
    requires |vt| == 25 && |ro| == 25
    requires 0 < lane < 25 && vt[lane] == t && 0 < ro[lane] < 64
    requires s[lane] == RotatedWith(s0, lane, t, vt, ro)
    requires s2 == s[lane := Rotl64(s[lane], ro[lane])]
    ensures s2[lane] == RotatedWith(s0, lane, t + 1, vt, ro)
  {
  }

  /** Every other lane keeps its state: it was passed before step t or is
      passed after it. */
  lemma RhoStepOther(s0: State, s: State, s2: State, t: nat, lane: nat, j: nat,
                     vt: seq<nat>, ro: seq<nat>)
    requires |vt| == 25 && |ro| == 25
    requires lane < 25 && j < 25 && j != lane && (0 < j ==> vt[j] != t)
    requires s[j] == RotatedWith(s0, j, t, vt, ro)
    requires 0 < ro[lane] < 64
    requires s2 == s[lane := Rotl64(s[lane], ro[lane])]
    ensures s2[j] == RotatedWith(s0, j, t + 1, vt, ro)
  {
  }

  /** One step of the walk extends RhoAfter by the lane it visits. */
  lemma RhoStep(s0: State, s: State, s2: State, t: nat, lane: nat,
                wl: seq<nat>, vt: seq<nat>, ro: seq<nat>)
    requires WalkTables(wl, vt, ro)
    requires t < 24 && lane == wl[t]
    requires RhoAfter(s0, s, t, 0, vt, ro)
    requires 0 < ro[lane] < 64
    requires s2 == s[lane := Rotl64(s[lane], ro[lane])]
    ensures RhoAfter(s0, s2, t + 1, 0, vt, ro)
  {
    RhoAfterAll(s0, s, t, 0, vt, ro);
    forall j | 0 <= j < 25
      ensures s2[j] == RotatedWith(s0, j, t + 1, vt, ro)
    {
      if j == lane {
        RhoStepVisited(s0, s, s2, t, lane, vt, ro);
      } else {
        assert 0 < j ==> wl[vt[j]] == j;
        RhoStepOther(s0, s, s2, t, lane, j, vt, ro);
      }
    }
    RhoAfterAll(s0, s2, t + 1, 0, vt, ro);
  }

  /** One step of the source's walk, over the literal tables. */
  lemma RhoLoopStep(s0: State, s: State, s2: State, t: nat, lane: nat)
    requires t < 24 && lane == WalkLane(t)
    requires RhoAfter(s0, s, t, 0, VisitTime, RhoOffsets)
    requires 0 < Offset(t) < 64
    requires s2 == RotateLane(s, lane, Offset(t))
    ensures RhoAfter(s0, s2, t + 1, 0, VisitTime, RhoOffsets)
  {
    var wl, vt, ro := WalkLanes, VisitTime, RhoOffsets;
    WalkTablesHold(wl, vt, ro);
    WalkIsTable(wl, vt, ro);
    RhoStep(s0, s, s2, t, lane, wl, vt, ro);
  }

  /** Before the walk nothing is rotated. */
  lemma RhoStart(s0: State)
    ensures RhoAfter(s0, s0, 0, 0, VisitTime, RhoOffsets)
  {
    RhoAfterAll(s0, s0, 0, 0, VisitTime, RhoOffsets);
  }

  /** After the whole walk every lane but lane 0 has been rotated by its
      offset. */
  lemma RhoDone(s0: State, s: State, wl: seq<nat>, vt: seq<nat>, ro: seq<nat>)
    requires WalkTables(wl, vt, ro) && ro == RhoOffsets
    requires RhoAfter(s0, s, 24, 0, vt, ro)
    ensures s == Rho(s0)
  {
    RhoAfterAll(s0, s, 24, 0, vt, ro);
  }

  /** After the source's walk, over the literal tables. */
  lemma RhoLoopDone(s0: State, s: State, t: nat)
    requires t == 24
    requires RhoAfter(s0, s, t, 0, VisitTime, RhoOffsets)
    ensures s == Rho(s0)
  {
    var wl, vt, ro := WalkLanes, VisitTime, RhoOffsets;
    WalkTablesHold(wl, vt, ro);
    RhoDone(s0, s, wl, vt, ro);
  }

  /** rho as sha3.cpp:88-97 computes it, walking the lanes from (1, 0) and
      rotating the lane at step t by (t + 1)(t + 2) / 2 mod 64: the walk
      computes the tabulated rho. */
  method RhoLoop(s0: State) returns (s: State)
    ensures s == Rho(s0)
  {
    s := s0;
    var x, y := 1, 0;
    var t := 0;
    RhoStart(s0);
    while t <= 23
      invariant 0 <= t <= 24
      invariant 0 <= x < 5 && 0 <= y < 5
      invariant x + y * 5 == WalkLane(t)
      invariant RhoAfter(s0, s, t, 0, VisitTime, RhoOffsets)
    {
      OffsetInRange(t);
      var rotate := Offset(t);
      var s2 := RotateLane(s, x + y * 5, rotate);
      RhoLoopStep(s0, s, s2, t, x + y * 5);
      s := s2;
      WalkMove(x, y, t);
      var newX := y;
      var newY := (2 * x + 3 * y) % 5;
      x, y := newX, newY;
      t := t + 1;
    }
    RhoLoopDone(s0, s, t);
  }

  // ---------------------------------------------------------------------
  // pi (sha3.cpp:99-106, section 3.2.3 of FIPS 202)
  // ---------------------------------------------------------------------

  /** The lane pi moves to lane k = x + 5y: A[(x + 3y) mod 5, x]. */
  function PiSource(k: nat): (r: nat)
    requires k < 25
    ensures r < 25
  {
    (k % 5 + 3 * (k / 5)) % 5 + k % 5 * 5
  }

  /** pi: lane x + 5y of the result is lane (x + 3y) mod 5 + 5x of s. */
  function Pi(s: State): (r: State)
  {
    seq(25, k requires 0 <= k < 25 => s[PiSource(k)])
  }

  /** The inverse of pi: lane k of the result is lane Step(k) of s, where
      Step is the move of the rho walk. */
  function UnPi(s: State): (r: State)
  {
    seq(25, k requires 0 <= k < 25 => s[Step(k)])
  }

  /** PiSource on lane (x, y). */
  lemma PiSourceAt(x: nat, y: nat)
    requires x < 5 && y < 5
    ensures PiSource(x + y * 5) == (x + 3 * y) % 5 + x * 5
  {
    LaneCoordinates(x, y);
  }

  /** 5m + y leaves remainder y. */
  lemma ModFive(m: nat, y: nat)
    requires y < 5
    ensures (5 * m + y) % 5 == y
  {
  }

  /** Step undoes PiSource on lane (x, y). */
  lemma StepPiSourceAt(x: nat, y: nat)
    requires x < 5 && y < 5
    ensures Step(PiSource(x + y * 5)) == x + y * 5
  {
    PiSourceAt(x, y);
    var q, r := (x + 3 * y) / 5, (x + 3 * y) % 5;
    assert x + 3 * y == 5 * q + r;
    StepAt(r, x);
    assert 2 * r + 3 * x == 5 * (x + y - 2 * q) + y;
    ModFive(x + y - 2 * q, y);
  }

  /** PiSource undoes Step on lane (x, y). */
  lemma PiSourceStepAt(x: nat, y: nat)
    requires x < 5 && y < 5
    ensures PiSource(Step(x + y * 5)) == x + y * 5
  {
    StepAt(x, y);
    var q, r := (2 * x + 3 * y) / 5, (2 * x + 3 * y) % 5;
    assert 2 * x + 3 * y == 5 * q + r;
    PiSourceAt(y, r);
    assert y + 3 * r == 5 * (x + 2 * y - 3 * q) + x;
    ModFive(x + 2 * y - 3 * q, x);
  }

  /** PiSource and Step are inverse maps of the 25 lane indices. */
  lemma PiSourceInverse(k: nat)
    requires k < 25
    ensures Step(PiSource(k)) == k && PiSource(Step(k)) == k
  {
    var x, y := k % 5, k / 5;
    assert k == x + y * 5;
    StepPiSourceAt(x, y);
    PiSourceStepAt(x, y);
  }

  /** pi permutes the 25 lanes: UnPi undoes it and it undoes UnPi. */
  lemma PiPermutes(s: State)
    ensures UnPi(Pi(s)) == s && Pi(UnPi(s)) == s
  {
    UnPiPi(s);
    PiUnPi(s);
  }

  /** UnPi undoes pi. */
  lemma UnPiPi(s: State)
    ensures UnPi(Pi(s)) == s
  {
    var t := UnPi(Pi(s));
    forall k | 0 <= k < 25
      ensures t[k] == s[k]
    {
      PiSourceInverse(k);
    }
  }

  /** pi undoes UnPi. */
  lemma PiUnPi(s: State)
    ensures Pi(UnPi(s)) == s
  {
    var t := Pi(UnPi(s));
    forall k | 0 <= k < 25
      ensures t[k] == s[k]
    {
      PiSourceInverse(k);
    }
  }

  // ---------------------------------------------------------------------
  // chi (sha3.cpp:108-116, section 3.2.4 of FIPS 202)
  // ---------------------------------------------------------------------

  /** a ^ (~b & c). */
  function ChiLane(a: bv64, b: bv64, c: bv64): bv64 {
    a ^ (!b & c)
  }

  /** The lane i places further along the row of lane k, cyclically. */
  function RowNext(k: nat, i: nat): (r: nat)
    requires k < 25
    ensures r < 25
  {
    (k % 5 + i) % 5 + k / 5 * 5
  }

  /** chi: each lane is combined with the next two lanes of its row. */
  function Chi(s: State): (r: State)
  {
    seq(25, k requires 0 <= k < 25 => ChiLane(s[k], s[RowNext(k, 1)], s[RowNext(k, 2)]))
  }

  /** RowNext stays in the row of lane (x, y). */
  lemma RowNextAt(x: nat, y: nat, i: nat)
    requires x < 5 && y < 5
    ensures RowNext(x + y * 5, i) == (x + i) % 5 + y * 5
  {
    LaneCoordinates(x, y);
  }

  /** chi works row by row: two states that agree on row y (lanes 5y to
      5y + 4) give results that agree on row y. */
  lemma ChiRowLocal(s: State, t: State, y: nat)
    requires y < 5
    requires forall k :: y * 5 <= k < y * 5 + 5 ==> s[k] == t[k]
    ensures forall k :: y * 5 <= k < y * 5 + 5 ==> Chi(s)[k] == Chi(t)[k]
  {
    forall k | y * 5 <= k < y * 5 + 5
      ensures Chi(s)[k] == Chi(t)[k]
    {
      var x := k - y * 5;
      RowNextAt(x, y, 1);
      RowNextAt(x, y, 2);
      var k1, k2 := RowNext(k, 1), RowNext(k, 2);
      assert s[k1] == t[k1];
      assert s[k2] == t[k2];
    }
  }

  // ---------------------------------------------------------------------
  // iota (sha3.cpp:9-18, 118-119, section 3.2.5 of FIPS 202)
  // ---------------------------------------------------------------------

  /** The round constants RC[0 .. 23]. */
  const RoundConstants: seq<bv64> :=
    [0x0000000000000001, 0x0000000000008082, 0x800000000000808A, 0x8000000080008000,
     0x000000000000808B, 0x0000000080000001, 0x8000000080008081, 0x8000000000008009]
    + [0x000000000000008A, 0x0000000000000088, 0x0000000080008009, 0x000000008000000A,
       0x000000008000808B, 0x800000000000008B, 0x8000000000008089, 0x8000000000008003]
    + [0x8000000000008002, 0x8000000000000080, 0x000000000000800A, 0x800000008000000A,
       0x8000000080008081, 0x8000000000008080, 0x0000000080000001, 0x8000000080008008]

  /** iota: lane (0, 0) is XOR-ed with the round's constant. */
  function Iota(s: State, round: nat): (r: State)
    requires round < 24
  {
    s[0 := Xor64(s[0], RoundConstants[round])]
  }

  /** iota changes lane (0, 0) only, and applying it twice in the same round
      restores the state. */
  lemma IotaTouchesLaneZero(s: State, round: nat)
    requires round < 24
    ensures forall k :: 0 < k < 25 ==> Iota(s, round)[k] == s[k]
    ensures Iota(Iota(s, round), round) == s
  {
    Xor64Twice(s[0], RoundConstants[round]);
  }

  // ---------------------------------------------------------------------
  // The permutation KECCAK-p[1600, 24] (sha3.cpp:62-121)
  // ---------------------------------------------------------------------

  /** One round: theta, rho, pi, chi, then iota with the round's constant. */
  function Round(s: State, round: nat): (r: State)
    requires round < 24
  {
    Iota(Chi(Pi(Rho(Theta(s)))), round)
  }

  /** The first n rounds. */
  function Rounds(s: State, n: nat): (r: State)
    requires n <= 24
  {
    if n == 0 then s else Round(Rounds(s, n - 1), n - 1)
  }

  /** One more round extends Rounds. */
  lemma RoundsStep(s0: State, s: State, s2: State, k: nat)
    requires k < 24 && s == Rounds(s0, k)
    requires s2 == Round(s, k)
    ensures s2 == Rounds(s0, k + 1)
  {
  }

  /** The round loop of sha3.cpp:62-121: 24 rounds, the rho step computed
      by the source's walk. */
  method Permute(s0: State) returns (s: State)
    ensures s == Rounds(s0, 24)
  {
    s := s0;
    var round := 0;
    while round < 24
      invariant 0 <= round <= 24
      invariant s == Rounds(s0, round)
    {
      var a := Theta(s);
      var b := RhoLoop(a);
      var c := Iota(Chi(Pi(b)), round);
      RoundsStep(s0, s, c, round);
      s := c;
      round := round + 1;
    }
  }

  // ---------------------------------------------------------------------
  // The sponge (sha3.cpp:42-126)
  // ---------------------------------------------------------------------

  /** The all-zero state the sponge starts from (sha3.cpp:45). */
  function ZeroState(): (r: State)
    ensures forall k :: 0 <= k < 25 ==> r[k] == 0
  {
    seq(25, _ => 0)
  }

  /** KECCAK-p[1600, 24]. */
  function KeccakF(s: State): (r: State)
  {
    Rounds(s, 24)
  }

  /** The sponge's absorbing phase over any state type: while a whole
      block of bs bytes remains, absorb it into the state and permute. */
  function Sponge<S>(s: S, p: seq<bv8>, bs: nat, absorb: (S, seq<bv8>) -> S, permute: S -> S): S
    requires 0 < bs
    decreases |p|
  {
    if |p| < bs then s else Sponge(permute(absorb(s, p[..bs])), p[bs..], bs, absorb, permute)
  }

  /** Absorbing a padded message: each block is XOR-ed into the state,
      which is then permuted. */
  function Absorb(s: State, p: seq<bv8>, d: nat): State
    requires ValidDigest(d)
  {
    Sponge(s, p, Block(d), XorBlock, KeccakF)
  }

  /** The output: byte i is byte i mod 8 of lane i / 8 (sha3.cpp:124-126). */
  function Squeeze(s: State, d: nat): (r: seq<bv8>)
    requires ValidDigest(d)
    ensures |r| == DigestSize(d)
  {
    seq(d / 8, i requires 0 <= i < d / 8 => MdPadding.Byte64(s[i / 8], i % 8))
  }

  /** Byte i of the output is byte i % 8 of lane i / 8. */
  lemma SqueezeByte(s: State, d: nat, i: nat, j: nat)
    requires ValidDigest(d) && j < 8 && 8 * i + j < d / 8
    ensures Squeeze(s, d)[8 * i + j] == MdPadding.Byte64(s[i], j)
  {
    assert (8 * i + j) / 8 == i && (8 * i + j) % 8 == j;
  }

  /** The output is the state's lanes written little-endian: every whole
      lane among the first d / 8 bytes reads back as the lane. */
  lemma SqueezeLanes(s: State, d: nat, i: nat)
    requires ValidDigest(d) && 8 * i + 8 <= d / 8
    ensures Squeeze(s, d)[8 * i..8 * i + 8] == MdPadding.Le64Bytes(s[i])
    ensures MdPadding.Le64(Squeeze(s, d)[8 * i..8 * i + 8]) == s[i]
  {
    forall j | 0 <= j < 8
      ensures Squeeze(s, d)[8 * i..8 * i + 8][j] == MdPadding.Le64Bytes(s[i])[j]
    {
      SqueezeByte(s, d, i, j);
    }
    MdPadding.Le64Bytes64(s[i]);
  }

  /** SHA3-d of a message. */
  function Digest(input: seq<bv8>, d: nat): (r: seq<bv8>)
    requires ValidDigest(d)
    ensures |r| == d / 8
  {
    Squeeze(Absorb(ZeroState(), Pad(input, d), d), d)
  }

  /** A nonzero multiple of 144 holds 144 and leaves a multiple of 144. */
  lemma WholeBlockOf144(rest: nat)
    requires rest % 144 == 0 && 0 < rest
    ensures 144 <= rest && (rest - 144) % 144 == 0
  {
  }

  /** A nonzero multiple of 136 holds 136 and leaves a multiple of 136. */
  lemma WholeBlockOf136(rest: nat)
    requires rest % 136 == 0 && 0 < rest
    ensures 136 <= rest && (rest - 136) % 136 == 0
  {
  }

  /** A nonzero multiple of 104 holds 104 and leaves a multiple of 104. */
  lemma WholeBlockOf104(rest: nat)
    requires rest % 104 == 0 && 0 < rest
    ensures 104 <= rest && (rest - 104) % 104 == 0
  {
  }

  /** A nonzero multiple of 72 holds 72 and leaves a multiple of 72. */
  lemma WholeBlockOf72(rest: nat)
    requires rest % 72 == 0 && 0 < rest
    ensures 72 <= rest && (rest - 72) % 72 == 0
  {
  }

  /** A multiple of the block size that is not zero has a whole block, and
      what follows it is a multiple of the block size too. */
  lemma WholeBlock(rest: nat, d: nat)
    requires ValidDigest(d) && rest % Block(d) == 0 && 0 < rest
    ensures Block(d) <= rest && (rest - Block(d)) % Block(d) == 0
  {
    SizesFit(d);
    if d == 224 {
      assert Block(d) == 144;
      WholeBlockOf144(rest);
    } else if d == 256 {
      assert Block(d) == 136;
      WholeBlockOf136(rest);
    } else if d == 384 {
      assert Block(d) == 104;
      WholeBlockOf104(rest);
    } else {
      assert Block(d) == 72;
      WholeBlockOf72(rest);
    }
  }

  /** n bytes split into whole blocks of bs bytes. */
  predicate BlocksFit(n: nat, bs: nat)
    requires 0 < bs
    decreases n
  {
    n == 0 || (bs <= n && BlocksFit(n - bs, bs))
  }

  /** A multiple of the block size splits into whole blocks. */
  lemma {:induction false} MultipleFits(n: nat, d: nat)
    requires ValidDigest(d) && n % Block(d) == 0
    ensures BlocksFit(n, Block(d))
    decreases n
  {
    if n > 0 {
      WholeBlock(n, d);
      MultipleFits(n - Block(d), d);
    }
  }

  /** Absorbing from offset on, one block at a time. */
  lemma SpongeStep<S>(s: S, p: seq<bv8>, bs: nat, absorb: (S, seq<bv8>) -> S, permute: S -> S,
                      offset: nat)
    requires 0 < bs && offset + bs <= |p|
    ensures Sponge(s, p[offset..], bs, absorb, permute)
      == Sponge(permute(absorb(s, p[offset..offset + bs])), p[offset + bs..], bs, absorb, permute)
  {
    var q := p[offset..];
    assert q[..bs] == p[offset..offset + bs];
    assert q[bs..] == p[offset + bs..];
  }

  /** The block loop of sha3.cpp:48-122, for any state type: absorb each
      block at offsets 0, bs, 2bs, ... and permute. */
  method SpongeLoop<S>(s0: S, padded: seq<bv8>, bs: nat, absorb: (S, seq<bv8>) -> S,
                       permute: S -> S) returns (s: S)
    requires 0 < bs && BlocksFit(|padded|, bs)
    ensures s == Sponge(s0, padded, bs, absorb, permute)
  {
    s := s0;
    var offset := 0;
    while offset < |padded|
      invariant offset <= |padded|
      invariant BlocksFit(|padded| - offset, bs)
      invariant Sponge(s, padded[offset..], bs, absorb, permute) == Sponge(s0, padded, bs, absorb, permute)
      decreases |padded| - offset
    {
      SpongeStep(s, padded, bs, absorb, permute, offset);
      s := permute(absorb(s, padded[offset..offset + bs]));
      offset := offset + bs;
    }
    assert padded[offset..] == [];
  }

  /** The lanes of a block, XOR-ed in one at a time (sha3.cpp:50-60). */
  method XorBlockLoop(s0: State, block: seq<bv8>) returns (s: State)
    requires |block| % 8 == 0 && |block| <= 200
    ensures s == XorBlock(s0, block)
  {
    s := s0;
    var i := 0;
    while i < |block| / 8
      invariant 0 <= i <= |block| / 8
      invariant s == XorBlock(s0, block[..8 * i])
    {
      s := s[i := Xor64(s[i], MdPadding.Le64(block[8 * i..8 * i + 8]))];
      XorBlockExtend(s0, block, i);
      i := i + 1;
    }
    assert block[..8 * i] == block;
  }

  /** XOR-ing one more lane of the block. */
  lemma XorBlockExtend(s0: State, block: seq<bv8>, i: nat)
    requires 8 * i + 8 <= |block| <= 200
    ensures XorBlock(s0, block[..8 * i + 8])
      == XorBlock(s0, block[..8 * i])[i := Xor64(XorBlock(s0, block[..8 * i])[i], MdPadding.Le64(block[8 * i..8 * i + 8]))]
  {
    var a, b := block[..8 * i], block[..8 * i + 8];
    assert |a| / 8 == i && |b| / 8 == i + 1;
    forall k | 0 <= k < i
      ensures BlockLane(b, k) == BlockLane(a, k)
    {
      assert b[8 * k..8 * k + 8] == a[8 * k..8 * k + 8];
    }
    assert b[8 * i..8 * i + 8] == block[8 * i..8 * i + 8];
  }

  /** The padded message splits into whole blocks. */
  lemma PaddedFits(input: seq<bv8>, d: nat)
    requires ValidDigest(d)
    ensures BlocksFit(|Pad(input, d)|, Block(d))
  {
    PadParts(input, d);
    MultipleFits(|Pad(input, d)|, d);
  }

  /** The output loop of sha3.cpp:124-126. */
  method SqueezeLoop(s: State, d: nat) returns (output: seq<bv8>)
    requires ValidDigest(d)
    ensures output == Squeeze(s, d)
  {
    output := [];
    var i := 0;
    while i < d / 8
      invariant 0 <= i <= d / 8
      invariant output == Squeeze(s, d)[..i]
    {
      output := output + [MdPadding.Byte64(s[i / 8], i % 8)];
      i := i + 1;
    }
  }

  /** sha3<d> (sha3.cpp:20-127): pad, absorb block by block with 24 rounds
      each, and read out d / 8 bytes. The block loop's two inner loops are
      XorBlockLoop (computing XorBlock) and Permute (computing KeccakF). */
  method Sha3(input: seq<bv8>, d: nat) returns (output: seq<bv8>)
    requires ValidDigest(d)
    ensures output == Digest(input, d)
  {
    var padded := Pad(input, d);
    PaddedFits(input, d);
    var s := SpongeLoop(ZeroState(), padded, Block(d), XorBlock, KeccakF);
    output := SqueezeLoop(s, d);
  }

  /** sha3_224 (sha3.cpp:129-131): 28 bytes of output. */
  function Sha3Digest224(input: seq<bv8>): (r: seq<bv8>)
    ensures |r| == 28 && r == Digest(input, 224)
  {
    Digest(input, 224)
  }

  /** sha3_256 (sha3.cpp:133-135): 32 bytes of output. */
  function Sha3Digest256(input: seq<bv8>): (r: seq<bv8>)
    ensures |r| == 32 && r == Digest(input, 256)
  {
    Digest(input, 256)
  }

  /** sha3_384 (sha3.cpp:137-139): 48 bytes of output. */
  function Sha3Digest384(input: seq<bv8>): (r: seq<bv8>)
    ensures |r| == 48 && r == Digest(input, 384)
  {
    Digest(input, 384)
  }

  /** sha3_512 (sha3.cpp:141-143): 64 bytes of output. */
  function Sha3Digest512(input: seq<bv8>): (r: seq<bv8>)
    ensures |r| == 64 && r == Digest(input, 512)
  {
    Digest(input, 512)
  }
}

=== FILE: sm3.dfy ===
/** SM3 as sm3 (sm3.cpp:15-120) computes it, following
    draft-oscca-cfrg-sm3-02: every 64-byte block of the padded message is
    read as sixteen big-endian words, expanded to 68 words W and 64 words
    W', and runs 64 rounds over eight registers that are then XOR'ed onto
    the chaining value. The digest is the eight chaining words, each
    written big-endian.

    The padding is done by hash_pad, whose body is not part of this model:
    the hash is stated over the padded message, which must be a whole
    number of 64-byte blocks for the block loop to read it. */
module Sm3 {
  import opened Bits
  import opened Words8
  import Chain

  /** The initial value IV of section 4.1 (sm3.cpp:19-20). */
  const Init: State := State(0x7380166f, 0x4914b2b9, 0x172442d7, 0xda8a0600,
                             0xa96f30bc, 0x163138aa, 0xe38dee4d, 0xb0fb0e4e)

  // ---------------------------------------------------------------------
  // The permutations P0 and P1 of section 4.4 (sm3.cpp:7-13)

  /** P0(x) = x xor (x <<< 9) xor (x <<< 17), with the two rotations by
      fixed amounts written out (Rot9IsRotl, Rot17IsRotl). */
  function P0(x: bv32): bv32 {
    x ^ Rot9(x) ^ Rot17(x)
  }

  /** P1(x) = x xor (x <<< 15) xor (x <<< 23). */
  function P1(x: bv32): bv32 {
    x ^ Rotl(x, 15) ^ Rotl(x, 23)
  }

  /** The inverse of P0. As a map on GF(2)^32, P0 is 1 + x^9 + x^17 modulo
      x^32 + 1, whose fourth power is 1; so P0 applied three times undoes P0. */
  function P0Inverse(x: bv32): bv32 {
    P0(P0(P0(x)))
  }

  /** P0 is a permutation of the 32-bit words, with inverse P0Inverse. */
  lemma P0Permutes(x: bv32)
    ensures P0Inverse(P0(x)) == x
    ensures P0(P0Inverse(x)) == x
  {
    P0FourTimes(x);
  }

  /** P0 applied four times is the identity. */
  lemma P0FourTimes(x: bv32)
    ensures P0(P0(P0(P0(x)))) == x
  {
    P0Twice(P0(P0(x)));
    P0Twice(x);
    Q0Congruent(P0(P0(x)), Q0(x));
    Q0Twice(x);
  }

  // The proof works on rotations by fixed amounts, written out as shifts,
  // so that every step is one small bit-vector identity.

  function Rot2(x: bv32): bv32 { (x << 2) | (x >> 30) }
  function Rot4(x: bv32): bv32 { (x << 4) | (x >> 28) }
  function Rot9(x: bv32): bv32 { (x << 9) | (x >> 23) }
  function Rot17(x: bv32): bv32 { (x << 17) | (x >> 15) }
  function Rot18(x: bv32): bv32 { (x << 18) | (x >> 14) }
  function Rot20(x: bv32): bv32 { (x << 20) | (x >> 12) }
  function Rot26(x: bv32): bv32 { (x << 26) | (x >> 6) }

  /** The square of P0: 1 + x^2 + x^18. */
  function Q0(x: bv32): bv32 { x ^ Rot2(x) ^ Rot18(x) }

  /** Rot9 and Rot17 are the general rotation Rotl at 9 and 17. */
  lemma Rot9IsRotl(x: bv32)
    ensures Rotl(x, 9) == Rot9(x)
  {
  }
  lemma Rot17IsRotl(x: bv32)
    ensures Rotl(x, 17) == Rot17(x)
  {
  }

  lemma Congruent3(a: bv32, b: bv32, c: bv32, a': bv32, b': bv32, c': bv32)
    requires a == a'
    requires b == b'
    requires c == c'
    ensures a ^ b ^ c == a' ^ b' ^ c'
  {
  }

  // A rotation distributes over xor ...
  lemma Rot2Xor(x: bv32, y: bv32, z: bv32)
    ensures Rot2(x ^ y ^ z) == Rot2(x) ^ Rot2(y) ^ Rot2(z)
  {
  }
  lemma Rot9Xor(x: bv32, y: bv32, z: bv32)
    ensures Rot9(x ^ y ^ z) == Rot9(x) ^ Rot9(y) ^ Rot9(z)
  {
  }
  lemma Rot17Xor(x: bv32, y: bv32, z: bv32)
    ensures Rot17(x ^ y ^ z) == Rot17(x) ^ Rot17(y) ^ Rot17(z)
  {
  }
  lemma Rot18Xor(x: bv32, y: bv32, z: bv32)
    ensures Rot18(x ^ y ^ z) == Rot18(x) ^ Rot18(y) ^ Rot18(z)
  {
  }

  // ... and two rotations add up modulo 32.
  lemma Rot9Rot9(x: bv32)
    ensures Rot9(Rot9(x)) == Rot18(x)
  {
  }
  lemma Rot9Rot17(x: bv32)
    ensures Rot9(Rot17(x)) == Rot26(x)
  {
  }
  lemma Rot17Rot9(x: bv32)
    ensures Rot17(Rot9(x)) == Rot26(x)
  {
  }
  lemma Rot17Rot17(x: bv32)
    ensures Rot17(Rot17(x)) == Rot2(x)
  {
  }
  lemma Rot2Rot2(x: bv32)
    ensures Rot2(Rot2(x)) == Rot4(x)
  {
  }
  lemma Rot2Rot18(x: bv32)
    ensures Rot2(Rot18(x)) == Rot20(x)
  {
  }
  lemma Rot18Rot2(x: bv32)
    ensures Rot18(Rot2(x)) == Rot20(x)
  {
  }
  lemma Rot18Rot18(x: bv32)
    ensures Rot18(Rot18(x)) == Rot4(x)
  {
  }

  lemma Rot9Congruent(a: bv32, b: bv32)
    requires a == b
    ensures Rot9(a) == Rot9(b)
  {
  }
  lemma Rot17Congruent(a: bv32, b: bv32)
    requires a == b
    ensures Rot17(a) == Rot17(b)
  {
  }
  lemma Rot2Congruent(a: bv32, b: bv32)
    requires a == b
    ensures Rot2(a) == Rot2(b)
  {
  }
  lemma Rot18Congruent(a: bv32, b: bv32)
    requires a == b
    ensures Rot18(a) == Rot18(b)
  {
  }
  lemma Q0Congruent(a: bv32, b: bv32)
    requires a == b
    ensures Q0(a) == Q0(b)
  {
  }

  lemma P0Unfold(x: bv32)
    ensures P0(x) == x ^ Rot9(x) ^ Rot17(x)
  {
  }
  lemma Q0Unfold(x: bv32)
    ensures Q0(x) == x ^ Rot2(x) ^ Rot18(x)
  {
  }

  lemma Rot9OfP0Unfolded(x: bv32)
    ensures Rot9(P0(x)) == Rot9(x ^ Rot9(x) ^ Rot17(x))
  {
    P0Unfold(x);
    Rot9Congruent(P0(x), x ^ Rot9(x) ^ Rot17(x));
  }

  lemma Rot9OfP0(x: bv32)
    ensures Rot9(P0(x)) == Rot9(x) ^ Rot18(x) ^ Rot26(x)
  {
    Rot9OfP0Unfolded(x);
    Rot9Xor(x, Rot9(x), Rot17(x));
    Rot9OfRotations(x);
  }

  lemma Rot9OfRotations(x: bv32)
    ensures Rot9(x) ^ Rot9(Rot9(x)) ^ Rot9(Rot17(x)) == Rot9(x) ^ Rot18(x) ^ Rot26(x)
  {
    Rot9Rot9(x);
    Rot17Rot9(x);
    Congruent3(Rot9(x), Rot9(Rot9(x)), Rot9(Rot17(x)), Rot9(x), Rot18(x), Rot26(x));
  }

  lemma Rot17OfP0Unfolded(x: bv32)
    ensures Rot17(P0(x)) == Rot17(x ^ Rot9(x) ^ Rot17(x))
  {
    P0Unfold(x);
    Rot17Congruent(P0(x), x ^ Rot9(x) ^ Rot17(x));
  }

  lemma Rot17OfP0(x: bv32)
    ensures Rot17(P0(x)) == Rot17(x) ^ Rot26(x) ^ Rot2(x)
  {
    Rot17OfP0Unfolded(x);
    Rot17Xor(x, Rot9(x), Rot17(x));
    Rot17OfRotations(x);
  }

  lemma Rot17OfRotations(x: bv32)
    ensures Rot17(x) ^ Rot17(Rot9(x)) ^ Rot17(Rot17(x)) == Rot17(x) ^ Rot26(x) ^ Rot2(x)
  {
    Rot9Rot17(x);
    Rot17Rot17(x);
    Congruent3(Rot17(x), Rot17(Rot9(x)), Rot17(Rot17(x)), Rot17(x), Rot26(x), Rot2(x));
  }

  lemma Rot2OfQ0Unfolded(x: bv32)
    ensures Rot2(Q0(x)) == Rot2(x ^ Rot2(x) ^ Rot18(x))
  {
    Q0Unfold(x);
    Rot2Congruent(Q0(x), x ^ Rot2(x) ^ Rot18(x));
  }

  lemma Rot2OfQ0(x: bv32)
    ensures Rot2(Q0(x)) == Rot2(x) ^ Rot4(x) ^ Rot20(x)
  {
    Rot2OfQ0Unfolded(x);
    Rot2Xor(x, Rot2(x), Rot18(x));
    Rot2OfRotations(x);
  }

  lemma Rot2OfRotations(x: bv32)
    ensures Rot2(x) ^ Rot2(Rot2(x)) ^ Rot2(Rot18(x)) == Rot2(x) ^ Rot4(x) ^ Rot20(x)
  {
    Rot2Rot2(x);
    Rot18Rot2(x);
    Congruent3(Rot2(x), Rot2(Rot2(x)), Rot2(Rot18(x)), Rot2(x), Rot4(x), Rot20(x));
  }

  lemma Rot18OfQ0Unfolded(x: bv32)
    ensures Rot18(Q0(x)) == Rot18(x ^ Rot2(x) ^ Rot18(x))
  {
    Q0Unfold(x);
    Rot18Congruent(Q0(x), x ^ Rot2(x) ^ Rot18(x));
  }

  lemma Rot18OfQ0(x: bv32)
    ensures Rot18(Q0(x)) == Rot18(x) ^ Rot20(x) ^ Rot4(x)
  {
    Rot18OfQ0Unfolded(x);
    Rot18Xor(x, Rot2(x), Rot18(x));
    Rot18OfRotations(x);
  }

  lemma Rot18OfRotations(x: bv32)
    ensures Rot18(x) ^ Rot18(Rot2(x)) ^ Rot18(Rot18(x)) == Rot18(x) ^ Rot20(x) ^ Rot4(x)
  {
    Rot2Rot18(x);
    Rot18Rot18(x);
    Congruent3(Rot18(x), Rot18(Rot2(x)), Rot18(Rot18(x)), Rot18(x), Rot20(x), Rot4(x));
  }

  /** Of the nine rotations in P0(P0(x)), six cancel in pairs. */
  lemma CancelSquare(p: bv32, s: bv32, t: bv32, x: bv32, r9: bv32, r17: bv32, r18: bv32, r26: bv32, r2: bv32)
    requires p == x ^ r9 ^ r17
    requires s == r9 ^ r18 ^ r26
    requires t == r17 ^ r26 ^ r2
    ensures p ^ s ^ t == x ^ r2 ^ r18
  {
    CancelFirst(p, s, x, r9, r17, r18, r26);
    CancelSecond(p ^ s, t, x, r17, r18, r26, r2);
  }

  lemma CancelFirst(p: bv32, s: bv32, x: bv32, r9: bv32, r17: bv32, r18: bv32, r26: bv32)
    requires p == x ^ r9 ^ r17
    requires s == r9 ^ r18 ^ r26
    ensures p ^ s == x ^ r17 ^ r18 ^ r26
  {
  }

  lemma CancelSecond(u: bv32, t: bv32, x: bv32, r17: bv32, r18: bv32, r26: bv32, r2: bv32)
    requires u == x ^ r17 ^ r18 ^ r26
    requires t == r17 ^ r26 ^ r2
    ensures u ^ t == x ^ r2 ^ r18
  {
  }

  /** Of the nine rotations in Q0(Q0(x)), eight cancel in pairs. */
  lemma CancelFourth(p: bv32, s: bv32, t: bv32, x: bv32, r2: bv32, r18: bv32, r4: bv32, r20: bv32)
    requires p == x ^ r2 ^ r18
    requires s == r2 ^ r4 ^ r20
    requires t == r18 ^ r20 ^ r4
    ensures p ^ s ^ t == x
  {
    CancelFirst(p, s, x, r2, r18, r4, r20);
    CancelLast(p ^ s, t, x, r18, r4, r20);
  }

  lemma CancelLast(u: bv32, t: bv32, x: bv32, r18: bv32, r4: bv32, r20: bv32)
    requires u == x ^ r18 ^ r4 ^ r20
    requires t == r18 ^ r20 ^ r4
    ensures u ^ t == x
  {
  }

  lemma P0TwiceExpanded(x: bv32)
    ensures P0(x) ^ Rot9(P0(x)) ^ Rot17(P0(x)) == x ^ Rot2(x) ^ Rot18(x)
  {
    P0Unfold(x);
    Rot9OfP0(x);
    Rot17OfP0(x);
    CancelSquare(P0(x), Rot9(P0(x)), Rot17(P0(x)), x, Rot9(x), Rot17(x), Rot18(x), Rot26(x), Rot2(x));
  }

  lemma P0OfP0(x: bv32)
    ensures P0(P0(x)) == P0(x) ^ Rot9(P0(x)) ^ Rot17(P0(x))
  {
  }

  /** P0 squared is Q0. */
  lemma P0Twice(x: bv32)
    ensures P0(P0(x)) == Q0(x)
  {
    P0TwiceExpanded(x);
    P0OfP0(x);
  }

  lemma Q0TwiceExpanded(x: bv32)
    ensures Q0(x) ^ Rot2(Q0(x)) ^ Rot18(Q0(x)) == x
  {
    Q0Unfold(x);
    Rot2OfQ0(x);
    Rot18OfQ0(x);
    CancelFourth(Q0(x), Rot2(Q0(x)), Rot18(Q0(x)), x, Rot2(x), Rot18(x), Rot4(x), Rot20(x));
  }

  lemma Q0OfQ0(x: bv32)
    ensures Q0(Q0(x)) == Q0(x) ^ Rot2(Q0(x)) ^ Rot18(Q0(x))
  {
  }

  /** Q0 is an involution. */
  lemma Q0Twice(x: bv32)
    ensures Q0(Q0(x)) == x
  {
    Q0TwiceExpanded(x);
    Q0OfQ0(x);
  }

  // ---------------------------------------------------------------------
  // The message expansion of section 5.3.2 (sm3.cpp:39-52)

  /** Word j from words j - 16, j - 13, j - 9, j - 6 and j - 3:
      P1(W[j-16] xor W[j-9] xor (W[j-3] <<< 15)) xor (W[j-13] <<< 7) xor W[j-6]. */
  function Next(w16: bv32, w13: bv32, w9: bv32, w6: bv32, w3: bv32): bv32 {
    P1(w16 ^ w9 ^ Rotl(w3, 15)) ^ Rotl(w13, 7) ^ w6
  }

  /** The first n words (16 <= n <= 68) of the expansion that starts with
      m and continues with `next` applied to the words 16, 13, 9, 6 and 3
      places back. */
  function Expand<T>(next: (T, T, T, T, T) -> T, m: seq<T>, n: nat): (w: seq<T>)
    requires |m| == 16 && 16 <= n <= 68
    ensures |w| == n
    decreases n
  {
    if n == 16 then m
    else
      var w := Expand(next, m, n - 1);
      w + [next(w[n - 17], w[n - 14], w[n - 10], w[n - 7], w[n - 4])]
  }

  /** Word i of w is `next` of the words 16, 13, 9, 6 and 3 places back. */
  ghost predicate Follows<T>(next: (T, T, T, T, T) -> T, w: seq<T>, i: nat)
    requires 16 <= i < |w|
  {
    w[i] == next(w[i - 16], w[i - 13], w[i - 9], w[i - 6], w[i - 3])
  }

  /** w has 68 words, starts with m, and every later word follows. */
  ghost predicate Recurs<T>(next: (T, T, T, T, T) -> T, m: seq<T>, w: seq<T>) {
    |w| == 68 && w[..16] == m && forall i :: 16 <= i < 68 ==> Follows(next, w, i)
  }

  /** A shorter expansion is a prefix of a longer one. */
  lemma {:induction false} ExpandPrefix<T>(next: (T, T, T, T, T) -> T, m: seq<T>, k: nat, n: nat)
    requires |m| == 16 && 16 <= k <= n <= 68
    ensures Expand(next, m, n)[..k] == Expand(next, m, k)
    decreases n
  {
    if k < n {
      ExpandPrefix(next, m, k, n - 1);
      assert Expand(next, m, n)[..n - 1] == Expand(next, m, n - 1);
    }
  }

  /** The expansion obeys the recurrence, and it is the only sequence of
      68 words starting with m that does. */
  lemma ExpandIsRecurrence<T>(next: (T, T, T, T, T) -> T, m: seq<T>, w: seq<T>)
    requires |m| == 16
    ensures Recurs(next, m, Expand(next, m, 68))
    ensures Recurs(next, m, w) ==> w == Expand(next, m, 68)
  {
    var s := Expand(next, m, 68);
    ExpandPrefix(next, m, 16, 68);
    forall i | 16 <= i < 68
      ensures Follows(next, s, i)
    {
      ExpandPrefix(next, m, i + 1, 68);
      ExpandPrefix(next, m, i, 68);
      assert s[i] == Expand(next, m, 68)[..i + 1][i];
    }
    if Recurs(next, m, w) {
      ExpandUnique(next, m, w, 68);
    }
  }

  /** Words obeying the recurrence agree with the expansion on every prefix. */
  lemma {:induction false} ExpandUnique<T>(next: (T, T, T, T, T) -> T, m: seq<T>, w: seq<T>, n: nat)
    requires |m| == 16 && 16 <= n <= 68 && Recurs(next, m, w)
    ensures w[..n] == Expand(next, m, n)
    decreases n
  {
    if n > 16 {
      ExpandUnique(next, m, w, n - 1);
      assert Follows(next, w, n - 1);
      UniqueStep(next, Expand(next, m, n - 1), w, n);
    }
  }

  /** A prefix of w that agrees with e, extended by a word that follows
      the recurrence. */
  lemma UniqueStep<T>(next: (T, T, T, T, T) -> T, e: seq<T>, w: seq<T>, n: nat)
    requires 17 <= n <= |w| && e == w[..n - 1] && Follows(next, w, n - 1)
    ensures w[..n] == e + [next(e[n - 17], e[n - 14], e[n - 10], e[n - 7], e[n - 4])]
  {
    assert w[..n] == w[..n - 1] + [w[n - 1]];
  }

  /** The 68 expanded words W of a block's sixteen words m. */
  function Expansion(m: seq<bv32>): (w: seq<bv32>)
    requires |m| == 16
    ensures |w| == 68
  {
    Expand(Next, m, 68)
  }

  /** The expansion starts with the block's words and obeys the recurrence
      of section 5.3.2, and it is the only sequence of 68 words that does. */
  lemma ExpansionIsRecurrence(m: seq<bv32>, w: seq<bv32>)
    requires |m| == 16
    ensures Expansion(m)[..16] == m
    ensures forall i :: 16 <= i < 68 ==> Follows(Next, Expansion(m), i)
    ensures Recurs(Next, m, w) ==> w == Expansion(m)
  {
    ExpandIsRecurrence(Next, m, w);
  }

  /** The words W'[j] = W[j] xor W[j + 4], j < 64. */
  function Primed(w: seq<bv32>): (w1: seq<bv32>)
    requires |w| == 68
    ensures |w1| == 64
  {
    seq(64, j requires 0 <= j < 64 => w[j] ^ w[j + 4])
  }

  /** W' determines W[4..67] from W[0..3]: W[j + 4] = W'[j] xor W[j]. */
  lemma PrimedDetermines(w: seq<bv32>, j: nat)
    requires |w| == 68 && j < 64
    ensures w[j + 4] == Primed(w)[j] ^ w[j]
  {
  }

  /** The sources' expansion loop over W[16..67], writing one word at a
      time into a 68-word buffer whose first sixteen words are the block's. */
  method ExpandLoop(m: seq<bv32>) returns (w: seq<bv32>)
    requires |m| == 16
    ensures w == Expansion(m)
  {
    w := m + seq(52, _ => 0);
    var i := 16;
    while i < 68
      invariant 16 <= i <= 68 && |w| == 68
      invariant w[..i] == Expand(Next, m, i)
    {
      ExpandStep(Next, m, w, i);
      w := w[i := Next(w[i - 16], w[i - 13], w[i - 9], w[i - 6], w[i - 3])];
      i := i + 1;
    }
    assert w == w[..68];
  }

  /** Storing word i of the expansion into a buffer holding the first i
      extends the held prefix by one. */
  lemma ExpandStep<T>(next: (T, T, T, T, T) -> T, m: seq<T>, w: seq<T>, i: nat)
    requires |m| == 16 && 16 <= i < 68 && |w| == 68 && w[..i] == Expand(next, m, i)
    ensures w[i := next(w[i - 16], w[i - 13], w[i - 9], w[i - 6], w[i - 3])][..i + 1] == Expand(next, m, i + 1)
  {
    var e := Expand(next, m, i);
    assert e[i - 16] == w[i - 16] && e[i - 13] == w[i - 13] && e[i - 9] == w[i - 9] && e[i - 6] == w[i - 6] && e[i - 3] == w[i - 3];
    var v := next(w[i - 16], w[i - 13], w[i - 9], w[i - 6], w[i - 3]);
    assert w[i := v][..i + 1] == w[..i] + [v];
  }

  /** The sources' loop computing W', one word at a time. */
  method PrimeLoop(w: seq<bv32>) returns (w1: seq<bv32>)
    requires |w| == 68
    ensures w1 == Primed(w)
  {
    w1 := [];
    var i := 0;
    while i < 64
      invariant 0 <= i <= 64 && |w1| == i
      invariant forall j :: 0 <= j < i ==> w1[j] == w[j] ^ w[j + 4]
    {
      w1 := w1 + [w[i] ^ w[i + 4]];
      i := i + 1;
    }
  }

  // ---------------------------------------------------------------------
  // The constants and boolean functions of sections 4.2 and 4.3
  // (sm3.cpp:69-91)

  /** T_j: one constant for rounds 0 to 15, another for 16 to 63. */
  function T(j: nat): bv32 {
    if j <= 15 then 0x79cc4519 else 0x7a879d8a
  }

  /** T_j <<< (j mod 32). The source shifts right by 32 - j mod 32, a shift
      by 32 when j mod 32 is 0, which C++ leaves undefined; a rotation by 0
      is meant, and Rotl by 0 is the identity. */
  function TRotated(j: nat): bv32 {
    Rotl(T(j), (j % 32) as bv32)
  }

  /** Rounds 0 and 32 rotate their constant by nothing. */
  lemma TRotatedZero()
    ensures TRotated(0) == 0x79cc4519 && TRotated(32) == 0x7a879d8a
  {
    RotlZero(T(0));
    RotlZero(T(32));
  }

  /** FF_j: parity for rounds 0 to 15, majority for 16 to 63. */
  function FF(j: nat, a: bv32, b: bv32, c: bv32): bv32 {
    if j <= 15 then a ^ b ^ c else (a & b) | (a & c) | (b & c)
  }

  /** GG_j: parity for rounds 0 to 15, selection by e for 16 to 63. */
  function GG(j: nat, e: bv32, f: bv32, g: bv32): bv32 {
    if j <= 15 then e ^ f ^ g else (e & f) | (!e & g)
  }

  /** Up to round 15 FF and GG are the parity, which two equal arguments
      cancel; from round 16 FF is the majority, which two equal arguments
      decide, and GG selects f where e is set and g elsewhere. */
  lemma BooleanFunctionsSwitch(j: nat, x: bv32, y: bv32)
    ensures j <= 15 ==> FF(j, x, x, y) == y && GG(j, x, x, y) == y
    ensures j >= 16 ==> FF(j, x, x, y) == x && FF(j, y, x, x) == x
    ensures j >= 16 ==> GG(j, 0xFFFF_FFFF, x, y) == x && GG(j, 0, x, y) == y
  {
  }

  /** SS1 = ((A <<< 12) + E + (T_j <<< j)) <<< 7. */
  function SS1(a: bv32, e: bv32, j: nat): bv32 {
    Rotl(Rotl(a, 12) + e + TRotated(j), 7)
  }

  /** SS2 = SS1 xor (A <<< 12). */
  function SS2(a: bv32, e: bv32, j: nat): bv32 {
    SS1(a, e, j) ^ Rotl(a, 12)
  }

  // ---------------------------------------------------------------------
  // The rounds of the compression function, section 5.3.3 (sm3.cpp:56-102)

  /** Word addition and subtraction modulo 2^32, as named functions so
      that the proofs below can rewrite one step at a time. */
  function Plus(a: bv32, b: bv32): bv32 { a + b }
  function Minus(a: bv32, b: bv32): bv32 { a - b }

  /** TT1 = FF + (D + SS2 + W') and TT2 = GG + (H + SS1 + W) share one
      shape: x + ((y + s) + w). */
  function Tt(x: bv32, y: bv32, s: bv32, w: bv32): bv32 {
    Plus(x, Plus(Plus(y, s), w))
  }

  /** The y that Tt(x, y, s, w) was computed from, given its result t. */
  function UnTt(t: bv32, x: bv32, s: bv32, w: bv32): bv32 {
    Minus(Minus(Minus(t, x), w), s)
  }

  /** Subtracting what was added gives back the other term. */
  lemma MinusPlus(a: bv32, b: bv32)
    ensures Minus(Plus(a, b), b) == a && Minus(Plus(b, a), b) == a
  {
  }

  /** Adding back what was subtracted gives back the other term. */
  lemma PlusMinus(a: bv32, b: bv32)
    ensures Plus(Minus(a, b), b) == a && Plus(b, Minus(a, b)) == a
  {
  }

  /** UnTt recovers the y that went into Tt ... */
  lemma UnTtTt(y: bv32, x: bv32, s: bv32, w: bv32)
    ensures UnTt(Tt(x, y, s, w), x, s, w) == y
  {
    MinusPlus(Plus(Plus(y, s), w), x);
    MinusPlus(Plus(y, s), w);
    MinusPlus(y, s);
  }

  /** ... and every t is Tt of the y that UnTt gives. */
  lemma TtUnTt(t: bv32, x: bv32, s: bv32, w: bv32)
    ensures Tt(x, UnTt(t, x, s, w), s, w) == t
  {
    PlusMinus(Minus(Minus(t, x), w), s);
    PlusMinus(Minus(t, x), w);
    PlusMinus(t, x);
  }

  lemma UnTtCongruent(t: bv32, t': bv32, x: bv32, s: bv32, w: bv32)
    requires t == t'
    ensures UnTt(t, x, s, w) == UnTt(t', x, s, w)
  {
  }

  /** A round given SS1, SS2, FF_j(A, B, C) and GG_j(E, F, G) already
      computed: TT1 = FF + (D + SS2 + W'), TT2 = GG + (H + SS1 + W), then
      D = C, C = B <<< 9, B = A, A = TT1, H = G, G = F <<< 19, F = E and
      E = P0(TT2). */
  function RoundWith(a: bv32, b: bv32, c: bv32, d: bv32, e: bv32, f: bv32, g: bv32, h: bv32,
                     ss1: bv32, ss2: bv32, ff: bv32, gg: bv32, w: bv32, w1: bv32): State
  {
    State(Tt(ff, d, ss2, w1), a, Rotl(b, 9), c, P0(Tt(gg, h, ss1, w)), e, Rotl(f, 19), g)
  }

  /** Round j on the registers given one by one, with W[j] = w and
      W'[j] = w1. */
  function RoundOf(a: bv32, b: bv32, c: bv32, d: bv32, e: bv32, f: bv32, g: bv32, h: bv32,
                   j: nat, w: bv32, w1: bv32): State
  {
    RoundWith(a, b, c, d, e, f, g, h, SS1(a, e, j), SS2(a, e, j), FF(j, a, b, c), GG(j, e, f, g), w, w1)
  }

  /** Round j. */
  function Round(s: State, j: nat, w: bv32, w1: bv32): State {
    RoundOf(s.a, s.b, s.c, s.d, s.e, s.f, s.g, s.h, j, w, w1)
  }

  /** The inverse round given SS1, SS2, FF and GG of the registers the
      round came from: those are A, C >>> 9, D, F, G >>> 19 and H of the
      new registers. */
  function UnRoundWith(a: bv32, b: bv32, c: bv32, d: bv32, e: bv32, f: bv32, g: bv32, h: bv32,
                       ss1: bv32, ss2: bv32, ff: bv32, gg: bv32, w: bv32, w1: bv32): State
  {
    State(b, Rotr(c, 9), d, UnTt(a, ff, ss2, w1), f, Rotr(g, 19), h, UnTt(P0Inverse(e), gg, ss1, w))
  }

  /** The registers round j came from, recovered from the registers it
      produced. */
  function UnRound(r: State, j: nat, w: bv32, w1: bv32): State {
    UnRoundOf(r.a, r.b, r.c, r.d, r.e, r.f, r.g, r.h, j, w, w1)
  }

  /** UnRound on the registers given one by one. */
  function UnRoundOf(a: bv32, b: bv32, c: bv32, d: bv32, e: bv32, f: bv32, g: bv32, h: bv32,
                     j: nat, w: bv32, w1: bv32): State
  {
    UnRoundWith(a, b, c, d, e, f, g, h, SS1(b, f, j), SS2(b, f, j),
                FF(j, b, Rotr(c, 9), d), GG(j, f, Rotr(g, 19), h), w, w1)
  }

  /** With SS1, SS2, FF and GG held fixed, the inverse undoes the round. */
  lemma UnRoundWithRoundWith(a: bv32, b: bv32, c: bv32, d: bv32, e: bv32, f: bv32, g: bv32, h: bv32,
                             ss1: bv32, ss2: bv32, ff: bv32, gg: bv32, w: bv32, w1: bv32)
    ensures UnRoundWith(Tt(ff, d, ss2, w1), a, Rotl(b, 9), c, P0(Tt(gg, h, ss1, w)), e, Rotl(f, 19), g,
                        ss1, ss2, ff, gg, w, w1) == State(a, b, c, d, e, f, g, h)
  {
    UnTtTt(d, ff, ss2, w1);
    P0Permutes(Tt(gg, h, ss1, w));
    UnTtCongruent(P0Inverse(P0(Tt(gg, h, ss1, w))), Tt(gg, h, ss1, w), gg, ss1, w);
    UnTtTt(h, gg, ss1, w);
    RotrRotl9(b);
    RotrRotl19(f);
  }

  /** With SS1, SS2, FF and GG held fixed, the round undoes the inverse. */
  lemma RoundWithUnRoundWith(a: bv32, b: bv32, c: bv32, d: bv32, e: bv32, f: bv32, g: bv32, h: bv32,
                             ss1: bv32, ss2: bv32, ff: bv32, gg: bv32, w: bv32, w1: bv32)
    ensures RoundWith(b, Rotr(c, 9), d, UnTt(a, ff, ss2, w1), f, Rotr(g, 19), h, UnTt(P0Inverse(e), gg, ss1, w),
                      ss1, ss2, ff, gg, w, w1) == State(a, b, c, d, e, f, g, h)
  {
    TtUnTt(a, ff, ss2, w1);
    TtUnTt(P0Inverse(e), gg, ss1, w);
    P0Permutes(e);
    RotrRotl9(c);
    RotrRotl19(g);
  }

  /** UnRound undoes Round. */
  lemma UnRoundRound(s: State, j: nat, w: bv32, w1: bv32)
    ensures UnRound(Round(s, j, w, w1), j, w, w1) == s
  {
    UnRoundRoundOf(s.a, s.b, s.c, s.d, s.e, s.f, s.g, s.h, j, w, w1);
  }

  lemma UnRoundRoundOf(a: bv32, b: bv32, c: bv32, d: bv32, e: bv32, f: bv32, g: bv32, h: bv32,
                       j: nat, w: bv32, w1: bv32)
    ensures UnRound(RoundOf(a, b, c, d, e, f, g, h, j, w, w1), j, w, w1) == State(a, b, c, d, e, f, g, h)
  {
    RotrRotl9(b);
    RotrRotl19(f);
    UnRoundWithRoundWith(a, b, c, d, e, f, g, h,
      SS1(a, e, j), SS2(a, e, j), FF(j, a, b, c), GG(j, e, f, g), w, w1);
  }

  /** Round undoes UnRound. */
  lemma RoundUnRound(r: State, j: nat, w: bv32, w1: bv32)
    ensures Round(UnRound(r, j, w, w1), j, w, w1) == r
  {
    RoundUnRoundOf(r.a, r.b, r.c, r.d, r.e, r.f, r.g, r.h, j, w, w1);
  }

  lemma RoundUnRoundOf(a: bv32, b: bv32, c: bv32, d: bv32, e: bv32, f: bv32, g: bv32, h: bv32,
                       j: nat, w: bv32, w1: bv32)
    ensures Round(UnRoundOf(a, b, c, d, e, f, g, h, j, w, w1), j, w, w1) == State(a, b, c, d, e, f, g, h)
  {
    RoundWithUnRoundWith(a, b, c, d, e, f, g, h,
      SS1(b, f, j), SS2(b, f, j), FF(j, b, Rotr(c, 9), d), GG(j, f, Rotr(g, 19), h), w, w1);
  }

  /** The registers after the first n rounds with expanded words w and w1. */
  function Rounds(s: State, w: seq<bv32>, w1: seq<bv32>, n: nat): State
    requires |w| == 68 && |w1| == 64 && n <= 64
  {
    if n == 0 then s else Round(Rounds(s, w, w1, n - 1), n - 1, w[n - 1], w1[n - 1])
  }

  /** The rounds undone from the last to the first. */
  function UnRounds(r: State, w: seq<bv32>, w1: seq<bv32>, n: nat): State
    requires |w| == 68 && |w1| == 64 && n <= 64
    decreases n
  {
    if n == 0 then r else UnRounds(UnRound(r, n - 1, w[n - 1], w1[n - 1]), w, w1, n - 1)
  }

  /** The rounds are a bijection for every expansion: undoing them gives
      back the registers they started from. */
  lemma {:induction false} RoundsInvert(s: State, w: seq<bv32>, w1: seq<bv32>, n: nat)
    requires |w| == 68 && |w1| == 64 && n <= 64
    ensures UnRounds(Rounds(s, w, w1, n), w, w1, n) == s
    decreases n
  {
    if n > 0 {
      RoundsInvert(s, w, w1, n - 1);
      UnRoundsStep(Rounds(s, w, w1, n - 1), s, w, w1, n - 1);
    }
  }

  /** One more round, undone first, leaves what the earlier rounds undo. */
  lemma UnRoundsStep(r: State, s: State, w: seq<bv32>, w1: seq<bv32>, k: nat)
    requires |w| == 68 && |w1| == 64 && k < 64
    requires UnRounds(r, w, w1, k) == s
    ensures UnRounds(Round(r, k, w[k], w1[k]), w, w1, k + 1) == s
  {
    UnRoundRound(r, k, w[k], w1[k]);
  }

  /** The sources' round loop: round j with W[j] and W'[j], for j from 0
      to 63. */
  method RoundLoop(v: State, w: seq<bv32>, w1: seq<bv32>) returns (r: State)
    requires |w| == 68 && |w1| == 64
    ensures r == Rounds(v, w, w1, 64)
    ensures UnRounds(r, w, w1, 64) == v
  {
    r := v;
    var i := 0;
    while i < 64
      invariant 0 <= i <= 64
      invariant r == Rounds(v, w, w1, i)
    {
      r := Round(r, i, w[i], w1[i]);
      i := i + 1;
    }
    RoundsInvert(v, w, w1, 64);
  }

  // ---------------------------------------------------------------------
  // The compression and the chaining (sm3.cpp:26-112)

  /** XOR of two words, as a named function so that the proofs below can
      rewrite one register at a time. */
  function Xor32(a: bv32, b: bv32): bv32 { a ^ b }

  /** Register-wise XOR (sm3.cpp:104-111). */
  function Xor(x: State, y: State): State {
    State(Xor32(x.a, y.a), Xor32(x.b, y.b), Xor32(x.c, y.c), Xor32(x.d, y.d),
          Xor32(x.e, y.e), Xor32(x.f, y.f), Xor32(x.g, y.g), Xor32(x.h, y.h))
  }

  lemma Xor32Twice(a: bv32, b: bv32)
    ensures Xor32(Xor32(a, b), b) == a && Xor32(a, b) == Xor32(b, a)
  {
  }

  /** XOR'ing the same registers twice gives the chaining value back, so
      the new chaining value and the rounds' registers determine the old;
      and the XOR does not depend on the order of its operands. */
  lemma XorTwice(x: State, y: State)
    ensures Xor(Xor(x, y), y) == x && Xor(x, y) == Xor(y, x)
  {
    Xor32Twice(x.a, y.a);
    Xor32Twice(x.b, y.b);
    Xor32Twice(x.c, y.c);
    Xor32Twice(x.d, y.d);
    Xor32Twice(x.e, y.e);
    Xor32Twice(x.f, y.f);
    Xor32Twice(x.g, y.g);
    Xor32Twice(x.h, y.h);
  }

  /** The compression of one block given as its sixteen words:
      V xor the registers after the 64 rounds. */
  function CompressWords(v: State, m: seq<bv32>): State
    requires |m| == 16
  {
    var w := Expansion(m);
    Xor(v, Rounds(v, w, Primed(w), 64))
  }

  /** The compression of one 64-byte block, read as big-endian words. */
  function Compress(v: State, block: seq<bv8>): State
    requires |block| == 64
  {
    CompressWords(v, Words(block, true))
  }

  /** The compression function as the block function of the chaining loop. */
  function Compression(): (f: (State, seq<bv8>) --> State)
    ensures Chain.IsCompression(f)
  {
    (v: State, b: seq<bv8>) requires |b| == 64 => Compress(v, b)
  }

  /** One iteration of the sources' block loop: load, expand, run the
      rounds, XOR back. */
  method CompressBlock(v: State, block: seq<bv8>) returns (r: State)
    requires |block| == 64
    ensures r == Compress(v, block)
  {
    var m := LoadWords(block);
    var w := ExpandLoop(m);
    var w1 := PrimeLoop(w);
    var x := RoundLoop(v, w, w1);
    r := Xor(v, x);
  }

  /** The SM3 digest of an already padded message. */
  function Sm3(padded: seq<bv8>): (out: seq<bv8>)
    requires |padded| % 64 == 0
    ensures |out| == 32
  {
    Digest(Chain.Fold(Compression(), Init, padded))
  }

  /** A padded message split into whole blocks: hashing continues from the
      chaining value the first part left. */
  lemma Sm3Chains(p: seq<bv8>, q: seq<bv8>)
    requires |p| % 64 == 0 && |q| % 64 == 0
    ensures Sm3(p + q) == Digest(Chain.Fold(Compression(), Chain.Fold(Compression(), Init, p), q))
  {
    Chain.FoldAppend(Compression(), Init, p, q);
  }

  /** sm3 after padding: run the block loop, write the digest. */
  method Sm3Hash(padded: seq<bv8>) returns (output: seq<bv8>)
    requires |padded| % 64 == 0
    ensures |output| == 32
    ensures output == Sm3(padded)
    ensures DigestState(output) == Chain.Fold(Compression(), Init, padded)
  {
    var v := Chain.FoldLoop(Compression(), Init, padded);
    output := Digest(v);
    DigestRoundTrip(v, output);
  }
}

=== FILE: util.dfy ===
/** parse_hex and parse_hex_new (util.cpp:3-19): base16 decoding as in
    section 8 of RFC 4648, two characters per byte, either letter case.

    Each pair goes through std::stoi in base 16, whose int result is stored
    in a byte; bytes are therefore integers in 0..255 here. A pair of hex
    digits yields its value; any other pair is reported as an error. */
module Util {

  datatype Option<T> = None | Some(value: T)

  type Byte = x: int | 0 <= x < 256

  predicate IsHexDigit(c: char) {
    ('0' <= c <= '9') || ('a' <= c <= 'f') || ('A' <= c <= 'F')
  }

  /** The value of one hex digit. */
  function DigitValue(c: char): (v: nat)
    requires IsHexDigit(c)
    ensures v < 16
  {
    if '0' <= c <= '9' then c as nat - '0' as nat
    else if 'a' <= c <= 'f' then c as nat - 'a' as nat + 10
    else c as nat - 'A' as nat + 10
  }

  /** The lower-case digit for a value below 16: the reference encoding. */
  function DigitChar(v: nat): (c: char)
    requires v < 16
    ensures IsHexDigit(c) && DigitValue(c) == v
    ensures !('A' <= c <= 'F')
  {
    if v < 10 then ('0' as nat + v) as char else ('a' as nat + v - 10) as char
  }

  /** stoi(pair, 0, 16) for a pair of hex digits. */
  function PairValue(hi: char, lo: char): (b: Byte)
    requires IsHexDigit(hi) && IsHexDigit(lo)
  {
    16 * DigitValue(hi) + DigitValue(lo)
  }

  /** Every character of s is a hex digit. */
  predicate AllHex(s: string) {
    forall k :: 0 <= k < |s| ==> IsHexDigit(s[k])
  }

  /** A string is all hex digits iff its first pair and the rest are. */
  lemma AllHexPair(s: string)
    requires |s| >= 2
    ensures AllHex(s) <==> IsHexDigit(s[0]) && IsHexDigit(s[1]) && AllHex(s[2..])
  {
    if IsHexDigit(s[0]) && IsHexDigit(s[1]) && AllHex(s[2..]) {
      forall k | 2 <= k < |s| ensures IsHexDigit(s[k]) {
        assert s[k] == s[2..][k - 2];
      }
    }
  }

  /** parse_hex_new: one byte per pair of characters, in order; None when
      some pair is not two hex digits. */
  function ParseHexNew(input: string): (output: Option<seq<Byte>>)
    requires |input| % 2 == 0
    ensures output.Some? <==> AllHex(input)
    ensures output.Some? ==> |output.value| == |input| / 2
    decreases |input|
  {
    if |input| == 0 then Some([])
    else
      AllHexPair(input);
      if IsHexDigit(input[0]) && IsHexDigit(input[1]) then
        match ParseHexNew(input[2..])
        case Some(rest) => Some([PairValue(input[0], input[1])] + rest)
        case None => None
      else None
  }

  /** Byte i of the result is the value of characters 2i and 2i+1. */
  lemma {:induction false} ParseHexNewAt(input: string, i: nat)
    requires |input| % 2 == 0 && AllHex(input) && i < |input| / 2
    ensures ParseHexNew(input).value[i] == 16 * DigitValue(input[2 * i]) + DigitValue(input[2 * i + 1])
    decreases i
  {
    AllHexPair(input);
    if i > 0 {
      var rest := input[2..];
      ParseHexNewAt(rest, i - 1);
      assert rest[2 * (i - 1)] == input[2 * i] && rest[2 * (i - 1) + 1] == input[2 * i + 1];
    }
  }

  /** The bytes are determined by their positions: two results that agree
      byte by byte are equal. */
  lemma ParseHexNewBytes(input: string, bytes: seq<Byte>)
    requires |input| % 2 == 0 && AllHex(input) && |bytes| == |input| / 2
    requires forall k :: 0 <= k < |bytes| ==> bytes[k] == 16 * DigitValue(input[2 * k]) + DigitValue(input[2 * k + 1])
    ensures ParseHexNew(input) == Some(bytes)
  {
    var r := ParseHexNew(input).value;
    forall k | 0 <= k < |bytes| ensures r[k] == bytes[k] {
      ParseHexNewAt(input, k);
    }
    assert r == bytes;
  }

  /** parse_hex: the same loop, filling a buffer of |input| / 2 bytes. */
  method ParseHex(input: string) returns (output: Option<seq<Byte>>)
    requires |input| % 2 == 0
    ensures output == ParseHexNew(input)
  {
    var buffer := new Byte[|input| / 2];
    var i := 0;
    while i < |input|
      invariant 0 <= i <= |input| && i % 2 == 0
      invariant forall k :: 0 <= k < i ==> IsHexDigit(input[k])
      invariant forall k :: 0 <= k < i / 2 ==>
                  buffer[k] == 16 * DigitValue(input[2 * k]) + DigitValue(input[2 * k + 1])
    {
      if !(IsHexDigit(input[i]) && IsHexDigit(input[i + 1])) {
        return None;
      }
      buffer[i / 2] := PairValue(input[i], input[i + 1]);
      i := i + 2;
    }
    output := Some(buffer[..]);
    ParseHexNewBytes(input, buffer[..]);
  }

  /** The reference encoder: two lower-case hex digits per byte. */
  function ToHex(bytes: seq<Byte>): (s: string)
    ensures |s| == 2 * |bytes|
  {
    if |bytes| == 0 then []
    else [DigitChar(bytes[0] / 16), DigitChar(bytes[0] % 16)] + ToHex(bytes[1..])
  }

  /** Characters 2i and 2i+1 of the encoding are the digits of byte i. */
  lemma {:induction false} ToHexAt(bytes: seq<Byte>, i: nat)
    requires i < |bytes|
    ensures ToHex(bytes)[2 * i] == DigitChar(bytes[i] / 16)
    ensures ToHex(bytes)[2 * i + 1] == DigitChar(bytes[i] % 16)
    decreases i
  {
    if i > 0 {
      ToHexAt(bytes[1..], i - 1);
    }
  }

  /** Decoding an encoding gives back the bytes. */
  lemma ParseToHex(bytes: seq<Byte>)
    ensures ParseHexNew(ToHex(bytes)) == Some(bytes)
  {
    var s := ToHex(bytes);
    forall k | 0 <= k < |s| ensures IsHexDigit(s[k]) {
      ToHexAt(bytes, k / 2);
    }
    forall k | 0 <= k < |bytes| ensures bytes[k] == 16 * DigitValue(s[2 * k]) + DigitValue(s[2 * k + 1]) {
      ToHexAt(bytes, k);
    }
    ParseHexNewBytes(s, bytes);
  }

  /** Lower-case form of a hex digit. */
  function LowerDigit(c: char): char {
    if 'A' <= c <= 'F' then (c as nat - 'A' as nat + 'a' as nat) as char else c
  }

  /** The digit of a value is the lower-case form of any digit with that
      value. */
  lemma DigitCharValue(c: char)
    requires IsHexDigit(c)
    ensures DigitChar(DigitValue(c)) == LowerDigit(c)
  {
  }

  /** The two digits of a byte value. */
  lemma DivMod16(hi: nat, lo: nat)
    requires lo < 16
    ensures (16 * hi + lo) / 16 == hi && (16 * hi + lo) % 16 == lo
  {
  }

  /** Characters 2i and 2i+1 of the re-encoding are the lower-case forms
      of input characters 2i and 2i+1. */
  lemma ToHexParsePair(input: string, i: nat)
    requires |input| % 2 == 0 && AllHex(input) && i < |input| / 2
    ensures ToHex(ParseHexNew(input).value)[2 * i] == LowerDigit(input[2 * i])
    ensures ToHex(ParseHexNew(input).value)[2 * i + 1] == LowerDigit(input[2 * i + 1])
  {
    var bytes := ParseHexNew(input).value;
    var hi, lo := DigitValue(input[2 * i]), DigitValue(input[2 * i + 1]);
    ParseHexNewAt(input, i);
    assert bytes[i] == 16 * hi + lo;
    DivMod16(hi, lo);
    assert bytes[i] / 16 == hi && bytes[i] % 16 == lo;
    ToHexAt(bytes, i);
    assert ToHex(bytes)[2 * i] == DigitChar(hi);
    assert ToHex(bytes)[2 * i + 1] == DigitChar(lo);
    DigitCharValue(input[2 * i]);
    DigitCharValue(input[2 * i + 1]);
  }

  /** Encoding a decoding gives back the input with its letters lower-cased:
      upper- and lower-case digits decode alike. */
  lemma ToHexParse(input: string)
    requires |input| % 2 == 0 && AllHex(input)
    ensures ParseHexNew(input).Some?
    ensures ToHex(ParseHexNew(input).value) == seq(|input|, k requires 0 <= k < |input| => LowerDigit(input[k]))
  {
    var s := ToHex(ParseHexNew(input).value);
    var lower := seq(|input|, k requires 0 <= k < |input| => LowerDigit(input[k]));
    forall k | 0 <= k < |input| ensures s[k] == lower[k] {
      ToHexParsePair(input, k / 2);
      assert k == 2 * (k / 2) || k == 2 * (k / 2) + 1;
    }
    assert s == lower;
  }
}

=== FILE: words8.dfy ===
/** Eight 32-bit words: the chaining value and working registers of
    SHA-256 (sha2.cpp:25-26, 61-68) and SM3 (sm3.cpp:19-20, 58-65), the
    big-endian loading of a 64-byte block into sixteen words (sha2.cpp:45-50,
    sm3.cpp:32-37) and the 32-byte big-endian digest (sha2.cpp:101-106,
    sm3.cpp:114-119). */
module Words8 {
  import opened Bits

  /** Eight words a..h. */
  datatype State = State(a: bv32, b: bv32, c: bv32, d: bv32, e: bv32, f: bv32, g: bv32, h: bv32)

  /** The sources' loading loop: word i of the block from bytes 4i..4i+3,
      most significant first. */
  method LoadWords(block: seq<bv8>) returns (m: seq<bv32>)
    requires |block| == 64
    ensures |m| == 16
    ensures forall i :: 0 <= i < 16 ==> m[i] == Be32(block[4 * i .. 4 * i + 4])
    ensures m == Words(block, true)
  {
    m := [];
    var i := 0;
    while i < 16
      invariant 0 <= i <= 16 && |m| == i
      invariant forall j :: 0 <= j < i ==> m[j] == Be32(block[4 * j .. 4 * j + 4])
    {
      m := m + [Be32(block[4 * i .. 4 * i + 4])];
      i := i + 1;
    }
    var ws := Words(block, true);
    forall j | 0 <= j < 16
      ensures m[j] == ws[j]
    {
      WordsAt(block, true, j);
    }
  }

  /** The eight words, each written big-endian. */
  function Digest(hv: State): (out: seq<bv8>)
    ensures |out| == 32
  {
    Bytes([hv.a, hv.b, hv.c, hv.d, hv.e, hv.f, hv.g, hv.h], true)
  }

  /** The eight words a 32-byte digest holds. */
  function DigestState(out: seq<bv8>): State
    requires |out| == 32
  {
    var ws := Words(out, true);
    State(ws[0], ws[1], ws[2], ws[3], ws[4], ws[5], ws[6], ws[7])
  }

  /** The digest determines the eight words and the other way round. */
  lemma DigestRoundTrip(hv: State, out: seq<bv8>)
    requires |out| == 32
    ensures DigestState(Digest(hv)) == hv
    ensures Digest(DigestState(out)) == out
  {
    WordsOfBytes([hv.a, hv.b, hv.c, hv.d, hv.e, hv.f, hv.g, hv.h], true);
    var ws := Words(out, true);
    assert ws == [ws[0], ws[1], ws[2], ws[3], ws[4], ws[5], ws[6], ws[7]];
    BytesOfWords(out, true);
  }

  /** Byte j of word i of the digest is the word shifted right by
      8 * (3 - j), as the sources' output loop writes it. */
  lemma DigestBytes(hv: State, i: nat, j: nat)
    requires i < 8 && j < 4
    ensures Digest(hv)[4 * i + j] == ByteOf([hv.a, hv.b, hv.c, hv.d, hv.e, hv.f, hv.g, hv.h][i], 3 - j)
  {
    var ws := [hv.a, hv.b, hv.c, hv.d, hv.e, hv.f, hv.g, hv.h];
    BytesAt(ws, i, j);
  }

  /** Word i of a big-endian byte string occupies bytes 4i to 4i + 3, most
      significant first. */
  lemma {:induction false} BytesAt(ws: seq<bv32>, i: nat, j: nat)
    requires i < |ws| && j < 4
    ensures Bytes(ws, true)[4 * i + j] == ByteOf(ws[i], 3 - j)
    decreases i
  {
    if i > 0 {
      BytesAt(ws[1..], i - 1, j);
      assert Bytes(ws, true) == WordBytes(ws[0], true) + Bytes(ws[1..], true);
    }
  }
}
